=== FILE: README.md ===
# goschedule in Dafny

A model of the core of goschedule, a scraper and web frontend for the
University of Washington time schedule. The program fetches the time
schedule pages, extracts colleges, departments, classes and sections
from their HTML, stores them in PostgreSQL, and serves a search and
browse frontend over what it stored.

The model covers:

- **The extractors, in four revisions.** `extract.go` is the oldest
  (`OldExtract`). `lib/extract.go` is the newest (`LibExtract`).
  `crawler/extract` and `scraper/extract` differ only in the meeting-time
  pattern, so `QueueExtract` models both, with the revision as a
  parameter. Shared pieces have their own modules: the section and class
  chunks (`SectionChunk`, `ClassChunks`), the fixed columns of a section
  line (`Columns`), the continuation lines of a section (`Continuation`),
  the meeting-time patterns (`MeetingPatterns`), the department anchors
  (`DeptAnchors`), the lazy regular-expression groups (`Groups`) and the
  UTF-8 filter of `lib/filter.go` (`Utf8Filter`).
- **The records.** The entity types of `datatypes.go` and the scraper's
  models are in `Entities` and `Models`: days, restrictions, grades and
  the "other" column.
- **The SQL builders.** `GenerateSchema` and the insert statement of
  `lib/database.go` are in `Schema`. The reflective insert of the
  crawler is in `Reflection`. The schema-file splitter `ParseSqlFile` is
  in `SqlFile`.
- **The drivers, as traces.** A driver run is a trace of page requests,
  inserts and log lines, over ports that stand for the network, the
  database and the regular-expression chunkers (`Traces`).
  - `Scraping` covers `scraper/scraper.go` and `crawler/crawler.go`.
  - `Backend` covers `goschedule/backend/backend.go`.
  - `Setup` covers the `setup` and `scrape` commands of
    `goschedule/main.go`.
- **The double-buffer switch** (`Switch`). Each schedule has two
  application databases and a switch database. A scrape pass rebuilds
  the database the switch names and then flips the switch, while the
  frontend reads the other database.
- **The frontend.** This covers the router and its routing table
  (`Frontend`), the route patterns (`Routing`, and the older
  `WebRouting`), the bolding of matching search terms (`Bold`), and the
  two PL/Python scoring functions the search orders by (`Search`).

Strings are sequences of characters. Outside `Utf8Filter` a character
stands for one byte: the time schedule's pages are ASCII, so Go's byte
offsets and slices are the model's indices. `Utf8Filter` works on runes
instead, because `filterUtf8` converts its input with `[]rune(in)`; the
model starts from that rune sequence. The same byte reading is applied
to the two user inputs of the frontend: the search terms that `Bold`
bolds (goschedule/frontend/frontend.go:94) and the URL path the router
lower-cases (frontend.go:78). Go's `strings.ToLower` can change the byte
length of a non-ASCII character, such as 'İ' lowering to 'i'; the model
assumes both inputs are ASCII.

Go panics are modelled in one of two ways. A panic that hinges on a
simple condition of the input is a `requires`; the README row says so.
A panic that depends on control flow is a `Panic` outcome in the `Go`
datatype of `Outcomes`. The drivers call the extractors on pages they
fetch, so there an extractor's panic is an outcome too: a section chunk
too short for the columns sliced, or a section with no class to key it
to, ends the driver's run with that panic, since nothing recovers.

The network, the database, regular-expression chunking, `html.UnescapeString`
and `json.Marshal` are parameters of the functions that use them, except
in `OldExtract`. Its three extractors first pass the page through
`filterUtf8(content, "?")` and then `html.UnescapeString`
(extract.go:111-112, 181-182, 222-223). Their anchor and chunk inputs
therefore stand for those found in the page after `Utf8Filter.Filter` and
unescaping, and the unescaping itself is not modelled.

The comment above lib/database.go's `Insert` (lib/database.go:141-142)
says that unexported fields are still added to the query. In Go, reading
such a field's value through `reflect.Value.Interface` panics. The model
follows the code: `Schema.InsertStatement` and `Schema.ColumnStep` panic
on such a field unless it is ignored.

`extract_test.go:24,48,71` call the extractors with signatures that differ
from the code shown; the model follows the code.

## Model

| member | source | states |
|---|---|---|
| Utf8Filter.FilterUtf8 | lib/filter.go:16-25 | every rune other than U+FFFD is kept and every U+FFFD becomes the replacement; with a one-rune replacement the output is the input position by position; text without U+FFFD comes back unchanged; nothing outside the input and the replacement appears |
| Utf8Filter.Filter | lib/filter.go:10-12 | the "?" filter runs before HTML unescaping, so text without U+FFFD is only unescaped |
| Utf8Filter.FilterAppend | extract.go:18-27 | the filter works rune by rune: the filter of a concatenation is the concatenation of the filters |
| Utf8Filter.FilterIdempotent | lib/filter.go:16-25 | filtering with "?" a second time changes nothing |
| Utf8Filter.FilterPrefix | lib/filter.go:17-23 | the image of rune i follows the images of the runes before it, in order |
| Groups.FindAll | lib/regexp.go:10 | every match found opens with the group's opening character, closes with its closing one, and has at least the pattern's minimum inner length |
| Groups.LastMatch | crawler/extract/extract.go:230-241 | `findRegexp(b, r, false)`: a last match exists exactly when any match does, and it is a whole group |
| Groups.RemoveAll | crawler/extract/extract.go:199-205 | cutting every match out never lengthens the text |
| Groups.ParenAnyMatches | lib/regexp.go:10 | `(?is)\(.*?\)` finds a group exactly when an opening parenthesis has a closing one somewhere after it |
| Groups.RemoveParenAnyLeavesNone | lib/extract.go:121 | once parenthesesRe's groups are cut out no group is left, and no closing parenthesis appears that the text lacked |
| Groups.RemoveParenAnyIdempotent | lib/extract.go:121 | cutting the groups out a second time changes nothing |
| MeetingPatterns.MatchLength | lib/regexp.go:20 | a line either meeting-time pattern matches has at least seven characters |
| MeetingPatterns.WordRangeImpliesDigits | scraper/extract/regexp.go:16 | a line `\w{1,5}\s*\d{3,4}-\d{3,4}` matches is also matched by the crawler's `\d{3,4}.\d{3,4}` |
| MeetingPatterns.DigitsWithoutDash | crawler/config/config.go:17 | the converse fails: "1234567" matches the crawler's pattern and not the later one |
| MeetingPatterns.BareRangeDoesNotMatch | scraper/extract/regexp.go:16 | a range needs a word character in front: "930-1020" does not match, "M 930-1020" does |
| Outcomes.PresentAppend | lib/extract.go:100-140 | skipping the nil results of a loop works piecewise over a concatenation |
| Columns.Cell | lib/extract.go:211-224 | a trimmed cell is no wider than its column |
| Columns.CheckMeetingTime | lib/extract.go:259-269 | a meeting time exactly when the pattern occurs, its four cells no wider than columns 24-31, 31-42, 42-47 and 47-56 |
| Columns.DecodeRow | scraper/extract/extract.go:119-132 | the first-line cells, each bounded by its column width, read from a line of at least 115 characters |
| Columns.Layout | lib/extract.go:211-224 | printing the first k cells padded to their widths reaches exactly column k's stop |
| Columns.TrimPadded | lib/extract.go:211 | blank padding is what TrimSpace takes off again |
| Columns.LayoutSlice | lib/extract.go:211-224 | in a printed line, cell j sits between stops j and j + 1 |
| Columns.PrintLine | lib/extract.go:211-224 | a printed first line is 115 characters plus the "other" field |
| Columns.DecodePrintedCell | lib/extract.go:211-223 | decoding undoes printing: each trimmed cell comes back from its column |
| Columns.DecodePrintedOther | lib/extract.go:224 | a trimmed "other" field comes back from column 115 on |
| Columns.DecodePrintedRow | scraper/extract/extract.go:119-132 | decoding a printed first line gives back the whole row of cells |
| Columns.SeatsIfTwo | lib/extract.go:217-221 | fewer than two digit runs leave both seat counts 0; otherwise taken and total are the first two runs read as decimals |
| Columns.SeatsFitInt64 | lib/extract.go:219-220 | the 12-character spots cell cannot overflow `ParseInt`'s 64 bits |
| Columns.SeatsIfAny | crawler/extract/extract.go:140-144 | read only where Go does not panic (not exactly one digit run), the later revisions agree with the lib revision |
| Columns.OneNumberOneRun | scraper/extract/extract.go:125-129 | a spots cell holding one number has exactly one digit run, where the later revisions index `m[1]` out of range and the lib revision yields 0 and 0 |
| Columns.SeatsOfPrinted | lib/extract.go:217-221 | seats printed as taken, a digit-free separator, total read back as the two numbers |
| Continuation.Classify | lib/extract.go:227-235 | a line is a meeting time exactly when the pattern occurs, blank exactly when it does not and the line is all white space, and text otherwise, trimmed |
| Continuation.Scan | lib/extract.go:226-236 | the loop only appends: earlier meeting times and Info text are kept as a prefix, with at most one meeting time per line |
| Continuation.ScanAppend | lib/extract.go:227-236 | scanning a + b is scanning a, then b |
| Continuation.ScanTimes | lib/extract.go:227-232 | the loop collects exactly the meeting-time lines, in line order |
| Continuation.ScanInfo | lib/extract.go:231-235 | Info is exactly the text lines, trimmed and newline-terminated, in order; blank lines leave no trace |
| Continuation.SplitTerminated | lib/extract.go:234 | newline-terminated texts without newlines split back into those texts |
| Continuation.InfoRecoversTexts | crawler/extract/extract.go:149-159 | the Info built from newline-free lines splits back into exactly their text lines |
| SectionChunk.Lines | lib/extract.go:203-204 | a tag-stripped chunk has at least one line |
| SectionChunk.FirstTimes | lib/extract.go:207-209 | the first line contributes one meeting time exactly when the pattern matches it |
| SectionChunk.Decode | lib/extract.go:200-236 | the meeting times are the first line's, if any, then the later meeting-time lines in order; Info is the later text lines |
| SectionChunk.DecodeInfoSplits | lib/extract.go:226-236 | a chunk's Info splits back into its text lines |
| SectionChunk.DecodePrintedChunk | scraper/extract/extract.go:104-132 | a one-line chunk printed from trimmed cells, without tags or newlines, decodes to those cells and an empty Info |
| DeptAnchors.ValidateDept | lib/extract.go:149-160 | valid exactly when the href is non-empty, does not start with '#', and the text has an opening parenthesis before a closing one |
| DeptAnchors.Stem | lib/extract.go:123-129 | the href up to its first dot, a dot-free prefix of it; split always gives a piece, so the error branch is dead |
| DeptAnchors.DeptName | lib/extract.go:121 | the name cut of parenthesised groups and trimmed holds no group |
| DeptAnchors.ErrorText | lib/extract.go:32-38 | the joined error text is empty exactly when there are no errors |
| DeptAnchors.ErrorTextAppend | lib/extract.go:34-36 | messages print in order: the text of a + b is that of a, then that of b |
| DeptAnchors.CountUndecodableZero | lib/extract.go:107-110 | no anchor fails to decode exactly when none was reported |
| LibExtract.FoldDepts | lib/extract.go:100-140 | the loop only appends; each department it adds has a stem new to the map, no two new stems are equal, the map grows by exactly them, each new department carries the college key, an empty Abbreviation, a group-free name and a link under the base URL, and one message is added per undecodable anchor |
| LibExtract.ExtractDepts | lib/extract.go:97-146 | the error is nil exactly when every anchor decoded; the caller's map only grows; every department has the college key and a name without parenthesised groups |
| LibExtract.DeptStemsUnique | lib/extract.go:130-135 | the stems of the returned departments were not in the map, are pairwise different, and are exactly what the map gains, so a stem is returned once across calls that share the map |
| LibExtract.FoldDeptsAppend | lib/extract.go:100 | the anchors are handled in order with the map threaded through: the loop over a + b is the loop over a, then over b |
| LibExtract.OneAnchor | lib/extract.go:111-139 | one trimmed, valid anchor with a new stem gives exactly one department with Link = url + href and its cleaned name, no error, and its stem added to the map |
| LibExtract.DeptLinkStems | lib/extract.go:119-135 | every returned link sits under the base URL, the stems read back from the links are new to the map and pairwise different, and the map grows by exactly them |
| LibExtract.ClassOf | lib/extract.go:168-179 | a class keyed by its department, with AbbreviationCode = Abbreviation + Code, a lower-case letter abbreviation, a digit code and a title without capitals |
| LibExtract.ExtractClasses | lib/extract.go:164-193 | one class per chunk in order, each as ClassOf builds it; class i starts at chunk i and ends where class i + 1 starts; the last ends at the end of the page |
| LibExtract.ClassRangesDisjoint | lib/extract.go:184-191 | for chunks in page order every class range is non-empty and the ranges are pairwise disjoint, in page order |
| LibExtract.ClassRangesCover | lib/extract.go:184-191 | every offset from the first chunk to the end of the page lies in some class's range |
| LibExtract.StoredTimes | lib/extract.go:238-244 | the stored meeting times are the JSON text, or "error" when encoding fails |
| LibExtract.LowerSln | lib/extract.go:212 | the SLN cell lower-cased keeps its length and has no capitals |
| LibExtract.SectOf | lib/extract.go:200-246 | a section keyed by its class, with a lower-case SLN, and "error" for meeting times that do not encode |
| LibExtract.ExtractSects | lib/extract.go:197-253 | exactly one section per chunk, in chunk order, each keyed by the class; the error is nil exactly when every chunk's meeting times encode; it requires every chunk's first line to reach column 115 and every meeting-time line column 56, the slices below which Go panics |
| OldExtract.FoldDepts | extract.go:116-156 | the loop only appends; each new department's Abbreviation is its stem, new to the map, dot-free and distinct from the others added; the map grows by exactly those abbreviations; one message per reported anchor |
| OldExtract.ExtractDepts | extract.go:110-162 | the error is nil exactly when every anchor decodes and each valid anchor's stem is new both to the map and to the valid anchors before it; the departments are those of such fresh valid anchors, in anchor order, each with the college key, its cleaned name, its stem and the joined link; their abbreviations are new to the map and pairwise different; the map grows by exactly the stems of the valid anchors |
| OldExtract.FoldPrefix | extract.go:116-160 | after any prefix of the anchors, the loop's departments, error list and map are those the reference definitions give for that prefix |
| OldExtract.DeptSample | extract_test.go:36-45 | no anchors give no department and no error; the four-anchor sample gives two departments, "cse" and "math", and no error |
| OldExtract.TwoOfFour | extract_test.go:40-44 | any four anchors shaped like the sample (valid, invalid, valid with another stem, invalid) give exactly the two valid ones, in order, without error |
| OldExtract.ValidateSample | extract_test.go:64-67 | the four validateDept cases this revision's signature supports come out as the test expects |
| OldExtract.ExtractClasses | extract.go:180-217 | one class per chunk, built as lib/extract.go builds it, but every position stays zero because the loop writes into a copy |
| OldExtract.ClassPositionsLost | extract.go:208-215 | in a page with a class chunk the first class comes back with an empty range at 0, where the corrected extractor gives it a non-empty range |
| OldExtract.ExtractSects | extract.go:221-255 | every chunk's first line must still reach column 115, yet the result is always empty because nothing is appended |
| OldExtract.SectionsLost | extract.go:227-253 | on any non-empty chunk list this revision returns fewer sections than the corrected extractor |
| QueueExtract.LinkFragment | crawler/extract/extract.go:42-44 | the link fragment, with quotes and "href=" cut out, holds no quote; a missing match reads as "" |
| QueueExtract.Abbreviation | crawler/extract/extract.go:51-54 | the stored abbreviation has no parenthesis, no blank and no lower-case letter |
| QueueExtract.DeptOf | crawler/extract/extract.go:39-60 | a chunk is skipped exactly when its tag-free, entity-decoded text has no `(?i)\(.+?\)` group; otherwise the abbreviation comes from the last group and is clean, the title is trimmed, and the link is the root index followed by a quote-free fragment |
| QueueExtract.ExtractDepts | scraper/extract/extract.go:24-52 | at most one department per chunk, one for every chunk exactly when every chunk has a group, each with a clean abbreviation and a link under the root index |
| QueueExtract.ExtractDeptsAppend | scraper/extract/extract.go:28-50 | chunks are handled one after the other: extracting from a + b is extracting from a, then from b |
| QueueExtract.EntityOrder | scraper/extract/extract.go:35-37 | "&amp;" is decoded after "&nbsp;", so "&amp;nbsp;" becomes the literal text "&nbsp;", not a blank |
| QueueExtract.NoNbsp | crawler/extract/extract.go:47 | "&amp;nbsp;" holds no "&nbsp;" for the first replacement to change |
| QueueExtract.AmpFirst | crawler/extract/extract.go:48 | the second replacement turns "&amp;nbsp;" into "&nbsp;" |
| QueueExtract.FullTitle | crawler/extract/extract.go:46-48 | cutting tags and decoding "&nbsp;" and "&amp;" never makes the title longer than its chunk |
| QueueExtract.ClassOf | scraper/extract/extract.go:66-84 | a class keyed by the parent's key, with AbbreviationCode = abbreviation + code as its key, a lower-case letter abbreviation, a digit code and Index = the chunk's offset |
| QueueExtract.ExtractClasses | crawler/extract/extract.go:73-100 | one class per chunk, in chunk order |
| QueueExtract.ClassIndicesIncrease | scraper/extract/extract.go:82-86 | for chunks in page order the class indices strictly increase |
| QueueExtract.TitleKeepsCase | crawler/extract/extract.go:90-91 | a tag-free title comes out unchanged, capitals included, unlike lib/extract.go |
| QueueExtract.Pop | crawler/extract/extract.go:121-123 | the queue head moves by at most one and stays inside the class list |
| QueueExtract.Heads | scraper/extract/extract.go:102-109 | one assigned class per section, never before the starting head |
| QueueExtract.HeadsChain | crawler/extract/extract.go:117-124 | each section's class is one queue step from the previous section's |
| QueueExtract.HeadsQueue | scraper/extract/extract.go:106-108 | before each section the queue pops at most once, exactly when a second class remains and starts before the section, and it never moves back |
| QueueExtract.Assigned | crawler/extract/extract.go:124 | one class per section, each inside the class list; a page with sections needs a class |
| QueueExtract.HeadsStartBefore | scraper/extract/extract.go:106-109 | with sections in page order, a section's class starts before it unless it is the first class |
| QueueExtract.SectOf | scraper/extract/extract.go:103-152 | a section is dropped exactly when its meeting times fail to encode; otherwise it carries the class key, and its seats agree with the lib revision's reading |
| QueueExtract.SectsOf | crawler/extract/extract.go:117-168 | one optional section per chunk, present exactly when its meeting times encode |
| QueueExtract.KeyTo | crawler/extract/extract.go:124 | keying keeps which sections are present and changes only their class key |
| QueueExtract.KeyedPresent | crawler/extract/extract.go:124-167 | after keying and dropping, every section carries one of the keys, and with none dropped section i carries key i |
| QueueExtract.Assemble | scraper/extract/extract.go:109-152 | all sections are kept exactly when none is missing, each carries the key of some class, and with none missing section i carries its assigned class's key |
| QueueExtract.ExtractSects | scraper/extract/extract.go:95-155 | at most one section per chunk, one for every chunk exactly when every chunk's meeting times encode, each keyed to one of the classes; chunks must be long enough and must not hold exactly one seat number, as Go panics there |
| QueueExtract.SectsFollowQueue | crawler/extract/extract.go:117-124 | when every section encodes, section i is keyed to the class at the queue head after step i |
| QueueExtract.PopWhile | scraper/extract/extract.go:106-108 | the corrected step drops every head whose successor starts before the section, and stops at one whose successor does not |
| QueueExtract.LatestHeads | scraper/extract/extract.go:102-109 | the corrected assignment gives one class per section, never before the starting head |
| QueueExtract.LatestChain | scraper/extract/extract.go:106-108 | each section's corrected class is the popping loop run from the previous section's class |
| QueueExtract.LatestHeadsBefore | scraper/extract/extract.go:106-109 | with sections in page order the corrected class starts before its section, unless it is the first class |
| QueueExtract.LatestHeadsContain | scraper/extract/extract.go:106-109 | with classes and sections in page order the corrected class is the last class starting before the section: no later class does |
| QueueExtract.LatestAssigned | scraper/extract/extract.go:109 | one corrected class per section, each inside the class list |
| QueueExtract.PopOnceLags | crawler/extract/extract.go:121-123 | classes at 0, 10 and 20 and one section at 30: as written the section gets the class at 10, corrected the class at 20 |
| QueueExtract.ExtractSectsLatest | scraper/extract/extract.go:95-155 | the corrected extractor keeps the same count and keying guarantees as the original |
| QueueExtract.LatestKeysHold | scraper/extract/extract.go:109 | with every section present and the page in order, the corrected loop keys each section to the class holding it |
| QueueExtract.LatestSectsContained | scraper/extract/extract.go:106-109 | in a page in order where every section encodes, the corrected extractor keys each section to the class whose part of the page holds it |
| QueueExtract.PrintedSection | scraper/extract/extract.go:119-132 | a printed one-line section comes back with its cells unchanged, the SLN keeping its case, and with no digits in the spots cell it is not open |
| Models.Flags | scraper/database/models.go:132-143 | one flag per token, in token order, set exactly when the text contains the token |
| Models.GetRestriction | scraper/database/models.go:132-143 | exactly the three flags "Restr", "IS" and ">", in that order, each set exactly when the restriction column contains it |
| Models.GetGradesTokens | scraper/database/models.go:145-156 | a single "CR/NC" flag, set exactly when the credit column contains it |
| Models.GradesColumnIgnored | scraper/database/models.go:149 | the grades column plays no part in the "CR/NC" flag |
| Models.GetOtherTokens | scraper/database/models.go:158-169 | eight one-character flags in the order D, H, J, R, S, W, %, #, each set exactly when its character appears in the other column |
| Models.MarkDays | scraper/database/models.go:185-190 | every key recorded is one of the tokens tried and maps to true |
| Models.MapDays | scraper/database/models.go:181-192 | the keys are among m, w, f, th, t and every value is true |
| Models.MondayWednesdayFriday | scraper/database/models.go:182-190 | m, w and f are recorded exactly when their letter appears in the days column, in either case |
| Models.MarkHead | scraper/database/models.go:186-187 | the first token tried is recorded exactly when it occurs |
| Models.MarkOther | scraper/database/models.go:185-189 | any later token is recorded exactly when it is recorded from the days left after the first token is cut out |
| Models.CutOther | scraper/database/models.go:188 | cutting one letter out keeps the presence of every other letter |
| Models.ThursdayAlone | scraper/database/models.go:184-190 | "Th" is Thursday alone, because "th" is tried and cut out before "t" |
| Models.TuesdayThursday | scraper/database/models.go:184-190 | "TTh" is Tuesday and Thursday |
| Reflection.PrepareInsert | crawler/database/database_reflection.go:70-77 | the arguments are every field value, in declaration order, one per placeholder; reading the values panics, with reflection's unexported-field message, exactly when some field is not exported |
| Reflection.LoopIsJoin | crawler/database/database_reflection.go:60-66 | the loop writes the placeholders numbered from i + 1, comma-separated, with one closing parenthesis after the last |
| Reflection.InsertStringShape | crawler/database/database_reflection.go:57-68 | for n >= 1 fields the statement is "INSERT INTO <table> VALUES ($1,…,$n)"; with no field the list is opened and never closed |
| Reflection.SameAsLibInsert | crawler/database/database_reflection.go:57-77 | for a struct with fields and none ignored, the crawler's insert panics exactly when lib/database.go's `Insert` does; otherwise the crawler's arguments equal those of lib/database.go's `Insert`; both statements are "INSERT INTO <name> VALUES ($1,…,$n)", the crawler's with its table name and lib's with the type name, so they are equal exactly when those names are |
| Reflection.TableName | scraper/database/models.go:42-44 | each model names a table ("depts", "classes", "sects"), never the empty name |
| Reflection.TablesAreNotTypeNames | scraper/database/models.go:99-101 | no model's table name is lib's type name for the same entity, so no record gets the same statement through both layers |
| Reflection.KeptAll | lib/database.go:150-159 | with no field ignored, every field and every value is kept |
| Schema.Kept | lib/database.go:150-154 | the fields kept are those not tagged `ignore:"true"`, never more than declared |
| Schema.CollegeKeys | datatypes.go:11-15 | College has exactly one primary key, Abbreviation, and no foreign key |
| Schema.DeptKeys | datatypes.go:18-23 | Dept is keyed by Abbreviation alone and refers to College |
| Schema.ClassKeys | datatypes.go:26-34 | Class is keyed by AbbreviationCode alone and refers to Dept |
| Schema.SectKeys | datatypes.go:37-52 | Sect is keyed by SLN alone and refers to Class, closing the chain Sect, Class, Dept, College |
| Schema.IgnoredFields | datatypes.go:10-52 | in the stored types the ignored fields are exactly the embedded positions, and every other field is one the schema builder accepts |
| Schema.SqlType | lib/database.go:29-36 | string gives text and int64 gives integer; any other kind has no SQL type |
| Schema.Column | lib/database.go:27-48 | a column starts with the field's name and a blank |
| Schema.ColumnStep | lib/database.go:18-50 | a field passes exactly when the builder accepts it; an ignored field adds nothing, any other adds its column and ", "; the panic is reflection's unexported-field panic exactly for a field that is not ignored and not exported |
| Schema.GenerateSchema | lib/database.go:10-59 | a schema is produced only for a named struct and reads "CREATE TABLE <name> (" |
| Schema.ColumnsTextPanics | lib/database.go:17-51 | the field loop panics exactly when some field has a bad ignore or pk value, or is not ignored and either not exported or of a kind other than string and int64 |
| Schema.SchemaPanics | lib/database.go:13-15 | GenerateSchema panics exactly for an anonymous struct or a field the loop rejects |
| Schema.ColumnsTextIsList | lib/database.go:26-50 | the loop's text is the kept columns, in declaration order, each followed by ", " |
| Schema.TrimmedList | lib/database.go:53 | trimming and dropping the last comma removes the trailing ", " and nothing else |
| Schema.SchemaText | lib/database.go:53-58 | for an accepted named struct the schema is "CREATE TABLE <name> (<columns>);" with the kept columns in order, separated by ", " and with no trailing comma |
| Schema.TablesHaveSchemas | datatypes.go:10-52 | College, Dept, Class and Sect all yield a schema without panicking |
| Schema.Placeholder | lib/database.go:156 | a placeholder is '$' followed by digits |
| Schema.Placeholders | lib/database.go:155-157 | n placeholders, the i-th numbered i + 1 |
| Schema.PlaceholderNumber | lib/database.go:156 | placeholder i reads back as the number i |
| Schema.KeptValues | lib/database.go:150-154 | one value per kept field |
| Schema.InsertStatement | lib/database.go:143-159 | `Insert` panics, with reflection's unexported-field message, exactly when a kept field is not exported; otherwise the statement is "INSERT INTO <type> VALUES ($1,…,$n)" with n the number of kept fields, and the kept values are passed with it |
| Schema.KeptExported | lib/database.go:150-155 | every kept field is exported exactly when no field whose value `Insert` reads is unexported |
| Schema.InsertMatchesSchema | lib/database.go:150-159 | for a struct GenerateSchema accepts, `Insert` does not panic, and the statement's placeholders count both the values passed and the schema's columns, and read back as $1 to $n in order |
| SqlFile.FirstComment | scraper/database/database.go:71-73 | the first index from i on where "--" opens, or the line's end, with no comment opening before it |
| SqlFile.Code | scraper/database/database.go:72-73 | a line's code is the prefix before its first "--" and holds no "--" itself |
| SqlFile.FeedAppend | scraper/database/database.go:69-81 | feeding a + b character by character is feeding a, then b: lines are joined with nothing in between |
| SqlFile.FeedSplits | scraper/database/database.go:74-80 | feeding text to a ';'-free pending statement closes every ';'-terminated piece and leaves the rest pending |
| SqlFile.ScanLineFeeds | scraper/database/database.go:71-81 | the character loop panics on a line whose last character is a '-' it reaches, and otherwise feeds the line's code |
| SqlFile.ScanLinesFeed | scraper/database/database.go:69-82 | the line loop panics exactly when some line does, and otherwise feeds the code of all lines, in order |
| SqlFile.ScanLine | scraper/database/database.go:71-81 | the character loop only appends statements, and panics only with the index error on a line ending in '-' |
| SqlFile.ParseSqlFile | scraper/database/database.go:61-84 | `ParseSqlFile` panics only with the index error, and only when some line ends in '-' |
| SqlFile.ParseSqlFileSplits | scraper/database/database.go:61-84 | ParseSqlFile panics exactly when some line ends in a '-' outside a comment; otherwise the statements are the ';'-terminated pieces of the lines' code joined without separator, each with its ';', and the text after the last ';' is dropped |
| SqlFile.TerminatedRebuilds | scraper/database/database.go:74-83 | each statement ends in its only ';', and the statements followed by the dropped leftover give back the text |
| SqlFile.PiecesRebuild | scraper/database/database.go:74-77 | the pieces but the last, each with ';', followed by the last, are the ';'-join of the pieces |
| Bold.BoldPrefix | goschedule/frontend/frontend.go:188-195 | the result is non-empty exactly when the term is a case-insensitive prefix of the word, and then it is the word plus the two tags |
| Bold.BoldPrefixShape | goschedule/frontend/frontend.go:189-192 | the bolding is "<strong>", the word's first len(term) characters (the term up to case), "</strong>", then the rest; removing the tags gives the word |
| Bold.FirstBolding | goschedule/frontend/frontend.go:175-180 | the index of the first non-empty term that is a prefix of the word, and none when no term is |
| Bold.PickKeeps | goschedule/frontend/frontend.go:176-179 | once the inner loop holds a bolding, no later term replaces it, since `len(checkedWord) > len(outWord)` can no longer hold |
| Bold.Pick | goschedule/frontend/frontend.go:173-180 | the inner loop ends holding its starting bolding or some term's bolding of the word, and neither variable gets shorter |
| Bold.PickFirst | goschedule/frontend/frontend.go:173-180 | the inner loop ends holding the bolding by the first term that bolds the word, or "" when none does |
| Bold.BoldWordFirst | goschedule/frontend/frontend.go:173-183 | a word is replaced by its bolding with the FIRST matching term, and kept when no term matches |
| Bold.BoldWord | goschedule/frontend/frontend.go:173-183 | a word comes out as itself or as its bolding with a term that is a prefix of it, so its length grows by the tags or not at all |
| Bold.PickLongestChooses | goschedule/frontend/frontend.go:174-180 | the corrected loop ends on a bolding term at least as long as every bolding term it saw, or on nothing when none bolds |
| Bold.BoldWordLongestMeaning | goschedule/frontend/frontend.go:174-180 | the corrected loop bolds a word with a longest term that is a prefix of it, and keeps a word no term bolds |
| Bold.ShorterTermWins | goschedule/frontend/frontend.go:176 | with two bolding terms, the shorter one listed first wins as written, and the longer one wins in the corrected loop |
| Bold.FirstTermCounterexample | goschedule/frontend/frontend.go:176-179 | for the search "c cse" and the word "cse142" the two loops disagree: as written the tag closes after one letter |
| Bold.BoldWordsPerWord | goschedule/frontend/frontend.go:169-185 | the output, split on blanks, has one word per word of the trimmed text, each the word bolded by its first matching term or left as it was |
| Bold.BoldWords | goschedule/frontend/frontend.go:169-185 | a text of one word comes out as that word bolded with the search's terms |
| Bold.NoBlankInBolding | goschedule/frontend/frontend.go:188-195 | bolding adds no blank, so the words of the output line up with the words of the input |
| Search.SimilarFromPrefix | goschedule/main.go:407-415 | the character loop returns the term's length when the term is a prefix of the word, and 0 at the first mismatch |
| Search.SimilarityMeaning | goschedule/main.go:407-415 | `word_similarity` is the term's length when the term is a case-insensitive prefix of the word and 0 otherwise, so it is positive exactly when the frontend would bold the word with that term |
| Search.WordSimilarity | goschedule/main.go:407-415 | `word_similarity` is 0 or the term's length, and 0 when the term is longer than the word |
| Search.Bolded | goschedule/main.go:417-423 | the positions of the phrase's words that the term is a non-empty prefix of, and no others |
| Search.CountBolded | goschedule/main.go:417-446 | one search term adds to `word_score` the number of phrase words it bolds, and to `letter_score` its length times that number |
| Search.LetterAtLeastWord | goschedule/main.go:417-446 | over any terms and words `letter_score` is at least `word_score`, and one is zero exactly when the other is |
| Search.ScoresAgree | goschedule/main.go:402-447 | for any search and phrase, `letter_score` is at least `word_score`, and they are zero together |
| Search.WordScore | goschedule/main.go:417-423 | an empty search scores 0, and one term counts each word at most once |
| Search.LetterScore | goschedule/main.go:441-446 | an empty search scores 0 |
| Search.TermAtLeast | goschedule/main.go:420-446 | one term adds at least as much to `letter_score` as to `word_score`, and nothing to one exactly when nothing to the other |
| Traces.StepEvents | scraper/scraper.go:123-125 | one record's step inserts exactly that record, requests nothing, and logs only when the insert fails, then exactly the lines for its error |
| Traces.InsertEachInserts | scraper/scraper.go:122-132 | the insert loop sends every record to the database, in order, whatever earlier inserts answered |
| Traces.InsertEachGets | scraper/scraper.go:122-132 | the insert loop requests no page |
| Traces.InsertEachReports | crawler/crawler.go:60-73 | the insert loop logs nothing when no insert fails; when every failure has a log line, the log is empty exactly when no insert failed |
| Switch.IntRoundTrip | goschedule/main.go:389-393 | the `%d` text of any switch value reads back as that value, so the UPDATE names the values that were read |
| Switch.GetSwitch | scraper/database/database.go:86-99 | the stored number when the query succeeds; -1 together with the error exactly when it fails |
| Switch.Update | scraper/database/database.go:101-120 | the UPDATE ... WHERE is a compare-and-swap: the new value is stored exactly when the old one was the expected one (or already the new one), and nothing changes otherwise |
| Switch.Flipped | goschedule/main.go:383-388 | the flip of a switch is 1 or 2 and differs from a current value of 1 or 2 |
| Switch.FlipSwitch | goschedule/main.go:378-400 | a failed read or a failed statement returns its error and leaves the switch unchanged; otherwise the switch holds the flip exactly when it still held the value read |
| Switch.ReaderSlot | goschedule/frontend/frontend.go:63-72 | the frontend reads the app database the switch does not name: 2 for 1 and 1 for 2 |
| Switch.Pass | goschedule/main.go:200-240 | a scrape pass writes the database the switch names; from 1 or 2 the frontend then reads exactly that database, and from any other value the switch becomes 1 while the frontend reads app2, which was not written |
| Switch.PassesAlternate | goschedule/main.go:186-245 | starting from setup's switch of 1 (or 2), passes alternate between app1 and app2, the switch stays in {1, 2}, and after each pass the frontend reads the database just written |
| Switch.ScraperTarget | scraper/scraper.go:35-42 | the scraper writes DbConn1 when the switch is 2 and DbConn2 otherwise, never the connection the switch numbers |
| Switch.ScraperFlip | scraper/scraper.go:56-60 | after a pass from 1 or 2 the conditional update makes the switch name the connection just written; from any other value the scraper wrote DbConn2 and the switch is left unchanged |
| Routing.MatchSegmentsFits | goschedule/frontend/routing.go:34-55 | `_match` is true exactly when there is a segment and every route segment is a wildcard or equal to the path's; it cannot panic when no route segment is empty |
| Routing.MatchSegments | goschedule/frontend/routing.go:34-55 | `_match` can panic only with the index error, and only on an empty slice or an empty route segment |
| Routing.MatchMeaning | goschedule/frontend/routing.go:16-32 | a route matches a path exactly when both are "/", or neither is and they have equally many segments (at least one), each fitting; a route that is "/" or has only non-empty segments never panics |
| Routing.Match | goschedule/frontend/routing.go:16-32 | when the route or the path is "/", they match exactly when both are; the only panic is the index error |
| Routing.ParamsBind | goschedule/frontend/routing.go:64-72 | the parse loop's map has exactly the names of the wildcards as new keys, each bound to the path segment of its last wildcard, and keeps other keys as they were |
| Routing.ParseMeaning | goschedule/frontend/routing.go:57-73 | parsing "/" yields no map; otherwise parsing succeeds exactly when the route matches, and then the map binds exactly the wildcard names, each to the path segment under its last wildcard |
| Routing.Parse | goschedule/frontend/routing.go:57-73 | parsing gives no map exactly for the path "/"; its only panics are the index error and the no-match error |
| Routing.SegmentsOfJoin | goschedule/frontend/routing.go:26-27 | a route written as '/' followed by '/'-free segments splits back into those segments |
| Frontend.DispatchMeaning | goschedule/frontend/frontend.go:78-84 | over routes that cannot panic, the loop never panics and runs the handlers of exactly the routes that accept the path, in table order, each with its route's parse result |
| Frontend.Dispatch | goschedule/frontend/frontend.go:78-84 | the loop makes at most one call per route, and its only panics are those of `match` and `parse` |
| Frontend.DispatchStep | goschedule/frontend/frontend.go:78-84 | one turn of the loop over a route that cannot panic: an accepting route puts its call, with its parameters, before the rest; any other route adds nothing |
| Frontend.DispatchCalls | goschedule/frontend/frontend.go:78-84 | every handler call the loop makes belongs to a route accepting the path and carries that route's parameters |
| Frontend.TableMatchable | goschedule/frontend/frontend.go:50-57 | no route of the table can make the loop panic |
| Frontend.TableAccepts | goschedule/frontend/frontend.go:50-57 | at most one route of the table accepts any path, and it is the one picked by the path's segments |
| Frontend.RouteFor | goschedule/frontend/frontend.go:50-57 | the handler of a route with wildcards is chosen only for a path with enough segments to bind them |
| Frontend.TableDispatch | goschedule/frontend/frontend.go:77-84 | on any lower-cased path the table loop makes one call, of the accepting route with the path's segments bound to its wildcards, or no call |
| Frontend.ChosenParams | goschedule/frontend/frontend.go:50-57 | for each route of the table that accepts a path, its parse binds "dept", "class", "type" and "file" to the path's segments at the wildcards' places |
| Frontend.RouterMeaning | goschedule/frontend/frontend.go:61-89 | for a request that no other request overlaps: a failed switch read or database open panics; otherwise the request runs against the database the switch does not name and gets exactly the one handler the lower-cased path selects, with its bindings, or "No route matched" for the path as sent |
| Frontend.Router | goschedule/frontend/frontend.go:61-89 | for a request that no other request overlaps: a failed switch read panics with its message; an answer is served from application database 1 or 2, never the one the switch names, and a "No route matched" answer carries the request's path |
| Frontend.Handlers | goschedule/frontend/frontend.go:79-82 | the handlers of the calls, one per call, in order |
| WebRouting.SegmentsAgree | web/routing.go:22-36 | the web `_match` and the frontend `_match` give the same answer, or panic alike, on every pair of equally long slices |
| WebRouting.SameAsFrontend | web/routing.go:10-20 | the web matcher decides every route and URL exactly as the frontend matcher does, panics included |
| WebRouting.Match | web/routing.go:10-20 | when the route or the URL is "/", they match exactly when both are; the only panic is the index error |
| WebRouting.MatchSegments | web/routing.go:22-36 | the web `_match` can panic only with the index error, and only on an empty slice or an empty route segment |
| WebRouting.MatchJoined | web/routing.go:14-19 | a route and a URL written as '/' followed by '/'-free segments are compared on those segments, and differ when their counts differ |
| WebRouting.TestRootCases | web/web_test.go:24-29 | "/" matches "/", and no other route matches the URL "/" |
| WebRouting.TestSingleSegment | web/web_test.go:9-11 | "/chicken" matches "/chicken" |
| WebRouting.TestWildcardSegment | web/web_test.go:12-14 | "/chicken/:coop" matches "/chicken/one" |
| WebRouting.TestTwoWildcards | web/web_test.go:15-17 | "/schedule/:dept/:class" matches "/schedule/cse/cse102" |
| WebRouting.TestLiteralMismatch | web/web_test.go:18-20 | "/schedule/:dept/info" does not match "/schedule/cse/cse102" |
| WebRouting.TestTrailingSlash | web/web_test.go:21-23 | "/chicken/" does not match "/chicken" |
| WebRouting.TestMissingSegment | web/web_test.go:30-32 | "/schedule/:dept", and "/schedule/" followed by any wildcard name, does not match "/schedule" |
| WebRouting.TestDottedSegment | web/web_test.go:33-35 | "/assets/:type/:file" matches "/assets/css/bootstrap.min.css" |
| Setup.DatabaseNamesDistinct | goschedule/main.go:151-153 | the application databases of a schedule have the same name only when their numbers are equal, and neither is named like the switch database |
| Setup.AppStatements | goschedule/main.go:63-72 | the statements loaded into an application database are the table schemas, in order, followed by three more: the extension and the two scoring functions |
| Setup.SchemasCreateTables | goschedule/main.go:65-68 | each of the four schemas stored at start-up is a CREATE TABLE statement |
| Setup.ScoreFunctionsReplace | goschedule/main.go:401 | the scoring functions are installed with CREATE OR REPLACE, so loading them again does not fail |
| Setup.HandleSetupCounts | goschedule/main.go:116-179 | `setup` fails exactly on a missing or unknown first argument; otherwise `create` runs 19 statements per schedule and `teardown` runs 3, all on the login database |
| Setup.HandleSetup | goschedule/main.go:116-179 | `setup` fails exactly on a missing or unknown first argument, and with no schedule it runs nothing |
| Setup.ScheduleSetupNames | goschedule/main.go:149-177 | for one schedule `create` creates the switch, app1 and app2 databases in that order, stores 1 as the switch, and loads app1 and then app2; `teardown` only drops the same three databases |
| Setup.SetupStartsSwitch | goschedule/main.go:167 | setup stores 1 as the switch, so the first pass writes app1 and leaves the switch at 2, where the frontend reads app1 |
| Setup.ScrapeLogin | goschedule/main.go:183-185 | the scrape login takes the user, the password and the database name from their own keys, "" when absent |
| Setup.SetupSendsUserAsPassword | goschedule/main.go:134-135 | with user "u" and password "p" in the configuration, setup connects with password "u" while scrape uses "p" |
| Setup.LoginsDifferOnlyInPassword | goschedule/main.go:134-136 | the setup and scrape logins agree on the user and database, and their passwords agree exactly when the configured user equals the configured password |
| Setup.SetupLogin | goschedule/main.go:134-136 | the setup login has a user, a password and a database; its password is the configured user, not the configured password |
| Setup.PassWritesOneDatabase | goschedule/main.go:200-240 | for any switch value, the ten steps of a pass before its final flip all write app<switch>, never the database the frontend reads while the switch holds that value |
| Setup.PassTouchesApp | goschedule/main.go:200-240 | when the stored schemas are CREATE TABLE statements, a pass has eleven steps, ends with the flip, and the ten before it all write app<switch> |
| Setup.ScrapePass | goschedule/main.go:200-240 | a pass fails exactly when the switch cannot be read; otherwise it has seven steps more than there are schemas, and ends by scraping into app<switch> and then flipping the switch |
| Setup.DropTarget | goschedule/main.go:211 | a DROP DATABASE statement writes the database it names, here the application database of the switch value |
| Setup.CreateTarget | goschedule/main.go:212 | a CREATE DATABASE statement writes the database it names, here the application database of the switch value |
| Setup.NotDatabaseStatement | goschedule/main.go:63-72 | none of the loading statements creates or drops a database |
| Setup.FindScheduleInConfig | goschedule/main.go:324-331 | true exactly when some schedule's "name" equals the name, a missing name counting as "" |
| Scraping.FailureLines | crawler/crawler.go:59-73 | every failed insert prints at least one line: the scraper one, the crawler the line followed by the keys and, for classes and sections, the error |
| Scraping.DeptFetchFails | scraper/scraper.go:113-117 | a department whose page cannot be fetched inserts nothing and does not panic: its request and the printed error are all it leaves |
| Scraping.PageSects | scraper/extract/extract.go:95-155 | the section extractor returns sections exactly when every chunk decodes and there is a class for the first chunk, and those are the sections of `QueueExtract.ExtractSects`; otherwise it panics with the index error, with each byte line's slices bounded by its length (see "## Left out") |
| Scraping.PageInsertsPanic | scraper/scraper.go:121-127 | on a page whose sections cannot be extracted, every class is inserted and then the extractor panics: no section reaches the database |
| Scraping.PageInsertsOrder | crawler/crawler.go:57-74 | on a page whose section chunks all decode and that has a class when it has sections, the classes and then the extracted sections all reach the database, whatever it answers; nothing is requested and nothing panics |
| Scraping.DeptInsertInserts | crawler/crawler.go:53-56 | the department's own insert inserts it and requests nothing |
| Scraping.DeptInsertOrder | scraper/scraper.go:112-133 | a department whose page arrives and whose sections can be extracted inserts itself, then all its classes, then all its sections, whatever the database answers, and does not panic |
| Scraping.DeptInsertPanics | crawler/crawler.go:53-66 | a department whose page arrives but whose sections cannot be extracted inserts itself and all its classes, then panics |
| Scraping.DeptBody | scraper/scraper.go:112-133 | a department's run starts by requesting its page, and the only panic it can end with is the section extractor's index error |
| Scraping.DeptEvents | scraper/scraper.go:118-120 | as written, a fetched department's log is exactly the log of its class and section inserts: its own insert adds nothing |
| Scraping.DeptBodyInserts | scraper/scraper.go:112-133 | whatever happens to a department, it inserts what the reference says, and it panics exactly when its page arrives and its sections cannot be extracted |
| Scraping.DeptPageGets | scraper/scraper.go:113 | a department whose page arrives requests that page and nothing else, whether or not its sections panic |
| Scraping.DeptReports | crawler/crawler.go:53-74 | a department's log is the failure lines of its class and section inserts, preceded by its own failure's lines only when that insert's error is actually checked |
| Scraping.DeptFailureUnreported | scraper/scraper.go:118-120 | as written, two databases that differ only in whether the department's insert fails give the same log |
| Scraping.DeptFailureReported | crawler/crawler.go:53-56 | with the insert's own error checked, a failed department insert is the first line of its log |
| Scraping.DeptFailureCounterexample | crawler/crawler.go:53 | a database that refuses only the department: as written the log is empty, the checked version logs the failure |
| Scraping.PageQuiet | crawler/crawler.go:57-74 | a page whose class and section inserts all succeed logs nothing, whether or not its sections panic |
| Scraping.CrawlDeptsInserts | crawler/crawler.go:47-75 | the loop over departments inserts, in order, what each department inserts, up to and including the first one whose section extraction panics; it panics exactly when some department does |
| Scraping.CrawlInserts | crawler/crawler.go:40-76 | a crawl whose root index fails inserts nothing and does not panic; otherwise it inserts the department records in order up to the first section panic, and panics exactly when some department's sections cannot be extracted |
| Scraping.Crawl | crawler/crawler.go:40-76 | a crawl starts by requesting the root index, and the only panic it can end with is the section extractor's index error |
| Scraping.CrawlDepts | crawler/crawler.go:47-75 | the department loop can end only with the section extractor's panic |
| Scraping.ExpectedSkipsFailed | crawler/crawler.go:48-52 | a department whose page fails drops out without changing the records or the order of the others |
| Scraping.Scrape | scraper/scraper.go:80-110 | `Scrape` returns an error exactly when the root index cannot be fetched, and then inserts nothing; otherwise department i runs as `DeptRun` says, every department starts in concurrent mode, and "Scraper done" is printed exactly when no started department panics |
| Scraping.ScrapeDeptInserts | scraper/scraper.go:86-107 | in either mode, a started department inserts nothing when its page fails, its page's records in order when its sections can be extracted, and otherwise only itself and its classes before panicking |
| Scraping.UpToPanic | scraper/scraper.go:102-106 | the departments that start in non-concurrent mode are a prefix of all of them, none but the last panics, and a shorter prefix ends with a panic |
| Scraping.DeptRunEvents | scraper/scraper.go:102-106 | a department's run in either mode inserts what its body inserts and panics exactly when the body does |
| Scraping.ScrapeStops | scraper/scraper.go:100-108 | in non-concurrent mode every department before the last started one runs to the end, the pass stops early only at a department whose sections panic, and all departments start and "Scraper done" is printed exactly when no department panics |
| Scraping.ExecAll | scraper/scraper.go:71-76 | the statements run in order up to and including the first failing one, whose error is returned; with no failure all of them run |
| Scraping.SetupDb | scraper/scraper.go:66-78 | a read error is returned with nothing run; a split panic propagates with nothing run; otherwise a prefix of the file's statements runs, all of them exactly when none fails, and the error is the last one run's |
| Backend.GetPage | goschedule/backend/backend.go:89-107 | `get` gives the body exactly when a response arrives with a status from 200 to 399 and a readable body; any other status gives the non-2XX/3XX error naming the status and the quoted link |
| Backend.Scrape | goschedule/backend/backend.go:18-25 | a failed ping panics with "Bad db connection" before anything else; a failed root fetch panics after that one request, with nothing inserted |
| Backend.ClassSects | lib/extract.go:197-224 | section extraction on a class's slice returns exactly when every chunk reaches the columns it slices, and then gives `LibExtract.ExtractSects`'s sections and error; otherwise it is the slice-bounds panic |
| Backend.ClassesRun | goschedule/backend/backend.go:60-74 | the class loop can end only with the slice-bounds panic |
| Backend.ClassesRunUnfold | goschedule/backend/backend.go:60-69 | one turn of the class loop inserts the class, logs the extraction error, and collects the class's sections from its own slice of the page |
| Backend.ClassesRunCompletes | goschedule/backend/backend.go:60-74 | a class loop over classes whose ranges lie in the page and whose section chunks reach the sliced columns never panics, whatever the database and the extractor answer |
| Backend.ClassesRunInserts | goschedule/backend/backend.go:58-74 | over such classes, the class loop inserts every class, in order, before any section, then the sections of each class in class order |
| Backend.ClassesRunGets | goschedule/backend/backend.go:60-74 | the class loop requests no page |
| Backend.ClassesRunPanics | goschedule/backend/backend.go:64 | a class whose range leaves the page, or whose section chunks stop short of the sliced columns, ends the pass with a slice-bounds panic before any section is inserted |
| Backend.PageClassesInPage | goschedule/backend/backend.go:57 | the classes extracted from a page whose chunks come in order and start inside it all lie in the page, so no class slice panics |
| Backend.DeptRunSkips | goschedule/backend/backend.go:43-51 | a department whose page or abbreviation cannot be had is skipped: its request and one log line, no insert, no panic |
| Backend.DeptRunUnfold | goschedule/backend/backend.go:43-57 | a department whose page and abbreviation arrive is requested, inserted with that abbreviation, and then runs its classes |
| Backend.DeptRunFull | goschedule/backend/backend.go:52-74 | such a department, when its classes are readable, inserts itself, its classes, then their sections, and does not panic |
| Backend.DeptRunFullGets | goschedule/backend/backend.go:43 | such a department requests only its own page |
| Backend.DeptRunInserts | goschedule/backend/backend.go:42-76 | a readable department's run does not panic and inserts nothing when it is skipped, or else itself, its classes, then their sections |
| Backend.DeptRunCompletes | goschedule/backend/backend.go:42-76 | a department's run panics exactly when it is fetched and some class is not readable, and then with the slice-bounds panic and no section inserted |
| Backend.DeptRunPanics | goschedule/backend/backend.go:64 | a fetched department with an unreadable class panics with the slice-bounds panic, and no section is inserted |
| Backend.DeptRun | goschedule/backend/backend.go:42-76 | a department's run starts by requesting its page and can end only with the slice-bounds panic |
| Backend.DeptRunGets | goschedule/backend/backend.go:43 | a department's run requests its own page once and nothing else, whatever happens to it |
| Backend.DeptsRunCompletes | goschedule/backend/backend.go:42-76 | over readable departments, a skipped department does not stop the others, and the department loop does not panic |
| Backend.DeptsRunInserts | goschedule/backend/backend.go:42-76 | over readable departments, the loop inserts what each department inserts, in order |
| Backend.DeptsRunGets | goschedule/backend/backend.go:42-76 | over readable departments, the loop requests each department's page once, in order |
| Backend.DeptsRunPanics | goschedule/backend/backend.go:42-76 | a department loop with an unreadable department ends with the slice-bounds panic |
| Backend.DeptsRunQuiet | goschedule/backend/backend.go:42-76 | the department loop ends without a panic exactly when every department in it is readable |
| Backend.DeptsRun | goschedule/backend/backend.go:42-76 | the department loop can end only with the slice-bounds panic |
| Backend.PassStemsUnique | goschedule/backend/backend.go:30-38 | the stem map is shared across colleges: every department of a pass lies under the root, and its link stem is new to the starting map and different from every other department's |
| Backend.PassLinksDistinct | goschedule/backend/backend.go:30-38 | no two departments of a pass have the same link |
| Backend.CollegesRunCompletes | goschedule/backend/backend.go:33-77 | the college loop over colleges inside the root page, whose departments are all readable, does not panic |
| Backend.CollegesRunInserts | goschedule/backend/backend.go:33-77 | over such colleges, the loop inserts each college before the departments of its slice and what those departments insert |
| Backend.CollegesRunGets | goschedule/backend/backend.go:33-77 | over such colleges, the loop requests each department's page once, in pass order |
| Backend.CollegesRunPanics | goschedule/backend/backend.go:33-77 | with the college slices in range, a pass over a department that is not readable ends with the slice-bounds panic |
| Backend.CollegesRunQuiet | goschedule/backend/backend.go:33-77 | with the college slices in range, the college loop ends without a panic exactly when every department of the pass is readable |
| Backend.CollegesRun | goschedule/backend/backend.go:33-77 | the college loop can end only with the slice-bounds panic |
| Backend.ScrapeInserts | goschedule/backend/backend.go:18-78 | with every college slice in range and every department readable, a pass that reaches the database and the root page never panics, whatever fails later; it inserts each college and then what its departments insert, and requests the root and then each department page once, in order |
| Backend.ScrapePanics | goschedule/backend/backend.go:18-78 | a pass that reaches the database and the root page, with the college slices in range but some department not readable, ends with the slice-bounds panic |
| Backend.ScrapeRequestsOnce | goschedule/backend/backend.go:22-43 | such a pass requests the root first and no department page twice |

## Left out

- Chunk-level regular-expression matching (`anchorRe`, `classChunkRe`, `sectChunkRe`, `DeptChunkRe`, `classNameRe`, `classTitleRe`, `DeptLinkRe`): the extractors take the chunks these find as inputs, because RE2 semantics is outside the model.
- `ExtractColleges` and its dynamic college regular expressions, `cleanHref` and the XML decoder: the backend takes their results through a port.
- `html.UnescapeString` and `json.Marshal`: parameters, since they are library code.
- OldExtract.ExtractDepts, OldExtract.ExtractClasses, OldExtract.ExtractSects: the invalid-UTF-8 filter and `html.UnescapeString` that extract.go applies to the whole page first (lines 111-112, 181-182, 222-223) are not applied inside them. Their anchors and chunks are taken to be those of the filtered, unescaped page, because unescaping is library code and chunking is outside the model.
- QueueExtract.ExtractSects, Scraping.PageSects: in both byte revisions the meeting-time cells `ln[24:31]` to `ln[47:56]` (scraper/extract/extract.go:166-169, crawler/extract/extract.go:181-184) are bounded by the slice's capacity, not its length. `bytes.Split` caps every piece but the last, and the last keeps whatever spare capacity the chunk that `removeRegexp` returned happens to have. So on a chunk whose last line matches the meeting-time pattern but is shorter than 56 bytes, the program may read zero bytes as cells instead of panicking, depending on the allocator. The model takes every such line as a panic (`Sections.Readable`), so the "exactly when" of their panics holds only where that last line has no spare capacity. The first line's `[115:]` is bounded by its length, so that condition is exact. lib/extract.go slices strings, where every bound is the length.
- `ExtractClassDescriptions` (lib/extract.go:273-285): it is not used by the drivers modelled here.
- `ScrapeAbbreviation`: it lives in lib/datatypes.go, which is not part of this model; the backend takes the abbreviation through a port.
- Panic message texts and `%q` quoting are approximated: `%q` is modelled for strings without quotes, backslashes or control characters.
- Goroutine fan-out in `Scrape(c, db, true)`: the model gives each department's run separately, because their interleaving is not fixed.
- Scraping.Scrape: in concurrent mode every department counts as started and keeps its whole run, though a panic in one goroutine ends the process and the others may stop anywhere; which prefix of their events happens is a matter of scheduling.
- Utf8Filter: decoding the input's bytes into runes, where each invalid UTF-8 sequence becomes U+FFFD, is not modelled; the filter starts from the rune sequence, because that decoding is Go's runtime.
- An insert's answer is a function of the record alone, and repeated fetches of one link answer the same, because the ports are total functions.
- `time.Sleep`, log timestamps and time formatting, the offline scrape and crawl, the endless scrape loops and process exit are left out, because they affect no stored data.
- The `fmt.Print(err)` in `get` (goschedule/backend/backend.go:92) is not in the trace, because it only echoes a transport error.
- HTTP handlers, templates and the search SQL queries are left out, because a handler call is recorded only as the handler's name with its route parameters.
- SQL execution is left out: statements are recorded, not run.
- `parseConfig` and `handleWeb` are left out, because they only read flags and files and start the server.
- The `validateDept` case of extract_test.go:68: its processed-hrefs parameter does not exist in the code shown.
- Frontend.Router: requests are modelled one at a time. In the program `appDb` is a package-level variable (goschedule/frontend/frontend.go:22): every request reassigns it (line 72) and closes it on return (line 76), and every handler reads it. `http.ListenAndServe` (line 34) serves requests concurrently, so one request's handlers can use a handle that an overlapping request opened after a switch flip, or one it already closed. That race is not modelled, so Frontend.Router and Frontend.RouterMeaning promise the database named by the switch only for a request that no other request overlaps.
- SqlFile.ParseSqlFile: the 64 KiB line limit of `bufio.Scanner` (scraper/database/database.go:66-82) is not modelled. On a longer line `Scan` stops with `ErrTooLong`, and since `scanner.Err()` is never checked, the program silently returns the statements read before that line with a nil error. The model reads every line, so SqlFile.ParseSqlFileSplits holds only for files whose lines are all shorter than 64 KiB.
- The position fields: datatypes.go:5-8 declares the embedded `position` with lower-case fields `start` and `end`, while the extractors write a class's `Start` and `End`. The model has one `Position(start, end)` and treats both spellings as those two numbers.
- `Models.IsQuizSection`, `Models.IsOpen` and the primary-key functions are modelled as plain predicates and functions used by other contracts, without rows of their own.

## Findings

| source | as written | input that shows it | evidently intended | confidence | as-written member | corrected member |
|---|---|---|---|---|---|---|
| extract.go:208-215 | the class positions are written into the loop variable's copy, so every class keeps an empty range at 0 | any page with one class chunk | each class gets the range from its chunk to the next | high, not executed | OldExtract.ClassPositionsLost | LibExtract.ClassRangesDisjoint |
| extract.go:227-253 | `ExtractSects` builds each section but never appends it | any non-empty chunk list | one section per chunk | high, not executed | OldExtract.SectionsLost | LibExtract.ExtractSects |
| crawler/extract/extract.go:121-123 | the class queue is popped at most once per section, so a section can be keyed to an earlier class | classes at 0, 10 and 20 and a section at 30 | a section belongs to the latest class before it | high, not executed | QueueExtract.PopOnceLags | QueueExtract.LatestSectsContained |
| scraper/extract/extract.go:126-129 | `m[1]` is read when the spots cell has only one digit run | spots "5" | a single number means seats without a limit, or is checked before indexing | medium, not executed | Columns.OneNumberOneRun | Columns.SeatsIfTwo |
| goschedule/main.go:134-136 | setup takes the password from the "user" key | user "u", password "p" | the password comes from the "password" key, as in `handleScrape` | high, not executed | Setup.SetupSendsUserAsPassword | Setup.ScrapeLogin |
| scraper/scraper.go:118 | the department insert's error is discarded (crawler/crawler.go:53 alike) and the stale fetch error, nil there, is examined | a database that refuses only the department | a failed department insert is reported | high, not executed | Scraping.DeptFailureCounterexample | Scraping.DeptFailureReported |
| goschedule/frontend/frontend.go:176 | a later term must also give a longer bolding to replace the choice, and every bolding of a word has the same length, so the first matching term wins | search "c cse", word "cse142" | the longest matching term is bolded, as `longestSearchTerm` says | medium, not executed | Bold.FirstTermCounterexample | Bold.BoldWordLongestMeaning |

=== FILE: backend.dfy ===
/** The scrape driver of the web application (goschedule/backend/backend.go):
    `Scrape` fetches the time schedule root, inserts each college, extracts
    the college's departments from its slice of the root page (one
    department per stem across the whole pass), and for each department
    fetches its class index, scrapes its abbreviation, inserts it, inserts
    its classes and then the sections extracted from each class's slice of
    the page. Errors are logged and the pass goes on; a bad database, a
    failed root fetch, a slice out of range and a section line too short
    for `ExtractSects`'s columns panic, and nothing recovers. `get` accepts
    a status from 200 to 399. */
module Backend {
  import opened Outcomes
  import opened Text
  import opened Traces
  import opened Entities
  import opened DeptAnchors
  import opened ClassChunks
  import opened Columns
  import opened MeetingPatterns
  import opened SectionChunk
  import LibExtract
  import Switch

  datatype Record = CollegeRecord(college: College) | DeptRecord(dept: Dept) | ClassRecord(cls: Class)
                  | SectRecord(sect: Sect)

  // ---------------------------------------------------------------- get

  /** What `http.Get` and reading the body give: a transport error (and
      whether it was an unexpected end of file), or a status and the body
      read. */
  datatype Response = NoResponse(err: string, eof: bool) | Answered(status: int, body: Result<string>)

  /** `%q` of a string without quotes, backslashes or control
      characters. */
  function Quote(s: string): string {
    "\"" + s + "\""
  }

  /** `get(link)`: the body of a response whose status is from 200 to 399,
      and an error for everything else. */
  function GetPage(link: string, response: Response): (r: Result<string>)
    ensures r.Ok? <==> response.Answered? && 200 <= response.status <= 399 && response.body.Ok?
    ensures r.Ok? ==> r.value == response.body.value
    ensures response.Answered? && !(200 <= response.status <= 399) ==>
      r == Err("get: returned with non-2XX/3XX status code: " + Switch.IntText(response.status) + ", link: " + Quote(link))
  {
    match response
    case NoResponse(e, eof) =>
      if eof then Err("get EOF error: " + e + ", Link: " + Quote(link))
      else Err("get error: " + e + ", Link: " + Quote(link))
    case Answered(status, body) =>
      if status > 399 || status < 200 then
        Err("get: returned with non-2XX/3XX status code: " + Switch.IntText(status) + ", link: " + Quote(link))
      else
        match body
        case Err(e) => Err("get: error in reading response body: " + e)
        case Ok(b) => Ok(b)
  }

  // ---------------------------------------------------------------- ports

  /** The outside world of a pass: the database's ping and its answer to
      each insert, the network, and what this model takes as given about
      the page: `ExtractColleges` (built from regular expressions), the
      anchors `anchorRe` finds in a slice and their decoding, the
      abbreviation `ScrapeAbbreviation` reads from a class index, the
      class chunks of a page, the tag-stripped chunks `sectChunkRe` finds
      in a class's slice, and `json.Marshal` of meeting times. Sections are
      extracted from those chunks by LibExtract.ExtractSects. */
  datatype Ports = Ports(ping: Option<string>,
                         respond: string -> Response,
                         insert: Record -> Option<string>,
                         colleges: string -> (seq<College>, Option<string>),
                         anchors: string -> seq<Anchor>,
                         abbreviation: string -> Result<string>,
                         classChunks: string -> seq<ClassChunk>,
                         sectChunks: string -> seq<string>,
                         marshal: seq<MeetingTime> -> Result<string>)

  const BadDb := "Bad db connection"
  const SliceBounds := "slice bounds out of range"

  /** A failed insert logs its error. */
  function LogError(): (Record, string) -> seq<string> {
    (x, e) => [e]
  }

  /** A failed department insert logs the link, then the error. */
  function LogLink(d: Dept): (Record, string) -> seq<string> {
    (x, e) => ["LINK: " + d.link, e]
  }

  /** `log.Println(err)` when there is an error. */
  function Logged(err: Option<string>): seq<Event<Record>> {
    match err
    case None => []
    case Some(e) => [Report(e)]
  }

  /** The slice `s[start:end]` does not panic. */
  predicate InBody(pos: Position, n: int) {
    0 <= pos.start <= pos.end <= n
  }

  /** Every section chunk reaches the columns `ExtractSects` slices: its
      first line column 115, its meeting-time lines column 56. */
  predicate SectsReadable(chunks: seq<string>) {
    forall i :: 0 <= i < |chunks| ==> Readable(chunks[i], WordThenRange)
  }

  /** `ExtractSects` on a class's slice: its sections and error, or the
      slice-bounds panic of the first chunk whose line stops short. */
  function ClassSects(p: Ports, slice: string, classKey: string): (r: Go<(seq<Sect>, Option<string>)>)
    ensures r.Value? <==> SectsReadable(p.sectChunks(slice))
    ensures r.Panic? ==> r.reason == SliceBounds
    ensures r.Value? ==> r.value == LibExtract.ExtractSects(p.sectChunks(slice), classKey, p.marshal)
  {
    var chunks := p.sectChunks(slice);
    if SectsReadable(chunks) then Value(LibExtract.ExtractSects(chunks, classKey, p.marshal))
    else Panic(SliceBounds)
  }

  /** A class's part of the page. */
  function Slice(page: string, c: Class): string
    requires InBody(c.position, |page|)
  {
    page[c.position.start..c.position.end]
  }

  /** A class whose slice lies in the page and whose sections are
      readable: its turn of the class loop does not panic. */
  predicate ClassReadable(p: Ports, page: string, c: Class) {
    InBody(c.position, |page|) && SectsReadable(p.sectChunks(Slice(page, c)))
  }

  function Skipped(d: Dept, err: string): string {
    "department " + Quote(d.name) + " SKIPPED: " + err
  }

  // ---------------------------------------------------------------- the pass

  /** The loop over a department's classes: insert each, then extract its
      sections from its slice of the page, collecting them; after the last
      class, insert every section collected. */
  function ClassesRun(p: Ports, page: string, classes: seq<Class>, collected: seq<Sect>): (r: Run<Record>)
    ensures r.panic.None? || r.panic == Some(SliceBounds)
    decreases |classes|
  {
    if |classes| == 0 then Done(InsertEach(SectRecords(collected), p.insert, LogError()))
    else
      var c := classes[0];
      var ins := Step(ClassRecord(c), p.insert, LogError());
      if !InBody(c.position, |page|) then Run(ins, Some(SliceBounds))
      else
        match ClassSects(p, Slice(page, c), c.abbreviationCode)
        case Panic(m) => Run(ins, Some(m))
        case Value(v) => Then(Done(ins + Logged(v.1)), ClassesRun(p, page, classes[1..], collected + v.0))
  }

  function ClassRecords(cs: seq<Class>): (r: seq<Record>)
    ensures |r| == |cs| && forall k :: 0 <= k < |cs| ==> r[k] == ClassRecord(cs[k])
  {
    seq(|cs|, k requires 0 <= k < |cs| => ClassRecord(cs[k]))
  }

  function SectRecords(ss: seq<Sect>): (r: seq<Record>)
    ensures |r| == |ss| && forall k :: 0 <= k < |ss| ==> r[k] == SectRecord(ss[k])
  {
    seq(|ss|, k requires 0 <= k < |ss| => SectRecord(ss[k]))
  }

  /** The classes of a department page, positioned in it. */
  function PageClasses(p: Ports, page: string, deptKey: string): seq<Class> {
    LibExtract.ExtractClasses(p.classChunks(page), deptKey, |page|)
  }

  /** One department: fetch its class index and scrape its abbreviation,
      skipping the department with a log line when either fails; then
      insert it (with its abbreviation) and run its classes. */
  function DeptRun(p: Ports, dept: Dept): (r: Run<Record>)
    ensures r.panic.None? || r.panic == Some(SliceBounds)
    ensures |r.events| > 0 && r.events[0] == Get(dept.link)
  {
    match GetPage(dept.link, p.respond(dept.link))
    case Err(e) => Done([Get(dept.link), Report(Skipped(dept, e))])
    case Ok(page) =>
      match p.abbreviation(page)
      case Err(e) => Done([Get(dept.link), Report(Skipped(dept, e))])
      case Ok(a) =>
        Then(Done(DeptHead(p, dept.link, dept.(abbreviation := a))), ClassesRun(p, page, PageClasses(p, page, a), []))
  }

  /** The loop over one college's departments. */
  function DeptsRun(p: Ports, depts: seq<Dept>): (r: Run<Record>)
    ensures r.panic.None? || r.panic == Some(SliceBounds)
    decreases |depts|
  {
    if |depts| == 0 then Done([])
    else Then(DeptRun(p, depts[0]), DeptsRun(p, depts[1..]))
  }

  /** The loop over the colleges, threading the map of department stems
      already extracted. */
  function CollegesRun(p: Ports, link: string, body: string, colleges: seq<College>, processed: set<string>)
    : (r: Run<Record>)
    ensures r.panic.None? || r.panic == Some(SliceBounds)
    decreases |colleges|
  {
    if |colleges| == 0 then Done([])
    else
      var c := colleges[0];
      var ins := Step(CollegeRecord(c), p.insert, LogError());
      if !InBody(c.position, |body|) then Run(ins, Some(SliceBounds))
      else
        var (depts, err, seen) := LibExtract.ExtractDepts(p.anchors(body[c.position.start..c.position.end]),
                                                          c.abbreviation, link, processed);
        Then(Done(ins + Logged(err)), Then(DeptsRun(p, depts), CollegesRun(p, link, body, colleges[1..], seen)))
  }

  /** `Scrape(link, db)`. A bad database or a failed root fetch panics
      before anything is inserted. */
  function Scrape(p: Ports, link: string): (r: Run<Record>)
    ensures p.ping.Some? ==> r == Run([], Some(BadDb))
    ensures p.ping.None? && GetPage(link, p.respond(link)).Err? ==>
      r.panic.Some? && r.events == [Get(link)] && Inserts(r.events) == []
  {
    if p.ping.Some? then Run([], Some(BadDb))
    else
      match GetPage(link, p.respond(link))
      case Err(e) => Run([Get(link)], Some("Failed to fetch time schedule root at " + link + ": " + e))
      case Ok(body) =>
        var (colleges, err) := p.colleges(body);
        Then(Done([Get(link)] + Logged(err) + [Report("starting scrape")]),
             CollegesRun(p, link, body, colleges, {}))
  }

  // ---------------------------------------------------------------- classes

  /** Every class's range lies in the page: slicing it does not panic. */
  predicate ClassesInPage(classes: seq<Class>, n: int) {
    forall k :: 0 <= k < |classes| ==> InBody(classes[k].position, n)
  }

  /** Every class's range lies in the page and its sections are readable. */
  predicate ClassesReadable(p: Ports, page: string, classes: seq<Class>) {
    forall k :: 0 <= k < |classes| ==> ClassReadable(p, page, classes[k])
  }

  /** The sections of a readable class, keyed by its AbbreviationCode. */
  function SectsOf(p: Ports, page: string, c: Class): seq<Sect>
    requires ClassReadable(p, page, c)
  {
    LibExtract.ExtractSects(p.sectChunks(Slice(page, c)), c.abbreviationCode, p.marshal).0
  }

  /** Reference: the sections of each class, extracted from its own slice
      of the page, in class order. */
  function SectionsOf(p: Ports, page: string, classes: seq<Class>): seq<Sect>
    requires ClassesReadable(p, page, classes)
    decreases |classes|
  {
    if |classes| == 0 then [] else SectsOf(p, page, classes[0]) + SectionsOf(p, page, classes[1..])
  }

  /** No section among the records. */
  predicate NoSects(rs: seq<Record>) {
    forall k :: 0 <= k < |rs| ==> !rs[k].SectRecord?
  }

  lemma LoggedEvents(err: Option<string>)
    ensures Inserts(Logged(err)) == [] && Gets(Logged(err)) == []
  {
  }

  /** The events of one readable class before the rest of the loop: its
      insert and the logged errors. */
  function ClassHead(p: Ports, page: string, c: Class): seq<Event<Record>>
    requires ClassReadable(p, page, c)
  {
    Step(ClassRecord(c), p.insert, LogError()) + Logged(ClassSects(p, Slice(page, c), c.abbreviationCode).value.1)
  }

  lemma ClassHeadEvents(p: Ports, page: string, c: Class)
    requires ClassReadable(p, page, c)
    ensures Inserts(ClassHead(p, page, c)) == [ClassRecord(c)]
    ensures Gets(ClassHead(p, page, c)) == []
  {
    var err := ClassSects(p, Slice(page, c), c.abbreviationCode).value.1;
    StepEvents(ClassRecord(c), p.insert, LogError());
    LoggedEvents(err);
    InsertsAppend(Step(ClassRecord(c), p.insert, LogError()), Logged(err));
    GetsAppend(Step(ClassRecord(c), p.insert, LogError()), Logged(err));
  }

  /** One turn of the class loop. */
  lemma ClassesRunUnfold(p: Ports, page: string, classes: seq<Class>, collected: seq<Sect>)
    requires |classes| > 0 && ClassReadable(p, page, classes[0])
    ensures ClassesRun(p, page, classes, collected)
         == Then(Done(ClassHead(p, page, classes[0])),
                 ClassesRun(p, page, classes[1..], collected + SectsOf(p, page, classes[0])))
  {
  }

  /** A class loop over readable classes does not panic, whatever the
      database answers and however the sections encode. */
  lemma {:induction false} ClassesRunCompletes(p: Ports, page: string, classes: seq<Class>, collected: seq<Sect>)
    requires ClassesReadable(p, page, classes)
    ensures ClassesRun(p, page, classes, collected).panic.None?
    decreases |classes|
  {
    if |classes| > 0 {
      ClassesRunUnfold(p, page, classes, collected);
      ClassesRunCompletes(p, page, classes[1..], collected + SectsOf(p, page, classes[0]));
    }
  }

  /** The class loop over readable classes inserts every class before any
      section: the classes in order, then the sections already collected
      and those of each class in class order. */
  lemma {:induction false} ClassesRunInserts(p: Ports, page: string, classes: seq<Class>, collected: seq<Sect>)
    requires ClassesReadable(p, page, classes)
    ensures Inserts(ClassesRun(p, page, classes, collected).events)
         == ClassRecords(classes) + SectRecords(collected + SectionsOf(p, page, classes))
    decreases |classes|
  {
    if |classes| == 0 {
      InsertEachInserts(SectRecords(collected), p.insert, LogError());
      assert collected + [] == collected;
    } else {
      var c := classes[0];
      var sects := SectsOf(p, page, c);
      var rest := ClassesRun(p, page, classes[1..], collected + sects);
      ClassesRunUnfold(p, page, classes, collected);
      ClassesRunCompletes(p, page, classes[1..], collected + sects);
      ClassesRunInserts(p, page, classes[1..], collected + sects);
      ClassHeadEvents(p, page, c);
      InsertsAppend(ClassHead(p, page, c), rest.events);
      RecordsShift(classes, collected, sects, SectionsOf(p, page, classes[1..]));
    }
  }

  lemma RecordsShift(classes: seq<Class>, collected: seq<Sect>, sects: seq<Sect>, later: seq<Sect>)
    requires |classes| > 0
    ensures [ClassRecord(classes[0])] + (ClassRecords(classes[1..]) + SectRecords(collected + sects + later))
         == ClassRecords(classes) + SectRecords(collected + (sects + later))
  {
    assert ClassRecords(classes) == [ClassRecord(classes[0])] + ClassRecords(classes[1..]);
    assert collected + sects + later == collected + (sects + later);
  }

  /** The class loop requests nothing. */
  lemma {:induction false} ClassesRunGets(p: Ports, page: string, classes: seq<Class>, collected: seq<Sect>)
    ensures Gets(ClassesRun(p, page, classes, collected).events) == []
    decreases |classes|
  {
    if |classes| == 0 {
      InsertEachGets(SectRecords(collected), p.insert, LogError());
    } else if !ClassReadable(p, page, classes[0]) {
      StepEvents(ClassRecord(classes[0]), p.insert, LogError());
    } else {
      var c := classes[0];
      var sects := SectsOf(p, page, c);
      var rest := ClassesRun(p, page, classes[1..], collected + sects);
      ClassesRunUnfold(p, page, classes, collected);
      ClassesRunGets(p, page, classes[1..], collected + sects);
      ClassHeadEvents(p, page, c);
      GetsAppend(ClassHead(p, page, c), rest.events);
    }
  }

  /** A class whose range leaves the page, or whose sections do not reach
      the columns `ExtractSects` slices, ends the pass with a slice-bounds
      panic before any section is inserted: the sections collected so far
      are lost. */
  lemma {:induction false} ClassesRunPanics(p: Ports, page: string, classes: seq<Class>, collected: seq<Sect>)
    requires !ClassesReadable(p, page, classes)
    ensures ClassesRun(p, page, classes, collected).panic == Some(SliceBounds)
    ensures NoSects(Inserts(ClassesRun(p, page, classes, collected).events))
    decreases |classes|
  {
    if ClassReadable(p, page, classes[0]) {
      UnreadableTail(p, page, classes);
      ClassesRunPanics(p, page, classes[1..], collected + SectsOf(p, page, classes[0]));
      ClassPanicsLater(p, page, classes, collected);
    } else {
      StepEvents(ClassRecord(classes[0]), p.insert, LogError());
    }
  }

  /** A readable first class passes the rest's panic on, adding only its
      own insert. */
  lemma ClassPanicsLater(p: Ports, page: string, classes: seq<Class>, collected: seq<Sect>)
    requires |classes| > 0 && ClassReadable(p, page, classes[0])
    requires ClassesRun(p, page, classes[1..], collected + SectsOf(p, page, classes[0])).panic == Some(SliceBounds)
    requires NoSects(Inserts(ClassesRun(p, page, classes[1..], collected + SectsOf(p, page, classes[0])).events))
    ensures ClassesRun(p, page, classes, collected).panic == Some(SliceBounds)
    ensures NoSects(Inserts(ClassesRun(p, page, classes, collected).events))
  {
    var c := classes[0];
    var rest := ClassesRun(p, page, classes[1..], collected + SectsOf(p, page, c));
    ClassesRunUnfold(p, page, classes, collected);
    ClassHeadEvents(p, page, c);
    HeadThenPanic(ClassHead(p, page, c), ClassRecord(c), rest);
  }

  /** Events inserting one record other than a section, then a run that
      ends with the slice-bounds panic and inserts no section. */
  lemma HeadThenPanic(head: seq<Event<Record>>, x: Record, rest: Run<Record>)
    requires Inserts(head) == [x] && !x.SectRecord?
    requires rest.panic == Some(SliceBounds) && NoSects(Inserts(rest.events))
    ensures Then(Done(head), rest).panic == Some(SliceBounds)
    ensures NoSects(Inserts(Then(Done(head), rest).events))
  {
    ThenEvents(head, rest);
    var rs := Inserts(rest.events);
    forall k | 0 <= k < |[x] + rs|
      ensures !([x] + rs)[k].SectRecord?
    {
      if k > 0 {
        assert ([x] + rs)[k] == rs[k - 1];
      }
    }
  }

  /** A readable first class leaves the unreadable one in the rest. */
  lemma UnreadableTail(p: Ports, page: string, classes: seq<Class>)
    requires |classes| > 0 && ClassReadable(p, page, classes[0]) && !ClassesReadable(p, page, classes)
    ensures !ClassesReadable(p, page, classes[1..])
  {
    var k :| 0 <= k < |classes| && !ClassReadable(p, page, classes[k]);
    assert k > 0;
    assert classes[1..][k - 1] == classes[k];
  }

  /** The classes extracted from a page whose chunks come in order and
      start inside it all lie in the page. */
  lemma PageClassesInPage(p: Ports, page: string, deptKey: string)
    requires InPage(p.classChunks(page), |page|)
    ensures ClassesInPage(PageClasses(p, page, deptKey), |page|)
  {
    var r := PageClasses(p, page, deptKey);
    LibExtract.ClassRangesDisjoint(p.classChunks(page), deptKey, |page|);
    forall k | 0 <= k < |r|
      ensures InBody(r[k].position, |page|)
    {
      if k < |r| - 1 {
        assert r[k].position.end <= r[|r| - 1].position.start;
      }
    }
  }

  // ---------------------------------------------------------------- departments

  /** A department that is skipped, or whose classes are all readable:
      its run does not panic. */
  predicate PageReadable(p: Ports, d: Dept) {
    match GetPage(d.link, p.respond(d.link))
    case Err(_) => true
    case Ok(page) =>
      match p.abbreviation(page)
      case Err(_) => true
      case Ok(a) => ClassesReadable(p, page, PageClasses(p, page, a))
  }

  /** Reference: what a readable department inserts. Nothing when its page
      or its abbreviation cannot be had; otherwise the department with its
      abbreviation, its classes, then their sections. */
  function DeptRecords(p: Ports, d: Dept): seq<Record>
    requires PageReadable(p, d)
  {
    match GetPage(d.link, p.respond(d.link))
    case Err(_) => []
    case Ok(page) =>
      match p.abbreviation(page)
      case Err(_) => []
      case Ok(a) => PageRecords(p, d, page, a)
  }

  /** The records of a department whose page and abbreviation arrived. */
  function PageRecords(p: Ports, d: Dept, page: string, a: string): seq<Record>
    requires ClassesReadable(p, page, PageClasses(p, page, a))
  {
    var classes := PageClasses(p, page, a);
    [DeptRecord(d.(abbreviation := a))] + ClassRecords(classes) + SectRecords(SectionsOf(p, page, classes))
  }

  /** A skipped department leaves its request and one log line. */
  lemma DeptRunSkips(p: Ports, d: Dept)
    requires GetPage(d.link, p.respond(d.link)).Err? ||
             p.abbreviation(GetPage(d.link, p.respond(d.link)).value).Err?
    ensures DeptRun(p, d).panic.None?
    ensures Inserts(DeptRun(p, d).events) == []
    ensures Gets(DeptRun(p, d).events) == [d.link]
  {
    var es := DeptRun(p, d).events;
    assert |es| == 2 && es[0] == Get(d.link) && es[1].Report?;
    assert es[1..][1..] == [];
  }

  /** The events before a department's classes: its request and its
      insert. */
  function DeptHead(p: Ports, link: string, dd: Dept): seq<Event<Record>> {
    [Get(link)] + Step(DeptRecord(dd), p.insert, LogLink(dd))
  }

  lemma DeptRunUnfold(p: Ports, d: Dept, page: string, a: string)
    requires GetPage(d.link, p.respond(d.link)) == Ok(page) && p.abbreviation(page) == Ok(a)
    ensures DeptRun(p, d) == Then(Done(DeptHead(p, d.link, d.(abbreviation := a))),
                                  ClassesRun(p, page, PageClasses(p, page, a), []))
  {
  }

  /** A department whose page and abbreviation arrive and whose classes
      are readable: it inserts itself, its classes, then their sections,
      and does not panic. */
  lemma DeptRunFull(p: Ports, d: Dept, page: string, a: string)
    requires GetPage(d.link, p.respond(d.link)) == Ok(page) && p.abbreviation(page) == Ok(a)
    requires ClassesReadable(p, page, PageClasses(p, page, a))
    ensures DeptRun(p, d).panic.None?
    ensures Inserts(DeptRun(p, d).events) == PageRecords(p, d, page, a)
  {
    var dd := d.(abbreviation := a);
    DeptRunUnfold(p, d, page, a);
    DeptHeadEvents(p, d.link, dd);
    ReadableRun(p, page, DeptHead(p, d.link, dd), dd, PageClasses(p, page, a));
  }

  /** A department's head, then its class loop over readable classes. */
  lemma ReadableRun(p: Ports, page: string, head: seq<Event<Record>>, dd: Dept, classes: seq<Class>)
    requires ClassesReadable(p, page, classes) && Inserts(head) == [DeptRecord(dd)]
    ensures Then(Done(head), ClassesRun(p, page, classes, [])).panic.None?
    ensures Inserts(Then(Done(head), ClassesRun(p, page, classes, [])).events)
         == [DeptRecord(dd)] + ClassRecords(classes) + SectRecords(SectionsOf(p, page, classes))
  {
    var rest := ClassesRun(p, page, classes, []);
    ClassesRunCompletes(p, page, classes, []);
    ClassesRunInserts(p, page, classes, []);
    ThenEvents(head, rest);
    assert [] + SectionsOf(p, page, classes) == SectionsOf(p, page, classes);
  }

  /** A department's head, then its class loop over classes one of which
      is not readable. */
  lemma UnreadableRun(p: Ports, page: string, head: seq<Event<Record>>, dd: Dept, classes: seq<Class>)
    requires !ClassesReadable(p, page, classes) && Inserts(head) == [DeptRecord(dd)]
    ensures Then(Done(head), ClassesRun(p, page, classes, [])).panic == Some(SliceBounds)
    ensures NoSects(Inserts(Then(Done(head), ClassesRun(p, page, classes, [])).events))
  {
    var rest := ClassesRun(p, page, classes, []);
    ClassesRunPanics(p, page, classes, []);
    ThenEvents(head, rest);
  }

  /** ... and requests its page only, readable or not. */
  lemma DeptRunFullGets(p: Ports, d: Dept, page: string, a: string)
    requires GetPage(d.link, p.respond(d.link)) == Ok(page) && p.abbreviation(page) == Ok(a)
    ensures Gets(DeptRun(p, d).events) == [d.link]
  {
    var dd := d.(abbreviation := a);
    var classes := PageClasses(p, page, a);
    var head := DeptHead(p, d.link, dd);
    var rest := ClassesRun(p, page, classes, []);
    DeptRunUnfold(p, d, page, a);
    DeptHeadEvents(p, d.link, dd);
    ClassesRunGets(p, page, classes, []);
    GetsAppend(head, rest.events);
  }

  lemma DeptHeadEvents(p: Ports, link: string, dd: Dept)
    ensures Inserts(DeptHead(p, link, dd)) == [DeptRecord(dd)]
    ensures Gets(DeptHead(p, link, dd)) == [link]
  {
    StepEvents(DeptRecord(dd), p.insert, LogLink(dd));
    InsertsAppend([Get(link)], Step(DeptRecord(dd), p.insert, LogLink(dd)));
    GetsAppend([Get(link)], Step(DeptRecord(dd), p.insert, LogLink(dd)));
  }

  /** A readable department's run does not panic, and inserts what
      `DeptRecords` says: nothing when it is skipped. */
  lemma DeptRunInserts(p: Ports, d: Dept)
    requires PageReadable(p, d)
    ensures DeptRun(p, d).panic.None?
    ensures Inserts(DeptRun(p, d).events) == DeptRecords(p, d)
  {
    match GetPage(d.link, p.respond(d.link))
    case Err(e) =>
      DeptRunSkips(p, d);
    case Ok(page) =>
      match p.abbreviation(page)
      case Err(e) =>
        DeptRunSkips(p, d);
      case Ok(a) =>
        DeptRunFull(p, d, page, a);
  }

  /** A department's run panics exactly when it is not readable; then it
      has inserted itself and some of its classes, but no section. */
  lemma DeptRunCompletes(p: Ports, d: Dept)
    ensures DeptRun(p, d).panic.None? <==> PageReadable(p, d)
    ensures !PageReadable(p, d) ==>
      DeptRun(p, d).panic == Some(SliceBounds) && NoSects(Inserts(DeptRun(p, d).events))
  {
    if PageReadable(p, d) {
      DeptRunInserts(p, d);
    } else {
      DeptRunPanics(p, d);
    }
  }

  lemma DeptRunPanics(p: Ports, d: Dept)
    requires !PageReadable(p, d)
    ensures DeptRun(p, d).panic == Some(SliceBounds) && NoSects(Inserts(DeptRun(p, d).events))
  {
    var page := GetPage(d.link, p.respond(d.link)).value;
    var a := p.abbreviation(page).value;
    var dd := d.(abbreviation := a);
    DeptRunUnfold(p, d, page, a);
    DeptHeadEvents(p, d.link, dd);
    UnreadableRun(p, page, DeptHead(p, d.link, dd), dd, PageClasses(p, page, a));
  }

  /** A department's run requests its page and nothing else, whatever
      happens to it. */
  lemma DeptRunGets(p: Ports, d: Dept)
    ensures Gets(DeptRun(p, d).events) == [d.link]
  {
    match GetPage(d.link, p.respond(d.link))
    case Err(e) =>
      DeptRunSkips(p, d);
    case Ok(page) =>
      match p.abbreviation(page)
      case Err(e) =>
        DeptRunSkips(p, d);
      case Ok(a) =>
        DeptRunFullGets(p, d, page, a);
  }

  function Links(ds: seq<Dept>): (r: seq<string>)
    ensures |r| == |ds| && forall k :: 0 <= k < |ds| ==> r[k] == ds[k].link
  {
    seq(|ds|, k requires 0 <= k < |ds| => ds[k].link)
  }

  lemma LinksAppend(a: seq<Dept>, b: seq<Dept>)
    ensures Links(a + b) == Links(a) + Links(b)
  {
  }

  predicate PagesReadable(p: Ports, ds: seq<Dept>) {
    forall k :: 0 <= k < |ds| ==> PageReadable(p, ds[k])
  }

  /** Reference: the departments' records, in order. */
  function DeptsRecords(p: Ports, ds: seq<Dept>): seq<Record>
    requires PagesReadable(p, ds)
    decreases |ds|
  {
    if |ds| == 0 then [] else DeptRecords(p, ds[0]) + DeptsRecords(p, ds[1..])
  }

  lemma DeptsRunUnfold(p: Ports, ds: seq<Dept>)
    requires |ds| > 0
    ensures DeptsRun(p, ds) == Then(DeptRun(p, ds[0]), DeptsRun(p, ds[1..]))
  {
  }

  /** The department loop does not panic: a department that is skipped
      does not stop the others. */
  lemma {:induction false} DeptsRunCompletes(p: Ports, ds: seq<Dept>)
    requires PagesReadable(p, ds)
    ensures DeptsRun(p, ds).panic.None?
    decreases |ds|
  {
    if |ds| > 0 {
      DeptsRunUnfold(p, ds);
      DeptRunInserts(p, ds[0]);
      DeptsRunCompletes(p, ds[1..]);
    }
  }

  /** A department that is not readable ends the department loop with a
      slice-bounds panic: the departments after it are never requested. */
  lemma {:induction false} DeptsRunPanics(p: Ports, ds: seq<Dept>)
    requires !PagesReadable(p, ds)
    ensures DeptsRun(p, ds).panic == Some(SliceBounds)
    decreases |ds|
  {
    DeptsRunUnfold(p, ds);
    if PageReadable(p, ds[0]) {
      DeptRunInserts(p, ds[0]);
      assert !PagesReadable(p, ds[1..]) by {
        var k :| 0 <= k < |ds| && !PageReadable(p, ds[k]);
        assert ds[1..][k - 1] == ds[k];
      }
      DeptsRunPanics(p, ds[1..]);
    } else {
      DeptRunPanics(p, ds[0]);
    }
  }

  /** The department loop inserts what each department inserts, in
      order. */
  lemma {:induction false} DeptsRunInserts(p: Ports, ds: seq<Dept>)
    requires PagesReadable(p, ds)
    ensures Inserts(DeptsRun(p, ds).events) == DeptsRecords(p, ds)
    decreases |ds|
  {
    if |ds| > 0 {
      var first := DeptRun(p, ds[0]);
      var rest := DeptsRun(p, ds[1..]);
      DeptsRunUnfold(p, ds);
      DeptRunInserts(p, ds[0]);
      DeptsRunInserts(p, ds[1..]);
      InsertsAppend(first.events, rest.events);
    }
  }

  /** The department loop requests each department's page once, in
      order, when no department panics. */
  lemma {:induction false} DeptsRunGets(p: Ports, ds: seq<Dept>)
    requires PagesReadable(p, ds)
    ensures Gets(DeptsRun(p, ds).events) == Links(ds)
    decreases |ds|
  {
    if |ds| > 0 {
      var first := DeptRun(p, ds[0]);
      var rest := DeptsRun(p, ds[1..]);
      assert ds == [ds[0]] + ds[1..];
      PagesReadableSplit(p, [ds[0]], ds[1..]);
      DeptsRunUnfold(p, ds);
      DeptRunCompletes(p, ds[0]);
      DeptRunGets(p, ds[0]);
      DeptsRunGets(p, ds[1..]);
      GetsAppend(first.events, rest.events);
      LinksAppend([ds[0]], ds[1..]);
      assert Links([ds[0]]) == [ds[0].link];
    }
  }

  // ---------------------------------------------------------------- colleges

  predicate CollegesInBody(colleges: seq<College>, n: int) {
    forall k :: 0 <= k < |colleges| ==> InBody(colleges[k].position, n)
  }

  /** The departments a college's slice yields, given the stems already
      extracted, and the stems after it. */
  function CollegeDepts(p: Ports, link: string, body: string, c: College, processed: set<string>)
    : (seq<Dept>, Option<string>, set<string>)
    requires InBody(c.position, |body|)
  {
    LibExtract.ExtractDepts(p.anchors(body[c.position.start..c.position.end]), c.abbreviation, link, processed)
  }

  /** Reference: the departments of the whole pass, college after
      college. */
  function PassDepts(p: Ports, link: string, body: string, colleges: seq<College>, processed: set<string>)
    : seq<Dept>
    requires CollegesInBody(colleges, |body|)
    decreases |colleges|
  {
    if |colleges| == 0 then []
    else
      var (depts, _, seen) := CollegeDepts(p, link, body, colleges[0], processed);
      depts + PassDepts(p, link, body, colleges[1..], seen)
  }

  /** Reference: the records of the whole pass: each college, then what
      its departments insert. */
  function PassRecords(p: Ports, link: string, body: string, colleges: seq<College>, processed: set<string>)
    : seq<Record>
    requires CollegesInBody(colleges, |body|)
    requires PagesReadable(p, PassDepts(p, link, body, colleges, processed))
    decreases |colleges|
  {
    if |colleges| == 0 then []
    else
      var (depts, _, seen) := CollegeDepts(p, link, body, colleges[0], processed);
      PassPages(p, link, body, colleges, processed);
      [CollegeRecord(colleges[0])] + DeptsRecords(p, depts) + PassRecords(p, link, body, colleges[1..], seen)
  }

  lemma PassDeptsUnfold(p: Ports, link: string, body: string, colleges: seq<College>, processed: set<string>)
    requires |colleges| > 0 && CollegesInBody(colleges, |body|)
    ensures var (depts, _, seen) := CollegeDepts(p, link, body, colleges[0], processed);
      PassDepts(p, link, body, colleges, processed) == depts + PassDepts(p, link, body, colleges[1..], seen)
  {
  }

  /** The condition on the pass splits into the first college's and the
      rest's. */
  lemma PassPages(p: Ports, link: string, body: string, colleges: seq<College>, processed: set<string>)
    requires |colleges| > 0 && CollegesInBody(colleges, |body|)
    requires PagesReadable(p, PassDepts(p, link, body, colleges, processed))
    ensures var (depts, _, seen) := CollegeDepts(p, link, body, colleges[0], processed);
      PagesReadable(p, depts) && PagesReadable(p, PassDepts(p, link, body, colleges[1..], seen))
  {
    var (depts, _, seen) := CollegeDepts(p, link, body, colleges[0], processed);
    var rest := PassDepts(p, link, body, colleges[1..], seen);
    PassDeptsUnfold(p, link, body, colleges, processed);
    PagesReadableSplit(p, depts, rest);
  }

  lemma PagesReadableJoin(p: Ports, a: seq<Dept>, b: seq<Dept>)
    requires PagesReadable(p, a) && PagesReadable(p, b)
    ensures PagesReadable(p, a + b)
  {
    forall k | 0 <= k < |a + b|
      ensures PageReadable(p, (a + b)[k])
    {
      if k >= |a| {
        assert (a + b)[k] == b[k - |a|];
      }
    }
  }

  lemma PagesReadableSplit(p: Ports, a: seq<Dept>, b: seq<Dept>)
    requires PagesReadable(p, a + b)
    ensures PagesReadable(p, a) && PagesReadable(p, b)
  {
    forall k | 0 <= k < |b|
      ensures PageReadable(p, b[k])
    {
      assert b[k] == (a + b)[|a| + k];
    }
    forall k | 0 <= k < |a|
      ensures PageReadable(p, a[k])
    {
      assert a[k] == (a + b)[k];
    }
  }

  // ---------------------------------------------------------------- one request per department

  /** No two members are equal. */
  predicate Distinct(s: seq<string>) {
    forall k, l :: 0 <= k < l < |s| ==> s[k] != s[l]
  }

  lemma DistinctAppend(a: seq<string>, b: seq<string>)
    requires Distinct(a) && Distinct(b)
    requires forall l :: 0 <= l < |b| ==> b[l] !in a
    ensures Distinct(a + b)
  {
    forall k, l | 0 <= k < l < |a + b|
      ensures (a + b)[k] != (a + b)[l]
    {
      if l >= |a| && k < |a| {
        assert (a + b)[l] == b[l - |a|];
        assert (a + b)[k] in a;
      }
    }
  }

  /** The map of department stems is shared across colleges: over a pass,
      every department's link sits under the root, and the link stems are
      pairwise different and new to the map the pass started from. */
  lemma {:induction false} PassStemsUnique(p: Ports, link: string, body: string, colleges: seq<College>,
                                           processed: set<string>)
    requires CollegesInBody(colleges, |body|)
    ensures var ds := PassDepts(p, link, body, colleges, processed);
      && (forall k :: 0 <= k < |ds| ==> HasPrefix(ds[k].link, link))
      && (forall k :: 0 <= k < |ds| ==> LibExtract.LinkStem(ds[k], link) !in processed)
      && Distinct(LibExtract.LinkStems(ds, link))
    decreases |colleges|
  {
    if |colleges| > 0 {
      var c := colleges[0];
      var (depts, _, seen) := CollegeDepts(p, link, body, c, processed);
      var rest := PassDepts(p, link, body, colleges[1..], seen);
      PassDeptsUnfold(p, link, body, colleges, processed);
      LibExtract.DeptLinkStems(p.anchors(body[c.position.start..c.position.end]), c.abbreviation, link, processed);
      PassStemsUnique(p, link, body, colleges[1..], seen);
      StemsJoin(depts, rest, link, processed, seen);
    }
  }

  /** Departments keyed by fresh, distinct stems, followed by departments
      keyed by stems fresh to the grown map, are keyed by fresh, distinct
      stems. */
  lemma StemsJoin(a: seq<Dept>, b: seq<Dept>, url: string, processed: set<string>, seen: set<string>)
    requires forall k :: 0 <= k < |a| ==> HasPrefix(a[k].link, url)
    requires forall k :: 0 <= k < |b| ==> HasPrefix(b[k].link, url)
    requires forall k :: 0 <= k < |a| ==> LibExtract.LinkStem(a[k], url) !in processed
    requires Distinct(LibExtract.LinkStems(a, url))
    requires seen == processed + LibExtract.Elements(LibExtract.LinkStems(a, url))
    requires forall k :: 0 <= k < |b| ==> LibExtract.LinkStem(b[k], url) !in seen
    requires Distinct(LibExtract.LinkStems(b, url))
    ensures forall k :: 0 <= k < |a + b| ==> HasPrefix((a + b)[k].link, url)
    ensures forall k :: 0 <= k < |a + b| ==> LibExtract.LinkStem((a + b)[k], url) !in processed
    ensures Distinct(LibExtract.LinkStems(a + b, url))
  {
    var sa := LibExtract.LinkStems(a, url);
    var sb := LibExtract.LinkStems(b, url);
    assert forall k :: |a| <= k < |a + b| ==> (a + b)[k] == b[k - |a|];
    assert LibExtract.LinkStems(a + b, url) == sa + sb;
    forall l | 0 <= l < |sb|
      ensures sb[l] !in sa
    {
      assert sb[l] !in seen;
    }
    DistinctAppend(sa, sb);
  }

  /** Departments of a pass have pairwise different links. */
  lemma PassLinksDistinct(p: Ports, link: string, body: string, colleges: seq<College>, processed: set<string>)
    requires CollegesInBody(colleges, |body|)
    ensures Distinct(Links(PassDepts(p, link, body, colleges, processed)))
  {
    var ds := PassDepts(p, link, body, colleges, processed);
    PassStemsUnique(p, link, body, colleges, processed);
    var stems := LibExtract.LinkStems(ds, link);
    forall k, l | 0 <= k < l < |ds|
      ensures ds[k].link != ds[l].link
    {
      assert stems[k] != stems[l];
    }
  }

  /** Over a pass that reaches the database and the root page, with every
      slice in range, the root is requested first and each department page
      at most once. */
  lemma ScrapeRequestsOnce(p: Ports, link: string, body: string)
    requires p.ping.None? && GetPage(link, p.respond(link)) == Ok(body)
    requires CollegesInBody(p.colleges(body).0, |body|)
    requires PagesReadable(p, PassDepts(p, link, body, p.colleges(body).0, {}))
    ensures |Gets(Scrape(p, link).events)| > 0 && Gets(Scrape(p, link).events)[0] == link
    ensures Distinct(Gets(Scrape(p, link).events)[1..])
  {
    ScrapeInserts(p, link, body);
    PassLinksDistinct(p, link, body, p.colleges(body).0, {});
    assert Gets(Scrape(p, link).events)[1..] == Links(PassDepts(p, link, body, p.colleges(body).0, {}));
  }

  /** The events of a college before its departments: its insert and the
      logged extraction error. */
  function CollegeHead(p: Ports, link: string, body: string, c: College, processed: set<string>)
    : seq<Event<Record>>
    requires InBody(c.position, |body|)
  {
    Step(CollegeRecord(c), p.insert, LogError()) + Logged(CollegeDepts(p, link, body, c, processed).1)
  }

  lemma CollegeHeadEvents(p: Ports, link: string, body: string, c: College, processed: set<string>)
    requires InBody(c.position, |body|)
    ensures Inserts(CollegeHead(p, link, body, c, processed)) == [CollegeRecord(c)]
    ensures Gets(CollegeHead(p, link, body, c, processed)) == []
  {
    var err := CollegeDepts(p, link, body, c, processed).1;
    StepEvents(CollegeRecord(c), p.insert, LogError());
    LoggedEvents(err);
    InsertsAppend(Step(CollegeRecord(c), p.insert, LogError()), Logged(err));
    GetsAppend(Step(CollegeRecord(c), p.insert, LogError()), Logged(err));
  }

  lemma CollegesRunUnfold(p: Ports, link: string, body: string, colleges: seq<College>, processed: set<string>)
    requires |colleges| > 0 && InBody(colleges[0].position, |body|)
    ensures var (depts, _, seen) := CollegeDepts(p, link, body, colleges[0], processed);
      CollegesRun(p, link, body, colleges, processed)
        == Then(Done(CollegeHead(p, link, body, colleges[0], processed)),
                Then(DeptsRun(p, depts), CollegesRun(p, link, body, colleges[1..], seen)))
  {
  }

  /** The college loop over colleges inside the page does not panic. */
  lemma {:induction false} CollegesRunCompletes(p: Ports, link: string, body: string, colleges: seq<College>,
                                                processed: set<string>)
    requires CollegesInBody(colleges, |body|)
    requires PagesReadable(p, PassDepts(p, link, body, colleges, processed))
    ensures CollegesRun(p, link, body, colleges, processed).panic.None?
    decreases |colleges|
  {
    if |colleges| > 0 {
      var (depts, _, seen) := CollegeDepts(p, link, body, colleges[0], processed);
      CollegesRunUnfold(p, link, body, colleges, processed);
      PassPages(p, link, body, colleges, processed);
      DeptsRunCompletes(p, depts);
      CollegesRunCompletes(p, link, body, colleges[1..], seen);
    }
  }

  /** A department of the pass that is not readable ends the college loop
      with a slice-bounds panic. */
  lemma {:induction false} CollegesRunPanics(p: Ports, link: string, body: string, colleges: seq<College>,
                                             processed: set<string>)
    requires CollegesInBody(colleges, |body|)
    requires !PagesReadable(p, PassDepts(p, link, body, colleges, processed))
    ensures CollegesRun(p, link, body, colleges, processed).panic == Some(SliceBounds)
    decreases |colleges|
  {
    CollegesRunQuiet(p, link, body, colleges, processed);
  }

  /** The college loop completes exactly when every department of the
      pass is readable. */
  lemma {:induction false} CollegesRunQuiet(p: Ports, link: string, body: string, colleges: seq<College>,
                                            processed: set<string>)
    requires CollegesInBody(colleges, |body|)
    ensures CollegesRun(p, link, body, colleges, processed).panic.None?
        <==> PagesReadable(p, PassDepts(p, link, body, colleges, processed))
    decreases |colleges|
  {
    if |colleges| > 0 {
      var (depts, _, seen) := CollegeDepts(p, link, body, colleges[0], processed);
      CollegesRunUnfold(p, link, body, colleges, processed);
      ThenPanic(CollegeHead(p, link, body, colleges[0], processed), DeptsRun(p, depts),
                CollegesRun(p, link, body, colleges[1..], seen));
      DeptsRunQuiet(p, depts);
      PassReadable(p, link, body, colleges, processed);
      CollegesRunQuiet(p, link, body, colleges[1..], seen);
    }
  }

  /** The department loop completes exactly when its departments are
      readable. */
  lemma DeptsRunQuiet(p: Ports, ds: seq<Dept>)
    ensures DeptsRun(p, ds).panic.None? <==> PagesReadable(p, ds)
  {
    if PagesReadable(p, ds) {
      DeptsRunCompletes(p, ds);
    } else {
      DeptsRunPanics(p, ds);
    }
  }

  /** The pass is readable exactly when the first college's departments
      and the rest of the pass are. */
  lemma PassReadable(p: Ports, link: string, body: string, colleges: seq<College>, processed: set<string>)
    requires |colleges| > 0 && CollegesInBody(colleges, |body|)
    ensures var (depts, _, seen) := CollegeDepts(p, link, body, colleges[0], processed);
      (PagesReadable(p, PassDepts(p, link, body, colleges, processed))
       <==> PagesReadable(p, depts) && PagesReadable(p, PassDepts(p, link, body, colleges[1..], seen)))
  {
    var (depts, _, seen) := CollegeDepts(p, link, body, colleges[0], processed);
    var rest := PassDepts(p, link, body, colleges[1..], seen);
    PassDeptsUnfold(p, link, body, colleges, processed);
    if PagesReadable(p, depts + rest) {
      PagesReadableSplit(p, depts, rest);
    }
    if PagesReadable(p, depts) && PagesReadable(p, rest) {
      PagesReadableJoin(p, depts, rest);
    }
  }

  /** The college loop inserts each college before the departments of its
      slice and what they insert. */
  lemma {:induction false} CollegesRunInserts(p: Ports, link: string, body: string, colleges: seq<College>,
                                              processed: set<string>)
    requires CollegesInBody(colleges, |body|)
    requires PagesReadable(p, PassDepts(p, link, body, colleges, processed))
    ensures Inserts(CollegesRun(p, link, body, colleges, processed).events)
         == PassRecords(p, link, body, colleges, processed)
    decreases |colleges|
  {
    if |colleges| > 0 {
      var c := colleges[0];
      var (depts, _, seen) := CollegeDepts(p, link, body, c, processed);
      var head := CollegeHead(p, link, body, c, processed);
      var mid := DeptsRun(p, depts);
      var rest := CollegesRun(p, link, body, colleges[1..], seen);
      CollegesRunUnfold(p, link, body, colleges, processed);
      PassPages(p, link, body, colleges, processed);
      CollegeHeadEvents(p, link, body, c, processed);
      DeptsRunCompletes(p, depts);
      DeptsRunInserts(p, depts);
      CollegesRunInserts(p, link, body, colleges[1..], seen);
      InsertsAppend(mid.events, rest.events);
      InsertsAppend(head, mid.events + rest.events);
    }
  }

  /** The college loop requests each department's page once, in order. */
  lemma {:induction false} CollegesRunGets(p: Ports, link: string, body: string, colleges: seq<College>,
                                           processed: set<string>)
    requires CollegesInBody(colleges, |body|)
    requires PagesReadable(p, PassDepts(p, link, body, colleges, processed))
    ensures Gets(CollegesRun(p, link, body, colleges, processed).events)
         == Links(PassDepts(p, link, body, colleges, processed))
    decreases |colleges|
  {
    if |colleges| > 0 {
      var c := colleges[0];
      var (depts, _, seen) := CollegeDepts(p, link, body, c, processed);
      var head := CollegeHead(p, link, body, c, processed);
      var mid := DeptsRun(p, depts);
      var rest := CollegesRun(p, link, body, colleges[1..], seen);
      CollegesRunUnfold(p, link, body, colleges, processed);
      PassPages(p, link, body, colleges, processed);
      CollegeHeadEvents(p, link, body, c, processed);
      DeptsRunCompletes(p, depts);
      DeptsRunGets(p, depts);
      CollegesRunGets(p, link, body, colleges[1..], seen);
      GetsAppend(mid.events, rest.events);
      GetsAppend(head, mid.events + rest.events);
      PassDeptsUnfold(p, link, body, colleges, processed);
      LinksAppend(depts, PassDepts(p, link, body, colleges[1..], seen));
    }
  }

  /** With every college slice in range and every department readable, a
      pass that reaches the database and the root page never panics,
      whatever fails later: it inserts each college, then what its
      departments insert, and requests the root, then each department's
      page once, in order. */
  lemma ScrapeInserts(p: Ports, link: string, body: string)
    requires p.ping.None? && GetPage(link, p.respond(link)) == Ok(body)
    requires CollegesInBody(p.colleges(body).0, |body|)
    requires PagesReadable(p, PassDepts(p, link, body, p.colleges(body).0, {}))
    ensures Scrape(p, link).panic.None?
    ensures Inserts(Scrape(p, link).events) == PassRecords(p, link, body, p.colleges(body).0, {})
    ensures Gets(Scrape(p, link).events) == [link] + Links(PassDepts(p, link, body, p.colleges(body).0, {}))
  {
    var (colleges, err) := p.colleges(body);
    var head := [Get(link)] + Logged(err) + [Report("starting scrape")];
    var rest := CollegesRun(p, link, body, colleges, {});
    assert Scrape(p, link) == Then(Done(head), rest);
    ScrapeHeadEvents(link, err);
    CollegesRunCompletes(p, link, body, colleges, {});
    CollegesRunInserts(p, link, body, colleges, {});
    CollegesRunGets(p, link, body, colleges, {});
    InsertsAppend(head, rest.events);
    GetsAppend(head, rest.events);
  }

  /** With every college slice in range, a pass that reaches the database
      and the root page panics when one of its departments is not
      readable: the pass stops there. */
  lemma ScrapePanics(p: Ports, link: string, body: string)
    requires p.ping.None? && GetPage(link, p.respond(link)) == Ok(body)
    requires CollegesInBody(p.colleges(body).0, |body|)
    requires !PagesReadable(p, PassDepts(p, link, body, p.colleges(body).0, {}))
    ensures Scrape(p, link).panic == Some(SliceBounds)
  {
    var (colleges, err) := p.colleges(body);
    var head := [Get(link)] + Logged(err) + [Report("starting scrape")];
    assert Scrape(p, link) == Then(Done(head), CollegesRun(p, link, body, colleges, {}));
    CollegesRunPanics(p, link, body, colleges, {});
  }

  lemma ScrapeHeadEvents(link: string, err: Option<string>)
    ensures Inserts([Get(link)] + Logged(err) + [Report("starting scrape")]) == []
    ensures Gets([Get(link)] + Logged(err) + [Report("starting scrape")]) == [link]
  {
    LoggedEvents(err);
    InsertsAppend([Get(link)], Logged(err));
    InsertsAppend<Record>([Get(link)] + Logged(err), [Report("starting scrape")]);
    GetsAppend([Get(link)], Logged(err));
    GetsAppend<Record>([Get(link)] + Logged(err), [Report("starting scrape")]);
  }
}

=== FILE: bold.dfy ===
/** Highlighting of search results (goschedule/frontend/frontend.go,
    `boldPrefix` and `boldWords`). Each word of a result is wrapped in
    <strong> up to the length of a search term that is a case-insensitive
    prefix of it. */
module Bold {
  import opened Text
  import opened Outcomes

  const Open := "<strong>"
  const Close := "</strong>"

  /** The term is a case-insensitive prefix of the word. */
  predicate Prefixes(word: string, term: string) {
    HasPrefix(ToLower(word), ToLower(term))
  }

  /** `boldPrefix(word, term)`: the word with its first |term| characters
      in <strong>, or "" when the term is not a prefix of it. */
  function BoldPrefix(word: string, term: string): (r: string)
    ensures r != "" <==> Prefixes(word, term)
    ensures r != "" ==> |r| == |word| + |Open| + |Close|
  {
    if Prefixes(word, term) then Open + (word[..|term|] + Close + word[|term|..]) else ""
  }

  /** The bolded word opens and closes the tag around the matched prefix,
      which reads as the term up to case, and dropping the tags gives the
      word back. */
  lemma BoldPrefixShape(word: string, term: string)
    requires Prefixes(word, term)
    ensures var r := BoldPrefix(word, term);
      var n := |term|;
      r[..8] == Open && r[8 + n..17 + n] == Close &&
      ToLower(r[8..8 + n]) == ToLower(term) &&
      r[8..8 + n] + r[17 + n..] == word
  {
    var r := BoldPrefix(word, term);
    var n := |term|;
    assert r == Open + word[..n] + Close + word[n..];
    assert r[..8] == Open;
    assert r[8..8 + n] == word[..n];
    assert r[8 + n..17 + n] == Close;
    assert r[17 + n..] == word[n..];
    assert ToLower(word[..n]) == ToLower(word)[..n];
    assert word[..n] + word[n..] == word;
  }

  // ---------------------------------------------------------------- one word

  /** The term can bold the word: it is non-empty and a prefix of it. */
  predicate Bolds(word: string, term: string) {
    |term| > 0 && Prefixes(word, term)
  }

  /** The inner loop of `boldWords` over the terms, with its two variables
      `outWord` and `longestSearchTerm`: a term replaces the choice when it
      is longer than the chosen term AND its bolding is longer than the
      chosen one. */
  function Pick(word: string, terms: seq<string>, out: string, longest: string): (r: (string, string))
    ensures r.0 == out || exists k :: 0 <= k < |terms| && r.0 == BoldPrefix(word, terms[k])
    ensures |r.0| >= |out| && |r.1| >= |longest|
    decreases |terms|
  {
    if |terms| == 0 then (out, longest)
    else
      var checked := BoldPrefix(word, terms[0]);
      if |terms[0]| > |longest| && |checked| > |out| then Pick(word, terms[1..], checked, terms[0])
      else Pick(word, terms[1..], out, longest)
  }

  /** One word after the inner loop: the chosen bolding, or the word
      itself when there is none. */
  function BoldWord(word: string, terms: seq<string>): (r: string)
    ensures r == word || exists k :: 0 <= k < |terms| && r == BoldPrefix(word, terms[k]) && Prefixes(word, terms[k])
    ensures |r| == |word| || |r| == |word| + |Open| + |Close|
  {
    var out := Pick(word, terms, "", "").0;
    if |out| > 0 then out else word
  }

  /** The first term that bolds the word, if any. */
  function FirstBolding(word: string, terms: seq<string>): (r: Option<nat>)
    ensures r.Some? ==> (r.value < |terms| && Bolds(word, terms[r.value]) &&
      forall j :: 0 <= j < r.value ==> !Bolds(word, terms[j]))
    ensures r.None? ==> forall j :: 0 <= j < |terms| ==> !Bolds(word, terms[j])
    decreases |terms|
  {
    if |terms| == 0 then None
    else if Bolds(word, terms[0]) then Some(0)
    else match FirstBolding(word, terms[1..])
      case None => None
      case Some(j) => Some(j + 1)
  }

  /** Once a bolding is chosen no later term replaces it: every bolding of
      the word has the same length. */
  lemma {:induction false} PickKeeps(word: string, terms: seq<string>, out: string, longest: string)
    requires |out| == |word| + |Open| + |Close|
    ensures Pick(word, terms, out, longest).0 == out
    decreases |terms|
  {
    if |terms| > 0 {
      var checked := BoldPrefix(word, terms[0]);
      if |terms[0]| > |longest| && |checked| > |out| {
        assert false;
      }
      PickKeeps(word, terms[1..], out, longest);
    }
  }

  /** Before a choice, the loop chooses the bolding of the first term that
      bolds the word, or nothing. */
  lemma {:induction false} PickFirst(word: string, terms: seq<string>)
    ensures FirstBolding(word, terms).None? ==> Pick(word, terms, "", "").0 == ""
    ensures FirstBolding(word, terms).Some? ==>
      Pick(word, terms, "", "").0 == BoldPrefix(word, terms[FirstBolding(word, terms).value])
    decreases |terms|
  {
    if |terms| > 0 {
      var checked := BoldPrefix(word, terms[0]);
      if Bolds(word, terms[0]) {
        PickKeeps(word, terms[1..], checked, terms[0]);
      } else {
        assert !(|terms[0]| > 0 && |checked| > 0);
        PickFirst(word, terms[1..]);
      }
    }
  }

  /** `boldWords` bolds a word with the FIRST term that is a prefix of it,
      whatever longer terms follow; a word no term bolds is unchanged. */
  lemma BoldWordFirst(word: string, terms: seq<string>)
    ensures FirstBolding(word, terms).None? ==> BoldWord(word, terms) == word
    ensures FirstBolding(word, terms).Some? ==>
      BoldWord(word, terms) == BoldPrefix(word, terms[FirstBolding(word, terms).value])
  {
    PickFirst(word, terms);
  }

  // ---------------------------------------------------------------- longest

  /** The loop as its variable names mean it: a bolding term replaces the
      choice when it is longer than the chosen term. */
  function PickLongest(word: string, terms: seq<string>, out: string, longest: string): (r: (string, string))
    decreases |terms|
  {
    if |terms| == 0 then (out, longest)
    else
      var checked := BoldPrefix(word, terms[0]);
      if |terms[0]| > |longest| && |checked| > 0 then PickLongest(word, terms[1..], checked, terms[0])
      else PickLongest(word, terms[1..], out, longest)
  }

  function BoldWordLongest(word: string, terms: seq<string>): string {
    var out := PickLongest(word, terms, "", "").0;
    if |out| > 0 then out else word
  }

  /** From a state where `out` bolds with `longest` (or nothing is chosen
      yet), the loop ends on a bolding term at least as long as every
      bolding term it saw. */
  lemma {:induction false} PickLongestChooses(word: string, terms: seq<string>, out: string, longest: string)
    requires (out == "" && longest == "") || (Bolds(word, longest) && out == BoldPrefix(word, longest))
    ensures var (o, l) := PickLongest(word, terms, out, longest);
      (o == "" && l == "" && out == "" && forall j :: 0 <= j < |terms| ==> !Bolds(word, terms[j])) ||
      (Bolds(word, l) && o == BoldPrefix(word, l) && |l| >= |longest| &&
       (l == longest || l in terms) &&
       forall j :: 0 <= j < |terms| && Bolds(word, terms[j]) ==> |terms[j]| <= |l|)
    decreases |terms|
  {
    if |terms| > 0 {
      var checked := BoldPrefix(word, terms[0]);
      var (o, l) := PickLongest(word, terms, out, longest);
      if |terms[0]| > |longest| && |checked| > 0 {
        PickLongestChooses(word, terms[1..], checked, terms[0]);
        assert forall j :: 1 <= j < |terms| ==> terms[j] == terms[1..][j - 1];
      } else {
        PickLongestChooses(word, terms[1..], out, longest);
        assert forall j :: 1 <= j < |terms| ==> terms[j] == terms[1..][j - 1];
        if Bolds(word, terms[0]) {
          assert |terms[0]| <= |longest|;
        }
      }
    }
  }

  /** The corrected loop bolds a word with a longest term that is a prefix
      of it; a word no term bolds is unchanged. */
  lemma BoldWordLongestMeaning(word: string, terms: seq<string>)
    ensures FirstBolding(word, terms).None? ==> BoldWordLongest(word, terms) == word
    ensures FirstBolding(word, terms).Some? ==>
      exists t :: t in terms && Bolds(word, t) && BoldWordLongest(word, terms) == BoldPrefix(word, t) &&
        forall j :: 0 <= j < |terms| && Bolds(word, terms[j]) ==> |terms[j]| <= |t|
  {
    PickLongestChooses(word, terms, "", "");
  }

  /** As written, a shorter bolding term listed first wins over a longer
      one; the corrected loop takes the longer. */
  lemma ShorterTermWins(word: string, a: string, b: string)
    requires Bolds(word, a) && Bolds(word, b) && |a| < |b|
    ensures BoldWord(word, [a, b]) == BoldPrefix(word, a)
    ensures BoldWordLongest(word, [a, b]) == BoldPrefix(word, b)
  {
    BoldWordFirst(word, [a, b]);
    assert [a, b][1..] == [b];
    assert PickLongest(word, [a, b], "", "") == PickLongest(word, [b], BoldPrefix(word, a), a);
    assert PickLongest(word, [b], BoldPrefix(word, a), a) == PickLongest(word, [], BoldPrefix(word, b), b);
  }

  /** The search "c cse" against the word "cse142": as written the result
      is "<strong>c</strong>se142" (a '<' after one letter), not "<strong>cse</strong>142". */
  lemma FirstTermCounterexample(word: string, a: string, b: string)
    requires word == "cse142" && a == "c" && b == "cse"
    ensures BoldWord(word, [a, b]) != BoldWordLongest(word, [a, b])
    ensures |BoldWord(word, [a, b])| > 9 && BoldWord(word, [a, b])[9] == '<'
    ensures |BoldWordLongest(word, [a, b])| > 9 && BoldWordLongest(word, [a, b])[9] == 's'
  {
    assert ToLower(word)[..1] == ToLower(a) by {
      assert ToLower(word)[0] == 'c';
    }
    assert ToLower(word)[..3] == ToLower(b) by {
      assert ToLower(word)[0] == 'c' && ToLower(word)[1] == 's' && ToLower(word)[2] == 'e';
    }
    ShorterTermWins(word, a, b);
    BoldPrefixShape(word, a);
    BoldPrefixShape(word, b);
    assert BoldPrefix(word, a)[9] == Close[0];
    assert BoldPrefix(word, b)[9] == word[1];
  }

  // ---------------------------------------------------------------- words

  /** `boldWords(search, in)`: each ' '-separated word of the trimmed
      result text bolded with the trimmed search's terms. */
  function BoldWords(search: string, text: string): (r: string)
    ensures ' ' !in TrimSpace(text) ==> r == BoldWord(TrimSpace(text), Split(TrimSpace(search), ' '))
  {
    OneWord(TrimSpace(text));
    var words := Split(TrimSpace(text), ' ');
    var terms := Split(TrimSpace(search), ' ');
    Join(seq(|words|, i requires 0 <= i < |words| => BoldWord(words[i], terms)), ' ')
  }

  /** A text without a blank is one word. */
  lemma OneWord(s: string)
    ensures ' ' !in s ==> Split(s, ' ') == [s]
  {
    if ' ' !in s {
      SplitWithoutSeparator(s, ' ');
    }
  }

  /** The result has one word per word of the text, in order: each is the
      word bolded with the first search term that is a prefix of it, or
      the word itself. */
  lemma BoldWordsPerWord(search: string, text: string)
    ensures var words := Split(TrimSpace(text), ' ');
      var terms := Split(TrimSpace(search), ' ');
      var out := Split(BoldWords(search, text), ' ');
      |out| == |words| &&
      forall i :: 0 <= i < |words| ==> out[i] == BoldWord(words[i], terms)
  {
    var words := Split(TrimSpace(text), ' ');
    var terms := Split(TrimSpace(search), ' ');
    var bolded := seq(|words|, i requires 0 <= i < |words| => BoldWord(words[i], terms));
    forall i | 0 <= i < |words|
      ensures ' ' !in bolded[i]
    {
      BoldWordFirst(words[i], terms);
      var f := FirstBolding(words[i], terms);
      if f.Some? {
        NoBlankInBolding(words[i], terms[f.value]);
      }
    }
    SplitJoin(bolded, ' ');
  }

  /** Bolding a word without blanks adds none. */
  lemma NoBlankInBolding(word: string, term: string)
    requires ' ' !in word && Prefixes(word, term)
    ensures ' ' !in BoldPrefix(word, term)
  {
    var n := |term|;
    assert BoldPrefix(word, term) == Open + (word[..n] + Close + word[n..]);
    assert ' ' !in Open && ' ' !in Close;
    assert forall c :: c in word[..n] ==> c in word;
    assert forall c :: c in word[n..] ==> c in word;
  }
}

=== FILE: class_chunks.dfy ===
/** The class chunks of a department page (`(?is)<table
    bgcolor="#ffcccc".*?</table>`), as every extractor revision receives
    them once the regular expression has matched. */
module ClassChunks {

  /** One chunk: its start offset in the page, and the first matches of
      `(?i)name=.*?>` and `(?i)<a href.*?>.+?</a>` inside it ("" when there
      is none). */
  datatype ClassChunk = ClassChunk(start: nat, name: string, title: string)

  /** Matches of one regular expression come in page order, do not
      overlap, and start inside the page. */
  predicate InPage(chunks: seq<ClassChunk>, contentLength: nat) {
    && (forall i, j :: 0 <= i < j < |chunks| ==> chunks[i].start < chunks[j].start)
    && (forall i :: 0 <= i < |chunks| ==> chunks[i].start < contentLength)
  }
}

=== FILE: columns.dfy ===
/** The fixed-width layout of the first line of a section listing, once
    the HTML tags are gone, and the decoding every extractor revision
    applies to it: trimmed cells cut at fixed byte columns, the seat counts
    read from the "spots" cell, and the meeting time read from columns
    24 to 56 of any line the meeting-time pattern matches. */
module Columns {
  import opened Text
  import opened Outcomes
  import opened MeetingPatterns

  /** `MeetingTime` (datatypes.go, scraper/database/models.go). */
  datatype MeetingTime = MeetingTime(days: string, time: string, building: string, room: string)

  /** Column boundaries of the first line: restriction 0-7, SLN 7-13,
      section 13-16, credit 16-24, days 24-31, time 31-42, building 42-47,
      room 47-56, instructor 56-83, status 83-89, spots 89-101,
      grades 101-108, fee 108-115; "other" is everything from 115 on. */
  const Stops: seq<nat> := [0, 7, 13, 16, 24, 31, 42, 47, 56, 83, 89, 101, 108, 115]

  const CellCount: nat := 13

  /** The stops one by one. */
  lemma StopValues()
    ensures |Stops| == 14
    ensures Stops[0] == 0 && Stops[1] == 7 && Stops[2] == 13 && Stops[3] == 16 && Stops[4] == 24
    ensures Stops[5] == 31 && Stops[6] == 42 && Stops[7] == 47 && Stops[8] == 56 && Stops[9] == 83
    ensures Stops[10] == 89 && Stops[11] == 101 && Stops[12] == 108 && Stops[13] == 115
  {
  }

  /** Index of each named cell in `Stops`. */
  const Restriction: nat := 0
  const Sln: nat := 1
  const Section: nat := 2
  const Credit: nat := 3
  const Days: nat := 4
  const Time: nat := 5
  const Building: nat := 6
  const Room: nat := 7
  const Instructor: nat := 8
  const Status: nat := 9
  const Spots: nat := 10
  const Grades: nat := 11
  const Fee: nat := 12

  /** Width of cell k. */
  function Width(k: nat): nat
    requires k < CellCount
  {
    Stops[k + 1] - Stops[k]
  }

  /** `strings.TrimSpace(line[Stops[k]:Stops[k+1]])`; the slice is in range
      only when the line reaches the end of the cell. */
  function Cell(line: string, k: nat): (r: string)
    requires k < CellCount && |line| >= Stops[k + 1]
    ensures |r| <= Width(k)
  {
    TrimSpace(line[Stops[k]..Stops[k + 1]])
  }

  /** `checkMeetingTime(line)`: a meeting time exactly when the pattern
      occurs, read from the days/time/building/room cells. Go slices
      line[24:56] only when the pattern occurs, so only then must the line
      be that long. */
  function CheckMeetingTime(line: string, p: MeetingPattern): (r: Option<MeetingTime>)
    requires Matches(line, p) ==> |line| >= Stops[Room + 1]
    ensures r.Some? <==> Matches(line, p)
    ensures r.Some? ==> |r.value.days| <= 7 && |r.value.time| <= 11
                        && |r.value.building| <= 5 && |r.value.room| <= 9
  {
    if Matches(line, p) then Some(MeetingCells(line)) else None
  }

  /** The days, time, building and room cells of a line reaching column 56. */
  function MeetingCells(line: string): (r: MeetingTime)
    requires |line| >= Stops[Room + 1]
    ensures |r.days| <= 7 && |r.time| <= 11 && |r.building| <= 5 && |r.room| <= 9
  {
    StopValues();
    MeetingTime(Cell(line, Days), Cell(line, Time), Cell(line, Building), Cell(line, Room))
  }

  /** The cells of the first line that are not part of the meeting time. */
  datatype Row = Row(restriction: string, sln: string, section: string, credit: string,
                     instructor: string, status: string, spots: string,
                     grades: string, fee: string, other: string)

  /** The first-line fields every revision reads, before any lower-casing;
      `line[115:]` needs a line of at least 115 characters. */
  function DecodeRow(line: string): (r: Row)
    requires |line| >= Stops[CellCount]
    ensures |r.restriction| <= 7 && |r.sln| <= 6 && |r.section| <= 3 && |r.credit| <= 8
    ensures |r.instructor| <= 27 && |r.status| <= 6 && |r.spots| <= 12
    ensures |r.grades| <= 7 && |r.fee| <= 7
  {
    StopValues();
    Row(Cell(line, Restriction), Cell(line, Sln), Cell(line, Section), Cell(line, Credit),
        Cell(line, Instructor), Cell(line, Status), Cell(line, Spots),
        Cell(line, Grades), Cell(line, Fee), TrimSpace(line[Stops[CellCount]..]))
  }

  // ---------------------------------------------------------------- layout: the inverse of decoding

  /** A text with no white space at either end: what TrimSpace returns. */
  predicate Trimmed(s: string) {
    |s| == 0 || (!IsSpace(s[0]) && !IsSpace(s[|s| - 1]))
  }

  function Spaces(n: nat): (r: string)
    ensures |r| == n && forall i :: 0 <= i < n ==> r[i] == ' '
  {
    seq(n, i => ' ')
  }

  /** A cell padded with blanks to its width, as the schedule prints it. */
  function Pad(s: string, w: nat): (r: string)
    requires |s| <= w
    ensures |r| == w && r[..|s|] == s
  {
    s + Spaces(w - |s|)
  }

  /** The first k cells, padded to their widths and laid side by side. */
  function Layout(cells: seq<string>, k: nat): (r: string)
    requires k <= CellCount && |cells| == CellCount
    requires forall j :: 0 <= j < CellCount ==> |cells[j]| <= Width(j)
    ensures |r| == Stops[k]
  {
    if k == 0 then "" else Layout(cells, k - 1) + Pad(cells[k - 1], Width(k - 1))
  }

  /** Blank padding is what TrimSpace takes off again. */
  lemma {:induction false} TrimPadded(s: string, n: nat)
    requires Trimmed(s)
    ensures TrimSpace(s + Spaces(n)) == s
    decreases n
  {
    var t := s + Spaces(n);
    if n == 0 {
      assert t == s;
      if |s| > 0 {
        assert TrimLeft(s) == s;
      }
    } else {
      TrimPadded(s, n - 1);
      assert t[..|t| - 1] == s + Spaces(n - 1);
      if |s| > 0 {
        assert TrimLeft(t) == t;
        assert TrimLeft(s + Spaces(n - 1)) == s + Spaces(n - 1);
      } else {
        assert forall i :: 0 <= i < |t| ==> IsSpace(t[i]);
      }
    }
  }

  /** Cell j of a layout of k cells sits between stops j and j + 1. */
  lemma {:induction false} LayoutSlice(cells: seq<string>, k: nat, j: nat)
    requires k <= CellCount && |cells| == CellCount && j < k
    requires forall i :: 0 <= i < CellCount ==> |cells[i]| <= Width(i)
    ensures Stops[j] <= Stops[j + 1] <= Stops[k]
    ensures Layout(cells, k)[Stops[j]..Stops[j + 1]] == Pad(cells[j], Width(j))
    decreases k
  {
    var prev := Layout(cells, k - 1);
    var pad := Pad(cells[k - 1], Width(k - 1));
    assert Layout(cells, k) == prev + pad;
    if j < k - 1 {
      LayoutSlice(cells, k - 1, j);
      SliceOfPrefix(prev, pad, Stops[j], Stops[j + 1]);
    } else {
      assert (prev + pad)[|prev|..|prev + pad|] == pad;
    }
  }

  /** A first line printed from cells that fit their columns, followed by
      the "other" field. */
  function PrintLine(cells: seq<string>, other: string): (line: string)
    requires |cells| == CellCount
    requires forall k :: 0 <= k < CellCount ==> |cells[k]| <= Width(k)
    ensures |line| == Stops[CellCount] + |other|
  {
    Layout(cells, CellCount) + other
  }

  /** Decoding undoes printing: a trimmed cell comes back as printed. */
  lemma DecodePrintedCell(cells: seq<string>, other: string, k: nat)
    requires |cells| == CellCount && k < CellCount
    requires forall j :: 0 <= j < CellCount ==> |cells[j]| <= Width(j)
    requires Trimmed(cells[k])
    ensures Cell(PrintLine(cells, other), k) == cells[k]
  {
    LayoutSlice(cells, CellCount, k);
    SliceOfPrefix(Layout(cells, CellCount), other, Stops[k], Stops[k + 1]);
    TrimPadded(cells[k], Width(k) - |cells[k]|);
  }

  lemma SliceOfPrefix(a: string, b: string, lo: nat, hi: nat)
    requires lo <= hi <= |a|
    ensures (a + b)[lo..hi] == a[lo..hi]
  {
    assert forall i :: lo <= i < hi ==> (a + b)[i] == a[i];
  }

  /** ... and so does a trimmed "other" field. */
  lemma DecodePrintedOther(cells: seq<string>, other: string)
    requires |cells| == CellCount
    requires forall j :: 0 <= j < CellCount ==> |cells[j]| <= Width(j)
    requires Trimmed(other)
    ensures TrimSpace(PrintLine(cells, other)[Stops[CellCount]..]) == other
  {
    assert PrintLine(cells, other)[Stops[CellCount]..] == other;
    if |other| > 0 {
      assert TrimLeft(other) == other;
    }
  }

  /** The whole row comes back from a printed line. */
  lemma DecodePrintedRow(cells: seq<string>, other: string)
    requires |cells| == CellCount
    requires forall j :: 0 <= j < CellCount ==> |cells[j]| <= Width(j) && Trimmed(cells[j])
    requires Trimmed(other)
    ensures DecodeRow(PrintLine(cells, other))
         == Row(cells[Restriction], cells[Sln], cells[Section], cells[Credit],
                cells[Instructor], cells[Status], cells[Spots],
                cells[Grades], cells[Fee], other)
  {
    var line := PrintLine(cells, other);
    forall k | 0 <= k < CellCount
      ensures Cell(line, k) == cells[k]
    {
      DecodePrintedCell(cells, other, k);
    }
    DecodePrintedOther(cells, other);
  }

  // ---------------------------------------------------------------- seats

  /** The `\d+` runs of the trimmed spots cell. */
  function SpotRuns(spots: string): seq<string> {
    Runs(spots, Digits)
  }

  /** lib/extract.go and extract.go: taken and total seats are the first two
      digit runs when there are at least two, and both stay 0 otherwise. */
  function SeatsIfTwo(spots: string): (r: (int, int))
    ensures |SpotRuns(spots)| < 2 ==> r == (0, 0)
    ensures |SpotRuns(spots)| >= 2 ==> r == (Decimal(SpotRuns(spots)[0]), Decimal(SpotRuns(spots)[1]))
  {
    var m := SpotRuns(spots);
    if |m| > 1 then (Decimal(m[0]), Decimal(m[1])) else (0, 0)
  }

  /** The spots cell is twelve characters wide, so neither count can
      overflow the 64-bit `ParseInt` / `Atoi` result. */
  lemma SeatsFitInt64(spots: string)
    requires |spots| <= Width(Spots)
    ensures 0 <= SeatsIfTwo(spots).0 < 0x8000_0000_0000_0000
    ensures 0 <= SeatsIfTwo(spots).1 < 0x8000_0000_0000_0000
  {
    var m := SpotRuns(spots);
    assert Pow10(12) == 1_000_000_000_000;
    if |m| > 1 {
      RunsShorter(spots, Digits);
      DecimalBound(m[0]);
      DecimalBound(m[1]);
      PowMonotone(|m[0]|, 12);
      PowMonotone(|m[1]|, 12);
    }
  }

  /** crawler/extract/extract.go and scraper/extract/extract.go read m[0]
      and m[1] as soon as there is any digit run, so a single run is out of
      range there; otherwise they agree with the lib revision. */
  function SeatsIfAny(spots: string): (r: (int, int))
    requires |SpotRuns(spots)| != 1
    ensures r == SeatsIfTwo(spots)
  {
    var m := SpotRuns(spots);
    if |m| > 0 then (Decimal(m[0]), Decimal(m[1])) else (0, 0)
  }

  /** A spots cell that is one number (a class without a limit printed as
      "5", say) has exactly one digit run: the crawler and scraper
      revisions then read `m[1]` out of range, where the lib revision
      leaves both counts 0. */
  lemma OneNumberOneRun(spots: string)
    requires |spots| > 0 && AllDigits(spots)
    ensures |SpotRuns(spots)| == 1
    ensures SeatsIfTwo(spots) == (0, 0)
  {
    RunLengthAll(spots);
    assert spots[|spots|..] == [];
  }

  lemma {:induction false} RunsShorter(s: string, k: CharClass)
    ensures forall i :: 0 <= i < |Runs(s, k)| ==> |Runs(s, k)[i]| <= |s|
    decreases |s|
  {
    if |s| > 0 {
      if InClass(s[0], k) {
        RunsShorter(s[RunLength(s, k)..], k);
      } else {
        RunsShorter(s[1..], k);
      }
    }
  }

  lemma {:induction false} PowMonotone(a: nat, b: nat)
    requires a <= b
    ensures Pow10(a) <= Pow10(b)
    decreases b
  {
    if a < b {
      PowMonotone(a, b - 1);
    }
  }

  /** Runs of a printed number followed by a digit-free separator. */
  lemma RunsOfNumberThen(n: nat, rest: string)
    requires |rest| > 0 && !IsDigit(rest[0])
    ensures Runs(Itoa(n) + rest, Digits) == [Itoa(n)] + Runs(rest, Digits)
  {
    var d := Itoa(n);
    var s := d + rest;
    RunLengthOf(d, rest);
    assert s[..|d|] == d && s[|d|..] == rest;
  }

  lemma {:induction false} RunLengthOf(d: string, rest: string)
    requires AllDigits(d)
    requires |rest| > 0 && !IsDigit(rest[0])
    ensures RunLength(d + rest, Digits) == |d|
    decreases |d|
  {
    if |d| > 0 {
      assert (d + rest)[1..] == d[1..] + rest;
      RunLengthOf(d[1..], rest);
    } else {
      assert d + rest == rest;
    }
  }

  /** Seats printed as "<taken><sep><total>" with a digit-free separator
      read back as the two numbers. */
  lemma SeatsOfPrinted(taken: nat, total: nat, sep: string)
    requires |sep| > 0 && forall i :: 0 <= i < |sep| ==> !IsDigit(sep[i])
    ensures SeatsIfTwo(Itoa(taken) + sep + Itoa(total)) == (taken, total)
  {
    PrintedRuns(taken, total, sep);
    DecimalItoa(taken);
    DecimalItoa(total);
  }

  /** The digit runs of "<taken><sep><total>" are the two numbers. */
  lemma PrintedRuns(taken: nat, total: nat, sep: string)
    requires |sep| > 0 && forall i :: 0 <= i < |sep| ==> !IsDigit(sep[i])
    ensures SpotRuns(Itoa(taken) + sep + Itoa(total)) == [Itoa(taken), Itoa(total)]
  {
    var a := Itoa(taken);
    var t := Itoa(total);
    var s := a + sep + t;
    assert s == a + (sep + t);
    RunsOfNumberThen(taken, sep + t);
    RunsOfDigitFree(sep, t);
    RunsOfNumber(total);
    assert Runs(s, Digits) == [a] + [t];
  }

  lemma {:induction false} RunsOfDigitFree(sep: string, t: string)
    requires forall i :: 0 <= i < |sep| ==> !IsDigit(sep[i])
    ensures Runs(sep + t, Digits) == Runs(t, Digits)
    decreases |sep|
  {
    if |sep| > 0 {
      assert (sep + t)[1..] == sep[1..] + t;
      RunsOfDigitFree(sep[1..], t);
    } else {
      assert sep + t == t;
    }
  }

  lemma RunsOfNumber(n: nat)
    ensures Runs(Itoa(n), Digits) == [Itoa(n)]
  {
    var t := Itoa(n);
    RunLengthAll(t);
    assert t[..|t|] == t && t[|t|..] == "";
  }

  lemma {:induction false} RunLengthAll(d: string)
    requires AllDigits(d)
    ensures RunLength(d, Digits) == |d|
    decreases |d|
  {
    if |d| > 0 {
      RunLengthAll(d[1..]);
    }
  }
}

=== FILE: depts.dfy ===
/** The department anchors that lib/extract.go and extract.go read from a
    college's slice of the department index, and the checks both revisions
    apply to them. Finding the anchors (`(?is)<a.+?</a>`) and decoding them
    as XML are not modelled: each anchor arrives decoded, with its `href`
    attribute and inner text, or as a decoding failure. */
module DeptAnchors {
  import opened Text
  import opened Groups

  datatype Anchor =
    | Decoded(href: string, content: string)
    | Undecodable(raw: string, reason: string)

  /** `validateDept(href, content)` (lib/extract.go, extract.go): the href
      is non-empty and not an in-page `#` link, and the text holds a
      parenthesised group (`(?is)\(.*?\)`). */
  function ValidateDept(href: string, content: string): (r: bool)
    ensures r <==> |href| > 0 && href[0] != '#' && OpenBeforeClose(content)
  {
    ParenAnyMatches(content);
    if |href| < 1 then false
    else if href[0] == '#' then false
    else if !HasMatch(content, ParenAny) then false
    else true
  }

  /** `strings.Split(href, ".")[0]`: the href up to its first dot. Split
      always yields at least one piece, so Go's `len(temp) > 0` test always
      holds and its error branch is dead. */
  function Stem(href: string): (r: string)
    ensures |r| <= |href| && href[..|r|] == r
    ensures '.' !in r
    ensures |r| < |href| ==> href[|r|] == '.'
  {
    SplitFirstPiece(href, '.');
    Split(href, '.')[0]
  }

  /** The department name: the text with every parenthesised group cut
      out, trimmed. No group is left in it. */
  function DeptName(content: string): (r: string)
    ensures !OpenBeforeClose(r)
  {
    var cut := RemoveAll(content, ParenAny);
    RemoveParenAnyLeavesNone(content);
    TrimKeepsNoGroup(cut);
    TrimSpace(cut)
  }

  /** Where the trimmed text starts. */
  function TrimOffset(s: string): nat {
    |s| - |TrimLeft(s)|
  }

  /** TrimSpace returns a slice of its input. */
  lemma TrimSlice(s: string)
    ensures TrimOffset(s) + |TrimSpace(s)| <= |s|
    ensures TrimSpace(s) == s[TrimOffset(s)..TrimOffset(s) + |TrimSpace(s)|]
  {
    var l := TrimLeft(s);
    var a := |s| - |l|;
    assert l == s[a..];
    var r := TrimRight(l);
    assert r == l[..|r|] == s[a..a + |r|];
  }

  /** A group inside a slice is a group of the whole text. */
  lemma GroupInSlice(s: string, a: nat, b: nat)
    requires a <= b <= |s|
    ensures OpenBeforeClose(s[a..b]) ==> OpenBeforeClose(s)
  {
    if OpenBeforeClose(s[a..b]) {
      var i, j :| 0 <= i < j < b - a && s[a..b][i] == '(' && s[a..b][j] == ')';
      assert s[a + i] == '(' && s[a + j] == ')';
    }
  }

  /** Trimming cannot create a group. */
  lemma TrimKeepsNoGroup(s: string)
    requires !OpenBeforeClose(s)
    ensures !OpenBeforeClose(TrimSpace(s))
  {
    TrimSlice(s);
    GroupInSlice(s, TrimOffset(s), TrimOffset(s) + |TrimSpace(s)|);
  }

  /** The error `errorsSlice.Error` prints: every message followed by
      "; ". */
  function ErrorText(errs: seq<string>): (r: string)
    ensures |errs| == 0 <==> r == ""
  {
    if |errs| == 0 then "" else errs[0] + "; " + ErrorText(errs[1..])
  }

  /** Messages are printed in order: the text of a + b is that of a, then
      that of b. */
  lemma {:induction false} ErrorTextAppend(a: seq<string>, b: seq<string>)
    ensures ErrorText(a + b) == ErrorText(a) + ErrorText(b)
    decreases |a|
  {
    if |a| > 0 {
      assert (a + b)[1..] == a[1..] + b;
      ErrorTextAppend(a[1..], b);
    } else {
      assert a + b == b;
    }
  }

  /** The message for an anchor that does not decode. */
  function UnmarshalMessage(raw: string, reason: string): string {
    "skipped a department: error unmarshalling xml (" + raw + "): " + reason
  }

  /** Number of anchors that do not decode. */
  function CountUndecodable(anchors: seq<Anchor>): nat {
    if |anchors| == 0 then 0
    else (if anchors[0].Undecodable? then 1 else 0) + CountUndecodable(anchors[1..])
  }

  lemma {:induction false} CountUndecodableZero(anchors: seq<Anchor>)
    ensures CountUndecodable(anchors) == 0 <==> forall i :: 0 <= i < |anchors| ==> anchors[i].Decoded?
    decreases |anchors|
  {
    if |anchors| > 0 {
      CountUndecodableZero(anchors[1..]);
      assert forall i :: 1 <= i < |anchors| ==> anchors[i] == anchors[1..][i - 1];
    }
  }
}

=== FILE: entities.dfy ===
/** The records of datatypes.go: a College has many Depts, a Dept many
    Classes, a Class many Sects. The extractors of lib/extract.go and
    extract.go fill them. The extractors write a class's `Start` and
    `End`; datatypes.go declares the embedded position with lower-case
    `start` and `end`, which the model treats as the same two numbers. */
module Entities {
  import opened Columns

  /** Where an extracted chunk lies in the page it came from. */
  datatype Position = Position(start: int, end: int)

  datatype College = College(name: string, abbreviation: string, position: Position)

  datatype Dept = Dept(collegeKey: string, name: string, abbreviation: string, link: string)

  datatype Class = Class(deptKey: string, abbreviationCode: string, abbreviation: string,
                         code: string, title: string, description: string, position: Position)

  datatype Sect = Sect(classKey: string, restriction: string, sln: string, section: string,
                       credit: string, meetingTimes: string, instructor: string, status: string,
                       takenSpots: int, totalSpots: int, grades: string, fee: string,
                       other: string, info: string)
}

=== FILE: filter.dfy ===
/** `filterUtf8` and `Filter` (lib/filter.go; the same `filterUtf8` opens
    extract.go). The text is taken as the rune sequence Go's `[]rune(in)`
    produces, in which every invalid UTF-8 byte has already become
    U+FFFD; HTML unescaping is a parameter. */
module Utf8Filter {

  /** `utf8.RuneError`. */
  const RuneError: char := '\U{FFFD}'

  /** What one rune becomes. */
  function Image(c: char, repl: string): string {
    if c != RuneError then [c] else repl
  }

  /** `filterUtf8(in, repl)`: every rune other than U+FFFD is copied and
      every U+FFFD becomes `repl`, in order. */
  function FilterUtf8(s: string, repl: string): (r: string)
    ensures RuneError !in s ==> r == s
    ensures |repl| == 1 ==> |r| == |s|
    ensures |repl| == 1 ==> forall i :: 0 <= i < |s| ==>
      r[i] == (if s[i] == RuneError then repl[0] else s[i])
    ensures RuneError !in repl ==> RuneError !in r
    ensures forall c :: c in r ==> (c in s && c != RuneError) || c in repl
    decreases |s|
  {
    if |s| == 0 then ""
    else
      var rest := FilterUtf8(s[1..], repl);
      assert forall c :: c in s[1..] ==> c in s;
      assert RuneError !in s ==> s == [s[0]] + s[1..];
      Image(s[0], repl) + rest
  }

  /** `Filter(in)`: `filterUtf8(in, "?")`, then HTML unescaping. */
  function Filter(s: string, unescape: string -> string): (r: string)
    ensures RuneError !in s ==> r == unescape(s)
  {
    unescape(FilterUtf8(s, "?"))
  }

  // ---------------------------------------------------------------- properties

  /** Filtering works rune by rune: it distributes over concatenation. */
  lemma {:induction false} FilterAppend(a: string, b: string, repl: string)
    ensures FilterUtf8(a + b, repl) == FilterUtf8(a, repl) + FilterUtf8(b, repl)
    decreases |a|
  {
    if |a| > 0 {
      assert (a + b)[0] == a[0];
      assert (a + b)[1..] == a[1..] + b;
      FilterAppend(a[1..], b, repl);
    } else {
      assert a + b == b;
    }
  }

  /** With the "?" replacement the filter is idempotent. */
  lemma FilterIdempotent(s: string)
    ensures FilterUtf8(FilterUtf8(s, "?"), "?") == FilterUtf8(s, "?")
  {
    assert RuneError !in "?";
  }

  /** Each rune of the input is mapped on its own: the image of s[i] sits
      right after the images of the runes before it. */
  lemma {:induction false} FilterPrefix(s: string, i: nat, repl: string)
    requires i < |s|
    ensures FilterUtf8(s[..i + 1], repl) == FilterUtf8(s[..i], repl) + Image(s[i], repl)
  {
    assert s[..i + 1] == s[..i] + [s[i]];
    FilterAppend(s[..i], [s[i]], repl);
    assert [s[i]][1..] == "";
  }
}

=== FILE: frontend.dfy ===
/** The frontend's request router (goschedule/frontend/frontend.go,
    `router` and the `routing` table). A request first reads the switch to
    pick the application database the last scrape pass finished, then
    lower-cases the URL path and runs, in table order, the handler of every
    route that matches it; when none matches, it answers "No route matched".
    Handlers themselves (templates, SQL) are not modelled: a call records
    which handler ran and with which parameters. */
module Frontend {
  import opened Text
  import opened Outcomes
  import Routing
  import Switch

  datatype Handler = Index | Search | Depts | Classes | Sects | Asset

  /** One row of the routing table. */
  datatype Entry = Entry(route: string, handler: Handler)

  /** The routing table, in order. */
  const Table: seq<Entry> := [
    Entry("/", Index),
    Entry("/search", Search),
    Entry("/schedule", Depts),
    Entry("/schedule/:dept", Classes),
    Entry("/schedule/:dept/:class", Sects),
    Entry("/assets/:type/:file", Asset)
  ]

  /** A handler run, with the result of `route.parse(path)`. */
  datatype Call = Call(handler: Handler, params: Option<map<string, string>>)

  /** What a request gets: the calls made against application database
      `appNum`, or the "No route matched" answer for the URL path. */
  datatype Response = Handled(appNum: int, calls: seq<Call>) | NoRoute(appNum: int, urlPath: string)

  const SwitchFailure := "Failed to query switch database for app db number in frontend.router: "

  // ---------------------------------------------------------------- dispatch

  /** The loop over the table: every matching route's handler runs, in
      order; a panic of `match` or `parse` ends the request. */
  function Dispatch(routes: seq<Entry>, path: string): (r: Go<seq<Call>>)
    ensures r.Panic? ==> r.reason == Routing.OutOfRange || r.reason == Routing.NoMatch
    ensures r.Value? ==> |r.value| <= |routes|
    decreases |routes|
  {
    if |routes| == 0 then Value([])
    else match Routing.Match(routes[0].route, path)
      case Panic(m) => Panic(m)
      case Value(false) => Dispatch(routes[1..], path)
      case Value(true) =>
        match Routing.Parse(routes[0].route, path)
        case Panic(m) => Panic(m)
        case Value(p) =>
          match Dispatch(routes[1..], path)
          case Panic(m) => Panic(m)
          case Value(rest) => Value([Call(routes[0].handler, p)] + rest)
  }

  /** `router`: read the switch (a failure panics), open the database the
      switch does not name (a failure panics), then dispatch the
      lower-cased path. */
  function Router(read: Result<int>, openErr: Option<string>, urlPath: string): (r: Go<Response>)
    ensures read.Err? ==> r == Panic(SwitchFailure + read.msg)
    ensures r.Value? ==> read.Ok? && openErr.None? && r.value.appNum in {1, 2} && r.value.appNum != read.value
    ensures r.Value? && r.value.NoRoute? ==> r.value.urlPath == urlPath
  {
    match read
    case Err(m) => Panic(SwitchFailure + m)
    case Ok(v) =>
      var appNum := if v == 1 then 2 else 1;
      if openErr.Some? then Panic(openErr.value)
      else match Dispatch(Table, ToLower(urlPath))
        case Panic(m) => Panic(m)
        case Value(calls) =>
          if |calls| == 0 then Value(NoRoute(appNum, urlPath)) else Value(Handled(appNum, calls))
  }

  // ---------------------------------------------------------------- reference

  /** A route accepts a path: both are "/", or neither is and the
      segments pair up, each route segment a wildcard or equal to the
      path's. */
  predicate Accepts(route: string, path: string) {
    (route == "/" && path == "/") ||
    (route != "/" && path != "/" &&
     |Routing.Segments(route)| == |Routing.Segments(path)| > 0 &&
     forall i :: 0 <= i < |Routing.Segments(route)| ==>
       Routing.Fits(Routing.Segments(route)[i], Routing.Segments(path)[i]))
  }

  /** The handlers of the routes accepting the path, in table order. */
  function Accepted(routes: seq<Entry>, path: string): seq<Handler>
    decreases |routes|
  {
    if |routes| == 0 then [] else Chosen(routes[0], path) + Accepted(routes[1..], path)
  }

  /** The row's handler if its route accepts the path. */
  function Chosen(e: Entry, path: string): seq<Handler> {
    if Accepts(e.route, path) then [e.handler] else []
  }

  /** `Accepted` over six rows, row by row. */
  lemma AcceptedSix(routes: seq<Entry>, path: string)
    requires |routes| == 6
    ensures Accepted(routes, path) ==
      Chosen(routes[0], path) + Chosen(routes[1], path) + Chosen(routes[2], path) +
      (Chosen(routes[3], path) + Chosen(routes[4], path) + Chosen(routes[5], path) + [])
  {
    AcceptedThree(routes, path);
    AcceptedThree(routes[3..], path);
    assert routes[3..][3..] == [];
    assert routes[3..][0] == routes[3] && routes[3..][1] == routes[4] && routes[3..][2] == routes[5];
  }

  /** The first three rows of `Accepted`. */
  lemma AcceptedThree(routes: seq<Entry>, path: string)
    requires |routes| >= 3
    ensures Accepted(routes, path) ==
      Chosen(routes[0], path) + Chosen(routes[1], path) + Chosen(routes[2], path) + Accepted(routes[3..], path)
  {
    var r1 := routes[1..];
    var r2 := r1[1..];
    assert r2[1..] == routes[3..];
    assert r1[0] == routes[1] && r2[0] == routes[2];
    AcceptedCons(routes, path);
    AcceptedCons(r1, path);
    AcceptedCons(r2, path);
  }

  lemma AcceptedCons(routes: seq<Entry>, path: string)
    requires |routes| > 0
    ensures Accepted(routes, path) == Chosen(routes[0], path) + Accepted(routes[1..], path)
  {
  }

  function Handlers(calls: seq<Call>): (r: seq<Handler>)
    ensures |r| == |calls|
    ensures forall i :: 0 <= i < |calls| ==> r[i] == calls[i].handler
    decreases |calls|
  {
    if |calls| == 0 then [] else [calls[0].handler] + Handlers(calls[1..])
  }

  /** Over routes none of which can panic, the loop never panics and runs
      exactly the handlers of the accepting routes, in order, each with
      its route's parameters. */
  lemma {:induction false} DispatchMeaning(routes: seq<Entry>, path: string)
    requires forall k :: 0 <= k < |routes| ==> Routing.Matchable(routes[k].route)
    ensures Dispatch(routes, path).Value?
    ensures Handlers(Dispatch(routes, path).value) == Accepted(routes, path)
    ensures |routes| > 0 && Accepts(routes[0].route, path) ==>
      Routing.Parse(routes[0].route, path).Value? &&
      Dispatch(routes, path).value[0].params == Routing.Parse(routes[0].route, path).value
    decreases |routes|
  {
    if |routes| > 0 {
      var route := routes[0].route;
      Routing.MatchMeaning(route, path);
      Routing.ParseMeaning(route, path);
      DispatchMeaning(routes[1..], path);
      var rest := Dispatch(routes[1..], path).value;
      if Accepts(route, path) {
        var p := Routing.Parse(route, path).value;
        assert Dispatch(routes, path).value == [Call(routes[0].handler, p)] + rest;
        assert Handlers([Call(routes[0].handler, p)] + rest) == [routes[0].handler] + Handlers(rest) by {
          assert ([Call(routes[0].handler, p)] + rest)[1..] == rest;
        }
      } else {
        assert Chosen(routes[0], path) == [];
        assert [] + Accepted(routes[1..], path) == Accepted(routes[1..], path);
      }
    }
  }

  /** The call is that of a route accepting the path, with that route's
      parameters. */
  predicate Explains(routes: seq<Entry>, path: string, c: Call) {
    exists k :: 0 <= k < |routes| && Made(routes[k], path, c)
  }

  /** The call is the row's, made because its route accepts the path. */
  predicate Made(e: Entry, path: string, c: Call) {
    Accepts(e.route, path) && e.handler == c.handler && Routing.Parse(e.route, path) == Value(c.params)
  }

  /** A call explained by the later routes is explained by all of them. */
  lemma ExplainsShift(routes: seq<Entry>, path: string, c: Call)
    requires |routes| > 0 && Explains(routes[1..], path, c)
    ensures Explains(routes, path, c)
  {
    var k :| 0 <= k < |routes[1..]| && Made(routes[1..][k], path, c);
    assert routes[k + 1] == routes[1..][k];
  }

  /** Every call the loop makes is that of a route accepting the path,
      with that route's parameters. */
  lemma {:induction false} DispatchCalls(routes: seq<Entry>, path: string)
    requires forall k :: 0 <= k < |routes| ==> Routing.Matchable(routes[k].route)
    requires Dispatch(routes, path).Value?
    ensures forall i :: 0 <= i < |Dispatch(routes, path).value| ==> Explains(routes, path, Dispatch(routes, path).value[i])
    decreases |routes|
  {
    if |routes| > 0 {
      var route := routes[0].route;
      DispatchStep(routes, path);
      DispatchCalls(routes[1..], path);
      var calls := Dispatch(routes, path).value;
      var rest := Dispatch(routes[1..], path).value;
      if Accepts(route, path) {
        var c := Call(routes[0].handler, Routing.Parse(route, path).value);
        assert Made(routes[0], path, c);
        forall i | 1 <= i < |calls|
          ensures Explains(routes, path, calls[i])
        {
          assert calls[i] == rest[i - 1];
          ExplainsShift(routes, path, calls[i]);
        }
      } else {
        forall i | 0 <= i < |calls|
          ensures Explains(routes, path, calls[i])
        {
          ExplainsShift(routes, path, calls[i]);
        }
      }
    }
  }

  /** One turn of the loop over routes that cannot panic: an accepting
      route adds its call in front of the rest, any other adds nothing. */
  lemma DispatchStep(routes: seq<Entry>, path: string)
    requires |routes| > 0 && Routing.Matchable(routes[0].route)
    requires Dispatch(routes, path).Value?
    ensures Dispatch(routes[1..], path).Value?
    ensures Accepts(routes[0].route, path) ==>
      Routing.Parse(routes[0].route, path).Value? &&
      Dispatch(routes, path).value ==
        [Call(routes[0].handler, Routing.Parse(routes[0].route, path).value)] + Dispatch(routes[1..], path).value
    ensures !Accepts(routes[0].route, path) ==> Dispatch(routes, path).value == Dispatch(routes[1..], path).value
  {
    Routing.MatchMeaning(routes[0].route, path);
    Routing.ParseMeaning(routes[0].route, path);
  }

  // ---------------------------------------------------------------- the table

  /** The handler the table chooses for a lower-cased path, by its
      segments, or none. */
  function RouteFor(path: string): (r: Option<Handler>)
    ensures r.Some? && r.value in {Classes, Sects, Asset} ==>
      |Routing.Segments(path)| >= 3 || (r.value == Classes && |Routing.Segments(path)| == 2)
  {
    if path == "/" then Some(Index)
    else
      var ps := Routing.Segments(path);
      if ps == ["search"] then Some(Search)
      else if ps == ["schedule"] then Some(Depts)
      else if |ps| == 2 && ps[0] == "schedule" then Some(Classes)
      else if |ps| == 3 && ps[0] == "schedule" then Some(Sects)
      else if |ps| == 3 && ps[0] == "assets" then Some(Asset)
      else None
  }

  /** The segments of the table's routes. The table is a parameter equal
      to `Table`, so that its routes are not split letter by letter. */
  lemma TableSegments(t: seq<Entry>)
    requires t == Table
    ensures |t| == 6
    ensures t[0].route == "/"
    ensures Routing.Segments(t[1].route) == ["search"]
    ensures Routing.Segments(t[2].route) == ["schedule"]
    ensures Routing.Segments(t[3].route) == ["schedule", ":dept"]
    ensures Routing.Segments(t[4].route) == ["schedule", ":dept", ":class"]
    ensures Routing.Segments(t[5].route) == ["assets", ":type", ":file"]
    ensures t[1].route != "/" && t[2].route != "/" && t[3].route != "/"
    ensures t[4].route != "/" && t[5].route != "/"
  {
    OneSegmentRoutes(t[1].route, t[2].route);
    DeptRoute(t[3].route);
    ThreeSegmentRoutes(t[4].route, t[5].route);
  }

  lemma OneSegmentRoutes(search: string, schedule: string)
    requires search == "/search" && schedule == "/schedule"
    ensures Routing.Segments(search) == ["search"] && search != "/"
    ensures Routing.Segments(schedule) == ["schedule"] && schedule != "/"
  {
    OneSegment(search, "search");
    OneSegment(schedule, "schedule");
  }

  lemma DeptRoute(route: string)
    requires route == "/schedule/:dept"
    ensures Routing.Segments(route) == ["schedule", ":dept"] && route != "/"
  {
    TwoSegments(route, "schedule", ":dept");
  }

  lemma ThreeSegmentRoutes(classes: string, asset: string)
    requires classes == "/schedule/:dept/:class" && asset == "/assets/:type/:file"
    ensures Routing.Segments(classes) == ["schedule", ":dept", ":class"] && classes != "/"
    ensures Routing.Segments(asset) == ["assets", ":type", ":file"] && asset != "/"
  {
    ThreeSegments(classes, "schedule", ":dept", ":class");
    ThreeSegments(asset, "assets", ":type", ":file");
  }

  lemma OneSegment(route: string, a: string)
    requires route == "/" + a && '/' !in a
    ensures Routing.Segments(route) == [a]
    ensures route == "/" <==> a == ""
  {
    Routing.Slashed1(a);
    Routing.SegmentsOfJoin(route, [a]);
  }

  lemma TwoSegments(route: string, a: string, b: string)
    requires route == "/" + a + "/" + b && '/' !in a && '/' !in b
    ensures Routing.Segments(route) == [a, b]
    ensures route != "/"
  {
    Routing.Slashed2(a, b);
    Routing.SegmentsOfJoin(route, [a, b]);
  }

  lemma ThreeSegments(route: string, a: string, b: string, c: string)
    requires route == "/" + a + "/" + b + "/" + c && '/' !in a && '/' !in b && '/' !in c
    ensures Routing.Segments(route) == [a, b, c]
    ensures route != "/"
  {
    Routing.Slashed3(a, b, c);
    Routing.SegmentsOfJoin(route, [a, b, c]);
  }

  /** Every route of the table can be matched without a panic. */
  lemma TableMatchable(t: seq<Entry>)
    requires t == Table
    ensures forall k :: 0 <= k < |t| ==> Routing.Matchable(t[k].route)
  {
    TableSegments(t);
    assert Routing.Matchable(t[0].route);
    SegmentsMatchable(t[1].route);
    SegmentsMatchable(t[2].route);
    SegmentsMatchable(t[3].route);
    SegmentsMatchable(t[4].route);
    SegmentsMatchable(t[5].route);
    AllSix(t);
  }

  /** A route with segments, none empty, is matchable. */
  lemma SegmentsMatchable(route: string)
    requires 0 < |Routing.Segments(route)| <= 3
    requires |Routing.Segments(route)[0]| > 0
    requires |Routing.Segments(route)| > 1 ==> |Routing.Segments(route)[1]| > 0
    requires |Routing.Segments(route)| > 2 ==> |Routing.Segments(route)[2]| > 0
    ensures Routing.Matchable(route)
  {
  }

  /** Six rows, each matchable. */
  lemma AllSix(routes: seq<Entry>)
    requires |routes| == 6
    requires Routing.Matchable(routes[0].route) && Routing.Matchable(routes[1].route)
    requires Routing.Matchable(routes[2].route) && Routing.Matchable(routes[3].route)
    requires Routing.Matchable(routes[4].route) && Routing.Matchable(routes[5].route)
    ensures forall k :: 0 <= k < |routes| ==> Routing.Matchable(routes[k].route)
  {
    forall k | 0 <= k < |routes|
      ensures Routing.Matchable(routes[k].route)
    {
      if k == 0 {} else if k == 1 {} else if k == 2 {} else if k == 3 {} else if k == 4 {} else {}
    }
  }

  /** At most one route of the table accepts any path, and it is the one
      `RouteFor` names. */
  lemma TableAccepts(t: seq<Entry>, path: string)
    requires t == Table
    ensures Accepted(t, path) == if RouteFor(path).Some? then [RouteFor(path).value] else []
  {
    TableSegments(t);
    TableOrder(t, path);
    var ps := Routing.Segments(path);
    assert Accepts(t[0].route, path) <==> path == "/";
    LiteralAccepts(t[1].route, "search", path);
    LiteralAccepts(t[2].route, "schedule", path);
    WildcardsAccept(t[3].route, ["schedule", ":dept"], path);
    WildcardsAccept(t[4].route, ["schedule", ":dept", ":class"], path);
    WildcardsAccept(t[5].route, ["assets", ":type", ":file"], path);
    if path == "/" {
      assert Chosen(t[0], path) == [Index];
    } else {
      assert Chosen(t[0], path) == [];
    }
  }

  /** A one-segment literal route accepts exactly the paths with that one
      segment. */
  lemma LiteralAccepts(route: string, a: string, path: string)
    requires route != "/" && Routing.Segments(route) == [a] && |a| > 0 && a[0] != ':'
    ensures Accepts(route, path) <==> path != "/" && Routing.Segments(path) == [a]
  {
    var ps := Routing.Segments(path);
    if path != "/" && |ps| == 1 && Routing.Fits(a, ps[0]) {
      assert ps == [ps[0]];
    }
  }

  /** A route of a literal followed by wildcards accepts exactly the paths
      with as many segments and that literal first. */
  lemma WildcardsAccept(route: string, rs: seq<string>, path: string)
    requires route != "/" && Routing.Segments(route) == rs
    requires 1 < |rs| <= 3 && |rs[0]| > 0 && rs[0][0] != ':'
    requires |rs[1]| > 0 && rs[1][0] == ':'
    requires |rs| == 3 ==> |rs[2]| > 0 && rs[2][0] == ':'
    ensures Accepts(route, path) <==>
      path != "/" && |Routing.Segments(path)| == |rs| && Routing.Segments(path)[0] == rs[0]
  {
    var ps := Routing.Segments(path);
    if path != "/" && |ps| == |rs| && ps[0] == rs[0] {
      assert forall i :: 0 <= i < |rs| ==> Routing.Fits(rs[i], ps[i]);
    }
  }

  /** `Accepted` over the table, unfolded route by route. */
  lemma TableOrder(t: seq<Entry>, path: string)
    requires t == Table
    ensures Accepted(t, path) ==
      Chosen(t[0], path) + Chosen(t[1], path) + Chosen(t[2], path) +
      (Chosen(t[3], path) + Chosen(t[4], path) + Chosen(t[5], path) + [])
    ensures t[0].handler == Index && t[1].handler == Search && t[2].handler == Depts
    ensures t[3].handler == Classes && t[4].handler == Sects && t[5].handler == Asset
  {
    AcceptedSix(t, path);
  }

  // ---------------------------------------------------------------- requests

  /** The parameters the chosen handler receives, by the path's segments:
      none for "/", and the wildcard bindings otherwise. */
  function RouteParams(h: Handler, ps: seq<string>): Option<map<string, string>>
    requires h in {Classes, Sects, Asset} ==> |ps| >= 3 || (h == Classes && |ps| == 2)
  {
    match h
    case Index => None
    case Search => Some(map[])
    case Depts => Some(map[])
    case Classes => Some(map["dept" := ps[1]])
    case Sects => Some(map["dept" := ps[1], "class" := ps[2]])
    case Asset => Some(map["type" := ps[1], "file" := ps[2]])
  }

  /** A request after a good switch read and database open runs against
      the database the switch does not name. The lower-cased path decides
      the answer: when a route of the table accepts it, exactly that
      route's handler runs, with the path's segments bound to the route's
      wildcards; otherwise the answer is "No route matched" for the path as
      sent. A failed read or open panics. */
  lemma RouterMeaning(read: Result<int>, openErr: Option<string>, urlPath: string)
    ensures read.Err? ==> Router(read, openErr, urlPath) == Panic(SwitchFailure + read.msg)
    ensures read.Ok? && openErr.Some? ==> Router(read, openErr, urlPath) == Panic(openErr.value)
    ensures read.Ok? && openErr.None? ==>
      var path := ToLower(urlPath);
      var app := Switch.ReaderSlot(read.value);
      Router(read, openErr, urlPath).Value? &&
      (RouteFor(path).None? ==> Router(read, openErr, urlPath).value == NoRoute(app, urlPath)) &&
      (RouteFor(path).Some? ==>
        var h := RouteFor(path).value;
        Router(read, openErr, urlPath).value ==
          Handled(app, [Call(h, RouteParams(h, Routing.Segments(path)))]))
  {
    if read.Ok? && openErr.None? {
      TableDispatch(Table, ToLower(urlPath));
    }
  }

  /** The loop over the table on a lower-cased path: one call, of the
      route `RouteFor` names, or none. */
  lemma TableDispatch(t: seq<Entry>, path: string)
    requires t == Table
    ensures Dispatch(t, path) == Value(
      if RouteFor(path).None? then []
      else [Call(RouteFor(path).value, RouteParams(RouteFor(path).value, Routing.Segments(path)))])
  {
    TableMatchable(t);
    DispatchMeaning(t, path);
    TableAccepts(t, path);
    if RouteFor(path).Some? {
      RoutedCall(t, path);
    } else {
      assert |Handlers(Dispatch(t, path).value)| == 0;
    }
  }

  /** The one call for a path some route accepts. */
  lemma RoutedCall(t: seq<Entry>, path: string)
    requires t == Table && RouteFor(path).Some?
    requires forall k :: 0 <= k < |t| ==> Routing.Matchable(t[k].route)
    requires Dispatch(t, path).Value?
    requires Handlers(Dispatch(t, path).value) == [RouteFor(path).value]
    ensures Dispatch(t, path).value ==
      [Call(RouteFor(path).value, RouteParams(RouteFor(path).value, Routing.Segments(path)))]
  {
    DispatchCalls(t, path);
    TableParams(t, path);
    assert |Dispatch(t, path).value| == 1;
    SingleCall(t, path, Dispatch(t, path).value, RouteFor(path).value);
  }

  /** Each route of the table accepting the path is the one `RouteFor`
      names, and parses to its bindings. */
  lemma TableParams(t: seq<Entry>, path: string)
    requires t == Table
    requires RouteFor(path).Some?
    ensures forall k :: 0 <= k < |t| && Accepts(t[k].route, path) ==> Binds(t[k], path, RouteFor(path).value)
  {
    forall k | 0 <= k < |t| && Accepts(t[k].route, path)
      ensures Binds(t[k], path, RouteFor(path).value)
    {
      ChosenParams(t, k, path);
    }
  }

  /** The row binds its route's parameters for handler h. */
  predicate Binds(e: Entry, path: string, h: Handler) {
    e.handler == h &&
    (h in {Classes, Sects, Asset} ==>
      |Routing.Segments(path)| >= 3 || (h == Classes && |Routing.Segments(path)| == 2)) &&
    Routing.Parse(e.route, path) == Value(RouteParams(h, Routing.Segments(path)))
  }

  /** A single explained call, over routes whose accepting ones all bind
      for h, is h's call. */
  lemma SingleCall(t: seq<Entry>, path: string, calls: seq<Call>, h: Handler)
    requires h in {Classes, Sects, Asset} ==>
      |Routing.Segments(path)| >= 3 || (h == Classes && |Routing.Segments(path)| == 2)
    requires |calls| == 1 && Explains(t, path, calls[0])
    requires forall k :: 0 <= k < |t| && Accepts(t[k].route, path) ==> Binds(t[k], path, h)
    ensures calls == [Call(h, RouteParams(h, Routing.Segments(path)))]
  {
    ExplainedBinds(t, path, calls[0], h);
    assert calls == [calls[0]];
  }

  /** A call explained by routes whose accepting ones all bind for h is
      h's call. */
  lemma ExplainedBinds(t: seq<Entry>, path: string, c: Call, h: Handler)
    requires h in {Classes, Sects, Asset} ==>
      |Routing.Segments(path)| >= 3 || (h == Classes && |Routing.Segments(path)| == 2)
    requires Explains(t, path, c)
    requires forall k :: 0 <= k < |t| && Accepts(t[k].route, path) ==> Binds(t[k], path, h)
    ensures c == Call(h, RouteParams(h, Routing.Segments(path)))
  {
    var k :| 0 <= k < |t| && Made(t[k], path, c);
    MadeBinds(t[k], path, c, h);
  }

  /** A call made by a row that binds for h is h's call. */
  lemma MadeBinds(e: Entry, path: string, c: Call, h: Handler)
    requires Made(e, path, c) && Binds(e, path, h)
    ensures c == Call(h, RouteParams(h, Routing.Segments(path)))
  {
  }

  /** The parameters of the table's accepting routes. */
  lemma ChosenParams(t: seq<Entry>, k: nat, path: string)
    requires t == Table && k < 6 && Accepts(t[k].route, path)
    ensures RouteFor(path) == Some(t[k].handler)
    ensures Routing.Parse(t[k].route, path) == Value(RouteParams(t[k].handler, Routing.Segments(path)))
  {
    TableSegments(t);
    TableHandlers(t);
    var e := t[k];
    if k == 0 {
      assert path == "/";
    } else if k == 1 {
      LiteralParams(e.route, "search", path);
    } else if k == 2 {
      LiteralParams(e.route, "schedule", path);
    } else if k == 3 {
      DeptParams(e.route, path);
    } else if k == 4 {
      ClassParams(e.route, path);
    } else {
      AssetParams(e.route, path);
    }
  }

  lemma TableHandlers(t: seq<Entry>)
    requires t == Table
    ensures |t| == 6
    ensures t[0].handler == Index && t[1].handler == Search && t[2].handler == Depts
    ensures t[3].handler == Classes && t[4].handler == Sects && t[5].handler == Asset
  {
  }

  /** A one-segment literal route binds nothing. */
  lemma LiteralParams(route: string, a: string, path: string)
    requires route != "/" && Routing.Segments(route) == [a] && |a| > 0 && a[0] != ':'
    requires Accepts(route, path)
    ensures path != "/" && Routing.Segments(path) == [a]
    ensures Routing.Parse(route, path) == Value(Some(map[]))
  {
    LiteralAccepts(route, a, path);
    Routing.MatchMeaning(route, path);
    ParamsLiteral(a, Routing.Segments(path));
  }

  /** "/schedule/:dept" binds the department. */
  lemma DeptParams(route: string, path: string)
    requires route != "/" && Routing.Segments(route) == ["schedule", ":dept"]
    requires Accepts(route, path)
    ensures RouteFor(path) == Some(Classes)
    ensures Routing.Parse(route, path) == Value(RouteParams(Classes, Routing.Segments(path)))
  {
    WildcardsAccept(route, ["schedule", ":dept"], path);
    Routing.MatchMeaning(route, path);
    ParamsOneWildcard("schedule", ":dept", Routing.Segments(path));
    assert ":dept"[1..] == "dept";
  }

  /** "/schedule/:dept/:class" binds the department and the class. */
  lemma ClassParams(route: string, path: string)
    requires route != "/" && Routing.Segments(route) == ["schedule", ":dept", ":class"]
    requires Accepts(route, path)
    ensures RouteFor(path) == Some(Sects)
    ensures Routing.Parse(route, path) == Value(RouteParams(Sects, Routing.Segments(path)))
  {
    WildcardsAccept(route, ["schedule", ":dept", ":class"], path);
    Routing.MatchMeaning(route, path);
    ParamsTwoWildcards("schedule", ":dept", ":class", Routing.Segments(path));
    assert ":dept"[1..] == "dept" && ":class"[1..] == "class";
  }

  /** "/assets/:type/:file" binds the type and the file. */
  lemma AssetParams(route: string, path: string)
    requires route != "/" && Routing.Segments(route) == ["assets", ":type", ":file"]
    requires Accepts(route, path)
    ensures RouteFor(path) == Some(Asset)
    ensures Routing.Parse(route, path) == Value(RouteParams(Asset, Routing.Segments(path)))
  {
    WildcardsAccept(route, ["assets", ":type", ":file"], path);
    Routing.MatchMeaning(route, path);
    ParamsTwoWildcards("assets", ":type", ":file", Routing.Segments(path));
    assert ":type"[1..] == "type" && ":file"[1..] == "file";
    assert "assets" != "schedule";
  }

  lemma ParamsLiteral(a: string, ps: seq<string>)
    requires |a| > 0 && a[0] != ':' && |ps| == 1
    ensures Routing.Params([a], ps, 0, map[]) == map[]
  {
  }

  lemma ParamsOneWildcard(a: string, w: string, ps: seq<string>)
    requires |a| > 0 && a[0] != ':' && |w| > 0 && w[0] == ':' && |ps| == 2
    ensures Routing.Params([a, w], ps, 0, map[]) == map[w[1..] := ps[1]]
  {
    var rs := [a, w];
    assert Routing.Params(rs, ps, 0, map[]) == Routing.Params(rs, ps, 1, map[]);
    assert Routing.Params(rs, ps, 1, map[]) == Routing.Params(rs, ps, 2, map[w[1..] := ps[1]]);
  }

  lemma ParamsTwoWildcards(a: string, w: string, v: string, ps: seq<string>)
    requires |a| > 0 && a[0] != ':' && |w| > 0 && w[0] == ':' && |v| > 0 && v[0] == ':' && |ps| == 3
    ensures Routing.Params([a, w, v], ps, 0, map[]) == map[w[1..] := ps[1], v[1..] := ps[2]]
  {
    var rs := [a, w, v];
    assert Routing.Params(rs, ps, 0, map[]) == Routing.Params(rs, ps, 1, map[]);
    assert Routing.Params(rs, ps, 1, map[]) == Routing.Params(rs, ps, 2, map[w[1..] := ps[1]]);
    assert Routing.Params(rs, ps, 2, map[w[1..] := ps[1]])
        == Routing.Params(rs, ps, 3, map[w[1..] := ps[1], v[1..] := ps[2]]);
  }
}

=== FILE: groups.dfy ===
/** The "lazy delimited group" regular expressions of the scraper:
    `(?is)\(.*?\)` (parenthesesRe, lib/regexp.go and regexp.go),
    `(?i)\(.+?\)` (DeptAbbreviationRe, crawler/config/config.go and
    scraper/extract/regexp.go) and `(?i)<.+?>` (tagRe / TagRe).

    Each is an opening character, an inner part of at least `minInner`
    characters taken lazily, and a closing character; without the `s` flag
    the inner part may not cross a newline. Go's `FindAll` and `ReplaceAll`
    scan left to right and take, at the leftmost position where a match
    starts, the shortest one (the lazy quantifier). */
module Groups {
  import opened Outcomes
  import opened Text

  datatype GroupPattern = GroupPattern(open: char, close: char, minInner: nat, dotAll: bool)

  /** `(?is)\(.*?\)` */
  const ParenAny := GroupPattern('(', ')', 0, true)
  /** `(?i)\(.+?\)` */
  const ParenLine := GroupPattern('(', ')', 1, false)
  /** `(?i)<.+?>` */
  const Tag := GroupPattern('<', '>', 1, false)

  /** Index of the first closing character at or after k that may end a
      match whose inner part must reach lo. */
  function CloseFrom(s: string, k: nat, lo: nat, p: GroupPattern): (r: Option<nat>)
    requires k <= |s|
    ensures r.Some? ==> k <= r.value < |s| && lo <= r.value && s[r.value] == p.close
    decreases |s| - k
  {
    if k == |s| then None
    else if s[k] == p.close && lo <= k then Some(k)
    else if !p.dotAll && s[k] == '\n' then None
    else CloseFrom(s, k + 1, lo, p)
  }

  /** The index of the closing character of the match that starts at s[0],
      if one starts there. */
  function MatchEnd(s: string, p: GroupPattern): (r: Option<nat>)
    ensures r.Some? ==> 0 < |s| && s[0] == p.open && 1 + p.minInner <= r.value < |s| && s[r.value] == p.close
  {
    if |s| > 0 && s[0] == p.open then CloseFrom(s, 1, 1 + p.minInner, p) else None
  }

  /** `FindAll`: the leftmost-first, non-overlapping matches, in order. */
  function FindAll(s: string, p: GroupPattern): (r: seq<string>)
    ensures forall i :: 0 <= i < |r| ==>
      |r[i]| >= 2 + p.minInner && r[i][0] == p.open && r[i][|r[i]| - 1] == p.close
    decreases |s|
  {
    if |s| == 0 then []
    else match MatchEnd(s, p)
      case Some(j) => [s[..j + 1]] + FindAll(s[j + 1..], p)
      case None => FindAll(s[1..], p)
  }

  /** `FindString(s) != ""`: some match exists. */
  predicate HasMatch(s: string, p: GroupPattern) {
    |FindAll(s, p)| > 0
  }

  /** The last match (`findRegexp(b, r, false)`), or None for Go's nil. */
  function LastMatch(s: string, p: GroupPattern): (r: Option<string>)
    ensures r.Some? <==> HasMatch(s, p)
    ensures r.Some? ==> |r.value| >= 2 + p.minInner && r.value[0] == p.open
  {
    var m := FindAll(s, p);
    if |m| == 0 then None else Some(m[|m| - 1])
  }

  /** `ReplaceAllString(s, "")`: the text with every match cut out. */
  function RemoveAll(s: string, p: GroupPattern): (r: string)
    ensures |r| <= |s|
    decreases |s|
  {
    if |s| == 0 then []
    else match MatchEnd(s, p)
      case Some(j) => RemoveAll(s[j + 1..], p)
      case None => [s[0]] + RemoveAll(s[1..], p)
  }

  // ---------------------------------------------------------------- properties

  /** An independent reading of `(?is)\(.*?\)` matching somewhere: an
      opening parenthesis with a closing one anywhere after it. */
  predicate OpenBeforeClose(s: string) {
    exists i, j :: 0 <= i < j < |s| && s[i] == '(' && s[j] == ')'
  }

  /** With the `s` flag and no minimum, a closing character is found iff one
      occurs at or after k. */
  lemma {:induction false} CloseFromDotAll(s: string, k: nat, p: GroupPattern)
    requires k <= |s| && p.dotAll
    ensures CloseFrom(s, k, k, p).Some? <==> p.close in s[k..]
    decreases |s| - k
  {
    if k < |s| && s[k] != p.close {
      CloseFromDotAll(s, k + 1, p);
      assert CloseFrom(s, k, k, p) == CloseFrom(s, k + 1, k, p);
      CloseFromLowerBound(s, k + 1, k, p);
      assert s[k..] == [s[k]] + s[k + 1..];
    }
  }

  /** A bound already passed does not change the search. */
  lemma {:induction false} CloseFromLowerBound(s: string, k: nat, lo: nat, p: GroupPattern)
    requires lo <= k <= |s|
    ensures CloseFrom(s, k, lo, p) == CloseFrom(s, k, k, p)
    decreases |s| - k
  {
    if k < |s| && s[k] != p.close && (p.dotAll || s[k] != '\n') {
      CloseFromLowerBound(s, k + 1, lo, p);
      CloseFromLowerBound(s, k + 1, k, p);
    }
  }

  /** parenthesesRe finds a group exactly when an opening parenthesis has a
      closing one after it. */
  lemma {:induction false} ParenAnyMatches(s: string)
    ensures HasMatch(s, ParenAny) <==> OpenBeforeClose(s)
    decreases |s|
  {
    if |s| > 0 {
      ParenAnyMatches(s[1..]);
      var t := s[1..];
      assert OpenBeforeClose(t) ==> OpenBeforeClose(s) by {
        if OpenBeforeClose(t) {
          var i, j :| 0 <= i < j < |t| && t[i] == '(' && t[j] == ')';
          assert s[i + 1] == '(' && s[j + 1] == ')';
        }
      }
      if s[0] == '(' {
        CloseFromDotAll(s, 1, ParenAny);
        if ')' in t {
          var j :| 0 <= j < |t| && t[j] == ')';
          assert s[j + 1] == ')';
        }
      } else {
        assert OpenBeforeClose(s) ==> OpenBeforeClose(t) by {
          if OpenBeforeClose(s) {
            var i, j :| 0 <= i < j < |s| && s[i] == '(' && s[j] == ')';
            assert t[i - 1] == '(' && t[j - 1] == ')';
          }
        }
      }
    }
  }

  /** Without any match, removing matches changes nothing. */
  lemma {:induction false} RemoveWithoutMatch(s: string, p: GroupPattern)
    requires !HasMatch(s, p)
    ensures RemoveAll(s, p) == s
    decreases |s|
  {
    if |s| > 0 {
      assert MatchEnd(s, p).None?;
      RemoveWithoutMatch(s[1..], p);
      assert s == [s[0]] + s[1..];
    }
  }

  /** After parenthesesRe's groups are cut out, no group is left, and no
      closing parenthesis appears that was not in the text. */
  lemma {:induction false} RemoveParenAnyLeavesNone(s: string)
    ensures !OpenBeforeClose(RemoveAll(s, ParenAny))
    ensures ')' in RemoveAll(s, ParenAny) ==> ')' in s
    decreases |s|
  {
    if |s| > 0 {
      var t := s[1..];
      match MatchEnd(s, ParenAny)
      case Some(j) =>
        RemoveParenAnyLeavesNone(s[j + 1..]);
        if ')' in RemoveAll(s, ParenAny) {
          var k :| 0 <= k < |s[j + 1..]| && s[j + 1..][k] == ')';
          assert s[j + 1 + k] == ')';
        }
      case None =>
        RemoveParenAnyLeavesNone(t);
        var rt := RemoveAll(t, ParenAny);
        var r := [s[0]] + rt;
        assert RemoveAll(s, ParenAny) == r;
        if ')' in rt {
          var k :| 0 <= k < |t| && t[k] == ')';
          assert s[k + 1] == ')';
        }
        if OpenBeforeClose(r) {
          var i, j :| 0 <= i < j < |r| && r[i] == '(' && r[j] == ')';
          if i == 0 {
            assert rt[j - 1] == ')';
            assert ')' in t;
            CloseFromDotAll(s, 1, ParenAny);
            assert false;
          } else {
            assert false;
          }
        }
        assert ')' in r ==> s[0] == ')' || ')' in rt;
    }
  }

  /** Cutting parenthesised groups out twice is the same as once. */
  lemma RemoveParenAnyIdempotent(s: string)
    ensures RemoveAll(RemoveAll(s, ParenAny), ParenAny) == RemoveAll(s, ParenAny)
  {
    var r := RemoveAll(s, ParenAny);
    RemoveParenAnyLeavesNone(s);
    ParenAnyMatches(r);
    RemoveWithoutMatch(r, ParenAny);
  }
}

=== FILE: lib_extract.dfy ===
/** The extractors of lib/extract.go, once the chunk regular expressions
    have matched: departments from decoded anchors, classes from class
    chunks with their positions in the page, sections from section
    chunks. */
module LibExtract {
  import opened Text
  import opened Outcomes
  import opened Groups
  import opened MeetingPatterns
  import opened Columns
  import opened Continuation
  import opened SectionChunk
  import opened Entities
  import opened DeptAnchors
  import opened ClassChunks

  // ---------------------------------------------------------------- departments

  /** The loop state of `ExtractDepts`: the departments so far, the stem
      each was keyed by, the error messages, and the caller's `processed`
      map (its keys). */
  datatype DeptsAcc = DeptsAcc(depts: seq<Dept>, stems: seq<string>, errs: seq<string>,
                               processed: set<string>)

  /** One anchor. An anchor that does not decode is reported; an invalid
      one is dropped; a valid one whose stem was already processed is
      dropped without a report; otherwise its stem is recorded and the
      department appended. The department's Abbreviation stays empty. */
  function StepDept(acc: DeptsAcc, a: Anchor, collegeKey: string, url: string): DeptsAcc {
    match a
    case Undecodable(raw, reason) => acc.(errs := acc.errs + [UnmarshalMessage(raw, reason)])
    case Decoded(h, c) =>
      var href := TrimSpace(h);
      var content := TrimSpace(c);
      if !ValidateDept(href, content) then acc
      else
        var stem := Stem(href);
        if stem in acc.processed then acc
        else acc.(depts := acc.depts + [Dept(collegeKey, DeptName(content), "", url + href)],
                  stems := acc.stems + [stem],
                  processed := acc.processed + {stem})
  }

  function Elements(s: seq<string>): set<string> {
    set x | x in s
  }

  /** The departments and stems added on top of `acc` are fresh: no stem
      was processed before, no two are equal, and `processed` grows by
      exactly them. */
  predicate Extends(acc: DeptsAcc, r: DeptsAcc) {
    Grows(acc, r) && FreshStems(acc, r)
  }

  /** `r` keeps `acc`'s departments, stems and messages as prefixes, with
      one new stem per new department. */
  predicate Grows(acc: DeptsAcc, r: DeptsAcc) {
    && |r.depts| - |acc.depts| == |r.stems| - |acc.stems| >= 0
    && r.depts[..|acc.depts|] == acc.depts
    && r.stems[..|acc.stems|] == acc.stems
    && |r.errs| >= |acc.errs| && r.errs[..|acc.errs|] == acc.errs
  }

  /** The stems past `acc`'s are new, pairwise different, and exactly what
      `processed` gains. */
  predicate FreshStems(acc: DeptsAcc, r: DeptsAcc) {
    && |acc.stems| <= |r.stems|
    && (forall k :: |acc.stems| <= k < |r.stems| ==> r.stems[k] !in acc.processed)
    && (forall k, l :: |acc.stems| <= k < l < |r.stems| ==> r.stems[k] != r.stems[l])
    && r.processed == acc.processed + Elements(r.stems[|acc.stems|..])
  }

  /** What every department added on top of `acc` satisfies. */
  predicate NewDeptsOk(acc: DeptsAcc, r: DeptsAcc, collegeKey: string, url: string) {
    forall k :: |acc.depts| <= k < |r.depts| ==>
      r.depts[k].collegeKey == collegeKey && r.depts[k].abbreviation == ""
      && !OpenBeforeClose(r.depts[k].name) && HasPrefix(r.depts[k].link, url)
  }

  lemma StepDeptOk(acc: DeptsAcc, a: Anchor, collegeKey: string, url: string)
    ensures var r := StepDept(acc, a, collegeKey, url);
      && Extends(acc, r)
      && |r.errs| == |acc.errs| + (if a.Undecodable? then 1 else 0)
      && NewDeptsOk(acc, r, collegeKey, url)
  {
    match a
    case Undecodable(raw, reason) =>
      ReportExtends(acc, UnmarshalMessage(raw, reason));
    case Decoded(h, c) =>
      var href := TrimSpace(h);
      var content := TrimSpace(c);
      if !ValidateDept(href, content) || Stem(href) in acc.processed {
        KeepExtends(acc);
      } else {
        assert (url + href)[..|url|] == url;
        AddDeptOk(acc, Dept(collegeKey, DeptName(content), "", url + href), Stem(href), collegeKey, url);
      }
  }

  lemma AddDeptOk(acc: DeptsAcc, d: Dept, stem: string, collegeKey: string, url: string)
    requires stem !in acc.processed
    requires d.collegeKey == collegeKey && d.abbreviation == "" && !OpenBeforeClose(d.name)
    requires HasPrefix(d.link, url)
    ensures var r := acc.(depts := acc.depts + [d], stems := acc.stems + [stem],
                          processed := acc.processed + {stem});
      Extends(acc, r) && |r.errs| == |acc.errs| && NewDeptsOk(acc, r, collegeKey, url)
  {
    AddExtends(acc, d, stem);
  }

  lemma KeepExtends(acc: DeptsAcc)
    ensures Extends(acc, acc)
  {
    assert acc.stems[|acc.stems|..] == [];
  }

  lemma ReportExtends(acc: DeptsAcc, e: string)
    ensures Extends(acc, acc.(errs := acc.errs + [e]))
  {
    assert acc.stems[|acc.stems|..] == [];
  }

  lemma AddExtends(acc: DeptsAcc, d: Dept, stem: string)
    requires stem !in acc.processed
    ensures Extends(acc, acc.(depts := acc.depts + [d], stems := acc.stems + [stem],
                              processed := acc.processed + {stem}))
  {
    assert (acc.stems + [stem])[|acc.stems|..] == [stem];
  }

  lemma NewDeptsTrans(a: DeptsAcc, b: DeptsAcc, c: DeptsAcc, collegeKey: string, url: string)
    requires Extends(a, b) && Extends(b, c)
    requires NewDeptsOk(a, b, collegeKey, url) && NewDeptsOk(b, c, collegeKey, url)
    ensures NewDeptsOk(a, c, collegeKey, url)
  {
    forall k | |a.depts| <= k < |b.depts|
      ensures c.depts[k] == b.depts[k]
    {
      assert c.depts[..|b.depts|][k] == b.depts[k];
    }
  }

  /** The loop over the anchors, in order. */
  function FoldDepts(acc: DeptsAcc, anchors: seq<Anchor>, collegeKey: string, url: string): (r: DeptsAcc)
    ensures Extends(acc, r)
    ensures |r.errs| == |acc.errs| + CountUndecodable(anchors)
    ensures NewDeptsOk(acc, r, collegeKey, url)
    decreases |anchors|
  {
    if |anchors| == 0 then acc
    else
      var mid := StepDept(acc, anchors[0], collegeKey, url);
      var r := FoldDepts(mid, anchors[1..], collegeKey, url);
      StepDeptOk(acc, anchors[0], collegeKey, url);
      ExtendsTrans(acc, mid, r);
      NewDeptsTrans(acc, mid, r, collegeKey, url);
      r
  }

  lemma ExtendsTrans(a: DeptsAcc, b: DeptsAcc, c: DeptsAcc)
    requires Extends(a, b) && Extends(b, c)
    ensures Extends(a, c)
  {
    GrowsTrans(a, b, c);
    FreshTrans(a, b, c);
  }

  lemma GrowsTrans(a: DeptsAcc, b: DeptsAcc, c: DeptsAcc)
    requires Grows(a, b) && Grows(b, c)
    ensures Grows(a, c)
  {
    assert c.stems[..|a.stems|] == b.stems[..|b.stems|][..|a.stems|];
    assert c.depts[..|a.depts|] == b.depts[..|b.depts|][..|a.depts|];
    assert c.errs[..|a.errs|] == b.errs[..|b.errs|][..|a.errs|];
  }

  lemma FreshTrans(a: DeptsAcc, b: DeptsAcc, c: DeptsAcc)
    requires Grows(a, b) && Grows(b, c)
    requires FreshStems(a, b) && FreshStems(b, c)
    ensures FreshStems(a, c)
  {
    forall k | |a.stems| <= k < |b.stems|
      ensures c.stems[k] == b.stems[k]
    {
      assert c.stems[..|b.stems|][k] == b.stems[k];
    }
    assert c.stems[|a.stems|..] == b.stems[|a.stems|..] + c.stems[|b.stems|..];
    assert Elements(c.stems[|a.stems|..]) == Elements(b.stems[|a.stems|..]) + Elements(c.stems[|b.stems|..]);
  }

  /** `ExtractDepts(content, collegeKey, url, processed)`: the departments,
      the error (`errorsSlice`, or nil when nothing was collected), and the
      caller's map after the call. */
  function ExtractDepts(anchors: seq<Anchor>, collegeKey: string, url: string, processed: set<string>)
    : (r: (seq<Dept>, Option<string>, set<string>))
    ensures r.1.None? <==> forall i :: 0 <= i < |anchors| ==> anchors[i].Decoded?
    ensures processed <= r.2
    ensures forall k :: 0 <= k < |r.0| ==> r.0[k].collegeKey == collegeKey && !OpenBeforeClose(r.0[k].name)
  {
    var acc := FoldDepts(DeptsAcc([], [], [], processed), anchors, collegeKey, url);
    CountUndecodableZero(anchors);
    (acc.depts, if |acc.errs| > 0 then Some(ErrorText(acc.errs)) else None, acc.processed)
  }

  /** The stems of the returned departments are new to `processed` and
      pairwise different: one department per stem across all calls that
      share the map. */
  lemma DeptStemsUnique(anchors: seq<Anchor>, collegeKey: string, url: string, processed: set<string>)
    ensures var acc := FoldDepts(DeptsAcc([], [], [], processed), anchors, collegeKey, url);
      && |acc.stems| == |acc.depts| == |ExtractDepts(anchors, collegeKey, url, processed).0|
      && (forall k :: 0 <= k < |acc.stems| ==> acc.stems[k] !in processed)
      && (forall k, l :: 0 <= k < l < |acc.stems| ==> acc.stems[k] != acc.stems[l])
      && ExtractDepts(anchors, collegeKey, url, processed).2
         == processed + Elements(acc.stems)
  {
    var acc := FoldDepts(DeptsAcc([], [], [], processed), anchors, collegeKey, url);
    assert acc.stems[0..] == acc.stems;
  }

  /** Running the loop over a + b is running it over a, then over b: the
      anchors are handled in order, the map threaded through. */
  lemma {:induction false} FoldDeptsAppend(acc: DeptsAcc, a: seq<Anchor>, b: seq<Anchor>, collegeKey: string, url: string)
    ensures FoldDepts(acc, a + b, collegeKey, url)
         == FoldDepts(FoldDepts(acc, a, collegeKey, url), b, collegeKey, url)
    decreases |a|
  {
    if |a| == 0 {
      assert a + b == b;
    } else {
      assert (a + b)[0] == a[0] && (a + b)[1..] == a[1..] + b;
      FoldDeptsAppend(StepDept(acc, a[0], collegeKey, url), a[1..], b, collegeKey, url);
    }
  }

  /** A single valid anchor with a new stem yields one department. */
  lemma OneAnchor(href: string, content: string, collegeKey: string, url: string, processed: set<string>)
    requires Trimmed(href) && Trimmed(content)
    requires ValidateDept(href, content) && Stem(href) !in processed
    ensures ExtractDepts([Decoded(href, content)], collegeKey, url, processed)
         == ([Dept(collegeKey, DeptName(content), "", url + href)], None, processed + {Stem(href)})
  {
    var acc := DeptsAcc([], [], [], processed);
    FoldOne(acc, Decoded(href, content), collegeKey, url);
    StepValid(acc, href, content, collegeKey, url);
  }

  /** Folding over one anchor is one step. */
  lemma FoldOne(acc: DeptsAcc, a: Anchor, collegeKey: string, url: string)
    ensures FoldDepts(acc, [a], collegeKey, url) == StepDept(acc, a, collegeKey, url)
  {
    assert [a][1..] == [];
  }

  /** A trimmed valid anchor with a new stem appends its department. */
  lemma StepValid(acc: DeptsAcc, href: string, content: string, collegeKey: string, url: string)
    requires Trimmed(href) && Trimmed(content)
    requires ValidateDept(href, content) && Stem(href) !in acc.processed
    ensures StepDept(acc, Decoded(href, content), collegeKey, url)
         == acc.(depts := acc.depts + [Dept(collegeKey, DeptName(content), "", url + href)],
                 stems := acc.stems + [Stem(href)],
                 processed := acc.processed + {Stem(href)})
  {
    if |href| > 0 { assert TrimLeft(href) == href; }
    if |content| > 0 { assert TrimLeft(content) == content; }
  }

  /** The stem a department's link was keyed by: the part of the link
      after the base URL, up to its first dot. */
  function LinkStem(d: Dept, url: string): string
    requires HasPrefix(d.link, url)
  {
    Stem(d.link[|url|..])
  }

  /** The link stems of departments whose links all start with the base
      URL, in order. */
  function LinkStems(ds: seq<Dept>, url: string): (r: seq<string>)
    requires forall k :: 0 <= k < |ds| ==> HasPrefix(ds[k].link, url)
    ensures |r| == |ds| && forall k :: 0 <= k < |ds| ==> r[k] == LinkStem(ds[k], url)
  {
    seq(|ds|, k requires 0 <= k < |ds| => LinkStem(ds[k], url))
  }

  /** Every department of the loop state sits under the base URL and the
      stem recorded with it is its link stem. */
  predicate Aligned(acc: DeptsAcc, url: string) {
    && |acc.depts| == |acc.stems|
    && (forall k :: 0 <= k < |acc.depts| ==> HasPrefix(acc.depts[k].link, url))
    && (forall k :: 0 <= k < |acc.depts| ==> acc.stems[k] == Stem(acc.depts[k].link[|url|..]))
  }

  lemma StepDeptAligned(acc: DeptsAcc, a: Anchor, collegeKey: string, url: string)
    requires Aligned(acc, url)
    ensures Aligned(StepDept(acc, a, collegeKey, url), url)
  {
    var r := StepDept(acc, a, collegeKey, url);
    if r.depts != acc.depts {
      var href := TrimSpace(a.href);
      var d := Dept(collegeKey, DeptName(TrimSpace(a.content)), "", url + href);
      assert d.link[..|url|] == url && d.link[|url|..] == href;
      AlignedAdd(acc, r, d, Stem(href), url);
    } else {
      assert r.stems == acc.stems;
    }
  }

  lemma AlignedAdd(acc: DeptsAcc, r: DeptsAcc, d: Dept, stem: string, url: string)
    requires Aligned(acc, url) && HasPrefix(d.link, url) && stem == Stem(d.link[|url|..])
    requires r.depts == acc.depts + [d] && r.stems == acc.stems + [stem]
    ensures Aligned(r, url)
  {
  }

  lemma {:induction false} FoldDeptsAligned(acc: DeptsAcc, anchors: seq<Anchor>, collegeKey: string, url: string)
    requires Aligned(acc, url)
    ensures Aligned(FoldDepts(acc, anchors, collegeKey, url), url)
    decreases |anchors|
  {
    if |anchors| > 0 {
      StepDeptAligned(acc, anchors[0], collegeKey, url);
      FoldDeptsAligned(StepDept(acc, anchors[0], collegeKey, url), anchors[1..], collegeKey, url);
    }
  }

  /** The departments `ExtractDepts` returns all sit under the base URL;
      their link stems are new to `processed` and pairwise different, and
      the map comes back grown by exactly those stems. So across calls
      sharing the map, no link stem is returned twice. */
  lemma DeptLinkStems(anchors: seq<Anchor>, collegeKey: string, url: string, processed: set<string>)
    ensures var (ds, _, seen) := ExtractDepts(anchors, collegeKey, url, processed);
      && (forall k :: 0 <= k < |ds| ==> HasPrefix(ds[k].link, url))
      && (forall k :: 0 <= k < |ds| ==> LinkStem(ds[k], url) !in processed)
      && (forall k, l :: 0 <= k < l < |ds| ==> LinkStem(ds[k], url) != LinkStem(ds[l], url))
      && seen == processed + Elements(LinkStems(ds, url))
  {
    var acc := FoldDepts(DeptsAcc([], [], [], processed), anchors, collegeKey, url);
    FoldDeptsAligned(DeptsAcc([], [], [], processed), anchors, collegeKey, url);
    DeptStemsUnique(anchors, collegeKey, url, processed);
    assert LinkStems(acc.depts, url) == acc.stems;
  }

  // ---------------------------------------------------------------- classes

  /** A class of the page, before its position is set: abbreviation from
      the first `[a-z]+` of the name, code from its first `\d+`, title
      with tags cut out, all lower-cased. */
  function ClassOf(c: ClassChunk, deptKey: string): (r: Class)
    ensures r.deptKey == deptKey
    ensures r.abbreviationCode == r.abbreviation + r.code
    ensures forall k :: 0 <= k < |r.abbreviation| ==> IsLowerLetter(r.abbreviation[k])
    ensures forall k :: 0 <= k < |r.code| ==> IsDigit(r.code[k])
    ensures forall k :: 0 <= k < |r.title| ==> !IsUpperLetter(r.title[k])
  {
    var abbr := ToLower(FirstRun(c.name, LowerLetters));
    var code := ToLower(FirstRun(c.name, Digits));
    Class(deptKey, abbr + code, abbr, code, ToLower(RemoveAll(c.title, Tag)), "", Position(0, 0))
  }

  /** `ExtractClasses(content, deptKey)`: one class per chunk, in order;
      class i spans from the start of chunk i to the start of chunk i + 1,
      and the last one to the end of the page. */
  function ExtractClasses(chunks: seq<ClassChunk>, deptKey: string, contentLength: nat): (r: seq<Class>)
    ensures |r| == |chunks|
    ensures forall i :: 0 <= i < |r| ==> r[i].(position := Position(0, 0)) == ClassOf(chunks[i], deptKey)
    ensures forall i :: 0 <= i < |r| ==> r[i].position.start == chunks[i].start
    ensures forall i :: 0 <= i && i + 1 < |r| ==> r[i].position.end == r[i + 1].position.start
    ensures |r| > 0 ==> r[|r| - 1].position.end == contentLength
  {
    var r := seq(|chunks|, i requires 0 <= i < |chunks| =>
      ClassOf(chunks[i], deptKey).(position := Span(chunks, i, contentLength)));
    assert forall i :: 0 <= i < |r| ==> r[i] == ClassOf(chunks[i], deptKey).(position := Span(chunks, i, contentLength));
    forall i | 0 <= i && i + 1 < |r|
      ensures r[i].position.end == r[i + 1].position.start
    {
      assert r[i].position == Span(chunks, i, contentLength);
      assert r[i + 1].position == Span(chunks, i + 1, contentLength);
    }
    r
  }

  /** Class i runs from the start of chunk i to the start of the next
      chunk, or to the end of the page. */
  function Span(chunks: seq<ClassChunk>, i: nat, contentLength: nat): Position
    requires i < |chunks|
  {
    Position(chunks[i].start, if i == |chunks| - 1 then contentLength else chunks[i + 1].start)
  }

  /** In a page whose chunks are in order, the class ranges are non-empty
      and pairwise disjoint, in page order. */
  lemma ClassRangesDisjoint(chunks: seq<ClassChunk>, deptKey: string, contentLength: nat)
    requires InPage(chunks, contentLength)
    ensures var r := ExtractClasses(chunks, deptKey, contentLength);
      && (forall i :: 0 <= i < |r| ==> r[i].position.start < r[i].position.end)
      && (forall i, j :: 0 <= i < j < |r| ==> r[i].position.end <= r[j].position.start)
  {
  }

  /** ... and together they cover the page from the first chunk on: every
      offset there lies in some class's range. */
  lemma {:induction false} ClassRangesCover(chunks: seq<ClassChunk>, deptKey: string, contentLength: nat, x: nat, k: nat)
    requires InPage(chunks, contentLength)
    requires k < |chunks| && chunks[k].start <= x < contentLength
    ensures var r := ExtractClasses(chunks, deptKey, contentLength);
      exists i :: k <= i < |r| && r[i].position.start <= x < r[i].position.end
    decreases |chunks| - k
  {
    var r := ExtractClasses(chunks, deptKey, contentLength);
    if k == |chunks| - 1 || x < chunks[k + 1].start {
      assert r[k].position.start <= x < r[k].position.end;
    } else {
      ClassRangesCover(chunks, deptKey, contentLength, x, k + 1);
    }
  }

  // ---------------------------------------------------------------- sections

  /** The stored meeting times: their JSON text, or "error" when the
      encoding fails. */
  function StoredTimes(json: Result<string>): (r: string)
    ensures json.Err? ==> r == "error"
    ensures json.Ok? ==> r == json.value
  {
    if json.Ok? then json.value else "error"
  }

  /** The lower-cased SLN cell. */
  function LowerSln(row: Row): (r: string)
    ensures |r| == |row.sln|
    ensures forall k :: 0 <= k < |r| ==> !IsUpperLetter(r[k])
  {
    ToLower(row.sln)
  }

  /** One section of a chunk. The SLN is lower-cased; meeting times are
      stored as JSON, or as "error" when encoding fails. */
  function SectOf(chunk: string, classKey: string, marshal: seq<MeetingTime> -> Result<string>): (r: Sect)
    requires Readable(chunk, WordThenRange)
    ensures r.classKey == classKey
    ensures forall k :: 0 <= k < |r.sln| ==> !IsUpperLetter(r.sln[k])
    ensures marshal(Decode(chunk, WordThenRange).times).Err? ==> r.meetingTimes == "error"
  {
    var f := Decode(chunk, WordThenRange);
    var seats := SeatsIfTwo(f.row.spots);
    Sect(classKey, f.row.restriction, LowerSln(f.row), f.row.section, f.row.credit,
         StoredTimes(marshal(f.times)),
         f.row.instructor, f.row.status, seats.0, seats.1,
         f.row.grades, f.row.fee, f.row.other, f.info)
  }

  /** The error message a chunk adds, if its encoding fails. */
  function SectError(chunk: string, marshal: seq<MeetingTime> -> Result<string>): (r: seq<string>)
    requires Readable(chunk, WordThenRange)
    ensures |r| <= 1
    ensures |r| == 0 <==> marshal(Decode(chunk, WordThenRange).times).Ok?
  {
    var json := marshal(Decode(chunk, WordThenRange).times);
    if json.Err? then [json.msg] else []
  }

  /** The messages of all chunks, in chunk order. */
  function Flatten(errs: seq<seq<string>>): (r: seq<string>)
    ensures |r| == 0 <==> forall i :: 0 <= i < |errs| ==> |errs[i]| == 0
  {
    if |errs| == 0 then [] else errs[0] + Flatten(errs[1..])
  }

  /** `ExtractSects(content, classKey)`: exactly one section per chunk, in
      chunk order, and an error exactly when some encoding failed. Every
      chunk's first line must reach column 115 and every meeting-time line
      column 56, or Go panics. */
  function ExtractSects(chunks: seq<string>, classKey: string, marshal: seq<MeetingTime> -> Result<string>)
    : (r: (seq<Sect>, Option<string>))
    requires forall i :: 0 <= i < |chunks| ==> Readable(chunks[i], WordThenRange)
    ensures |r.0| == |chunks|
    ensures forall i :: 0 <= i < |chunks| ==> r.0[i].classKey == classKey
    ensures forall i :: 0 <= i < |chunks| ==> r.0[i] == SectOf(chunks[i], classKey, marshal)
    ensures r.1.None? <==> forall i :: 0 <= i < |chunks| ==> |SectError(chunks[i], marshal)| == 0
  {
    var errs := Flatten(ChunkErrors(chunks, marshal));
    (ChunkSects(chunks, classKey, marshal), if |errs| > 0 then Some(ErrorText(errs)) else None)
  }

  /** The section of each chunk, in chunk order. */
  function ChunkSects(chunks: seq<string>, classKey: string, marshal: seq<MeetingTime> -> Result<string>)
    : (r: seq<Sect>)
    requires forall i :: 0 <= i < |chunks| ==> Readable(chunks[i], WordThenRange)
    ensures |r| == |chunks|
    ensures forall i :: 0 <= i < |chunks| ==> r[i] == SectOf(chunks[i], classKey, marshal)
  {
    seq(|chunks|, i requires 0 <= i < |chunks| => SectOf(chunks[i], classKey, marshal))
  }

  /** The messages of each chunk, in chunk order. */
  function ChunkErrors(chunks: seq<string>, marshal: seq<MeetingTime> -> Result<string>)
    : (r: seq<seq<string>>)
    requires forall i :: 0 <= i < |chunks| ==> Readable(chunks[i], WordThenRange)
    ensures |r| == |chunks|
    ensures forall i :: 0 <= i < |chunks| ==> r[i] == SectError(chunks[i], marshal)
  {
    seq(|chunks|, i requires 0 <= i < |chunks| => SectError(chunks[i], marshal))
  }
}

=== FILE: lines.dfy ===
/** The lines of a section chunk after the first: each is a meeting time,
    a blank line, or a line of free text that is appended, trimmed and
    newline-terminated, to the section's Info field. All revisions share
    this loop (lib/extract.go, crawler/extract/extract.go,
    scraper/extract/extract.go); they differ only in the meeting-time
    pattern. */
module Continuation {
  import opened Text
  import opened Outcomes
  import opened MeetingPatterns
  import opened Columns

  /** Go slices columns 24-56 of every line the pattern matches. */
  predicate LinesReadable(lines: seq<string>, p: MeetingPattern) {
    forall k :: 0 <= k < |lines| ==> (Matches(lines[k], p) ==> |lines[k]| >= Stops[Room + 1])
  }

  datatype LineKind = MeetingLine(mt: MeetingTime) | BlankLine | InfoLine(text: string)

  /** What one line is: the meeting-time test comes first, then the blank
      test (`^\s*$`), and anything else is text. */
  function Classify(line: string, p: MeetingPattern): (r: LineKind)
    requires Matches(line, p) ==> |line| >= Stops[Room + 1]
    ensures r.MeetingLine? <==> Matches(line, p)
    ensures r.BlankLine? <==> !Matches(line, p) && IsBlank(line)
    ensures r.InfoLine? ==> r.text == TrimSpace(line)
  {
    match CheckMeetingTime(line, p)
    case Some(mt) => MeetingLine(mt)
    case None => if IsBlank(line) then BlankLine else InfoLine(TrimSpace(line))
  }

  /** The loop's state: meeting times collected and Info text so far. */
  datatype Acc = Acc(times: seq<MeetingTime>, info: string)

  function Step(a: Acc, k: LineKind): Acc {
    match k
    case MeetingLine(mt) => Acc(a.times + [mt], a.info)
    case BlankLine => a
    case InfoLine(t) => Acc(a.times, a.info + t + "\n")
  }

  /** The loop over the lines, in order, starting from `start`. */
  function Scan(start: Acc, lines: seq<string>, p: MeetingPattern): (r: Acc)
    requires LinesReadable(lines, p)
    ensures |r.times| <= |start.times| + |lines|
    ensures |r.times| >= |start.times| && r.times[..|start.times|] == start.times
    ensures |r.info| >= |start.info| && r.info[..|start.info|] == start.info
    decreases |lines|
  {
    if |lines| == 0 then start
    else Step(Scan(start, lines[..|lines| - 1], p), Classify(lines[|lines| - 1], p))
  }

  // ---------------------------------------------------------------- reference definitions

  /** The meeting times of the lines, in line order. */
  function TimesOf(lines: seq<string>, p: MeetingPattern): seq<MeetingTime>
    requires LinesReadable(lines, p)
  {
    if |lines| == 0 then []
    else
      match Classify(lines[0], p)
      case MeetingLine(mt) => [mt] + TimesOf(lines[1..], p)
      case _ => TimesOf(lines[1..], p)
  }

  /** The trimmed text lines, in line order. */
  function TextsOf(lines: seq<string>, p: MeetingPattern): seq<string>
    requires LinesReadable(lines, p)
  {
    if |lines| == 0 then []
    else
      match Classify(lines[0], p)
      case InfoLine(t) => [t] + TextsOf(lines[1..], p)
      case _ => TextsOf(lines[1..], p)
  }

  /** Each text newline-terminated, concatenated. */
  function Terminated(texts: seq<string>): string {
    if |texts| == 0 then "" else texts[0] + "\n" + Terminated(texts[1..])
  }

  // ---------------------------------------------------------------- properties

  /** The loop can be split anywhere: scanning a + b is scanning a, then b. */
  lemma {:induction false} ScanAppend(start: Acc, a: seq<string>, b: seq<string>, p: MeetingPattern)
    requires LinesReadable(a + b, p)
    ensures LinesReadable(a, p) && LinesReadable(b, p)
    ensures Scan(start, a + b, p) == Scan(Scan(start, a, p), b, p)
    decreases |b|
  {
    assert forall k :: 0 <= k < |a| ==> a[k] == (a + b)[k];
    assert forall k :: 0 <= k < |b| ==> b[k] == (a + b)[|a| + k];
    if |b| == 0 {
      assert a + b == a;
    } else {
      var b' := b[..|b| - 1];
      assert (a + b)[..|a + b| - 1] == a + b';
      assert (a + b)[|a + b| - 1] == b[|b| - 1];
      ScanAppend(start, a, b', p);
    }
  }

  /** Peeling the first line off the loop. */
  lemma ScanFirst(start: Acc, lines: seq<string>, p: MeetingPattern)
    requires LinesReadable(lines, p) && |lines| > 0
    ensures LinesReadable(lines[1..], p)
    ensures Scan(start, lines, p) == Scan(Step(start, Classify(lines[0], p)), lines[1..], p)
  {
    var head := [lines[0]];
    assert lines == head + lines[1..];
    ScanAppend(start, head, lines[1..], p);
    assert head[..0] == [];
  }

  /** The loop collects exactly the meeting-time lines, in order. */
  lemma {:induction false} ScanTimes(start: Acc, lines: seq<string>, p: MeetingPattern)
    requires LinesReadable(lines, p)
    ensures Scan(start, lines, p).times == start.times + TimesOf(lines, p)
    decreases |lines|
  {
    if |lines| > 0 {
      ScanFirst(start, lines, p);
      var mid := Step(start, Classify(lines[0], p));
      ScanTimes(mid, lines[1..], p);
      StepTimes(start, lines, p);
    }
  }

  lemma StepTimes(start: Acc, lines: seq<string>, p: MeetingPattern)
    requires LinesReadable(lines, p) && |lines| > 0
    ensures LinesReadable(lines[1..], p)
    ensures Step(start, Classify(lines[0], p)).times + TimesOf(lines[1..], p)
         == start.times + TimesOf(lines, p)
  {
    ReadableTail(lines, p);
    var k := Classify(lines[0], p);
    var rest := TimesOf(lines[1..], p);
    if k.MeetingLine? {
      assert TimesOf(lines, p) == [k.mt] + rest;
      AppendAssoc(start.times, [k.mt], rest);
    } else {
      assert TimesOf(lines, p) == rest;
    }
  }

  lemma ReadableTail(lines: seq<string>, p: MeetingPattern)
    requires LinesReadable(lines, p) && |lines| > 0
    ensures LinesReadable(lines[1..], p)
  {
    assert forall k :: 0 <= k < |lines| - 1 ==> lines[1..][k] == lines[k + 1];
  }

  lemma AppendAssoc<T>(a: seq<T>, b: seq<T>, c: seq<T>)
    ensures a + b + c == a + (b + c)
  {
  }

  /** The loop collects exactly the text lines, trimmed and
      newline-terminated, in order; blank lines leave no trace. */
  lemma {:induction false} ScanInfo(start: Acc, lines: seq<string>, p: MeetingPattern)
    requires LinesReadable(lines, p)
    ensures Scan(start, lines, p).info == start.info + Terminated(TextsOf(lines, p))
    decreases |lines|
  {
    if |lines| > 0 {
      ScanFirst(start, lines, p);
      var k := Classify(lines[0], p);
      var mid := Step(start, k);
      ScanInfo(mid, lines[1..], p);
      var rest := Terminated(TextsOf(lines[1..], p));
      assert mid.info + rest == start.info + Terminated(TextsOf(lines, p)) by {
        StepInfo(start, lines, p);
      }
    }
  }

  lemma StepInfo(start: Acc, lines: seq<string>, p: MeetingPattern)
    requires LinesReadable(lines, p) && |lines| > 0
    ensures LinesReadable(lines[1..], p)
    ensures Step(start, Classify(lines[0], p)).info + Terminated(TextsOf(lines[1..], p))
         == start.info + Terminated(TextsOf(lines, p))
  {
    var k := Classify(lines[0], p);
    if k.InfoLine? {
      StepInfoText(start, lines, p);
    } else {
      assert TextsOf(lines, p) == TextsOf(lines[1..], p);
    }
  }

  lemma StepInfoText(start: Acc, lines: seq<string>, p: MeetingPattern)
    requires LinesReadable(lines, p) && |lines| > 0 && Classify(lines[0], p).InfoLine?
    ensures LinesReadable(lines[1..], p)
    ensures Step(start, Classify(lines[0], p)).info + Terminated(TextsOf(lines[1..], p))
         == start.info + Terminated(TextsOf(lines, p))
  {
    var t := Classify(lines[0], p).text;
    var texts := TextsOf(lines[1..], p);
    assert TextsOf(lines, p) == [t] + texts;
    TerminatedCons(start.info, t, texts);
  }

  /** Terminating one more text in front appends it and a newline. */
  lemma TerminatedCons(info: string, t: string, texts: seq<string>)
    ensures info + t + "\n" + Terminated(texts) == info + Terminated([t] + texts)
  {
    assert ([t] + texts)[1..] == texts;
  }

  /** Info can be split back into its text lines: none of them holds a
      newline, because the lines came from splitting at newlines. */
  lemma {:induction false} SplitTerminated(texts: seq<string>)
    requires forall k :: 0 <= k < |texts| ==> '\n' !in texts[k]
    ensures Split(Terminated(texts), '\n') == texts + [""]
    decreases |texts|
  {
    if |texts| > 0 {
      var rest := Terminated(texts[1..]);
      SplitTerminated(texts[1..]);
      var t := "\n" + rest;
      assert t[0] == '\n' && t[1..] == rest;
      assert Split(t, '\n') == [""] + Split(rest, '\n');
      assert Terminated(texts) == texts[0] + t;
      SplitPrefix(texts[0], t, '\n');
      assert texts[0] + "" == texts[0];
      assert texts == [texts[0]] + texts[1..];
    }
  }

  /** Trimming keeps only characters of the line. */
  lemma TrimKeeps(s: string, c: char)
    requires c !in s
    ensures c !in TrimSpace(s)
  {
    var l := TrimLeft(s);
    DropKeeps(s, |s| - |l|, c);
    TakeKeeps(l, |TrimRight(l)|, c);
  }

  lemma DropKeeps(s: string, n: nat, c: char)
    requires n <= |s| && c !in s
    ensures c !in s[n..]
  {
    assert forall i :: 0 <= i < |s| - n ==> s[n..][i] == s[n + i];
  }

  lemma TakeKeeps(s: string, n: nat, c: char)
    requires n <= |s| && c !in s
    ensures c !in s[..n]
  {
    assert forall i :: 0 <= i < n ==> s[..n][i] == s[i];
  }

  /** No string of `ss` holds a newline. */
  predicate NoNewlines(ss: seq<string>) {
    forall k :: 0 <= k < |ss| ==> '\n' !in ss[k]
  }

  /** The texts of newline-free lines are newline-free. */
  lemma {:induction false} TextsHaveNoNewline(lines: seq<string>, p: MeetingPattern)
    requires LinesReadable(lines, p)
    requires NoNewlines(lines)
    ensures NoNewlines(TextsOf(lines, p))
    decreases |lines|
  {
    if |lines| > 0 {
      ReadableTail(lines, p);
      assert NoNewlines(lines[1..]) by {
        assert forall k :: 0 <= k < |lines| - 1 ==> lines[1..][k] == lines[k + 1];
      }
      TextsHaveNoNewline(lines[1..], p);
      var rest := TextsOf(lines[1..], p);
      var c := Classify(lines[0], p);
      if c.InfoLine? {
        TrimKeeps(lines[0], '\n');
        assert TextsOf(lines, p) == [c.text] + rest;
        ConsNoNewlines(c.text, rest);
      } else {
        assert TextsOf(lines, p) == rest;
      }
    }
  }

  lemma ConsNoNewlines(t: string, rest: seq<string>)
    requires '\n' !in t && NoNewlines(rest)
    ensures NoNewlines([t] + rest)
  {
    assert forall k :: 0 < k <= |rest| ==> ([t] + rest)[k] == rest[k - 1];
  }

  /** For lines produced by splitting a chunk at newlines, the Info field
      built from scratch splits back into exactly the text lines. */
  lemma InfoRecoversTexts(lines: seq<string>, p: MeetingPattern)
    requires LinesReadable(lines, p)
    requires forall k :: 0 <= k < |lines| ==> '\n' !in lines[k]
    ensures Split(Scan(Acc([], ""), lines, p).info, '\n') == TextsOf(lines, p) + [""]
  {
    ScanInfo(Acc([], ""), lines, p);
    TextsHaveNoNewline(lines, p);
    SplitTerminated(TextsOf(lines, p));
    assert "" + Terminated(TextsOf(lines, p)) == Terminated(TextsOf(lines, p));
  }
}

=== FILE: models.dfy ===
/** The records of the later scraper (scraper/database/models.go) and the
    small helpers the web pages use to render them. The crawler revision
    stores the same fields; its database types are not part of this model,
    so both queue-based extractors produce these records. */
module Models {
  import opened Text
  import opened Columns

  /** A department; its key is the Abbreviation. */
  datatype Dept = Dept(title: string, abbreviation: string, link: string)

  /** A class; its key is AbbreviationCode, its parent's key is
      DeptAbbreviation, and Index is the offset of its chunk in the
      department page. */
  datatype Class = Class(deptAbbreviation: string, abbreviationCode: string, abbreviation: string,
                         code: string, title: string, index: int)

  /** A section; its key is the SLN, its parent's key is
      ClassDeptAbbreviation, and MeetingTimes holds the JSON text of its
      meeting times. */
  datatype Sect = Sect(classDeptAbbreviation: string, restriction: string, sln: string, section: string,
                       credit: string, meetingTimes: string, instructor: string, status: string,
                       takenSpots: int, totalSpots: int, grades: string, fee: string, other: string,
                       info: string)

  function DeptKey(d: Dept): string { d.abbreviation }

  function ClassKey(c: Class): string { c.abbreviationCode }

  function SectKey(s: Sect): string { s.sln }

  // ---------------------------------------------------------------- flags

  /** `IsQuizSection`: the credit column reads exactly "QZ". */
  predicate IsQuizSection(s: Sect) {
    s.credit == "QZ"
  }

  /** `IsOpen`: at least one seat is free. */
  predicate IsOpen(s: Sect) {
    s.totalSpots - s.takenSpots >= 1
  }

  /** One `map[string]bool{token: present}` of a token list. */
  datatype Flag = Flag(token: string, present: bool)

  /** One flag per token, in the token list's order, set when the text
      contains the token. */
  function Flags(text: string, tokens: seq<string>): (r: seq<Flag>)
    ensures |r| == |tokens|
    ensures forall i :: 0 <= i < |r| ==> r[i].token == tokens[i]
    ensures forall i :: 0 <= i < |r| ==> (r[i].present <==> Contains(text, tokens[i]))
  {
    seq(|tokens|, i requires 0 <= i < |tokens| => Flag(tokens[i], Contains(text, tokens[i])))
  }

  const RestrictionTokens: seq<string> := ["Restr", "IS", ">"]
  const GradesTokens: seq<string> := ["CR/NC"]
  const OtherTokens: seq<string> := ["D", "H", "J", "R", "S", "W", "%", "#"]

  /** `GetRestriction`: the "Restr", "IS" and ">" flags of the restriction
      column. */
  function GetRestriction(s: Sect): (r: seq<Flag>)
    ensures |r| == 3 && r[0].token == "Restr" && r[1].token == "IS" && r[2].token == ">"
    ensures forall i :: 0 <= i < 3 ==> (r[i].present <==> Contains(s.restriction, RestrictionTokens[i]))
  {
    Flags(s.restriction, RestrictionTokens)
  }

  /** `GetGradesTokens`: the single "CR/NC" flag, read from the credit
      column (not from the grades column). */
  function GetGradesTokens(s: Sect): (r: seq<Flag>)
    ensures |r| == 1 && r[0].token == "CR/NC"
    ensures r[0].present <==> Contains(s.credit, "CR/NC")
  {
    Flags(s.credit, GradesTokens)
  }

  /** `GetOtherTokens`: the eight one-character flags of the other column;
      each is set exactly when its character appears there. */
  function GetOtherTokens(s: Sect): (r: seq<Flag>)
    ensures |r| == 8
    ensures forall i :: 0 <= i < 8 ==> |r[i].token| == 1 && r[i].token == OtherTokens[i]
    ensures forall i :: 0 <= i < 8 ==> (r[i].present <==> r[i].token[0] in s.other)
  {
    var r := Flags(s.other, OtherTokens);
    forall i | 0 <= i < 8
      ensures r[i].present <==> r[i].token[0] in s.other
    {
      assert OtherTokens[i] == [OtherTokens[i][0]];
      ContainsChar(s.other, OtherTokens[i][0]);
    }
    r
  }

  /** The grades column plays no part in the "CR/NC" flag. */
  lemma GradesColumnIgnored(s: Sect, grades: string)
    ensures GetGradesTokens(s.(grades := grades)) == GetGradesTokens(s)
  {
  }

  // ---------------------------------------------------------------- days

  /** The day tokens in the order `MapDays` tries them: "th" before "t". */
  const DayTokens: seq<string> := ["m", "w", "f", "th", "t"]

  /** The loop of `MapDays`: each token found is recorded and every copy of
      it cut out before the next token is tried. */
  function MarkDays(days: string, tokens: seq<string>): (r: map<string, bool>)
    requires forall i :: 0 <= i < |tokens| ==> |tokens[i]| > 0
    ensures forall k :: k in r ==> k in tokens && r[k]
    decreases |tokens|
  {
    if |tokens| == 0 then map[]
    else if Contains(days, tokens[0]) then MarkDays(ReplaceAll(days, tokens[0], ""), tokens[1..])[tokens[0] := true]
    else MarkDays(days, tokens[1..])
  }

  /** `MeetingTime.MapDays`: the day tokens of the lower-cased days column;
      every value is true. */
  function MapDays(m: MeetingTime): (r: map<string, bool>)
    ensures forall k :: k in r ==> k in DayTokens && r[k]
  {
    MarkDays(ToLower(m.days), DayTokens)
  }

  /** Monday, Wednesday and Friday are recorded exactly when their letter
      appears, in either case: the tokens cut out before them are other
      letters. */
  lemma MondayWednesdayFriday(m: MeetingTime)
    ensures "m" in MapDays(m) <==> 'm' in ToLower(m.days)
    ensures "w" in MapDays(m) <==> 'w' in ToLower(m.days)
    ensures "f" in MapDays(m) <==> 'f' in ToLower(m.days)
  {
    var tokens := DayTokens;
    var d0 := ToLower(m.days);
    var d1 := Cut(d0, tokens[0]);
    var d2 := Cut(d1, tokens[1]);
    MarkHead(d0, tokens);
    ContainsChar(d0, 'm');
    MarkOther(d0, tokens, "w");
    MarkHead(d1, tokens[1..]);
    ContainsChar(d1, 'w');
    CutOther(d0, 'm', 'w');
    MarkOther(d0, tokens, "f");
    MarkOther(d1, tokens[1..], "f");
    MarkHead(d2, tokens[1..][1..]);
    ContainsChar(d2, 'f');
    CutOther(d0, 'm', 'f');
    CutOther(d1, 'w', 'f');
  }

  /** The days left once a token found is cut out. */
  function Cut(days: string, token: string): string
    requires |token| > 0
  {
    if Contains(days, token) then ReplaceAll(days, token, "") else days
  }

  /** The first token is recorded iff it occurs. */
  lemma MarkHead(days: string, tokens: seq<string>)
    requires |tokens| > 0 && forall i :: 0 <= i < |tokens| ==> |tokens[i]| > 0
    requires tokens[0] !in tokens[1..]
    ensures tokens[0] in MarkDays(days, tokens) <==> Contains(days, tokens[0])
  {
  }

  /** Any other token is recorded iff it is recorded from the days left
      after the first. */
  lemma MarkOther(days: string, tokens: seq<string>, t: string)
    requires |tokens| > 0 && forall i :: 0 <= i < |tokens| ==> |tokens[i]| > 0
    requires t != tokens[0]
    ensures t in MarkDays(days, tokens) <==> t in MarkDays(Cut(days, tokens[0]), tokens[1..])
  {
  }

  /** Cutting one letter out keeps the presence of every other letter. */
  lemma CutOther(s: string, c: char, d: char)
    requires c != d
    ensures d in ReplaceAll(s, [c], "") <==> d in s
  {
    RemoveCharLeavesNone(s, c);
    ReplaceAllChars(s, [c], "");
  }

  /** "Th" is Thursday alone ("th" is tried before "t"). */
  lemma ThursdayAlone()
    ensures MapDays(MeetingTime("Th", "", "", "")) == map["th" := true]
  {
    assert ToLower("Th") == "th";
    NoDayLetter("th");
    assert OccursAt("th", "th", 0);
    ThursdayCut();
  }

  lemma ThursdayCut()
    ensures MarkDays("th", DayTokens[3..]) == map["th" := true]
  {
    assert OccursAt("th", "th", 0);
    assert ReplaceAll("th", "th", "") == "";
    assert MarkDays("", DayTokens[4..]) == map[];
  }

  /** "TTh" is Tuesday and Thursday. */
  lemma TuesdayThursday()
    ensures MapDays(MeetingTime("TTh", "", "", "")) == map["th" := true, "t" := true]
  {
    assert ToLower("TTh") == "tth";
    NoDayLetter("tth");
    TuesdayCut();
  }

  lemma TuesdayCut()
    ensures MarkDays("tth", DayTokens[3..]) == map["th" := true, "t" := true]
  {
    assert OccursAt("tth", "th", 1);
    assert ReplaceAll("tth", "th", "") == "t" by {
      assert "tth"[..2][1] != "th"[1];
      assert "tth"[1..] == "th";
      assert ReplaceAll("th", "th", "") == "";
    }
    assert OccursAt("t", "t", 0);
    assert ReplaceAll("t", "t", "") == "";
    assert MarkDays("t", DayTokens[4..]) == map["t" := true];
  }

  /** A text of t's and h's holds none of "m", "w", "f". */
  lemma NoDayLetter(s: string)
    requires forall i :: 0 <= i < |s| ==> s[i] == 't' || s[i] == 'h'
    ensures MarkDays(s, DayTokens) == MarkDays(s, DayTokens[3..])
  {
    ContainsChar(s, 'm');
    ContainsChar(s, 'w');
    ContainsChar(s, 'f');
    assert DayTokens[1..][1..] == DayTokens[2..] && DayTokens[2..][1..] == DayTokens[3..];
  }
}

=== FILE: old_extract.dfy ===
/** The extractors of the older root revision (extract.go). They differ
    from lib/extract.go in four ways: each first replaces the page's
    invalid UTF-8 with "?" and then unescapes its HTML entities
    (extract.go:111-112, 181-182, 222-223), so the anchors and chunks taken
    here are those of `Utf8Filter.Filter` of the page followed by
    `html.UnescapeString`; a department's Abbreviation is its href stem and
    a repeated stem is reported as an error; class positions are assigned
    to a loop copy and so never reach the result; and the section loop
    never appends, so no section is ever returned. */
module OldExtract {
  import opened Text
  import opened Outcomes
  import opened Groups
  import opened Columns
  import opened SectionChunk
  import opened Entities
  import opened DeptAnchors
  import opened ClassChunks
  import LibExtract

  // ---------------------------------------------------------------- departments

  /** The loop state: departments so far, error messages, and the keys of
      the caller's `processed` map. */
  datatype DeptsAcc = DeptsAcc(depts: seq<Dept>, errs: seq<string>, processed: set<string>)

  function AlreadyProcessed(stem: string): string {
    "skipped department: already processed: \"" + stem + "\""
  }

  /** One anchor: undecodable ones and repeated stems are reported, invalid
      ones dropped, the rest appended with their stem as Abbreviation. */
  function StepDept(acc: DeptsAcc, a: Anchor, collegeKey: string, url: string): DeptsAcc {
    match a
    case Undecodable(raw, reason) => acc.(errs := acc.errs + [UnmarshalMessage(raw, reason)])
    case Decoded(h, c) =>
      var href := TrimSpace(h);
      var content := TrimSpace(c);
      if !ValidateDept(href, content) then acc
      else
        var stem := Stem(href);
        if stem in acc.processed then acc.(errs := acc.errs + [AlreadyProcessed(stem)])
        else acc.(depts := acc.depts + [Dept(collegeKey, DeptName(content), stem, url + href)],
                  processed := acc.processed + {stem})
  }

  /** Anchors that will be reported: undecodable ones, and valid ones whose
      stem is already in `processed` when their turn comes. */
  function Reported(acc: DeptsAcc, anchors: seq<Anchor>, collegeKey: string, url: string): nat
    decreases |anchors|
  {
    if |anchors| == 0 then 0
    else
      var next := StepDept(acc, anchors[0], collegeKey, url);
      (if |next.errs| > |acc.errs| then 1 else 0) + Reported(next, anchors[1..], collegeKey, url)
  }

  /** The loop over the anchors. Every department added carries a stem new
      to the map as its Abbreviation, the map grows by exactly those
      abbreviations, and one message is added per reported anchor. */
  function FoldDepts(acc: DeptsAcc, anchors: seq<Anchor>, collegeKey: string, url: string): (r: DeptsAcc)
    ensures |r.depts| >= |acc.depts| && r.depts[..|acc.depts|] == acc.depts
    ensures |r.errs| == |acc.errs| + Reported(acc, anchors, collegeKey, url)
    ensures forall k :: |acc.depts| <= k < |r.depts| ==>
      r.depts[k].abbreviation !in acc.processed && r.depts[k].collegeKey == collegeKey
      && '.' !in r.depts[k].abbreviation && HasPrefix(r.depts[k].link, url)
    ensures forall k, l :: |acc.depts| <= k < l < |r.depts| ==>
      r.depts[k].abbreviation != r.depts[l].abbreviation
    ensures r.processed == acc.processed + set k | |acc.depts| <= k < |r.depts| :: r.depts[k].abbreviation
    decreases |anchors|
  {
    if |anchors| == 0 then acc
    else
      var mid := StepDept(acc, anchors[0], collegeKey, url);
      StepDeptOk(acc, anchors[0], collegeKey, url);
      var r := FoldDepts(mid, anchors[1..], collegeKey, url);
      FoldTrans(acc, mid, r, collegeKey, url);
      r
  }

  /** One step keeps what came before, adds at most one department with a
      fresh stem, and records it in the map. */
  lemma StepDeptOk(acc: DeptsAcc, a: Anchor, collegeKey: string, url: string)
    ensures var r := StepDept(acc, a, collegeKey, url);
      && |acc.depts| <= |r.depts| <= |acc.depts| + 1 && r.depts[..|acc.depts|] == acc.depts
      && (|r.depts| > |acc.depts| ==>
           && r.depts[|acc.depts|].abbreviation !in acc.processed
           && r.depts[|acc.depts|].collegeKey == collegeKey
           && '.' !in r.depts[|acc.depts|].abbreviation
           && HasPrefix(r.depts[|acc.depts|].link, url)
           && r.processed == acc.processed + {r.depts[|acc.depts|].abbreviation})
      && (|r.depts| == |acc.depts| ==> r.processed == acc.processed)
      && |acc.errs| <= |r.errs| <= |acc.errs| + 1
  {
    match a
    case Undecodable(_, _) =>
    case Decoded(h, c) =>
      var href := TrimSpace(h);
      if ValidateDept(href, TrimSpace(c)) && Stem(href) !in acc.processed {
        assert (url + href)[..|url|] == url;
      }
  }

  /** Chaining a step onto the rest of the loop. */
  lemma FoldTrans(acc: DeptsAcc, mid: DeptsAcc, r: DeptsAcc, collegeKey: string, url: string)
    requires |acc.depts| <= |mid.depts| <= |acc.depts| + 1 && mid.depts[..|acc.depts|] == acc.depts
    requires |mid.depts| > |acc.depts| ==>
      && mid.depts[|acc.depts|].abbreviation !in acc.processed
      && mid.depts[|acc.depts|].collegeKey == collegeKey
      && '.' !in mid.depts[|acc.depts|].abbreviation
      && HasPrefix(mid.depts[|acc.depts|].link, url)
      && mid.processed == acc.processed + {mid.depts[|acc.depts|].abbreviation}
    requires |mid.depts| == |acc.depts| ==> mid.processed == acc.processed
    requires |r.depts| >= |mid.depts| && r.depts[..|mid.depts|] == mid.depts
    requires forall k :: |mid.depts| <= k < |r.depts| ==>
      r.depts[k].abbreviation !in mid.processed && r.depts[k].collegeKey == collegeKey
      && '.' !in r.depts[k].abbreviation && HasPrefix(r.depts[k].link, url)
    requires forall k, l :: |mid.depts| <= k < l < |r.depts| ==>
      r.depts[k].abbreviation != r.depts[l].abbreviation
    requires r.processed == mid.processed + set k | |mid.depts| <= k < |r.depts| :: r.depts[k].abbreviation
    ensures |r.depts| >= |acc.depts| && r.depts[..|acc.depts|] == acc.depts
    ensures forall k :: |acc.depts| <= k < |r.depts| ==>
      r.depts[k].abbreviation !in acc.processed && r.depts[k].collegeKey == collegeKey
      && '.' !in r.depts[k].abbreviation && HasPrefix(r.depts[k].link, url)
    ensures forall k, l :: |acc.depts| <= k < l < |r.depts| ==>
      r.depts[k].abbreviation != r.depts[l].abbreviation
    ensures r.processed == acc.processed + set k | |acc.depts| <= k < |r.depts| :: r.depts[k].abbreviation
  {
    assert r.depts[..|acc.depts|] == r.depts[..|mid.depts|][..|acc.depts|];
    if |mid.depts| > |acc.depts| {
      assert r.depts[|acc.depts|] == r.depts[..|mid.depts|][|acc.depts|];
    }
  }

  /** `ExtractDepts(content, collegeKey, url, processed)` of extract.go: the
      departments, the error (nil when nothing was reported), and the map
      after the call. The error is nil exactly when every anchor decoded
      and no valid anchor repeated a processed stem. */
  function ExtractDepts(anchors: seq<Anchor>, collegeKey: string, url: string, processed: set<string>)
    : (r: (seq<Dept>, Option<string>, set<string>))
    ensures r.1.None? <==> Clean(anchors, |anchors|, processed)
    ensures r.0 == FreshDepts(anchors, |anchors|, collegeKey, url, processed)
    ensures forall k :: 0 <= k < |r.0| ==> r.0[k].abbreviation !in processed && r.0[k].collegeKey == collegeKey
    ensures forall k, l :: 0 <= k < l < |r.0| ==> r.0[k].abbreviation != r.0[l].abbreviation
    ensures r.2 == processed + ValidStems(anchors, |anchors|)
  {
    var acc := FoldDepts(DeptsAcc([], [], processed), anchors, collegeKey, url);
    assert anchors[..|anchors|] == anchors;
    FoldPrefix(anchors, |anchors|, collegeKey, url, processed);
    (acc.depts, if |acc.errs| > 0 then Some(ErrorText(acc.errs)) else None, acc.processed)
  }

  // The departments stated anchor by anchor, without the loop's state.

  /** Anchor i decodes and passes `validateDept` once trimmed. */
  predicate ValidAt(anchors: seq<Anchor>, i: int) {
    0 <= i < |anchors| && anchors[i].Decoded?
    && ValidateDept(TrimSpace(anchors[i].href), TrimSpace(anchors[i].content))
  }

  /** The stem of a valid anchor's trimmed href. */
  function StemAt(anchors: seq<Anchor>, i: int): string
    requires ValidAt(anchors, i)
  {
    Stem(TrimSpace(anchors[i].href))
  }

  /** A valid anchor whose stem is neither in the caller's map nor the stem
      of an earlier valid anchor. */
  predicate FreshAt(anchors: seq<Anchor>, i: int, processed: set<string>) {
    && ValidAt(anchors, i)
    && StemAt(anchors, i) !in processed
    && forall j :: 0 <= j < i && ValidAt(anchors, j) ==> StemAt(anchors, j) != StemAt(anchors, i)
  }

  /** The department a fresh anchor stands for. */
  function DeptAt(anchors: seq<Anchor>, i: int, collegeKey: string, url: string): Dept
    requires ValidAt(anchors, i)
  {
    var href := TrimSpace(anchors[i].href);
    Dept(collegeKey, DeptName(TrimSpace(anchors[i].content)), Stem(href), url + href)
  }

  /** Reference: the departments of the fresh anchors among the first n,
      in anchor order. */
  function FreshDepts(anchors: seq<Anchor>, n: nat, collegeKey: string, url: string, processed: set<string>)
    : seq<Dept>
    requires n <= |anchors|
  {
    if n == 0 then [] else FreshDepts(anchors, n - 1, collegeKey, url, processed) + FreshDept(anchors, n - 1, collegeKey, url, processed)
  }

  /** The department of anchor i when it is fresh, and nothing otherwise. */
  function FreshDept(anchors: seq<Anchor>, i: nat, collegeKey: string, url: string, processed: set<string>)
    : seq<Dept>
    requires i < |anchors|
  {
    if FreshAt(anchors, i, processed) then [DeptAt(anchors, i, collegeKey, url)] else []
  }

  /** The stems of the valid anchors among the first n. */
  function ValidStems(anchors: seq<Anchor>, n: nat): set<string>
    requires n <= |anchors|
  {
    set i | 0 <= i < n && ValidAt(anchors, i) :: StemAt(anchors, i)
  }

  /** Among the first n anchors, every one decodes and no valid one has a
      stem already processed or already taken by an earlier valid one. */
  predicate Clean(anchors: seq<Anchor>, n: nat, processed: set<string>)
    requires n <= |anchors|
  {
    forall i :: 0 <= i < n ==> anchors[i].Decoded? && (ValidAt(anchors, i) ==> FreshAt(anchors, i, processed))
  }

  /** The loop state after the first n anchors has collected the
      departments of the fresh ones, added the stems of the valid ones to
      the map, and reported nothing exactly when those anchors are clean. */
  predicate Summarises(acc: DeptsAcc, anchors: seq<Anchor>, n: nat, collegeKey: string, url: string,
                       processed: set<string>) {
    && n <= |anchors|
    && acc.depts == FreshDepts(anchors, n, collegeKey, url, processed)
    && acc.processed == processed + ValidStems(anchors, n)
    && (acc.errs == [] <==> Clean(anchors, n, processed))
  }

  /** The loop over the first n anchors ends in the state that summarises
      them. */
  lemma {:induction false} FoldPrefix(anchors: seq<Anchor>, n: nat, collegeKey: string, url: string,
                                      processed: set<string>)
    requires n <= |anchors|
    ensures Summarises(FoldDepts(DeptsAcc([], [], processed), anchors[..n], collegeKey, url),
                       anchors, n, collegeKey, url, processed)
  {
    var start := DeptsAcc([], [], processed);
    if n == 0 {
      assert anchors[..n] == [];
      assert ValidStems(anchors, 0) == {};
    } else {
      var pre := anchors[..n - 1];
      assert anchors[..n] == pre + [anchors[n - 1]];
      FoldSnoc(start, pre, anchors[n - 1], collegeKey, url);
      FoldPrefix(anchors, n - 1, collegeKey, url, processed);
      PrefixStep(anchors, n - 1, FoldDepts(start, pre, collegeKey, url), collegeKey, url, processed);
    }
  }

  /** Step n of the loop, given the state after the first n anchors. */
  lemma PrefixStep(anchors: seq<Anchor>, n: nat, acc: DeptsAcc, collegeKey: string, url: string,
                   processed: set<string>)
    requires n < |anchors|
    requires Summarises(acc, anchors, n, collegeKey, url, processed)
    ensures Summarises(StepDept(acc, anchors[n], collegeKey, url), anchors, n + 1, collegeKey, url, processed)
  {
    StepAt(anchors, n, acc, collegeKey, url);
    var next := StepDept(acc, anchors[n], collegeKey, url);
    var added := Added(anchors, n, acc.processed);
    AddedMeansFresh(anchors, n, processed, acc.processed);
    NextDepts(anchors, n, collegeKey, url, processed, acc.depts, next.depts, added);
    NextProcessed(anchors, n, processed, acc.processed, next.processed);
    CleanStep(anchors, n, processed);
  }

  lemma AddedMeansFresh(anchors: seq<Anchor>, n: nat, processed: set<string>, seen: set<string>)
    requires n < |anchors| && seen == processed + ValidStems(anchors, n)
    ensures ValidAt(anchors, n) ==> (StemAt(anchors, n) !in seen <==> FreshAt(anchors, n, processed))
    ensures !ValidAt(anchors, n) ==> !FreshAt(anchors, n, processed)
  {
    if ValidAt(anchors, n) {
      FreshMeansNew(anchors, n, processed);
    }
  }

  lemma NextDepts(anchors: seq<Anchor>, n: nat, collegeKey: string, url: string, processed: set<string>,
                  depts: seq<Dept>, next: seq<Dept>, added: bool)
    requires n < |anchors|
    requires depts == FreshDepts(anchors, n, collegeKey, url, processed)
    requires added <==> FreshAt(anchors, n, processed)
    requires next == depts + (if added then [DeptAt(anchors, n, collegeKey, url)] else [])
    ensures next == FreshDepts(anchors, n + 1, collegeKey, url, processed)
  {
  }

  lemma NextProcessed(anchors: seq<Anchor>, n: nat, processed: set<string>, seen: set<string>, next: set<string>)
    requires n < |anchors|
    requires seen == processed + ValidStems(anchors, n)
    requires next == seen + (if ValidAt(anchors, n) then {StemAt(anchors, n)} else {})
    ensures next == processed + ValidStems(anchors, n + 1)
  {
    if ValidAt(anchors, n) {
      StemsGrow(anchors, n);
    } else {
      StemsSame(anchors, n);
    }
  }

  /** Anchor n is valid and its stem is not yet in the map. */
  predicate Added(anchors: seq<Anchor>, n: int, seen: set<string>) {
    ValidAt(anchors, n) && StemAt(anchors, n) !in seen
  }

  /** What step n does, in terms of anchor n and the map so far. */
  lemma StepAt(anchors: seq<Anchor>, n: nat, acc: DeptsAcc, collegeKey: string, url: string)
    requires n < |anchors|
    ensures StepDept(acc, anchors[n], collegeKey, url).depts
         == acc.depts + (if Added(anchors, n, acc.processed) then [DeptAt(anchors, n, collegeKey, url)] else [])
    ensures StepDept(acc, anchors[n], collegeKey, url).processed
         == acc.processed + (if ValidAt(anchors, n) then {StemAt(anchors, n)} else {})
    ensures StepDept(acc, anchors[n], collegeKey, url).errs == []
        <==> acc.errs == [] && anchors[n].Decoded? && (ValidAt(anchors, n) ==> Added(anchors, n, acc.processed))
  {
    var next := StepDept(acc, anchors[n], collegeKey, url);
    match anchors[n]
    case Undecodable(raw, reason) =>
      assert next == acc.(errs := acc.errs + [UnmarshalMessage(raw, reason)]);
      assert !ValidAt(anchors, n);
      assert acc.depts + [] == acc.depts && acc.processed + {} == acc.processed;
    case Decoded(h, c) =>
      assert ValidAt(anchors, n) == ValidateDept(TrimSpace(h), TrimSpace(c));
      if !ValidateDept(TrimSpace(h), TrimSpace(c)) {
        assert next == acc;
        assert acc.depts + [] == acc.depts && acc.processed + {} == acc.processed;
      } else {
        var stem := Stem(TrimSpace(h));
        assert StemAt(anchors, n) == stem;
        if stem in acc.processed {
          assert next == acc.(errs := acc.errs + [AlreadyProcessed(stem)]);
          assert acc.depts + [] == acc.depts;
          assert acc.processed + {stem} == acc.processed;
        } else {
          var d := Dept(collegeKey, DeptName(TrimSpace(c)), stem, url + TrimSpace(h));
          assert next == acc.(depts := acc.depts + [d], processed := acc.processed + {stem});
          assert DeptAt(anchors, n, collegeKey, url) == d;
        }
      }
  }

  lemma StemsSame(anchors: seq<Anchor>, n: nat)
    requires n < |anchors| && !ValidAt(anchors, n)
    ensures ValidStems(anchors, n + 1) == ValidStems(anchors, n)
  {
  }

  /** The valid stems grow by the stem of a valid anchor n. */
  lemma StemsGrow(anchors: seq<Anchor>, n: nat)
    requires ValidAt(anchors, n)
    ensures ValidStems(anchors, n + 1) == ValidStems(anchors, n) + {StemAt(anchors, n)}
  {
    forall x | x in ValidStems(anchors, n + 1)
      ensures x in ValidStems(anchors, n) + {StemAt(anchors, n)}
    {
      var i :| 0 <= i < n + 1 && ValidAt(anchors, i) && StemAt(anchors, i) == x;
      if i < n {
        assert x in ValidStems(anchors, n);
      }
    }
    forall x | x in ValidStems(anchors, n)
      ensures x in ValidStems(anchors, n + 1)
    {
      var i :| 0 <= i < n && ValidAt(anchors, i) && StemAt(anchors, i) == x;
    }
  }

  /** A valid anchor is fresh exactly when its stem is not yet in the map
      the loop has built. */
  lemma FreshMeansNew(anchors: seq<Anchor>, n: nat, processed: set<string>)
    requires ValidAt(anchors, n)
    ensures FreshAt(anchors, n, processed) <==> StemAt(anchors, n) !in processed + ValidStems(anchors, n)
  {
    if StemAt(anchors, n) in ValidStems(anchors, n) {
      var j :| 0 <= j < n && ValidAt(anchors, j) && StemAt(anchors, j) == StemAt(anchors, n);
    }
  }

  /** The first n + 1 anchors are clean exactly when the first n are and
      anchor n decodes and, when valid, is fresh. */
  lemma CleanStep(anchors: seq<Anchor>, n: nat, processed: set<string>)
    requires n < |anchors|
    ensures Clean(anchors, n + 1, processed) <==>
      Clean(anchors, n, processed) && anchors[n].Decoded? && (ValidAt(anchors, n) ==> FreshAt(anchors, n, processed))
  {
  }

  /** The loop takes the last anchor after all the others. */
  lemma {:induction false} FoldSnoc(acc: DeptsAcc, a: seq<Anchor>, x: Anchor, collegeKey: string, url: string)
    ensures FoldDepts(acc, a + [x], collegeKey, url) == StepDept(FoldDepts(acc, a, collegeKey, url), x, collegeKey, url)
    decreases |a|
  {
    if |a| == 0 {
      assert a + [x] == [x];
      FoldOne(acc, [x], collegeKey, url);
      assert [x][1..] == [];
    } else {
      FoldOne(acc, a + [x], collegeKey, url);
      assert (a + [x])[0] == a[0] && (a + [x])[1..] == a[1..] + [x];
      FoldSnoc(StepDept(acc, a[0], collegeKey, url), a[1..], x, collegeKey, url);
      FoldOne(acc, a, collegeKey, url);
    }
  }

  /** The department sample of extract_test.go: of four anchors, the
      `#cse` link and the one without a parenthesised group are dropped,
      leaving two departments and no error; no anchors give nothing. */
  lemma DeptSample()
    ensures ExtractDepts([], "a college", "uw.edu/", {}) == ([], None, {})
    ensures var r := ExtractDepts(SampleAnchors(), "a college", "uw.edu/", {});
      |r.0| == 2 && r.1 == None && r.0[0].abbreviation == "cse" && r.0[1].abbreviation == "math"
  {
    SampleCse();
    SampleHash();
    SampleMath();
    SampleBiol();
    assert "cse" != "math" by { assert "cse"[0] != "math"[0]; }
    TwoOfFour("cse.html", "CS (CSE)", "#cse", "CS (CSE)", "math.html", "Math (math)",
              "biol.html", "Biology", "cse", "math", "a college", "uw.edu/");
  }

  /** The four anchors of the extract_test.go sample. */
  function SampleAnchors(): seq<Anchor> {
    [Decoded("cse.html", "CS (CSE)"), Decoded("#cse", "CS (CSE)"),
     Decoded("math.html", "Math (math)"), Decoded("biol.html", "Biology")]
  }

  /** The shape of the sample: valid, invalid, valid with another stem,
      invalid. */
  lemma {:induction false} TwoOfFour(h1: string, c1: string, h2: string, c2: string, h3: string, c3: string,
                  h4: string, c4: string, st1: string, st3: string, collegeKey: string, url: string)
    requires TrimSpace(h1) == h1 && TrimSpace(c1) == c1 && TrimSpace(h2) == h2 && TrimSpace(c2) == c2
    requires TrimSpace(h3) == h3 && TrimSpace(c3) == c3 && TrimSpace(h4) == h4 && TrimSpace(c4) == c4
    requires ValidateDept(h1, c1) && Stem(h1) == st1
    requires !ValidateDept(h2, c2)
    requires ValidateDept(h3, c3) && Stem(h3) == st3 && st1 != st3
    requires !ValidateDept(h4, c4)
    ensures var r := ExtractDepts([Decoded(h1, c1), Decoded(h2, c2), Decoded(h3, c3), Decoded(h4, c4)],
                                  collegeKey, url, {});
      |r.0| == 2 && r.1 == None && r.0[0].abbreviation == st1 && r.0[1].abbreviation == st3
  {
    var a := [Decoded(h1, c1), Decoded(h2, c2), Decoded(h3, c3), Decoded(h4, c4)];
    var s3 := SampleSteps(a, h1, c1, h2, c2, h3, c3, h4, c4, st1, st3, collegeKey, url);
    ExtractOfFold(a, collegeKey, url, {});
  }

  /** The four steps of the sample, one by one. */
  lemma SampleSteps(a: seq<Anchor>, h1: string, c1: string, h2: string, c2: string, h3: string, c3: string,
                    h4: string, c4: string, st1: string, st3: string, collegeKey: string, url: string)
    returns (s3: DeptsAcc)
    requires a == [Decoded(h1, c1), Decoded(h2, c2), Decoded(h3, c3), Decoded(h4, c4)]
    requires TrimSpace(h1) == h1 && TrimSpace(c1) == c1 && TrimSpace(h2) == h2 && TrimSpace(c2) == c2
    requires TrimSpace(h3) == h3 && TrimSpace(c3) == c3 && TrimSpace(h4) == h4 && TrimSpace(c4) == c4
    requires ValidateDept(h1, c1) && Stem(h1) == st1
    requires !ValidateDept(h2, c2)
    requires ValidateDept(h3, c3) && Stem(h3) == st3 && st1 != st3
    requires !ValidateDept(h4, c4)
    ensures FoldDepts(DeptsAcc([], [], {}), a, collegeKey, url) == s3
    ensures Reported(DeptsAcc([], [], {}), a, collegeKey, url) == 0
    ensures |s3.depts| == 2 && s3.depts[0].abbreviation == st1 && s3.depts[1].abbreviation == st3
  {
    var d1 := Dept(collegeKey, DeptName(c1), st1, url + h1);
    var d3 := Dept(collegeKey, DeptName(c3), st3, url + h3);
    var s1 := DeptsAcc([d1], [], {st1});
    s3 := DeptsAcc([d1, d3], [], {st1, st3});
    AddFirst(h1, c1, collegeKey, url);
    DropStep(s1, h2, c2, collegeKey, url);
    AddSecond(d1, st1, h3, c3, collegeKey, url);
    DropStep(s3, h4, c4, collegeKey, url);
    FoldFour(Decoded(h1, c1), Decoded(h2, c2), Decoded(h3, c3), Decoded(h4, c4), collegeKey, url, s1, s3);
  }

  /** `ExtractDepts` returns the loop's departments, and no error exactly
      when the loop collected none. */
  lemma ExtractOfFold(anchors: seq<Anchor>, collegeKey: string, url: string, processed: set<string>)
    ensures var acc := FoldDepts(DeptsAcc([], [], processed), anchors, collegeKey, url);
      ExtractDepts(anchors, collegeKey, url, processed).0 == acc.depts &&
      (ExtractDepts(anchors, collegeKey, url, processed).1.None? <==> |acc.errs| == 0)
  {
  }

  lemma AddFirst(h: string, c: string, collegeKey: string, url: string)
    requires TrimSpace(h) == h && TrimSpace(c) == c && ValidateDept(h, c)
    ensures StepDept(DeptsAcc([], [], {}), Decoded(h, c), collegeKey, url)
         == DeptsAcc([Dept(collegeKey, DeptName(c), Stem(h), url + h)], [], {Stem(h)})
  {
    var s0 := DeptsAcc([], [], {});
    AddStep(s0, h, c, collegeKey, url);
    assert s0.depts + [Dept(collegeKey, DeptName(c), Stem(h), url + h)]
        == [Dept(collegeKey, DeptName(c), Stem(h), url + h)];
    assert s0.processed + {Stem(h)} == {Stem(h)};
  }

  lemma AddSecond(d1: Dept, st1: string, h: string, c: string, collegeKey: string, url: string)
    requires TrimSpace(h) == h && TrimSpace(c) == c && ValidateDept(h, c) && Stem(h) != st1
    ensures StepDept(DeptsAcc([d1], [], {st1}), Decoded(h, c), collegeKey, url)
         == DeptsAcc([d1, Dept(collegeKey, DeptName(c), Stem(h), url + h)], [], {st1, Stem(h)})
  {
    var s1 := DeptsAcc([d1], [], {st1});
    AddStep(s1, h, c, collegeKey, url);
    assert s1.depts + [Dept(collegeKey, DeptName(c), Stem(h), url + h)]
        == [d1, Dept(collegeKey, DeptName(c), Stem(h), url + h)];
    assert s1.processed + {Stem(h)} == {st1, Stem(h)};
  }

  /** The loop over four anchors of the sample's shape. */
  lemma {:induction false} FoldFour(x0: Anchor, x1: Anchor, x2: Anchor, x3: Anchor,
                                    collegeKey: string, url: string, s1: DeptsAcc, s3: DeptsAcc)
    requires StepDept(DeptsAcc([], [], {}), x0, collegeKey, url) == s1
    requires StepDept(s1, x1, collegeKey, url) == s1
    requires StepDept(s1, x2, collegeKey, url) == s3 && |s3.errs| == |s1.errs| == 0
    requires StepDept(s3, x3, collegeKey, url) == s3
    ensures FoldDepts(DeptsAcc([], [], {}), [x0, x1, x2, x3], collegeKey, url) == s3
    ensures Reported(DeptsAcc([], [], {}), [x0, x1, x2, x3], collegeKey, url) == 0
  {
    var a := [x0, x1, x2, x3];
    FoldOne(s3, a[3..], collegeKey, url);
    assert a[3..][1..] == [];
    FoldOne(s1, a[2..], collegeKey, url);
    assert a[2..][1..] == a[3..];
    FoldOne(s1, a[1..], collegeKey, url);
    assert a[1..][1..] == a[2..];
    FoldOne(DeptsAcc([], [], {}), a, collegeKey, url);
  }

  /** The loop takes one anchor, then the rest. */
  lemma FoldOne(acc: DeptsAcc, s: seq<Anchor>, collegeKey: string, url: string)
    requires |s| > 0
    ensures FoldDepts(acc, s, collegeKey, url)
         == FoldDepts(StepDept(acc, s[0], collegeKey, url), s[1..], collegeKey, url)
    ensures Reported(acc, s, collegeKey, url)
         == (if |StepDept(acc, s[0], collegeKey, url).errs| > |acc.errs| then 1 else 0)
            + Reported(StepDept(acc, s[0], collegeKey, url), s[1..], collegeKey, url)
  {
  }

  /** A trimmed, valid anchor with a new stem is appended. */
  lemma AddStep(acc: DeptsAcc, href: string, content: string, collegeKey: string, url: string)
    requires TrimSpace(href) == href && TrimSpace(content) == content
    requires ValidateDept(href, content) && Stem(href) !in acc.processed
    ensures StepDept(acc, Decoded(href, content), collegeKey, url)
         == acc.(depts := acc.depts + [Dept(collegeKey, DeptName(content), Stem(href), url + href)],
                 processed := acc.processed + {Stem(href)})
  {
  }

  /** A trimmed, invalid anchor changes nothing. */
  lemma DropStep(acc: DeptsAcc, href: string, content: string, collegeKey: string, url: string)
    requires TrimSpace(href) == href && TrimSpace(content) == content
    requires !ValidateDept(href, content)
    ensures StepDept(acc, Decoded(href, content), collegeKey, url) == acc
  {
  }

  lemma SampleCse()
    ensures TrimSpace("cse.html") == "cse.html" && TrimSpace("CS (CSE)") == "CS (CSE)"
    ensures ValidateDept("cse.html", "CS (CSE)") && Stem("cse.html") == "cse"
  {
    TrimmedText("cse.html");
    TrimmedText("CS (CSE)");
    assert "CS (CSE)"[3] == '(' && "CS (CSE)"[7] == ')';
    SplitStem("cse", "html");
    assert "cse" + "." + "html" == "cse.html";
  }

  lemma SampleHash()
    ensures TrimSpace("#cse") == "#cse" && TrimSpace("CS (CSE)") == "CS (CSE)"
    ensures !ValidateDept("#cse", "CS (CSE)")
  {
    TrimmedText("#cse");
    TrimmedText("CS (CSE)");
  }

  lemma SampleMath()
    ensures TrimSpace("math.html") == "math.html" && TrimSpace("Math (math)") == "Math (math)"
    ensures ValidateDept("math.html", "Math (math)") && Stem("math.html") == "math"
  {
    TrimmedText("math.html");
    TrimmedText("Math (math)");
    assert "Math (math)"[5] == '(' && "Math (math)"[10] == ')';
    SplitStem("math", "html");
    assert "math" + "." + "html" == "math.html";
  }

  lemma SampleBiol()
    ensures TrimSpace("biol.html") == "biol.html" && TrimSpace("Biology") == "Biology"
    ensures !ValidateDept("biol.html", "Biology")
  {
    TrimmedText("biol.html");
    TrimmedText("Biology");
    assert !OpenBeforeClose("Biology");
  }

  /** A text without spaces at either end is its own trim. */
  lemma TrimmedText(s: string)
    requires |s| > 0 && !IsSpace(s[0]) && !IsSpace(s[|s| - 1])
    ensures TrimSpace(s) == s
  {
  }

  /** The stem of "a.b" for a dot-free a. */
  lemma SplitStem(a: string, b: string)
    requires '.' !in a
    ensures Stem(a + "." + b) == a
  {
    var s := a + "." + b;
    var r := Stem(s);
    assert s[|a|] == '.';
  }

  /** The `validateDept` cases of extract_test.go that this revision's
      signature supports. */
  lemma ValidateSample()
    ensures ValidateDept("cse.html", "Computer Science and Engineering (CSE)")
    ensures ValidateDept("cse.html", "Computer Science and Engineering (Comp Sci) (CSE)")
    ensures !ValidateDept("#CSE", "Computer Science and Engineering (CSE)")
    ensures !ValidateDept("cse.html", "Computer Science and Engineering")
  {
    var s1 := "Computer Science and Engineering (CSE)";
    assert s1[33] == '(' && s1[37] == ')';
    var s2 := "Computer Science and Engineering (Comp Sci) (CSE)";
    assert s2[33] == '(' && s2[42] == ')';
    var s3 := "Computer Science and Engineering";
    assert forall i :: 0 <= i < |s3| ==> s3[i] != '(';
  }

  // ---------------------------------------------------------------- classes

  /** `ExtractClasses(content, deptKey)` of extract.go: one class per chunk,
      built as in lib/extract.go, but the position loop writes Start and
      End into a copy, so every returned class keeps the zero position. */
  function ExtractClasses(chunks: seq<ClassChunk>, deptKey: string): (r: seq<Class>)
    ensures |r| == |chunks|
    ensures forall i :: 0 <= i < |r| ==> r[i] == LibExtract.ClassOf(chunks[i], deptKey)
    ensures forall i :: 0 <= i < |r| ==> r[i].position == Position(0, 0)
  {
    seq(|chunks|, i requires 0 <= i < |chunks| => LibExtract.ClassOf(chunks[i], deptKey))
  }

  /** The lost positions: in any page with a class chunk, the first class
      comes back with an empty range at offset 0, where lib/extract.go
      gives it the non-empty range starting at its chunk. */
  lemma ClassPositionsLost(chunks: seq<ClassChunk>, deptKey: string, contentLength: nat)
    requires InPage(chunks, contentLength) && |chunks| > 0
    ensures var old_ := ExtractClasses(chunks, deptKey);
            var fixed := LibExtract.ExtractClasses(chunks, deptKey, contentLength);
      && old_[0].position.start == old_[0].position.end
      && fixed[0].position.start < fixed[0].position.end
      && old_[0] != fixed[0]
  {
    LibExtract.ClassRangesDisjoint(chunks, deptKey, contentLength);
  }

  // ---------------------------------------------------------------- sections

  /** `ExtractSects(content, classKey)` of extract.go: every chunk's first
      line is still sliced up to column 115 (a shorter line panics), but
      the section built from it is never appended, so the result is always
      empty. */
  function ExtractSects(chunks: seq<string>, classKey: string): (r: seq<Sect>)
    requires forall i :: 0 <= i < |chunks| ==> |Lines(chunks[i])[0]| >= Stops[CellCount]
    ensures |r| == 0
  {
    []
  }

  /** The lost sections: where lib/extract.go returns one section per
      chunk, this revision returns none. */
  lemma SectionsLost(chunks: seq<string>, classKey: string, marshal: seq<MeetingTime> -> Result<string>)
    requires forall i :: 0 <= i < |chunks| ==> Readable(chunks[i], MeetingPatterns.WordThenRange)
    requires |chunks| > 0
    ensures forall i :: 0 <= i < |chunks| ==> |Lines(chunks[i])[0]| >= Stops[CellCount]
    ensures |ExtractSects(chunks, classKey)| < |LibExtract.ExtractSects(chunks, classKey, marshal).0|
  {
  }
}

=== FILE: outcomes.dfy ===
/** Failure-carrying values used throughout the model.

    `Option` stands for Go's "value or nil" returns; `Go` stands for a Go
    computation that either produces a value or panics (a slice out of range,
    an explicit `panic(...)`). */
module Outcomes {

  datatype Option<+T> = None | Some(value: T)

  /** A Go `(value, error)` pair where only one side is meaningful. */
  datatype Result<+T> = Ok(value: T) | Err(msg: string)

  /** A Go computation: it returns a value or it panics. */
  datatype Go<+T> = Value(value: T) | Panic(reason: string)

  /** The present values, in order: a Go loop that `continue`s past the
      nil ones. */
  function Present<T>(xs: seq<Option<T>>): (r: seq<T>)
    ensures |r| <= |xs|
    ensures |r| == |xs| <==> forall i :: 0 <= i < |xs| ==> xs[i].Some?
    ensures forall k :: 0 <= k < |r| ==> exists i :: 0 <= i < |xs| && xs[i] == Some(r[k])
    ensures (forall i :: 0 <= i < |xs| ==> xs[i].Some?) ==> forall i :: 0 <= i < |xs| ==> r[i] == xs[i].value
    decreases |xs|
  {
    if |xs| == 0 then []
    else
      var rest := Present(xs[1..]);
      assert forall i :: 1 <= i < |xs| ==> xs[i] == xs[1..][i - 1];
      if xs[0].Some? then
        var r := [xs[0].value] + rest;
        assert forall k :: 1 <= k < |r| ==> r[k] == rest[k - 1];
        r
      else rest
  }

  /** The values are taken one after the other: those of a + b are those
      of a, then those of b. */
  lemma {:induction false} PresentAppend<T>(a: seq<Option<T>>, b: seq<Option<T>>)
    ensures Present(a + b) == Present(a) + Present(b)
    decreases |a|
  {
    if |a| == 0 {
      assert a + b == b;
    } else {
      assert (a + b)[0] == a[0] && (a + b)[1..] == a[1..] + b;
      PresentAppend(a[1..], b);
    }
  }
}

=== FILE: patterns.dfy ===
/** The two meeting-time regular expressions, read as predicates on one
    line of a section listing.

    - `(?i)\w{1,5}\s*\d{3,4}-\d{3,4}` (lib/regexp.go, regexp.go and
      scraper/extract/regexp.go): a word character, optional white space,
      then a dashed time range such as `930-1020`.
    - `(?i)\d{3,4}.\d{3,4}` (crawler/config/config.go): two digit groups
      separated by any one character except a newline.

    `FindString(line) != ""` asks whether a match starts anywhere. A word
    run of one to five characters can always be shortened to its last
    character, and a trailing `\d{3,4}` that matches four digits also
    matches three, so existence of a match is stated with the shortest
    alternatives. */
module MeetingPatterns {
  import opened Text

  datatype MeetingPattern =
    | WordThenRange    // \w{1,5}\s*\d{3,4}-\d{3,4}
    | DigitsAnyDigits  // \d{3,4}.\d{3,4}

  /** n digits start at b. */
  predicate DigitsAt(s: string, b: int, n: nat) {
    0 <= b && b + n <= |s| && forall k :: b <= k < b + n ==> IsDigit(s[k])
  }

  /** `\d{3,4}-\d{3,4}` matches starting at b. */
  predicate DashRangeAt(s: string, b: int) {
    (DigitsAt(s, b, 3) && b + 3 < |s| && s[b + 3] == '-' && DigitsAt(s, b + 4, 3))
    || (DigitsAt(s, b, 4) && b + 4 < |s| && s[b + 4] == '-' && DigitsAt(s, b + 5, 3))
  }

  /** `\d{3,4}.\d{3,4}` matches starting at b. */
  predicate DigitsAnyAt(s: string, b: int) {
    (DigitsAt(s, b, 3) && b + 3 < |s| && s[b + 3] != '\n' && DigitsAt(s, b + 4, 3))
    || (DigitsAt(s, b, 4) && b + 4 < |s| && s[b + 4] != '\n' && DigitsAt(s, b + 5, 3))
  }

  /** s[lo..hi] is RE2 white space. */
  predicate SpacesBetween(s: string, lo: int, hi: int) {
    forall k :: lo <= k < hi && 0 <= k < |s| ==> IsRegexSpace(s[k])
  }

  /** `\w\s*\d{3,4}-\d{3,4}` with the word character at a and the digits
      at b. */
  predicate WordRangeAt(s: string, a: int, b: int) {
    0 <= a < b <= |s| && IsWordChar(s[a]) && SpacesBetween(s, a + 1, b) && DashRangeAt(s, b)
  }

  /** The pattern occurs somewhere in the line. */
  predicate Matches(s: string, p: MeetingPattern) {
    match p
    case WordThenRange => exists a, b :: 0 <= a < b <= |s| && WordRangeAt(s, a, b)
    case DigitsAnyDigits => exists b :: 0 <= b < |s| && DigitsAnyAt(s, b)
  }

  /** Every occurrence of the pattern ends at least seven characters after
      it starts, so a matching line has at least seven characters. */
  lemma MatchLength(s: string, p: MeetingPattern)
    requires Matches(s, p)
    ensures |s| >= 7
  {
    if p.WordThenRange? {
      var a, b :| WordRangeAt(s, a, b);
    } else {
      var b :| 0 <= b < |s| && DigitsAnyAt(s, b);
    }
  }

  /** A time range with a word character in front matches the crawler's
      looser pattern as well; the converse fails (`1234567` has no dash). */
  lemma WordRangeImpliesDigits(s: string)
    requires Matches(s, WordThenRange)
    ensures Matches(s, DigitsAnyDigits)
  {
    var a, b :| 0 <= a < b <= |s| && WordRangeAt(s, a, b);
    assert 0 <= b < |s| && DigitsAnyAt(s, b);
  }

  lemma DigitsWithoutDash()
    ensures Matches("1234567", DigitsAnyDigits)
    ensures !Matches("1234567", WordThenRange)
  {
    assert DigitsAnyAt("1234567", 0);
  }

  /** A bare range has no word character in front of its digits. */
  lemma BareRangeDoesNotMatch()
    ensures !Matches("930-1020", WordThenRange)
    ensures Matches("M 930-1020", WordThenRange)
  {
    assert WordRangeAt("M 930-1020", 0, 2);
  }
}

=== FILE: queue_extract.dfy ===
/** The extractors of the crawler (crawler/extract/extract.go) and of the
    later scraper (scraper/extract/extract.go). The two files differ only
    in the meeting-time pattern they detect (and in chunk expressions
    whose matches arrive here as inputs), so one model serves both, the
    revision selecting the pattern. */
module QueueExtract {
  import opened Text
  import opened Outcomes
  import opened Groups
  import opened MeetingPatterns
  import opened Columns
  import opened SectionChunk
  import opened ClassChunks
  import M = Models

  datatype Revision = Crawler | Scraper

  /** `MeetingTimeRe` of each revision: `(?i)\d{3,4}.\d{3,4}` in
      crawler/config/config.go, `(?i)\w{1,5}\s*\d{3,4}-\d{3,4}` in
      scraper/extract/regexp.go. */
  function Pattern(rev: Revision): MeetingPattern {
    match rev
    case Crawler => DigitsAnyDigits
    case Scraper => WordThenRange
  }

  /** `config.RootIndex`, the same in both revisions. */
  const RootIndex: string := "https://www.washington.edu/students/timeschd/AUT2013/"

  // ---------------------------------------------------------------- departments

  /** One department chunk (`<li><a.+?</a>`): its text, and the first match
      of `DeptLinkRe` in it (None for Go's nil). */
  datatype DeptChunk = DeptChunk(text: string, link: Option<string>)

  /** The link fragment: the match with every '"' and then every literal
      "href=" cut out; nil reads as "". */
  function LinkFragment(link: Option<string>): (r: string)
    ensures '"' !in r
  {
    match link
    case None => ""
    case Some(l) =>
      var unquoted := ReplaceAll(l, "\"", "");
      RemoveCharLeavesNone(l, '"');
      ReplaceAllChars(unquoted, "href=", "");
      ReplaceAll(unquoted, "href=", "")
  }

  /** The chunk text with tags cut out, then "&nbsp;" read as a blank, then
      "&amp;" as '&', in that order. */
  function FullTitle(text: string): (r: string)
    ensures |r| <= |text|
  {
    var cut := RemoveAll(text, Tag);
    ReplaceAllShorter(cut, "&nbsp;", " ");
    ReplaceAllShorter(ReplaceAll(cut, "&nbsp;", " "), "&amp;", "&");
    ReplaceAll(ReplaceAll(cut, "&nbsp;", " "), "&amp;", "&")
  }

  /** An abbreviation as the extractors store it: no parentheses, no
      blanks, no lower-case letters. */
  predicate CleanAbbreviation(a: string) {
    forall i :: 0 <= i < |a| ==> a[i] != '(' && a[i] != ')' && a[i] != ' ' && !IsLowerLetter(a[i])
  }

  /** A parenthesised group made into an abbreviation: parentheses and
      blanks cut out, upper-cased. */
  function Abbreviation(group: string): (r: string)
    ensures CleanAbbreviation(r)
  {
    var a := ReplaceAll(group, "(", "");
    var b := ReplaceAll(a, ")", "");
    var c := ReplaceAll(b, " ", "");
    RemoveCharLeavesNone(group, '(');
    RemoveCharLeavesNone(a, ')');
    RemoveCharLeavesNone(b, ' ');
    ReplaceAllChars(a, ")", "");
    ReplaceAllChars(b, " ", "");
    assert forall i :: 0 <= i < |c| ==> c[i] in c;
    ToUpper(c)
  }

  /** `DeptIndex.Extract` on one chunk: None when the tag-free text has no
      `(?i)\(.+?\)` group (the chunk is skipped); otherwise the department
      whose abbreviation comes from the last group, whose title is the text
      without groups, trimmed, and whose link is the root index followed by
      the link fragment. */
  function DeptOf(ck: DeptChunk): (r: Option<M.Dept>)
    ensures r.None? <==> !HasMatch(FullTitle(ck.text), ParenLine)
    ensures r.Some? ==> CleanAbbreviation(r.value.abbreviation) && Trimmed(r.value.title)
    ensures r.Some? ==> HasPrefix(r.value.link, RootIndex) && '"' !in r.value.link[|RootIndex|..]
  {
    var full := FullTitle(ck.text);
    match LastMatch(full, ParenLine)
    case None => None
    case Some(group) =>
      var link := RootIndex + LinkFragment(ck.link);
      assert link[..|RootIndex|] == RootIndex && link[|RootIndex|..] == LinkFragment(ck.link);
      Some(M.Dept(TrimSpace(RemoveAll(full, ParenLine)), Abbreviation(group), link))
  }

  /** The department of every chunk, whether or not it has a group. */
  function DeptCandidates(chunks: seq<DeptChunk>): (r: seq<Option<M.Dept>>)
    ensures |r| == |chunks| && forall i :: 0 <= i < |r| ==> r[i] == DeptOf(chunks[i])
  {
    Map(DeptOf, chunks)
  }

  /** `f` applied to each element, in order. */
  function Map<A, B>(f: A -> B, xs: seq<A>): (r: seq<B>)
    ensures |r| == |xs| && forall i :: 0 <= i < |r| ==> r[i] == f(xs[i])
  {
    seq(|xs|, i requires 0 <= i < |xs| => f(xs[i]))
  }

  lemma MapAppend<A, B>(f: A -> B, a: seq<A>, b: seq<A>)
    ensures Map(f, a + b) == Map(f, a) + Map(f, b)
  {
    assert forall i :: 0 <= i < |a| + |b| ==> (a + b)[i] == if i < |a| then a[i] else b[i - |a|];
  }

  /** `DeptIndex.Extract`: the departments of the chunks that have a group,
      in chunk order. */
  function ExtractDepts(chunks: seq<DeptChunk>): (r: seq<M.Dept>)
    ensures |r| <= |chunks|
    ensures |r| == |chunks| <==> forall i :: 0 <= i < |chunks| ==> DeptOf(chunks[i]).Some?
    ensures forall k :: 0 <= k < |r| ==> CleanAbbreviation(r[k].abbreviation) && HasPrefix(r[k].link, RootIndex)
  {
    PresentDeptsOk(chunks);
    Present(DeptCandidates(chunks))
  }

  /** Every department kept comes from some chunk, so it carries what
      `DeptOf` promises. */
  lemma PresentDeptsOk(chunks: seq<DeptChunk>)
    ensures var r := Present(DeptCandidates(chunks));
      forall k :: 0 <= k < |r| ==> CleanAbbreviation(r[k].abbreviation) && HasPrefix(r[k].link, RootIndex)
  {
    var xs := DeptCandidates(chunks);
    var r := Present(xs);
    forall k | 0 <= k < |r|
      ensures CleanAbbreviation(r[k].abbreviation) && HasPrefix(r[k].link, RootIndex)
    {
      var i :| 0 <= i < |xs| && xs[i] == Some(r[k]);
      assert DeptOf(chunks[i]) == Some(r[k]);
    }
  }

  /** The chunks are handled one after the other: extracting from a + b is
      extracting from a, then from b. */
  lemma ExtractDeptsAppend(a: seq<DeptChunk>, b: seq<DeptChunk>)
    ensures ExtractDepts(a + b) == ExtractDepts(a) + ExtractDepts(b)
  {
    CandidatesAppend(a, b);
    PresentAppend(DeptCandidates(a), DeptCandidates(b));
    ExtractDeptsPresent(a);
    ExtractDeptsPresent(b);
    ExtractDeptsPresent(a + b);
  }

  lemma CandidatesAppend(a: seq<DeptChunk>, b: seq<DeptChunk>)
    ensures DeptCandidates(a + b) == DeptCandidates(a) + DeptCandidates(b)
  {
    MapAppend(DeptOf, a, b);
  }

  lemma ExtractDeptsPresent(chunks: seq<DeptChunk>)
    ensures ExtractDepts(chunks) == Present(DeptCandidates(chunks))
  {
  }

  /** "&amp;" is decoded after "&nbsp;", so an escaped "&amp;nbsp;" comes
      out as the literal text "&nbsp;", not as a blank. */
  lemma EntityOrder()
    ensures FullTitle("&amp;nbsp;") == "&nbsp;"
  {
    NoOpenNoTag("&amp;nbsp;");
    NoNbsp();
    AmpFirst();
  }

  lemma NoNbsp()
    ensures ReplaceAll("&amp;nbsp;", "&nbsp;", " ") == "&amp;nbsp;"
  {
    var s := "&amp;nbsp;";
    assert s[..6][1] != "&nbsp;"[1];
    assert s[1..] == "amp;nbsp;";
    ReplaceAllAbsent(s[1..], "&nbsp;", " ");
    assert s == [s[0]] + s[1..];
  }

  lemma AmpFirst()
    ensures ReplaceAll("&amp;nbsp;", "&amp;", "&") == "&nbsp;"
  {
    var s := "&amp;nbsp;";
    assert s[..5] == "&amp;";
    assert s[5..] == "nbsp;";
    ReplaceAllAbsent(s[5..], "&amp;", "&");
  }

  // ---------------------------------------------------------------- classes

  /** `ClassIndex.Extract` on one chunk: the parent's key, the first
      `[a-z]+` and `\d+` of the name (upper-case letters are not part of
      `[a-z]+`), the title with tags cut out but its case kept, and the
      chunk's offset as Index. */
  function ClassOf(c: ClassChunk, parent: M.Dept): (r: M.Class)
    ensures r.deptAbbreviation == M.DeptKey(parent)
    ensures r.abbreviationCode == r.abbreviation + r.code && M.ClassKey(r) == r.abbreviationCode
    ensures forall k :: 0 <= k < |r.abbreviation| ==> IsLowerLetter(r.abbreviation[k])
    ensures forall k :: 0 <= k < |r.code| ==> IsDigit(r.code[k])
    ensures r.index == c.start
  {
    var abbr := ToLower(FirstRun(c.name, LowerLetters));
    var code := FirstRun(c.name, Digits);
    M.Class(M.DeptKey(parent), abbr + code, abbr, code, RemoveAll(c.title, Tag), c.start)
  }

  /** `ClassIndex.Extract`: one class per chunk, in chunk order. */
  function ExtractClasses(chunks: seq<ClassChunk>, parent: M.Dept): (r: seq<M.Class>)
    ensures |r| == |chunks|
    ensures forall i :: 0 <= i < |r| ==> r[i] == ClassOf(chunks[i], parent)
  {
    seq(|chunks|, i requires 0 <= i < |chunks| => ClassOf(chunks[i], parent))
  }

  /** Class Index values strictly increase: the classes come sorted by
      their place in the page, which the section queue relies on. */
  lemma ClassIndicesIncrease(chunks: seq<ClassChunk>, parent: M.Dept, contentLength: nat)
    requires InPage(chunks, contentLength)
    ensures var r := ExtractClasses(chunks, parent);
      forall i, j :: 0 <= i < j < |r| ==> r[i].index < r[j].index
  {
  }

  /** Titles keep their case: a tag-free title comes out unchanged, capitals
      included. */
  lemma TitleKeepsCase(c: ClassChunk, parent: M.Dept)
    requires '<' !in c.title
    ensures ClassOf(c, parent).title == c.title
  {
    NoOpenNoTag(c.title);
  }

  // ---------------------------------------------------------------- sections

  /** One section chunk (`(?s).{7}<A HREF=h.+?</td>`): its offset and text. */
  datatype SectChunk = SectChunk(start: nat, text: string)

  /** The Go code does not panic on the chunk: its lines are long enough
      (see `Readable`) and its spots cell does not hold exactly one digit
      run (`m[1]` is read whenever `m != nil`). */
  predicate Decodable(text: string, rev: Revision) {
    Readable(text, Pattern(rev)) && |SpotRuns(Decode(text, Pattern(rev)).row.spots)| != 1
  }

  /** The section's meeting times encode. */
  predicate Encodes(text: string, rev: Revision, marshal: seq<MeetingTime> -> Result<string>)
    requires Decodable(text, rev)
  {
    marshal(Decode(text, Pattern(rev)).times).Ok?
  }

  /** The queue step before a section: drop the head when a second class
      remains and starts before the section. `pos` is how many classes
      have been dropped so far. */
  function Pop(classes: seq<M.Class>, pos: nat, start: nat): (r: nat)
    requires pos < |classes|
    ensures pos <= r <= pos + 1 && r < |classes|
  {
    if pos + 1 < |classes| && classes[pos + 1].index < start then pos + 1 else pos
  }

  /** The class each section is assigned, as an index into `classes`:
      the queue head after that section's step. */
  function Heads(classes: seq<M.Class>, starts: seq<nat>, pos: nat): (r: seq<nat>)
    requires pos < |classes|
    ensures |r| == |starts|
    ensures forall i :: 0 <= i < |r| ==> pos <= r[i] < |classes|
    decreases |starts|
  {
    if |starts| == 0 then []
    else [Pop(classes, pos, starts[0])] + Heads(classes, starts[1..], Pop(classes, pos, starts[0]))
  }

  /** Each section's class is one queue step from the previous one's. */
  lemma {:induction false} HeadsChain(classes: seq<M.Class>, starts: seq<nat>, pos: nat)
    requires pos < |classes|
    ensures var r := Heads(classes, starts, pos);
      && (|r| > 0 ==> r[0] == Pop(classes, pos, starts[0]))
      && forall i :: 0 < i < |r| ==> r[i] == Pop(classes, r[i - 1], starts[i])
    decreases |starts|
  {
    if |starts| > 0 {
      var p := Pop(classes, pos, starts[0]);
      var rest := Heads(classes, starts[1..], p);
      var r := Heads(classes, starts, pos);
      HeadsChain(classes, starts[1..], p);
      assert forall i :: 0 < i < |r| ==> r[i] == rest[i - 1] && starts[i] == starts[1..][i - 1];
    }
  }

  /** Before each section the queue pops at most once, only when a second
      class remains and starts before the section, and it never moves
      backward. */
  lemma HeadsQueue(classes: seq<M.Class>, starts: seq<nat>, pos: nat)
    requires pos < |classes|
    ensures var r := Heads(classes, starts, pos);
      && (|r| > 0 ==> pos <= r[0] <= pos + 1)
      && (|r| > 0 ==> (r[0] == pos + 1 <==> pos + 1 < |classes| && classes[pos + 1].index < starts[0]))
      && (forall i :: 0 < i < |r| ==> r[i - 1] <= r[i] <= r[i - 1] + 1)
      && (forall i :: 0 < i < |r| ==>
           (r[i] == r[i - 1] + 1 <==> r[i - 1] + 1 < |classes| && classes[r[i - 1] + 1].index < starts[i]))
  {
    HeadsChain(classes, starts, pos);
  }

  /** The assignment of a whole page: none without sections. */
  function Assigned(classes: seq<M.Class>, starts: seq<nat>): (r: seq<nat>)
    requires |starts| > 0 ==> |classes| > 0
    ensures |r| == |starts| && forall i :: 0 <= i < |r| ==> r[i] < |classes|
  {
    if |starts| == 0 then [] else Heads(classes, starts, 0)
  }

  /** The start offsets of the chunks. */
  function Starts(chunks: seq<SectChunk>): (r: seq<nat>)
    ensures |r| == |chunks| && forall i :: 0 <= i < |r| ==> r[i] == chunks[i].start
  {
    seq(|chunks|, i requires 0 <= i < |chunks| => chunks[i].start)
  }

  /** One section, keyed to `classKey`; None when its meeting times fail
      to encode (the chunk is skipped). Unlike lib/extract.go the SLN is
      not lower-cased, and the seats need the `Decodable` guard. */
  function SectOf(text: string, classKey: string, rev: Revision, marshal: seq<MeetingTime> -> Result<string>)
    : (r: Option<M.Sect>)
    requires Decodable(text, rev)
    ensures r.None? <==> !Encodes(text, rev, marshal)
    ensures r.Some? ==> r.value.classDeptAbbreviation == classKey
    ensures r.Some? ==> (r.value.takenSpots, r.value.totalSpots) == SeatsIfTwo(Decode(text, Pattern(rev)).row.spots)
  {
    var f := Decode(text, Pattern(rev));
    var seats := SeatsIfAny(f.row.spots);
    match marshal(f.times)
    case Err(_) => None
    case Ok(json) =>
      Some(M.Sect(classKey, f.row.restriction, f.row.sln, f.row.section, f.row.credit, json,
                  f.row.instructor, f.row.status, seats.0, seats.1, f.row.grades, f.row.fee,
                  f.row.other, f.info))
  }

  /** The section of every chunk, before it is keyed to a class; None
      where the meeting times fail to encode. */
  function SectsOf(chunks: seq<SectChunk>, rev: Revision, marshal: seq<MeetingTime> -> Result<string>)
    : (r: seq<Option<M.Sect>>)
    requires forall i :: 0 <= i < |chunks| ==> Decodable(chunks[i].text, rev)
    ensures |r| == |chunks|
    ensures forall i :: 0 <= i < |r| ==> r[i] == SectOf(chunks[i].text, "", rev, marshal)
    ensures forall i :: 0 <= i < |r| ==> (r[i].Some? <==> Encodes(chunks[i].text, rev, marshal))
  {
    seq(|chunks|, i requires 0 <= i < |chunks| => SectOf(chunks[i].text, "", rev, marshal))
  }

  /** The class key of each assigned class. */
  function Keys(classes: seq<M.Class>, heads: seq<nat>): (r: seq<string>)
    requires forall i :: 0 <= i < |heads| ==> heads[i] < |classes|
    ensures |r| == |heads| && forall i :: 0 <= i < |r| ==> r[i] == M.ClassKey(classes[heads[i]])
  {
    seq(|heads|, i requires 0 <= i < |heads| => M.ClassKey(classes[heads[i]]))
  }

  /** Each present section keyed to its class key. */
  function KeyTo(xs: seq<Option<M.Sect>>, keys: seq<string>): (r: seq<Option<M.Sect>>)
    requires |keys| == |xs|
    ensures |r| == |xs|
    ensures forall i :: 0 <= i < |r| ==> (r[i].Some? <==> xs[i].Some?)
    ensures forall i :: 0 <= i < |r| && r[i].Some? ==> r[i].value == xs[i].value.(classDeptAbbreviation := keys[i])
  {
    seq(|xs|, i requires 0 <= i < |xs| =>
      if xs[i].Some? then Some(xs[i].value.(classDeptAbbreviation := keys[i])) else None)
  }

  /** Keying the sections, then dropping the missing ones, leaves every
      section keyed to one of the keys; and when none is missing, section
      i carries key i. */
  lemma KeyedPresent(xs: seq<Option<M.Sect>>, keys: seq<string>)
    requires |keys| == |xs|
    ensures var r := Present(KeyTo(xs, keys));
      && (forall k :: 0 <= k < |r| ==> exists i :: 0 <= i < |keys| && r[k].classDeptAbbreviation == keys[i])
      && ((forall i :: 0 <= i < |xs| ==> xs[i].Some?) ==>
            |r| == |xs| && forall i :: 0 <= i < |r| ==> r[i].classDeptAbbreviation == keys[i])
  {
    var ys := KeyTo(xs, keys);
    var r := Present(ys);
    forall k | 0 <= k < |r|
      ensures exists i :: 0 <= i < |keys| && r[k].classDeptAbbreviation == keys[i]
    {
      var i :| 0 <= i < |ys| && ys[i] == Some(r[k]);
      assert r[k].classDeptAbbreviation == keys[i];
    }
    if forall i :: 0 <= i < |xs| ==> xs[i].Some? {
      assert forall i :: 0 <= i < |ys| ==> ys[i].Some?;
      forall i | 0 <= i < |r|
        ensures r[i].classDeptAbbreviation == keys[i]
      {
        assert r[i] == ys[i].value;
      }
    }
  }

  /** The key is that of one of the classes. */
  predicate NamesClass(key: string, classes: seq<M.Class>) {
    exists j :: 0 <= j < |classes| && key == M.ClassKey(classes[j])
  }

  /** The sections, each keyed to its assigned class, the missing ones
      left out. */
  function Assemble(xs: seq<Option<M.Sect>>, classes: seq<M.Class>, heads: seq<nat>): (r: seq<M.Sect>)
    requires |heads| == |xs| && forall i :: 0 <= i < |heads| ==> heads[i] < |classes|
    ensures |r| <= |xs|
    ensures |r| == |xs| <==> forall i :: 0 <= i < |xs| ==> xs[i].Some?
    ensures forall k :: 0 <= k < |r| ==> NamesClass(r[k].classDeptAbbreviation, classes)
    ensures (forall i :: 0 <= i < |xs| ==> xs[i].Some?) ==>
      forall i :: 0 <= i < |r| ==> r[i].classDeptAbbreviation == M.ClassKey(classes[heads[i]])
  {
    AssembleKeys(xs, classes, heads);
    AssembleLength(xs, classes, heads);
    Present(KeyTo(xs, Keys(classes, heads)))
  }

  /** The keys of the assembled sections name classes, and when none is
      missing section i carries the key of class heads[i]. */
  lemma AssembleKeys(xs: seq<Option<M.Sect>>, classes: seq<M.Class>, heads: seq<nat>)
    requires |heads| == |xs| && forall i :: 0 <= i < |heads| ==> heads[i] < |classes|
    ensures var r := Present(KeyTo(xs, Keys(classes, heads)));
      && (forall k :: 0 <= k < |r| ==> NamesClass(r[k].classDeptAbbreviation, classes))
      && ((forall i :: 0 <= i < |xs| ==> xs[i].Some?) ==>
            forall i :: 0 <= i < |r| ==> r[i].classDeptAbbreviation == M.ClassKey(classes[heads[i]]))
  {
    var keys := Keys(classes, heads);
    var r := Present(KeyTo(xs, keys));
    KeyedPresent(xs, keys);
    forall k | 0 <= k < |r|
      ensures NamesClass(r[k].classDeptAbbreviation, classes)
    {
      var i :| 0 <= i < |keys| && r[k].classDeptAbbreviation == keys[i];
      var j := heads[i];
      assert r[k].classDeptAbbreviation == M.ClassKey(classes[j]);
    }
  }

  /** Nothing is lost exactly when every section is present. */
  lemma AssembleLength(xs: seq<Option<M.Sect>>, classes: seq<M.Class>, heads: seq<nat>)
    requires |heads| == |xs| && forall i :: 0 <= i < |heads| ==> heads[i] < |classes|
    ensures var r := Present(KeyTo(xs, Keys(classes, heads)));
      |r| <= |xs| && (|r| == |xs| <==> forall i :: 0 <= i < |xs| ==> xs[i].Some?)
  {
    var ys := KeyTo(xs, Keys(classes, heads));
    assert (forall i :: 0 <= i < |ys| ==> ys[i].Some?) <==> (forall i :: 0 <= i < |xs| ==> xs[i].Some?);
  }

  /** `SectIndex.Extract(classes)`: the sections of the chunks, in order,
      each keyed to the class at the head of the queue; sections whose
      meeting times fail to encode are left out. `classes[0]` is read for
      every chunk, so a page with sections needs a class. */
  function ExtractSects(chunks: seq<SectChunk>, classes: seq<M.Class>, rev: Revision,
                        marshal: seq<MeetingTime> -> Result<string>): (r: seq<M.Sect>)
    requires |chunks| > 0 ==> |classes| > 0
    requires forall i :: 0 <= i < |chunks| ==> Decodable(chunks[i].text, rev)
    ensures |r| <= |chunks|
    ensures |r| == |chunks| <==> forall i :: 0 <= i < |chunks| ==> Encodes(chunks[i].text, rev, marshal)
    ensures forall k :: 0 <= k < |r| ==> NamesClass(r[k].classDeptAbbreviation, classes)
  {
    Assemble(SectsOf(chunks, rev, marshal), classes, Assigned(classes, Starts(chunks)))
  }

  /** When every section encodes, section i is keyed to the class the
      queue holds at its step. */
  lemma SectsFollowQueue(chunks: seq<SectChunk>, classes: seq<M.Class>, rev: Revision,
                         marshal: seq<MeetingTime> -> Result<string>)
    requires |chunks| > 0 ==> |classes| > 0
    requires forall i :: 0 <= i < |chunks| ==> Decodable(chunks[i].text, rev)
    requires forall i :: 0 <= i < |chunks| ==> Encodes(chunks[i].text, rev, marshal)
    ensures var r := ExtractSects(chunks, classes, rev, marshal);
      |r| == |chunks| && forall i :: 0 <= i < |r| ==>
        r[i].classDeptAbbreviation == M.ClassKey(classes[Assigned(classes, Starts(chunks))[i]])
  {
    AllPresent(chunks, rev, marshal);
  }

  /** When every chunk encodes, every section is present. */
  lemma AllPresent(chunks: seq<SectChunk>, rev: Revision, marshal: seq<MeetingTime> -> Result<string>)
    requires forall i :: 0 <= i < |chunks| ==> Decodable(chunks[i].text, rev)
    requires forall i :: 0 <= i < |chunks| ==> Encodes(chunks[i].text, rev, marshal)
    ensures var xs := SectsOf(chunks, rev, marshal);
      forall i :: 0 <= i < |xs| ==> xs[i].Some?
  {
  }

  /** With sections in page order, a section is never assigned a class
      that starts after it, except the first class, which every section
      before the second class falls back to. */
  lemma {:induction false} HeadsStartBefore(classes: seq<M.Class>, starts: seq<nat>, pos: nat)
    requires pos < |classes|
    requires forall i, j :: 0 <= i < j < |starts| ==> starts[i] < starts[j]
    requires pos == 0 || |starts| == 0 || classes[pos].index < starts[0]
    ensures var r := Heads(classes, starts, pos);
      forall i :: 0 <= i < |r| && r[i] > 0 ==> classes[r[i]].index < starts[i]
    decreases |starts|
  {
    if |starts| > 0 {
      var p := Pop(classes, pos, starts[0]);
      var rest := Heads(classes, starts[1..], p);
      var r := Heads(classes, starts, pos);
      assert r[0] == p;
      if |starts| > 1 {
        assert starts[1..][0] == starts[1];
        HeadsStartBefore(classes, starts[1..], p);
        assert forall i :: 1 <= i < |r| ==> r[i] == rest[i - 1] && starts[i] == starts[1..][i - 1];
      }
    }
  }

  // ---------------------------------------------------------------- the queue pops once

  /** The queue step with `for` in place of `if`: drop heads while the next
      class starts before the section. */
  function PopWhile(classes: seq<M.Class>, pos: nat, start: nat): (r: nat)
    requires pos < |classes|
    ensures pos <= r < |classes|
    ensures forall k :: pos < k <= r ==> classes[k].index < start
    ensures r + 1 == |classes| || classes[r + 1].index >= start
    decreases |classes| - pos
  {
    if pos + 1 < |classes| && classes[pos + 1].index < start then PopWhile(classes, pos + 1, start) else pos
  }

  /** The assignment with the popping loop. */
  function LatestHeads(classes: seq<M.Class>, starts: seq<nat>, pos: nat): (r: seq<nat>)
    requires pos < |classes|
    ensures |r| == |starts|
    ensures forall i :: 0 <= i < |r| ==> pos <= r[i] < |classes|
    decreases |starts|
  {
    if |starts| == 0 then []
    else [PopWhile(classes, pos, starts[0])] + LatestHeads(classes, starts[1..], PopWhile(classes, pos, starts[0]))
  }

  /** Each section's class is the popping loop run from the previous
      one's. */
  lemma {:induction false} LatestChain(classes: seq<M.Class>, starts: seq<nat>, pos: nat)
    requires pos < |classes|
    ensures var r := LatestHeads(classes, starts, pos);
      && (|r| > 0 ==> r[0] == PopWhile(classes, pos, starts[0]))
      && forall i :: 0 < i < |r| ==> r[i] == PopWhile(classes, r[i - 1], starts[i])
    decreases |starts|
  {
    if |starts| > 0 {
      var p := PopWhile(classes, pos, starts[0]);
      var rest := LatestHeads(classes, starts[1..], p);
      var r := LatestHeads(classes, starts, pos);
      LatestChain(classes, starts[1..], p);
      assert forall i :: 0 < i < |r| ==> r[i] == rest[i - 1] && starts[i] == starts[1..][i - 1];
    }
  }

  /** With sections in page order, the class assigned to a section starts
      before it, unless it is the first class. */
  lemma {:induction false} LatestHeadsBefore(classes: seq<M.Class>, starts: seq<nat>, pos: nat)
    requires pos < |classes|
    requires forall i, j :: 0 <= i < j < |starts| ==> starts[i] < starts[j]
    requires pos == 0 || |starts| == 0 || classes[pos].index < starts[0]
    ensures var r := LatestHeads(classes, starts, pos);
      forall i :: 0 <= i < |r| ==> r[i] == 0 || classes[r[i]].index < starts[i]
    decreases |starts|
  {
    if |starts| > 0 {
      var p := PopWhile(classes, pos, starts[0]);
      var rest := LatestHeads(classes, starts[1..], p);
      var r := LatestHeads(classes, starts, pos);
      assert r[0] == p;
      if |starts| > 1 {
        assert starts[1..][0] == starts[1];
        LatestHeadsBefore(classes, starts[1..], p);
        assert forall i :: 1 <= i < |r| ==> r[i] == rest[i - 1] && starts[i] == starts[1..][i - 1];
      }
    }
  }

  /** With classes and sections in page order, the popping loop assigns
      every section the last class that starts before it (the first class
      when none does): exactly the class whose part of the page holds the
      section. */
  lemma LatestHeadsContain(classes: seq<M.Class>, starts: seq<nat>, pos: nat)
    requires pos < |classes|
    requires forall i, j :: 0 <= i < j < |classes| ==> classes[i].index < classes[j].index
    requires forall i, j :: 0 <= i < j < |starts| ==> starts[i] < starts[j]
    requires pos == 0 || |starts| == 0 || classes[pos].index < starts[0]
    ensures var r := LatestHeads(classes, starts, pos);
      forall i :: 0 <= i < |r| ==>
        (r[i] == 0 || classes[r[i]].index < starts[i])
        && forall k :: r[i] < k < |classes| ==> classes[k].index >= starts[i]
  {
    var r := LatestHeads(classes, starts, pos);
    LatestChain(classes, starts, pos);
    LatestHeadsBefore(classes, starts, pos);
    forall i, k | 0 <= i < |r| && r[i] < k < |classes|
      ensures classes[k].index >= starts[i]
    {
      if i == 0 {
        AfterPop(classes, pos, starts[0], k);
      } else {
        AfterPop(classes, r[i - 1], starts[i], k);
      }
    }
  }

  /** Every class after the one the popping loop stops at starts at or
      after the section. */
  lemma AfterPop(classes: seq<M.Class>, pos: nat, start: nat, k: int)
    requires forall i, j :: 0 <= i < j < |classes| ==> classes[i].index < classes[j].index
    requires pos < |classes| && PopWhile(classes, pos, start) < k < |classes|
    ensures classes[k].index >= start
  {
    var q := PopWhile(classes, pos, start);
    assert q + 1 == k || classes[q + 1].index < classes[k].index;
  }

  /** The corrected assignment of a whole page. */
  function LatestAssigned(classes: seq<M.Class>, starts: seq<nat>): (r: seq<nat>)
    requires |starts| > 0 ==> |classes| > 0
    ensures |r| == |starts| && forall i :: 0 <= i < |r| ==> r[i] < |classes|
  {
    if |starts| == 0 then [] else LatestHeads(classes, starts, 0)
  }

  /** The queue pops once per section, so a class without sections of its
      own makes the next section land on it: classes at offsets 0, 10 and
      20 and one section at 30 give the class at 10, while the section
      lies in the part of the page of the class at 20. */
  lemma PopOnceLags()
    ensures var classes := [M.Class("", "a", "", "", "", 0), M.Class("", "b", "", "", "", 10),
                            M.Class("", "c", "", "", "", 20)];
      Assigned(classes, [30]) == [1] && LatestAssigned(classes, [30]) == [2]
  {
    var classes := [M.Class("", "a", "", "", "", 0), M.Class("", "b", "", "", "", 10),
                    M.Class("", "c", "", "", "", 20)];
    assert PopWhile(classes, 0, 30) == 2;
    assert [30][1..] == [];
  }

  /** The corrected `SectIndex.Extract`: as `ExtractSects`, with the popping
      loop assigning the classes. */
  function ExtractSectsLatest(chunks: seq<SectChunk>, classes: seq<M.Class>, rev: Revision,
                              marshal: seq<MeetingTime> -> Result<string>): (r: seq<M.Sect>)
    requires |chunks| > 0 ==> |classes| > 0
    requires forall i :: 0 <= i < |chunks| ==> Decodable(chunks[i].text, rev)
    ensures |r| <= |chunks|
    ensures |r| == |chunks| <==> forall i :: 0 <= i < |chunks| ==> Encodes(chunks[i].text, rev, marshal)
    ensures forall k :: 0 <= k < |r| ==> NamesClass(r[k].classDeptAbbreviation, classes)
  {
    Assemble(SectsOf(chunks, rev, marshal), classes, LatestAssigned(classes, Starts(chunks)))
  }

  /** Section `s`, starting at `start`, is keyed to class j, the last class
      that starts before it (or the first class when none does). */
  predicate HoldsSection(classes: seq<M.Class>, s: M.Sect, j: int, start: nat) {
    && 0 <= j < |classes|
    && s.classDeptAbbreviation == M.ClassKey(classes[j])
    && (j == 0 || classes[j].index < start)
    && forall k :: j < k < |classes| ==> classes[k].index >= start
  }

  /** The popping loop keys every present section to the class holding it. */
  lemma LatestKeysHold(xs: seq<Option<M.Sect>>, classes: seq<M.Class>, starts: seq<nat>)
    requires |xs| == |starts| && (|starts| > 0 ==> |classes| > 0)
    requires forall i :: 0 <= i < |xs| ==> xs[i].Some?
    requires forall i, j :: 0 <= i < j < |classes| ==> classes[i].index < classes[j].index
    requires forall i, j :: 0 <= i < j < |starts| ==> starts[i] < starts[j]
    ensures var heads := LatestAssigned(classes, starts);
      var r := Assemble(xs, classes, heads);
      |r| == |xs| && forall i :: 0 <= i < |r| ==> HoldsSection(classes, r[i], heads[i], starts[i])
  {
    if |starts| > 0 {
      var heads := LatestAssigned(classes, starts);
      var r := Assemble(xs, classes, heads);
      LatestHeadsContain(classes, starts, 0);
      forall i | 0 <= i < |r|
        ensures HoldsSection(classes, r[i], heads[i], starts[i])
      {
        assert r[i].classDeptAbbreviation == M.ClassKey(classes[heads[i]]);
      }
    }
  }

  /** In a page in order where every section encodes, the corrected
      extractor keys each section to the class whose part of the page
      holds it. */
  lemma LatestSectsContained(chunks: seq<SectChunk>, classes: seq<M.Class>, rev: Revision,
                             marshal: seq<MeetingTime> -> Result<string>)
    requires |chunks| > 0 ==> |classes| > 0
    requires forall i :: 0 <= i < |chunks| ==> Decodable(chunks[i].text, rev)
    requires forall i :: 0 <= i < |chunks| ==> Encodes(chunks[i].text, rev, marshal)
    requires forall i, j :: 0 <= i < j < |classes| ==> classes[i].index < classes[j].index
    requires forall i, j :: 0 <= i < j < |chunks| ==> chunks[i].start < chunks[j].start
    ensures var r := ExtractSectsLatest(chunks, classes, rev, marshal);
      |r| == |chunks| && forall i :: 0 <= i < |r| ==>
        HoldsSection(classes, r[i], LatestAssigned(classes, Starts(chunks))[i], chunks[i].start)
  {
    AllPresent(chunks, rev, marshal);
    var starts := Starts(chunks);
    LatestKeysHold(SectsOf(chunks, rev, marshal), classes, starts);
  }

  // ---------------------------------------------------------------- printed sections

  /** A printed one-line section comes back with its cells as they were:
      the SLN keeps its case, and a spots cell without digits leaves the
      section closed. */
  lemma PrintedSection(cells: seq<string>, other: string, classKey: string, rev: Revision,
                       marshal: seq<MeetingTime> -> Result<string>)
    requires |cells| == CellCount
    requires forall j :: 0 <= j < CellCount ==> |cells[j]| <= Width(j) && Trimmed(cells[j])
    requires Trimmed(other)
    requires '<' !in PrintLine(cells, other) && '\n' !in PrintLine(cells, other)
    requires |SpotRuns(cells[Spots])| != 1
    ensures Decodable(PrintLine(cells, other), rev)
    ensures Encodes(PrintLine(cells, other), rev, marshal) ==>
      var s := SectOf(PrintLine(cells, other), classKey, rev, marshal).value;
      && s.sln == cells[Sln] && s.restriction == cells[Restriction] && s.section == cells[Section]
      && s.credit == cells[Credit] && s.instructor == cells[Instructor] && s.status == cells[Status]
      && s.grades == cells[Grades] && s.fee == cells[Fee] && s.other == other && s.info == ""
      && (|SpotRuns(cells[Spots])| == 0 ==> !M.IsOpen(s))
  {
    DecodePrintedChunk(cells, other, Pattern(rev));
  }
}

=== FILE: reflection.dfy ===
/** The insert statement of the crawler's database layer
    (crawler/database/database_reflection.go): `prepareInsertString` writes
    one numbered placeholder per struct field, closing the list after the
    last, and `prepareInsertArguments` passes every field value, which
    reflection reads only from exported fields. Unlike lib/database.go no
    field is skipped. */
module Reflection {
  import opened Text
  import opened Outcomes
  import Schema

  /** The placeholders from field i on: "$<i+1>," for each but the last,
      "$<n>)" for the last. */
  function PlaceholderLoop(i: nat, n: nat): (r: string)
    requires i <= n
    decreases n - i
  {
    if i == n then ""
    else if i == n - 1 then Schema.Placeholder(i + 1) + ")"
    else Schema.Placeholder(i + 1) + "," + PlaceholderLoop(i + 1, n)
  }

  /** `prepareInsertString(q)` for a struct with n fields stored in table
      `table`. */
  function PrepareInsertString(table: string, n: nat): string {
    "INSERT INTO " + table + " VALUES (" + PlaceholderLoop(0, n)
  }

  /** `prepareInsertArguments(q)` paired with the statement: every field
      value, in declaration order; or the reflection panic when some field
      is not exported. */
  function PrepareInsert<V>(table: string, fields: seq<Schema.Field>, values: seq<V>): (r: Go<(string, seq<V>)>)
    requires |values| == |fields|
    ensures r.Value? <==> forall i :: 0 <= i < |fields| ==> Schema.Exported(fields[i])
    ensures r.Panic? ==> r.reason == Schema.UnexportedPanic
    ensures r.Value? ==> |r.value.1| == |values| && forall i :: 0 <= i < |values| ==> r.value.1[i] == values[i]
    ensures r.Value? ==> r.value.0 == PrepareInsertString(table, |fields|)
  {
    if forall i :: 0 <= i < |fields| ==> Schema.Exported(fields[i]) then
      Value((PrepareInsertString(table, |fields|), values))
    else Panic(Schema.UnexportedPanic)
  }

  /** The loop writes the comma-joined placeholders and one closing
      parenthesis. */
  lemma {:induction false} LoopIsJoin(i: nat, n: nat)
    requires i < n
    ensures PlaceholderLoop(i, n) == Join(Schema.Placeholders(n)[i..], ',') + ")"
    decreases n - i
  {
    var ps := Schema.Placeholders(n);
    if i < n - 1 {
      LoopIsJoin(i + 1, n);
      assert ps[i..][1..] == ps[i + 1..];
      assert ps[i..][0] == Schema.Placeholder(i + 1);
    } else {
      assert ps[i..] == [Schema.Placeholder(i + 1)];
    }
  }

  /** With n >= 1 fields the statement is "INSERT INTO <table> VALUES
      ($1,…,$n)"; with none, the list is opened and never closed. */
  lemma InsertStringShape(table: string, n: nat)
    ensures n >= 1 ==>
      PrepareInsertString(table, n) == "INSERT INTO " + table + " VALUES (" + Join(Schema.Placeholders(n), ',') + ")"
    ensures n == 0 ==> PrepareInsertString(table, n) == "INSERT INTO " + table + " VALUES ("
  {
    if n >= 1 {
      LoopIsJoin(0, n);
      assert Schema.Placeholders(n)[0..] == Schema.Placeholders(n);
    } else {
      assert "INSERT INTO " + table + " VALUES (" + "" == "INSERT INTO " + table + " VALUES (";
    }
  }

  /** The three tables of the crawler's records. */
  datatype Table = DeptTable | ClassTable | SectTable

  /** `TableName()` of the crawler's Dept, Class and Sect. */
  function TableName(t: Table): (r: string)
    ensures |r| > 0
  {
    match t
    case DeptTable => "depts"
    case ClassTable => "classes"
    case SectTable => "sects"
  }

  /** For a struct with fields and none ignored, the crawler's statement
      and lib/database.go's `Insert` panic for the same structs; otherwise
      they pass the same arguments and share everything after the table
      name, and the statements are equal exactly when the crawler's table
      is named like lib's type. */
  lemma SameAsLibInsert<V>(table: string, t: Schema.StructType, values: seq<V>)
    requires |values| == |t.fields| >= 1
    requires forall i :: 0 <= i < |t.fields| ==> t.fields[i].ignore != "true"
    ensures PrepareInsert(table, t.fields, values).Value? <==> Schema.InsertStatement(t, values).Value?
    ensures PrepareInsert(table, t.fields, values).Value? ==>
      var (q, args) := PrepareInsert(table, t.fields, values).value;
      var (libQ, libArgs) := Schema.InsertStatement(t, values).value;
      var tail := " VALUES (" + Join(Schema.Placeholders(|values|), ',') + ")";
      && args == libArgs
      && q == "INSERT INTO " + table + tail
      && libQ == "INSERT INTO " + t.name + tail
      && (q == libQ <==> table == t.name)
  {
    KeptAll(t.fields, values);
    if PrepareInsert(table, t.fields, values).Value? {
      SharedTail(table, t.name, |values|);
    }
  }

  /** The crawler's statement for n >= 1 fields, and how it compares with
      the same statement under another table name. */
  lemma SharedTail(table: string, name: string, n: nat)
    requires n >= 1
    ensures var tail := " VALUES (" + Join(Schema.Placeholders(n), ',') + ")";
      && PrepareInsertString(table, n) == "INSERT INTO " + table + tail
      && ("INSERT INTO " + table + tail == "INSERT INTO " + name + tail <==> table == name)
  {
    InsertStringShape(table, n);
    var tail := " VALUES (" + Join(Schema.Placeholders(n), ',') + ")";
    assert "INSERT INTO " + table + " VALUES (" + Join(Schema.Placeholders(n), ',') + ")"
        == "INSERT INTO " + table + tail;
    Between("INSERT INTO ", table, name, tail);
  }

  /** Text between a common head and a common tail is equal exactly when
      the whole texts are. */
  lemma Between(head: string, a: string, b: string, tail: string)
    ensures head + a + tail == head + b + tail <==> a == b
  {
    if head + a + tail == head + b + tail {
      assert |a| == |b|;
      assert a == (head + a + tail)[|head|..|head| + |a|];
      assert b == (head + b + tail)[|head|..|head| + |b|];
    }
  }

  /** The crawler's table names are not lib's type names: no record
      reaches the same statement through both layers. */
  lemma TablesAreNotTypeNames()
    ensures TableName(DeptTable) != Schema.DeptType.name
    ensures TableName(ClassTable) != Schema.ClassType.name
    ensures TableName(SectTable) != Schema.SectType.name
  {
    assert TableName(DeptTable)[0] != Schema.DeptType.name[0];
    assert TableName(ClassTable)[0] != Schema.ClassType.name[0];
    assert TableName(SectTable)[0] != Schema.SectType.name[0];
  }

  /** With nothing ignored, every field and value is kept. */
  lemma {:induction false} KeptAll<V>(fields: seq<Schema.Field>, values: seq<V>)
    requires |values| == |fields|
    requires forall i :: 0 <= i < |fields| ==> fields[i].ignore != "true"
    ensures Schema.Kept(fields) == fields && Schema.KeptValues(fields, values) == values
    decreases |fields|
  {
    if |fields| > 0 {
      assert forall i :: 0 <= i < |fields[1..]| ==> fields[1..][i] == fields[i + 1];
      KeptAll(fields[1..], values[1..]);
      assert fields == [fields[0]] + fields[1..];
      assert values == [values[0]] + values[1..];
    }
  }
}

=== FILE: routing.dfy ===
/** The frontend's URL patterns (goschedule/frontend/routing.go). A route
    is a pattern such as "/schedule/:dept": after the leading '/', each
    '/'-separated segment is either a literal, which must equal the path's
    segment, or a ':name' wildcard, which matches any segment and binds it
    under `name`. The patterns "/" and the path "/" are special cases. */
module Routing {
  import opened Text
  import opened Outcomes

  const OutOfRange := "index out of range"
  const NoMatch := "route.parse error: route does not match path"

  /** `strings.Split(s, "/")[1:]`: the segments after the first '/'. */
  function Segments(s: string): seq<string> {
    Split(s, '/')[1..]
  }

  /** A route segment matches a path segment: it is a wildcard or the
      same text. Empty route segments match nothing. */
  predicate Fits(r: string, p: string) {
    |r| > 0 && (r[0] == ':' || r == p)
  }

  /** The route can be matched against any path without a panic: it is
      "/", or it has at least one segment and none of them is empty. */
  predicate Matchable(route: string) {
    route == "/" ||
    (|Segments(route)| > 0 && forall i :: 0 <= i < |Segments(route)| ==> |Segments(route)[i]| > 0)
  }

  /** `_match`: segment by segment; the first segment of each slice is
      read before anything else, and so is its first character. */
  function MatchSegments(rs: seq<string>, ps: seq<string>): (r: Go<bool>)
    requires |rs| == |ps|
    ensures r.Panic? ==> r.reason == OutOfRange && (|rs| == 0 || exists i :: 0 <= i < |rs| && |rs[i]| == 0)
    decreases |rs|
  {
    if |rs| == 0 then Panic(OutOfRange)
    else if |rs[0]| == 0 then Panic(OutOfRange)
    else if |rs| == 1 then
      if rs[0][0] != ':' then Value(rs[0] == ps[0]) else Value(true)
    else if rs[0][0] != ':' then
      if rs[0] == ps[0] then MatchSegments(rs[1..], ps[1..]) else Value(false)
    else MatchSegments(rs[1..], ps[1..])
  }

  /** `route.match(path)`. */
  function Match(route: string, path: string): (r: Go<bool>)
    ensures route == "/" || path == "/" ==> r == Value(route == path)
    ensures r.Panic? ==> r.reason == OutOfRange
  {
    if route == "/" && path == "/" then Value(true)
    else if route == "/" && path != "/" then Value(false)
    else if route != "/" && path == "/" then Value(false)
    else
      var rs := Segments(route);
      var ps := Segments(path);
      if |rs| != |ps| then Value(false) else MatchSegments(rs, ps)
  }

  /** `_match` holds iff every segment fits, and it does not panic when no
      route segment is empty. */
  lemma {:induction false} MatchSegmentsFits(rs: seq<string>, ps: seq<string>)
    requires |rs| == |ps|
    ensures MatchSegments(rs, ps) == Value(true) <==>
      |rs| > 0 && forall i :: 0 <= i < |rs| ==> Fits(rs[i], ps[i])
    ensures (|rs| > 0 && forall i :: 0 <= i < |rs| ==> |rs[i]| > 0) ==> MatchSegments(rs, ps).Value?
    decreases |rs|
  {
    if |rs| > 1 && |rs[0]| > 0 {
      MatchSegmentsFits(rs[1..], ps[1..]);
      assert forall i :: 1 <= i < |rs| ==> rs[i] == rs[1..][i - 1] && ps[i] == ps[1..][i - 1];
    }
  }

  /** A route matches a path iff both are "/", or neither is and they have
      as many segments, each fitting. A matchable route never panics. */
  lemma MatchMeaning(route: string, path: string)
    ensures Match(route, path) == Value(true) <==>
      (route == "/" && path == "/") ||
      (route != "/" && path != "/" && |Segments(route)| == |Segments(path)| > 0 &&
       forall i :: 0 <= i < |Segments(route)| ==> Fits(Segments(route)[i], Segments(path)[i]))
    ensures Matchable(route) ==> Match(route, path).Value?
  {
    var rs := Segments(route);
    var ps := Segments(path);
    if |rs| == |ps| {
      MatchSegmentsFits(rs, ps);
    }
  }

  // ---------------------------------------------------------------- parameters

  /** The segment is the wildcard ':name'. */
  predicate Names(seg: string, name: string) {
    |seg| > 0 && seg[0] == ':' && seg[1..] == name
  }

  /** The loop of `parse` from segment i on, storing into `acc`. */
  function Params(rs: seq<string>, ps: seq<string>, i: nat, acc: map<string, string>): map<string, string>
    requires i <= |rs| == |ps|
    requires forall j :: 0 <= j < |rs| ==> |rs[j]| > 0
    decreases |rs| - i
  {
    if i == |rs| then acc
    else if rs[i][0] == ':' then Params(rs, ps, i + 1, acc[rs[i][1..] := ps[i]])
    else Params(rs, ps, i + 1, acc)
  }

  /** No segment after j binds `name`. */
  predicate LastBinding(rs: seq<string>, j: int, name: string) {
    forall k :: j < k < |rs| && 0 <= k ==> !Names(rs[k], name)
  }

  /** The keys of the map are those of `acc` and the names of the wildcards
      from i on; a name's value is the path segment of its last wildcard,
      and names bound by no wildcard keep the value they had. */
  lemma {:induction false} ParamsBind(rs: seq<string>, ps: seq<string>, i: nat, acc: map<string, string>)
    requires i <= |rs| == |ps|
    requires forall j :: 0 <= j < |rs| ==> |rs[j]| > 0
    ensures forall name :: name in Params(rs, ps, i, acc) <==>
      name in acc || exists j :: i <= j < |rs| && Names(rs[j], name)
    ensures forall j, name :: i <= j < |rs| && Names(rs[j], name) && LastBinding(rs, j, name) ==>
      Params(rs, ps, i, acc)[name] == ps[j]
    ensures forall name :: name in acc && (forall j :: i <= j < |rs| ==> !Names(rs[j], name)) ==>
      Params(rs, ps, i, acc)[name] == acc[name]
    decreases |rs| - i
  {
    if i < |rs| {
      var next := if rs[i][0] == ':' then acc[rs[i][1..] := ps[i]] else acc;
      ParamsBind(rs, ps, i + 1, next);
      var r := Params(rs, ps, i, acc);
      assert r == Params(rs, ps, i + 1, next);
      if rs[i][0] == ':' {
        assert Names(rs[i], rs[i][1..]);
        forall name | name in acc && (forall j :: i <= j < |rs| ==> !Names(rs[j], name))
          ensures r[name] == acc[name]
        {
          assert !Names(rs[i], name);
        }
        if LastBinding(rs, i, rs[i][1..]) {
          assert r[rs[i][1..]] == ps[i];
        }
      }
    }
  }

  /** `route.parse(path)`: no map for "/", a panic when the route does not
      match, otherwise the wildcard bindings. */
  function Parse(route: string, path: string): (r: Go<Option<map<string, string>>>)
    ensures r.Panic? ==> r.reason == OutOfRange || r.reason == NoMatch
    ensures r.Value? ==> (r.value.None? <==> path == "/")
  {
    if path == "/" then Value(None)
    else match Match(route, path)
      case Panic(m) => Panic(m)
      case Value(false) => Panic(NoMatch)
      case Value(true) =>
        MatchMeaning(route, path);
        Value(Some(Params(Segments(route), Segments(path), 0, map[])))
  }

  /** Parsing "/" yields no map whatever the route; otherwise parsing
      succeeds iff the route matches, and the map binds exactly the
      wildcard names, each to the path segment of its last wildcard. */
  lemma ParseMeaning(route: string, path: string)
    ensures path == "/" ==> Parse(route, path) == Value(None)
    ensures path != "/" ==> (Parse(route, path).Value? <==> Match(route, path) == Value(true))
    ensures path != "/" && Parse(route, path).Value? ==>
      var rs := Segments(route);
      var ps := Segments(path);
      var m := Parse(route, path).value;
      m.Some? &&
      (forall name :: name in m.value <==> exists j :: 0 <= j < |rs| && Names(rs[j], name)) &&
      (forall j, name :: 0 <= j < |rs| && Names(rs[j], name) && LastBinding(rs, j, name) ==> m.value[name] == ps[j])
  {
    if path != "/" && Match(route, path) == Value(true) {
      MatchMeaning(route, path);
      ParamsBind(Segments(route), Segments(path), 0, map[]);
    }
  }

  // ---------------------------------------------------------------- written routes

  /** A route written as '/' followed by '/'-free segments has those
      segments. */
  lemma SegmentsOfJoin(route: string, segs: seq<string>)
    requires route == Join([""] + segs, '/')
    requires forall i :: 0 <= i < |segs| ==> '/' !in segs[i]
    ensures Segments(route) == segs
  {
    SplitJoin([""] + segs, '/');
    assert ([""] + segs)[1..] == segs;
  }

  /** One segment after a leading '/'. */
  lemma Slashed1(a: string)
    ensures Join([""] + [a], '/') == "/" + a
  {
    assert ([""] + [a])[1..] == [a];
  }

  /** Two segments after a leading '/'. */
  lemma Slashed2(a: string, b: string)
    ensures Join([""] + [a, b], '/') == "/" + a + "/" + b
  {
    assert ([""] + [a, b])[1..] == [a, b];
    assert [a, b][1..] == [b];
    assert Join([a, b], '/') == a + "/" + b;
  }

  /** Three segments after a leading '/'. */
  lemma Slashed3(a: string, b: string, c: string)
    ensures Join([""] + [a, b, c], '/') == "/" + a + "/" + b + "/" + c
  {
    assert ([""] + [a, b, c])[1..] == [a, b, c];
    assert [a, b, c][1..] == [b, c];
    assert [b, c][1..] == [c];
    assert Join([b, c], '/') == b + "/" + c;
    assert Join([a, b, c], '/') == a + "/" + b + "/" + c;
  }
}

=== FILE: schema.dfy ===
/** The record types of datatypes.go as field descriptors, and the SQL text
    lib/database.go builds from them by reflection: `GenerateSchema` and
    the statement of `Insert`.

    A descriptor lists a struct's fields in declaration order with their
    Go kind and their `ignore`, `pk` and `fk` tag values ("" when the tag
    is absent). */
module Schema {
  import opened Text
  import opened Outcomes

  /** The Go type of a field, as far as the builders look at it. */
  datatype Kind = StringKind | Int64Kind | StructKind(typeName: string)

  datatype Field = Field(name: string, kind: Kind, ignore: string, pk: string, fk: string)

  /** A struct type; an anonymous struct has the name "". */
  datatype StructType = StructType(name: string, fields: seq<Field>)

  /** An untagged field. */
  function Plain(name: string, kind: Kind): Field {
    Field(name, kind, "", "", "")
  }

  /** The embedded `position`, tagged `ignore:"true"`. */
  const Position: Field := Field("position", StructKind("position"), "true", "", "")

  const CollegeType: StructType := StructType("College", [
    Plain("Name", StringKind),
    Field("Abbreviation", StringKind, "", "true", ""),
    Position])

  const DeptType: StructType := StructType("Dept", [
    Field("CollegeKey", StringKind, "", "", "College"),
    Plain("Name", StringKind),
    Field("Abbreviation", StringKind, "", "true", ""),
    Plain("Link", StringKind)])

  const ClassType: StructType := StructType("Class", [
    Field("DeptKey", StringKind, "", "", "Dept"),
    Field("AbbreviationCode", StringKind, "", "true", ""),
    Plain("Abbreviation", StringKind),
    Plain("Code", StringKind),
    Plain("Title", StringKind),
    Plain("Description", StringKind),
    Position])

  const SectType: StructType := StructType("Sect", [
    Field("ClassKey", StringKind, "", "", "Class"),
    Plain("Restriction", StringKind),
    Field("SLN", StringKind, "", "true", ""),
    Plain("Section", StringKind),
    Plain("Credit", StringKind),
    Plain("MeetingTimes", StringKind),
    Plain("Instructor", StringKind),
    Plain("Status", StringKind),
    Plain("TakenSpots", Int64Kind),
    Plain("TotalSpots", Int64Kind),
    Plain("Grades", StringKind),
    Plain("Fee", StringKind),
    Plain("Other", StringKind),
    Plain("Info", StringKind)])

  const MeetingTimeType: StructType := StructType("MeetingTime", [
    Plain("Days", StringKind), Plain("Time", StringKind),
    Plain("Building", StringKind), Plain("Room", StringKind)])

  /** The types stored in tables. */
  const Tables: seq<StructType> := [CollegeType, DeptType, ClassType, SectType]

  // ---------------------------------------------------------------- reading the tags

  /** Exactly one field carries `pk:"true"`, and it is `name`. */
  predicate KeyedBy(t: StructType, name: string) {
    exists i :: 0 <= i < |t.fields| && t.fields[i].pk == "true" && t.fields[i].name == name
      && forall j :: 0 <= j < |t.fields| && j != i ==> t.fields[j].pk == ""
  }

  /** Exactly one field carries an `fk` tag, and it names `table`; or none
      does, when `table` is "". */
  predicate RefersTo(t: StructType, table: string) {
    if table == "" then forall j :: 0 <= j < |t.fields| ==> t.fields[j].fk == ""
    else exists i :: (0 <= i < |t.fields| && t.fields[i].fk == table
      && forall j :: 0 <= j < |t.fields| && j != i ==> t.fields[j].fk == "")
  }

  /** The fields the builders keep. */
  function Kept(fields: seq<Field>): (r: seq<Field>)
    ensures |r| <= |fields|
    ensures forall k :: 0 <= k < |r| ==> r[k].ignore != "true"
  {
    if |fields| == 0 then []
    else if fields[0].ignore != "true" then [fields[0]] + Kept(fields[1..])
    else Kept(fields[1..])
  }

  /** Each stored type has exactly one primary key, and the foreign keys
      chain Sect to Class to Dept to College. */
  lemma CollegeKeys()
    ensures KeyedBy(CollegeType, "Abbreviation") && RefersTo(CollegeType, "")
  {
    assert CollegeType.fields[1].pk == "true";
  }

  lemma DeptKeys()
    ensures KeyedBy(DeptType, "Abbreviation") && RefersTo(DeptType, "College")
  {
    assert DeptType.fields[2].pk == "true" && DeptType.fields[0].fk == "College";
  }

  lemma ClassKeys()
    ensures KeyedBy(ClassType, "AbbreviationCode") && RefersTo(ClassType, "Dept")
  {
    assert ClassType.fields[1].pk == "true" && ClassType.fields[0].fk == "Dept";
  }

  lemma SectKeys()
    ensures KeyedBy(SectType, "SLN") && RefersTo(SectType, "Class")
  {
    var f := SectType.fields;
    assert f[2].pk == "true" && forall j :: 0 <= j < |f| && j != 2 ==> f[j].pk == "";
    assert f[0].fk == "Class" && forall j :: 0 <= j < |f| && j != 0 ==> f[j].fk == "";
  }

  /** The ignored fields of the stored types are exactly the embedded
      positions, and every other field is a string or an int64. */
  lemma IgnoredFields()
    ensures forall k, i :: 0 <= k < |Tables| && 0 <= i < |Tables[k].fields| ==>
      (Tables[k].fields[i].ignore == "true" <==> Tables[k].fields[i] == Position)
    ensures forall k, i :: 0 <= k < |Tables| && 0 <= i < |Tables[k].fields| ==> Accepted(Tables[k].fields[i])
  {
    forall k | 0 <= k < |Tables| ensures StoredFields(Tables[k]) {
      TableFields(k);
    }
  }

  /** Only the embedded position is ignored, and the builder accepts every
      field. */
  predicate StoredFields(t: StructType) {
    forall i :: 0 <= i < |t.fields| ==>
      (t.fields[i].ignore == "true" <==> t.fields[i] == Position) && Accepted(t.fields[i])
  }

  /** The stored types one at a time. */
  lemma TableFields(k: nat)
    requires k < |Tables|
    ensures StoredFields(Tables[k])
  {
    if k == 0 {
      assert StoredFields(CollegeType);
    } else if k == 1 {
      assert StoredFields(DeptType);
    } else if k == 2 {
      assert StoredFields(ClassType);
    } else {
      assert StoredFields(SectType);
    }
  }

  // ---------------------------------------------------------------- GenerateSchema

  /** A field Go exports: its name starts with an upper-case letter. Text
      is ASCII here, so that letter is one of 'A' to 'Z'. */
  predicate Exported(f: Field) {
    |f.name| > 0 && IsUpperLetter(f.name[0])
  }

  /** The panic of `reflect.Value.Interface` on a field that is not exported. */
  const UnexportedPanic := "reflect.Value.Interface: " + "cannot return value obtained from unexported field or method"

  /** The head of every panic GenerateSchema raises itself. */
  const BuilderPanic := "goschedule.GenerateSchema: "

  /** A field GenerateSchema accepts: ignored, or untagged for `ignore`,
      exported, of kind string or int64, and untagged-or-"true" for `pk`. */
  predicate Accepted(f: Field) {
    f.ignore == "true" || (f.ignore == "" && Exported(f) && !f.kind.StructKind? && (f.pk == "true" || f.pk == ""))
  }

  /** The SQL column type of a kind; None for the kinds that panic. */
  function SqlType(k: Kind): (r: Option<string>)
    ensures r.Some? <==> !k.StructKind?
  {
    match k
    case StringKind => Some("text")
    case Int64Kind => Some("integer")
    case StructKind(_) => None
  }

  /** The column of a kept, accepted field: name, type, then the
      constraints in the order the code appends them. */
  function Column(f: Field): (r: string)
    requires !f.kind.StructKind?
    ensures HasPrefix(r, f.name + " ")
  {
    var c := f.name + " " + SqlType(f.kind).value
      + (if f.pk == "true" then " PRIMARY KEY" else "")
      + (if f.fk != "" then " REFERENCES " + f.fk else "");
    assert c[..|f.name + " "|] == f.name + " ";
    c
  }

  /** One step of the field loop: None for an ignored field, the column
      followed by ", " otherwise; a panic for a bad tag value, for a field
      whose value reflection may not read, or for a bad kind. */
  function ColumnStep(f: Field): (r: Go<Option<string>>)
    ensures r.Value? <==> Accepted(f)
    ensures r.Value? && r.value.Some? ==> f.ignore == "" && r.value.value == Column(f) + ", "
    ensures r.Value? && r.value.None? <==> f.ignore == "true"
    ensures r == Panic(UnexportedPanic) <==> f.ignore == "" && !Exported(f)
  {
    if f.ignore == "true" then Value(None)
    else if f.ignore != "" then
      var reason := BuilderPanic + "invalid value for 'ignore' key in struct field tag: " + f.ignore;
      assert reason[0] == BuilderPanic[0] != UnexportedPanic[0];
      Panic(reason)
    else if !Exported(f) then Panic(UnexportedPanic)
    else if f.kind.StructKind? then
      var reason := BuilderPanic + "invalid struct field type: " + f.kind.typeName;
      assert reason[0] == BuilderPanic[0] != UnexportedPanic[0];
      Panic(reason)
    else if f.pk != "true" && f.pk != "" then
      var reason := BuilderPanic + "invalid value for 'pk' key in struct field tag: " + f.pk;
      assert reason[0] == BuilderPanic[0] != UnexportedPanic[0];
      Panic(reason)
    else Value(Some(Column(f) + ", "))
  }

  /** The text the field loop accumulates, or the panic of the first field
      it stops at. */
  function ColumnsText(fields: seq<Field>): (r: Go<string>)
    decreases |fields|
  {
    if |fields| == 0 then Value("")
    else match ColumnStep(fields[0])
      case Panic(m) => Panic(m)
      case Value(c) =>
        match ColumnsText(fields[1..])
        case Panic(m) => Panic(m)
        case Value(rest) => Value((if c.Some? then c.value else "") + rest)
  }

  /** `strings.TrimSuffix(s, ",")`. */
  function TrimComma(s: string): (r: string)
    ensures HasPrefix(s, r)
  {
    if |s| > 0 && s[|s| - 1] == ',' then s[..|s| - 1] else s
  }

  /** `GenerateSchema(s)`: "CREATE TABLE <name> (<columns>);", or a panic. */
  function GenerateSchema(t: StructType): (r: Go<string>)
    ensures r.Value? ==> t.name != "" && HasPrefix(r.value, "CREATE TABLE " + t.name + " (")
  {
    if t.name == "" then Panic(BuilderPanic + "cannot generate schema for anonymous struct")
    else match ColumnsText(t.fields)
      case Panic(m) => Panic(m)
      case Value(cols) => Value("CREATE TABLE " + t.name + " (" + TrimComma(TrimSpace(cols)) + ");")
  }

  // ---------------------------------------------------------------- properties

  /** The columns of the kept fields, in declaration order. */
  function Columns(fields: seq<Field>): (r: seq<string>)
    requires forall i :: 0 <= i < |fields| ==> Accepted(fields[i])
    ensures |r| == |Kept(fields)|
  {
    if |fields| == 0 then []
    else if fields[0].ignore == "true" then Columns(fields[1..])
    else assert Accepted(fields[0]); [Column(fields[0])] + Columns(fields[1..])
  }

  /** Texts separated by ", ", nothing after the last. */
  function CommaList(parts: seq<string>): string {
    if |parts| == 0 then ""
    else if |parts| == 1 then parts[0]
    else parts[0] + ", " + CommaList(parts[1..])
  }

  /** Go field names are identifiers: non-empty, no leading blank. */
  predicate Identifiers(fields: seq<Field>) {
    forall i :: 0 <= i < |fields| ==> |fields[i].name| > 0 && !IsSpace(fields[i].name[0])
  }

  /** GenerateSchema panics exactly for an anonymous struct or a field
      with a bad tag value, an unexported name or a bad kind. */
  lemma {:induction false} ColumnsTextPanics(fields: seq<Field>)
    ensures ColumnsText(fields).Value? <==> forall i :: 0 <= i < |fields| ==> Accepted(fields[i])
    decreases |fields|
  {
    if |fields| > 0 {
      ColumnsTextPanics(fields[1..]);
      assert forall i :: 1 <= i < |fields| ==> fields[i] == fields[1..][i - 1];
    }
  }

  lemma SchemaPanics(t: StructType)
    ensures GenerateSchema(t).Value? <==> t.name != "" && forall i :: 0 <= i < |t.fields| ==> Accepted(t.fields[i])
  {
    ColumnsTextPanics(t.fields);
  }

  /** The accumulated text is each column followed by ", ". */
  lemma {:induction false} ColumnsTextIsList(fields: seq<Field>)
    requires forall i :: 0 <= i < |fields| ==> Accepted(fields[i])
    ensures ColumnsText(fields).Value?
    ensures |Columns(fields)| == 0 ==> ColumnsText(fields).value == ""
    ensures |Columns(fields)| > 0 ==> ColumnsText(fields).value == CommaList(Columns(fields)) + ", "
    decreases |fields|
  {
    if |fields| > 0 {
      assert forall i :: 0 <= i < |fields[1..]| ==> Accepted(fields[1..][i]);
      ColumnsTextIsList(fields[1..]);
      var rest := Columns(fields[1..]);
      if fields[0].ignore != "true" {
        var c := Column(fields[0]);
        assert Columns(fields) == [c] + rest;
        if |rest| > 0 {
          assert ([c] + rest)[1..] == rest;
          assert c + ", " + (CommaList(rest) + ", ") == (c + ", " + CommaList(rest)) + ", ";
        }
      }
    }
  }

  /** Trimming the text the loop built leaves the column list: the
      trailing ", " goes, and nothing else. */
  lemma TrimmedList(parts: seq<string>)
    requires |parts| > 0
    requires |parts[0]| > 0 && !IsSpace(parts[0][0])
    ensures TrimComma(TrimSpace(CommaList(parts) + ", ")) == CommaList(parts)
  {
    var l := CommaList(parts);
    var s := l + ", ";
    CommaListStart(parts);
    assert s[0] == l[0];
    TrimRightOne(l + ",");
    assert s == (l + ",") + " ";
    TrimLeftNone(l + ",");
    assert TrimSpace(s) == l + ",";
    assert (l + ",")[..|l|] == l;
  }

  lemma {:induction false} CommaListStart(parts: seq<string>)
    requires |parts| > 0
    ensures HasPrefix(CommaList(parts), parts[0])
  {
    if |parts| > 1 {
      var l := CommaList(parts);
      assert l == parts[0] + (", " + CommaList(parts[1..]));
      assert l[..|parts[0]|] == parts[0];
    }
  }

  /** Trimming a text ending in "," and one blank drops the blank only. */
  lemma TrimRightOne(t: string)
    requires |t| > 0 && t[|t| - 1] == ','
    ensures TrimRight(t + " ") == t
  {
    var s := t + " ";
    assert s[..|s| - 1] == t;
  }

  /** Left trimming a text that starts with a non-blank keeps it. */
  lemma TrimLeftNone(t: string)
    requires |t| > 0 && !IsSpace(t[0])
    ensures TrimLeft(t) == t
  {
  }

  /** For a named struct whose fields GenerateSchema accepts, the schema is
      the kept fields' columns, in order, separated by ", ". */
  lemma SchemaText(t: StructType)
    requires t.name != "" && Identifiers(t.fields)
    requires forall i :: 0 <= i < |t.fields| ==> Accepted(t.fields[i])
    ensures GenerateSchema(t) == Value("CREATE TABLE " + t.name + " (" + CommaList(Columns(t.fields)) + ");")
  {
    ColumnsTextIsList(t.fields);
    var cols := Columns(t.fields);
    if |cols| > 0 {
      ColumnsFirst(t.fields);
      TrimmedList(cols);
    }
  }

  /** The first column starts with the first kept field's name. */
  lemma {:induction false} ColumnsFirst(fields: seq<Field>)
    requires forall i :: 0 <= i < |fields| ==> Accepted(fields[i])
    requires Identifiers(fields)
    requires |Columns(fields)| > 0
    ensures |Columns(fields)[0]| > 0 && !IsSpace(Columns(fields)[0][0])
    decreases |fields|
  {
    if fields[0].ignore == "true" {
      assert forall i :: 0 <= i < |fields[1..]| ==> Accepted(fields[1..][i]) && fields[1..][i] == fields[i + 1];
      ColumnsFirst(fields[1..]);
    } else {
      var c := Column(fields[0]);
      assert c[0] == fields[0].name[0];
    }
  }

  /** Every stored type yields a schema. */
  lemma TablesHaveSchemas()
    ensures forall k :: 0 <= k < |Tables| ==> GenerateSchema(Tables[k]).Value?
  {
    IgnoredFields();
    forall k | 0 <= k < |Tables|
      ensures GenerateSchema(Tables[k]).Value?
    {
      SchemaPanics(Tables[k]);
    }
  }

  // ---------------------------------------------------------------- Insert

  /** `fmt.Sprintf("$%d", i)`. */
  function Placeholder(i: nat): (r: string)
    ensures |r| >= 2 && r[0] == '$' && AllDigits(r[1..])
  {
    var p := "$" + Itoa(i);
    assert p[1..] == Itoa(i);
    p
  }

  /** "$1" … "$n". */
  function Placeholders(n: nat): (r: seq<string>)
    ensures |r| == n && forall i :: 0 <= i < n ==> r[i] == Placeholder(i + 1)
  {
    seq(n, i requires 0 <= i < n => Placeholder(i + 1))
  }

  /** Placeholder i reads back as the number i. */
  lemma PlaceholderNumber(i: nat)
    ensures Decimal(Placeholder(i)[1..]) == i
  {
    var p := Placeholder(i);
    assert p[1..] == Itoa(i);
    DecimalItoa(i);
  }

  /** The values of the fields `Insert` keeps (every field whose `ignore`
      tag is not "true"), in declaration order. */
  function KeptValues<V>(fields: seq<Field>, values: seq<V>): (r: seq<V>)
    requires |values| == |fields|
    ensures |r| == |Kept(fields)|
  {
    if |fields| == 0 then []
    else if fields[0].ignore != "true" then [values[0]] + KeptValues(fields[1..], values[1..])
    else KeptValues(fields[1..], values[1..])
  }

  /** Every field whose `ignore` tag is not "true" is exported: reflection
      can read the values `Insert` keeps. */
  predicate ValuesReadable(fields: seq<Field>) {
    forall i :: 0 <= i < |fields| && fields[i].ignore != "true" ==> Exported(fields[i])
  }

  /** The kept fields are all exported exactly when no field that is not
      ignored is unexported. */
  lemma {:induction false} KeptExported(fields: seq<Field>)
    ensures ValuesReadable(fields) <==> forall k :: 0 <= k < |Kept(fields)| ==> Exported(Kept(fields)[k])
    decreases |fields|
  {
    if |fields| > 0 {
      var rest := Kept(fields[1..]);
      KeptExported(fields[1..]);
      assert ValuesReadable(fields[1..]) <==> forall j :: 0 <= j < |Kept(fields[1..])| ==> Exported(Kept(fields[1..])[j]);
      assert ValuesReadable(fields) <==> (fields[0].ignore != "true" ==> Exported(fields[0])) && ValuesReadable(fields[1..]) by {
        assert forall i :: 1 <= i < |fields| ==> fields[i] == fields[1..][i - 1];
      }
      if fields[0].ignore != "true" {
        assert Kept(fields) == [fields[0]] + rest;
        ExportedCons(fields[0], rest);
      } else {
        assert Kept(fields) == rest;
      }
    }
  }

  /** A list headed by f is all exported exactly when f and the rest are. */
  lemma ExportedCons(f: Field, rest: seq<Field>)
    ensures (forall k :: 0 <= k < |[f] + rest| ==> Exported(([f] + rest)[k]))
      <==> Exported(f) && forall k :: 0 <= k < |rest| ==> Exported(rest[k])
  {
    var all := [f] + rest;
    if forall k :: 0 <= k < |all| ==> Exported(all[k]) {
      assert Exported(all[0]);
      forall k | 0 <= k < |rest| ensures Exported(rest[k]) {
        assert rest[k] == all[k + 1];
      }
    }
    if Exported(f) && forall k :: 0 <= k < |rest| ==> Exported(rest[k]) {
      forall k | 0 <= k < |all| ensures Exported(all[k]) {
        if k > 0 {
          assert all[k] == rest[k - 1];
        }
      }
    }
  }

  /** `Insert(db, object)`: the statement with one numbered placeholder per
      kept field, and the values passed with it; or the reflection panic
      when a kept field is not exported. */
  function InsertStatement<V>(t: StructType, values: seq<V>): (r: Go<(string, seq<V>)>)
    requires |values| == |t.fields|
    ensures r.Value? <==> forall k :: 0 <= k < |Kept(t.fields)| ==> Exported(Kept(t.fields)[k])
    ensures r.Panic? ==> r.reason == UnexportedPanic
    ensures r.Value? ==> |r.value.1| == |Kept(t.fields)|
    ensures r.Value? ==> r.value.0 == "INSERT INTO " + t.name + " VALUES (" + Join(Placeholders(|r.value.1|), ',') + ")"
  {
    KeptExported(t.fields);
    if ValuesReadable(t.fields) then
      var kept := KeptValues(t.fields, values);
      Value(("INSERT INTO " + t.name + " VALUES (" + Join(Placeholders(|kept|), ',') + ")", kept))
    else Panic(UnexportedPanic)
  }

  /** When GenerateSchema accepts every field, Insert does not panic, and
      the statement's placeholders count the values passed and the
      schema's columns alike, and come back numbered 1 to n in order. */
  lemma InsertMatchesSchema<V>(t: StructType, values: seq<V>)
    requires |values| == |t.fields|
    requires forall i :: 0 <= i < |t.fields| ==> Accepted(t.fields[i])
    ensures InsertStatement(t, values).Value?
    ensures var (q, args) := InsertStatement(t, values).value;
      var inner := q[|"INSERT INTO " + t.name + " VALUES ("|..|q| - 1];
      && |args| == |Columns(t.fields)|
      && Split(inner, ',') == (if |args| == 0 then [""] else Placeholders(|args|))
  {
    KeptExported(t.fields);
    assert ValuesReadable(t.fields);
    var (q, args) := InsertStatement(t, values).value;
    var head := "INSERT INTO " + t.name + " VALUES (";
    var j := Join(Placeholders(|args|), ',');
    assert q == head + j + ")";
    assert q[|head|..|q| - 1] == j;
    if |args| > 0 {
      var ps := Placeholders(|args|);
      forall i | 0 <= i < |ps|
        ensures ',' !in ps[i]
      {
        assert ps[i] == Placeholder(i + 1);
        assert ',' !in ps[i][1..];
        assert ps[i] == [ps[i][0]] + ps[i][1..];
      }
      SplitJoin(ps, ',');
    }
  }
}

=== FILE: scraping.dfy ===
/** The drivers of the two queue-based revisions: `Scrape`, `scrapeDept`
    and `setupDb` of scraper/scraper.go, and `Crawl` of crawler/crawler.go.
    Both fetch the root index, extract its departments, and for each
    department fetch its page and insert the department, its classes and
    their sections. The department and class extractors are ports; the
    sections come from QueueExtract.ExtractSects on the page's section
    chunks, and a chunk it cannot read panics the whole process. */
module Scraping {
  import opened Outcomes
  import opened Traces
  import opened Columns
  import M = Models
  import Q = QueueExtract
  import SqlFile

  datatype Record = DeptRecord(dept: M.Dept) | ClassRecord(cls: M.Class) | SectRecord(sect: M.Sect)

  /** The outside world of one pass: the network, the database's answer
      to each insert, the department and class extractors
      (`DeptIndex.Extract(nil)`, `ClassIndex.Extract(dept)`) applied to a
      page, the section chunks `SectChunkRe` finds in a page, with their
      offsets and tags stripped, and `json.Marshal` of meeting times. */
  datatype Ports = Ports(fetch: string -> Result<string>,
                         insert: Record -> Option<string>,
                         depts: string -> seq<M.Dept>,
                         classes: (string, M.Dept) -> seq<M.Class>,
                         sectChunks: string -> seq<Q.SectChunk>,
                         marshal: seq<MeetingTime> -> Result<string>)

  function ClassRecords(cs: seq<M.Class>): (r: seq<Record>)
    ensures |r| == |cs| && forall k :: 0 <= k < |cs| ==> r[k] == ClassRecord(cs[k])
  {
    seq(|cs|, k requires 0 <= k < |cs| => ClassRecord(cs[k]))
  }

  function SectRecords(ss: seq<M.Sect>): (r: seq<Record>)
    ensures |r| == |ss| && forall k :: 0 <= k < |ss| ==> r[k] == SectRecord(ss[k])
  {
    seq(|ss|, k requires 0 <= k < |ss| => SectRecord(ss[k]))
  }

  // ---------------------------------------------------------------- sections

  /** The runtime error of `classes[0]` with no class, of `m[1]` with one
      digit run, or of a line too short for the columns sliced. */
  const OutOfRange := "runtime error: index out of range"

  /** `SectIndex(page).Extract(classes)` does not panic: when there are
      sections there is a class to key them to, and every section chunk
      is decodable. */
  predicate SectsSound(p: Ports, rev: Q.Revision, page: string, classes: seq<M.Class>) {
    var chunks := p.sectChunks(page);
    && (|chunks| > 0 ==> |classes| > 0)
    && forall i :: 0 <= i < |chunks| ==> Q.Decodable(chunks[i].text, rev)
  }

  /** `SectIndex(page).Extract(classes)`: the sections, or the runtime
      panic when the page is not sound. */
  function PageSects(p: Ports, rev: Q.Revision, page: string, classes: seq<M.Class>): (r: Go<seq<M.Sect>>)
    ensures r.Value? <==> SectsSound(p, rev, page, classes)
    ensures r.Panic? ==> r.reason == OutOfRange
    ensures r.Value? ==> r.value == Q.ExtractSects(p.sectChunks(page), classes, rev, p.marshal)
  {
    if SectsSound(p, rev, page, classes) then Value(Q.ExtractSects(p.sectChunks(page), classes, rev, p.marshal))
    else Panic(OutOfRange)
  }

  // ---------------------------------------------------------------- one department

  /** The lines printed when inserting `x` fails with `err`, for a
      department `dept`. The scraper prints one line; the crawler adds the
      keys and the error. */
  function FailureLines(rev: Q.Revision, dept: M.Dept, x: Record, err: string): (r: seq<string>)
    ensures r != []
  {
    match x
    case DeptRecord(_) =>
      if rev.Scraper? then ["Error inserting dept"] else ["Error inserting dept", dept.abbreviation]
    case ClassRecord(c) =>
      if rev.Scraper? then ["Error inserting class"]
      else ["Error inserting class", "Dept " + dept.abbreviation, "Class key " + c.abbreviationCode, err]
    case SectRecord(s) =>
      if rev.Scraper? then ["Error inserting sect"]
      else ["Error inserting sect", dept.abbreviation, s.sln, err]
  }

  /** The records of a sound department page, in insertion order: the
      department, its classes, then the sections extracted against those
      classes. */
  function PageRecords(p: Ports, rev: Q.Revision, dept: M.Dept, page: string): seq<Record>
    requires SectsSound(p, rev, page, p.classes(page, dept))
  {
    var classes := p.classes(page, dept);
    [DeptRecord(dept)] + (ClassRecords(classes) + SectRecords(Q.ExtractSects(p.sectChunks(page), classes, rev, p.marshal)))
  }

  /** The reporter of a department's failed inserts. */
  function Reporter(rev: Q.Revision, dept: M.Dept): (Record, string) -> seq<string> {
    (x, e) => FailureLines(rev, dept, x, e)
  }

  /** The department's own insert: its failure is reported only when
      `checkDept` holds. */
  function DeptInsert(p: Ports, dept: M.Dept, rev: Q.Revision, checkDept: bool): seq<Event<Record>> {
    if checkDept then Step(DeptRecord(dept), p.insert, Reporter(rev, dept)) else [Insert(DeptRecord(dept))]
  }

  /** The class inserts of a department page, then its section inserts,
      unless extracting the sections panics first. */
  function PageInserts(p: Ports, dept: M.Dept, rev: Q.Revision, page: string): Run<Record> {
    var classes := p.classes(page, dept);
    SectsRun(InsertEach(ClassRecords(classes), p.insert, Reporter(rev, dept)),
             PageSects(p, rev, page, classes), p.insert, Reporter(rev, dept))
  }

  /** The events `cs` so far, then the extracted sections' inserts or the
      extractor's panic. */
  function SectsRun(cs: seq<Event<Record>>, g: Go<seq<M.Sect>>, insert: Record -> Option<string>,
                    lines: (Record, string) -> seq<string>): Run<Record> {
    match g
    case Panic(m) => Run(cs, Some(m))
    case Value(sects) => Done(cs + InsertEach(SectRecords(sects), insert, lines))
  }

  /** One department (`scrapeDept`, and the body of `Crawl`'s loop): fetch
      its page; on failure print the error and stop. Otherwise insert the
      department and each class, extract the sections and insert each,
      printing a report for each failure without stopping. The
      department's own failure is reported only when `checkDept` holds:
      the code as written tests the fetch's error, which is nil there. */
  function DeptBody(p: Ports, dept: M.Dept, rev: Q.Revision, checkDept: bool): (r: Run<Record>)
    ensures r.panic.None? || r.panic == Some(OutOfRange)
    ensures |r.events| > 0 && r.events[0] == Get(dept.link)
  {
    match p.fetch(dept.link)
    case Err(e) => Done([Get(dept.link)] + Lines([e]))
    case Ok(page) => Then(Done([Get(dept.link)] + DeptInsert(p, dept, rev, checkDept)), PageInserts(p, dept, rev, page))
  }

  /** The department as written: a failed department insert goes
      unreported. */
  function DeptEvents(p: Ports, dept: M.Dept, rev: Q.Revision): (r: Run<Record>)
    ensures p.fetch(dept.link).Ok? ==> Reports(r.events) == Reports(PageInserts(p, dept, rev, p.fetch(dept.link).value).events)
  {
    if p.fetch(dept.link).Ok? then DeptReports(p, dept, rev, false); DeptBody(p, dept, rev, false)
    else DeptBody(p, dept, rev, false)
  }

  /** The department with its insert error checked. */
  function DeptEventsReporting(p: Ports, dept: M.Dept, rev: Q.Revision): Run<Record> {
    DeptBody(p, dept, rev, true)
  }

  /** A department whose page cannot be fetched inserts nothing and does
      not panic: the request and the printed error are all it leaves. */
  lemma DeptFetchFails(p: Ports, dept: M.Dept, rev: Q.Revision, checkDept: bool)
    requires p.fetch(dept.link).Err?
    ensures DeptBody(p, dept, rev, checkDept).panic.None?
    ensures Inserts(DeptBody(p, dept, rev, checkDept).events) == []
    ensures Gets(DeptBody(p, dept, rev, checkDept).events) == [dept.link]
    ensures Reports(DeptBody(p, dept, rev, checkDept).events) == [p.fetch(dept.link).msg]
  {
    var e := p.fetch(dept.link).msg;
    LinesOnly<Record>([e]);
    InsertsAppend([Get(dept.link)], Lines<Record>([e]));
    GetsAppend([Get(dept.link)], Lines<Record>([e]));
    ReportsAppend([Get(dept.link)], Lines<Record>([e]));
  }

  /** On a sound page, the classes and the sections all reach the
      database, classes first, whatever it answers; nothing is requested
      and nothing panics. */
  lemma PageInsertsOrder(p: Ports, dept: M.Dept, rev: Q.Revision, page: string)
    requires SectsSound(p, rev, page, p.classes(page, dept))
    ensures PageInserts(p, dept, rev, page).panic.None?
    ensures var classes := p.classes(page, dept);
      Inserts(PageInserts(p, dept, rev, page).events)
        == ClassRecords(classes) + SectRecords(Q.ExtractSects(p.sectChunks(page), classes, rev, p.marshal))
    ensures Gets(PageInserts(p, dept, rev, page).events) == []
  {
    var classes := p.classes(page, dept);
    var sects := Q.ExtractSects(p.sectChunks(page), classes, rev, p.marshal);
    var cs := InsertEach(ClassRecords(classes), p.insert, Reporter(rev, dept));
    var ss := InsertEach(SectRecords(sects), p.insert, Reporter(rev, dept));
    assert PageInserts(p, dept, rev, page) == Done(cs + ss);
    InsertEachInserts(ClassRecords(classes), p.insert, Reporter(rev, dept));
    InsertEachGets(ClassRecords(classes), p.insert, Reporter(rev, dept));
    InsertEachInserts(SectRecords(sects), p.insert, Reporter(rev, dept));
    InsertEachGets(SectRecords(sects), p.insert, Reporter(rev, dept));
    InsertsAppend(cs, ss);
    GetsAppend(cs, ss);
  }

  /** On a page that is not sound, every class is inserted, then the
      section extractor panics: no section reaches the database. */
  lemma PageInsertsPanic(p: Ports, dept: M.Dept, rev: Q.Revision, page: string)
    requires !SectsSound(p, rev, page, p.classes(page, dept))
    ensures PageInserts(p, dept, rev, page).panic == Some(OutOfRange)
    ensures Inserts(PageInserts(p, dept, rev, page).events) == ClassRecords(p.classes(page, dept))
    ensures Gets(PageInserts(p, dept, rev, page).events) == []
  {
    var classes := p.classes(page, dept);
    InsertEachInserts(ClassRecords(classes), p.insert, Reporter(rev, dept));
    InsertEachGets(ClassRecords(classes), p.insert, Reporter(rev, dept));
  }

  /** The department's own insert inserts it and requests nothing. */
  lemma DeptInsertInserts(p: Ports, dept: M.Dept, rev: Q.Revision, checkDept: bool)
    ensures Inserts(DeptInsert(p, dept, rev, checkDept)) == [DeptRecord(dept)]
    ensures Gets(DeptInsert(p, dept, rev, checkDept)) == []
  {
    StepEvents(DeptRecord(dept), p.insert, Reporter(rev, dept));
  }

  /** The events before a fetched department's classes. */
  lemma DeptHeadEvents(p: Ports, dept: M.Dept, rev: Q.Revision, checkDept: bool)
    ensures Inserts([Get(dept.link)] + DeptInsert(p, dept, rev, checkDept)) == [DeptRecord(dept)]
    ensures Gets([Get(dept.link)] + DeptInsert(p, dept, rev, checkDept)) == [dept.link]
  {
    DeptInsertInserts(p, dept, rev, checkDept);
    InsertsAppend([Get(dept.link)], DeptInsert(p, dept, rev, checkDept));
    GetsAppend([Get(dept.link)], DeptInsert(p, dept, rev, checkDept));
  }

  /** A department whose page arrives and is sound inserts the
      department, then all its classes, then all its sections, whatever
      the database answers, and does not panic. */
  lemma DeptInsertOrder(p: Ports, dept: M.Dept, rev: Q.Revision, checkDept: bool)
    requires p.fetch(dept.link).Ok?
    requires SectsSound(p, rev, p.fetch(dept.link).value, p.classes(p.fetch(dept.link).value, dept))
    ensures DeptBody(p, dept, rev, checkDept).panic.None?
    ensures Inserts(DeptBody(p, dept, rev, checkDept).events) == PageRecords(p, rev, dept, p.fetch(dept.link).value)
  {
    FetchedRun(p, dept, rev, checkDept, p.fetch(dept.link).value);
  }

  /** `DeptInsertOrder` for a page already fetched. */
  lemma FetchedRun(p: Ports, dept: M.Dept, rev: Q.Revision, checkDept: bool, page: string)
    requires p.fetch(dept.link) == Ok(page)
    requires SectsSound(p, rev, page, p.classes(page, dept))
    ensures DeptBody(p, dept, rev, checkDept).panic.None?
    ensures Inserts(DeptBody(p, dept, rev, checkDept).events) == PageRecords(p, rev, dept, page)
  {
    var head := [Get(dept.link)] + DeptInsert(p, dept, rev, checkDept);
    var run := PageInserts(p, dept, rev, page);
    FetchedBody(p, dept, rev, checkDept, page);
    PageInsertsOrder(p, dept, rev, page);
    DeptHeadEvents(p, dept, rev, checkDept);
    ThenEvents(head, run);
  }

  /** A fetched department's run is its head followed by its page's inserts. */
  lemma FetchedBody(p: Ports, dept: M.Dept, rev: Q.Revision, checkDept: bool, page: string)
    requires p.fetch(dept.link) == Ok(page)
    ensures DeptBody(p, dept, rev, checkDept)
         == Then(Done([Get(dept.link)] + DeptInsert(p, dept, rev, checkDept)), PageInserts(p, dept, rev, page))
  {
  }

  /** A department whose page arrives but is not sound inserts the
      department and all its classes, then panics before any section. */
  lemma DeptInsertPanics(p: Ports, dept: M.Dept, rev: Q.Revision, checkDept: bool)
    requires p.fetch(dept.link).Ok?
    requires !SectsSound(p, rev, p.fetch(dept.link).value, p.classes(p.fetch(dept.link).value, dept))
    ensures DeptBody(p, dept, rev, checkDept).panic == Some(OutOfRange)
    ensures Inserts(DeptBody(p, dept, rev, checkDept).events)
         == [DeptRecord(dept)] + ClassRecords(p.classes(p.fetch(dept.link).value, dept))
  {
    var page := p.fetch(dept.link).value;
    var head := [Get(dept.link)] + DeptInsert(p, dept, rev, checkDept);
    PageInsertsPanic(p, dept, rev, page);
    DeptHeadEvents(p, dept, rev, checkDept);
    ThenEvents(head, PageInserts(p, dept, rev, page));
  }

  /** Such a department's page is its only request, sound or not. */
  lemma DeptPageGets(p: Ports, dept: M.Dept, rev: Q.Revision, checkDept: bool)
    requires p.fetch(dept.link).Ok?
    ensures Gets(DeptBody(p, dept, rev, checkDept).events) == [dept.link]
  {
    var page := p.fetch(dept.link).value;
    var head := [Get(dept.link)] + DeptInsert(p, dept, rev, checkDept);
    if SectsSound(p, rev, page, p.classes(page, dept)) {
      PageInsertsOrder(p, dept, rev, page);
    } else {
      PageInsertsPanic(p, dept, rev, page);
    }
    DeptHeadEvents(p, dept, rev, checkDept);
    ThenEvents(head, PageInserts(p, dept, rev, page));
  }

  /** The log lines of a department whose page arrived: those of its
      failed class and section inserts, preceded, when the department's
      insert is checked and fails, by that failure's lines. */
  lemma DeptReports(p: Ports, dept: M.Dept, rev: Q.Revision, checkDept: bool)
    requires p.fetch(dept.link).Ok?
    ensures Reports(DeptBody(p, dept, rev, checkDept).events) ==
      (if checkDept && p.insert(DeptRecord(dept)).Some?
       then FailureLines(rev, dept, DeptRecord(dept), p.insert(DeptRecord(dept)).value)
       else [])
      + Reports(PageInserts(p, dept, rev, p.fetch(dept.link).value).events)
  {
    var page := p.fetch(dept.link).value;
    var head := [Get(dept.link)] + DeptInsert(p, dept, rev, checkDept);
    var rest := PageInserts(p, dept, rev, page);
    FetchedBody(p, dept, rev, checkDept, page);
    assert DeptBody(p, dept, rev, checkDept).events == head + rest.events;
    DeptHeadReports(p, dept, rev, checkDept);
    ReportsAppend(head, rest.events);
  }

  /** The request and the department's own insert log its failure only
      when it is checked. */
  lemma DeptHeadReports(p: Ports, dept: M.Dept, rev: Q.Revision, checkDept: bool)
    ensures Reports([Get(dept.link)] + DeptInsert(p, dept, rev, checkDept)) ==
      (if checkDept && p.insert(DeptRecord(dept)).Some?
       then FailureLines(rev, dept, DeptRecord(dept), p.insert(DeptRecord(dept)).value)
       else [])
  {
    StepEvents(DeptRecord(dept), p.insert, Reporter(rev, dept));
    assert Reports([Insert(DeptRecord(dept))]) == [];
    ReportsAppend([Get(dept.link)], DeptInsert(p, dept, rev, checkDept));
  }

  /** Two databases that answer the page's class and section inserts alike
      give the page the same log. */
  lemma PageReportsAgree(p: Ports, q: Ports, dept: M.Dept, rev: Q.Revision, page: string)
    requires p.classes == q.classes && p.sectChunks == q.sectChunks && p.marshal == q.marshal
    requires forall x: Record :: !x.DeptRecord? ==> p.insert(x) == q.insert(x)
    ensures PageInserts(p, dept, rev, page) == PageInserts(q, dept, rev, page)
  {
    var classes := p.classes(page, dept);
    PageSectsAgree(p, q, rev, page, classes);
    InsertEachAgree(ClassRecords(classes), p.insert, q.insert, Reporter(rev, dept));
    SectsRunAgree(InsertEach(ClassRecords(classes), p.insert, Reporter(rev, dept)),
                  PageSects(p, rev, page, classes), p.insert, q.insert, Reporter(rev, dept));
  }

  lemma PageSectsAgree(p: Ports, q: Ports, rev: Q.Revision, page: string, classes: seq<M.Class>)
    requires p.sectChunks == q.sectChunks && p.marshal == q.marshal
    ensures PageSects(p, rev, page, classes) == PageSects(q, rev, page, classes)
  {
  }

  lemma SectsRunAgree(cs: seq<Event<Record>>, g: Go<seq<M.Sect>>, a: Record -> Option<string>,
                      b: Record -> Option<string>, lines: (Record, string) -> seq<string>)
    requires forall x: Record :: !x.DeptRecord? ==> a(x) == b(x)
    ensures SectsRun(cs, g, a, lines) == SectsRun(cs, g, b, lines)
  {
    if g.Value? {
      InsertEachAgree(SectRecords(g.value), a, b, lines);
    }
  }

  /** As written, nothing in a department's log depends on whether the
      department's own insert failed: two databases that differ only in
      that answer give the same log. */
  lemma DeptFailureUnreported(p: Ports, q: Ports, dept: M.Dept, rev: Q.Revision)
    requires p.fetch == q.fetch && p.classes == q.classes && p.sectChunks == q.sectChunks && p.marshal == q.marshal
    requires forall x :: x != DeptRecord(dept) ==> p.insert(x) == q.insert(x)
    ensures Reports(DeptEvents(p, dept, rev).events) == Reports(DeptEvents(q, dept, rev).events)
  {
    if p.fetch(dept.link).Ok? {
      DeptReports(p, dept, rev, false);
      DeptReports(q, dept, rev, false);
      PageReportsAgree(p, q, dept, rev, p.fetch(dept.link).value);
    } else {
      DeptFetchFails(p, dept, rev, false);
      DeptFetchFails(q, dept, rev, false);
    }
  }

  /** Inserting records the two databases answer alike gives the same
      events. */
  lemma {:induction false} InsertEachAgree(rs: seq<Record>, a: Record -> Option<string>, b: Record -> Option<string>,
                                           lines: (Record, string) -> seq<string>)
    requires forall k :: 0 <= k < |rs| ==> a(rs[k]) == b(rs[k])
    ensures InsertEach(rs, a, lines) == InsertEach(rs, b, lines)
    decreases |rs|
  {
    if |rs| > 0 {
      InsertEachAgree(rs[1..], a, b, lines);
    }
  }

  /** When its own error is examined, a failed department insert is the first
      thing its log reports. */
  lemma DeptFailureReported(p: Ports, dept: M.Dept, rev: Q.Revision)
    requires p.fetch(dept.link).Ok? && p.insert(DeptRecord(dept)).Some?
    ensures |Reports(DeptEventsReporting(p, dept, rev).events)| > 0
    ensures Reports(DeptEventsReporting(p, dept, rev).events)[0] == "Error inserting dept"
  {
    DeptReports(p, dept, rev, true);
  }

  /** A database that refuses only the department: the code as written
      logs nothing, the checked version logs the failure. */
  lemma DeptFailureCounterexample(p: Ports, dept: M.Dept, rev: Q.Revision)
    requires p.fetch(dept.link).Ok?
    requires forall x :: p.insert(x) == if x == DeptRecord(dept) then Some("duplicate key") else None
    ensures Reports(DeptEvents(p, dept, rev).events) == []
    ensures Reports(DeptEventsReporting(p, dept, rev).events) != []
  {
    DeptReports(p, dept, rev, false);
    DeptReports(p, dept, rev, true);
    PageQuiet(p, dept, rev, p.fetch(dept.link).value);
  }

  /** A page whose class and section inserts all succeed logs nothing. */
  lemma PageQuiet(p: Ports, dept: M.Dept, rev: Q.Revision, page: string)
    requires forall x: Record :: !x.DeptRecord? ==> p.insert(x).None?
    ensures Reports(PageInserts(p, dept, rev, page).events) == []
  {
    var classes := p.classes(page, dept);
    NoneFail(ClassRecords(classes), p.insert);
    InsertEachReports(ClassRecords(classes), p.insert, Reporter(rev, dept));
    SectsQuiet(InsertEach(ClassRecords(classes), p.insert, Reporter(rev, dept)),
               PageSects(p, rev, page, classes), p.insert, Reporter(rev, dept));
  }

  lemma SectsQuiet(cs: seq<Event<Record>>, g: Go<seq<M.Sect>>, insert: Record -> Option<string>,
                   lines: (Record, string) -> seq<string>)
    requires Reports(cs) == []
    requires forall x: Record :: !x.DeptRecord? ==> insert(x).None?
    ensures Reports(SectsRun(cs, g, insert, lines).events) == []
  {
    if g.Value? {
      var ss := InsertEach(SectRecords(g.value), insert, lines);
      NoneFail(SectRecords(g.value), insert);
      InsertEachReports(SectRecords(g.value), insert, lines);
      ReportsAppend(cs, ss);
    }
  }

  lemma {:induction false} NoneFail(rs: seq<Record>, insert: Record -> Option<string>)
    requires forall k :: 0 <= k < |rs| ==> insert(rs[k]).None?
    ensures Failing(rs, insert) == []
    decreases |rs|
  {
    if |rs| > 0 {
      NoneFail(rs[1..], insert);
    }
  }

  // ---------------------------------------------------------------- a pass

  /** A department whose run does not panic: its page fails, or it is
      sound. */
  predicate DeptSound(p: Ports, rev: Q.Revision, d: M.Dept) {
    match p.fetch(d.link)
    case Err(_) => true
    case Ok(page) => SectsSound(p, rev, page, p.classes(page, d))
  }

  /** Reference: what a department inserts. Nothing when its page fails;
      its page's records when it is sound; otherwise itself and its
      classes only. */
  function DeptExpected(p: Ports, rev: Q.Revision, d: M.Dept): seq<Record> {
    match p.fetch(d.link)
    case Err(_) => []
    case Ok(page) =>
      if SectsSound(p, rev, page, p.classes(page, d)) then PageRecords(p, rev, d, page)
      else [DeptRecord(d)] + ClassRecords(p.classes(page, d))
  }

  /** Whatever happens to a department, it inserts what `DeptExpected`
      says and panics exactly when it is not sound. */
  lemma DeptBodyInserts(p: Ports, d: M.Dept, rev: Q.Revision, checkDept: bool)
    ensures Inserts(DeptBody(p, d, rev, checkDept).events) == DeptExpected(p, rev, d)
    ensures DeptBody(p, d, rev, checkDept).panic.None? <==> DeptSound(p, rev, d)
  {
    match p.fetch(d.link)
    case Err(_) =>
      DeptFetchFails(p, d, rev, checkDept);
    case Ok(page) =>
      if SectsSound(p, rev, page, p.classes(page, d)) {
        DeptInsertOrder(p, d, rev, checkDept);
      } else {
        DeptInsertPanics(p, d, rev, checkDept);
      }
  }

  /** Reference: the records a crawl over `depts` inserts: those of each
      department in order, up to and including the first one that is not
      sound. */
  function Expected(p: Ports, depts: seq<M.Dept>): seq<Record>
    decreases |depts|
  {
    if |depts| == 0 then []
    else DeptExpected(p, Q.Crawler, depts[0])
         + (if DeptSound(p, Q.Crawler, depts[0]) then Expected(p, depts[1..]) else [])
  }

  /** Every department is sound. */
  predicate AllSound(p: Ports, rev: Q.Revision, depts: seq<M.Dept>) {
    forall k :: 0 <= k < |depts| ==> DeptSound(p, rev, depts[k])
  }

  /** `Crawl`'s loop over the departments: a panic ends it. */
  function CrawlDepts(p: Ports, depts: seq<M.Dept>, checkDept: bool): (r: Run<Record>)
    ensures r.panic.None? || r.panic == Some(OutOfRange)
    decreases |depts|
  {
    if |depts| == 0 then Done([])
    else Then(DeptBody(p, depts[0], Q.Crawler, checkDept), CrawlDepts(p, depts[1..], checkDept))
  }

  /** `Crawl(c, db)`: fetch the root index; on failure print the error and
      return; otherwise run every department in order. */
  function Crawl(p: Ports, checkDept: bool): (r: Run<Record>)
    ensures r.panic.None? || r.panic == Some(OutOfRange)
    ensures |r.events| > 0 && r.events[0] == Get(Q.RootIndex)
  {
    match p.fetch(Q.RootIndex)
    case Err(e) => Done([Get(Q.RootIndex)] + Lines([e]))
    case Ok(index) => Then(Done([Get(Q.RootIndex)]), CrawlDepts(p, p.depts(index), checkDept))
  }

  /** The department loop inserts the expected records and panics exactly
      when some department is not sound. */
  lemma {:induction false} CrawlDeptsInserts(p: Ports, depts: seq<M.Dept>, checkDept: bool)
    ensures Inserts(CrawlDepts(p, depts, checkDept).events) == Expected(p, depts)
    ensures CrawlDepts(p, depts, checkDept).panic.None? <==> AllSound(p, Q.Crawler, depts)
    decreases |depts|
  {
    if |depts| > 0 {
      var first := DeptBody(p, depts[0], Q.Crawler, checkDept);
      var rest := CrawlDepts(p, depts[1..], checkDept);
      DeptBodyInserts(p, depts[0], Q.Crawler, checkDept);
      CrawlDeptsInserts(p, depts[1..], checkDept);
      AllSoundCons(p, Q.Crawler, depts);
      if first.panic.None? {
        InsertsAppend(first.events, rest.events);
      }
    }
  }

  lemma AllSoundCons(p: Ports, rev: Q.Revision, depts: seq<M.Dept>)
    requires |depts| > 0
    ensures AllSound(p, rev, depts) <==> DeptSound(p, rev, depts[0]) && AllSound(p, rev, depts[1..])
  {
    if DeptSound(p, rev, depts[0]) && AllSound(p, rev, depts[1..]) {
      forall k | 0 < k < |depts|
        ensures DeptSound(p, rev, depts[k])
      {
        assert depts[k] == depts[1..][k - 1];
      }
    }
  }

  /** A crawl whose root index fails inserts nothing; otherwise it inserts
      the records of every department whose page arrives, in order, up to
      the first department whose sections cannot be read, where it panics;
      a department whose page fails is skipped without stopping the rest. */
  lemma CrawlInserts(p: Ports, checkDept: bool)
    ensures p.fetch(Q.RootIndex).Err? ==> Inserts(Crawl(p, checkDept).events) == [] && Crawl(p, checkDept).panic.None?
    ensures p.fetch(Q.RootIndex).Ok? ==>
      && Inserts(Crawl(p, checkDept).events) == Expected(p, p.depts(p.fetch(Q.RootIndex).value))
      && (Crawl(p, checkDept).panic.None? <==> AllSound(p, Q.Crawler, p.depts(p.fetch(Q.RootIndex).value)))
  {
    match p.fetch(Q.RootIndex)
    case Err(e) =>
      LinesOnly<Record>([e]);
      InsertsAppend([Get(Q.RootIndex)], Lines<Record>([e]));
    case Ok(index) =>
      CrawlDeptsInserts(p, p.depts(index), checkDept);
      ThenEvents([Get(Q.RootIndex)], CrawlDepts(p, p.depts(index), checkDept));
  }

  /** A department's records depend on nothing but its own page: a
      department whose page fails drops out, and the others keep their
      records and their order. */
  lemma {:induction false} ExpectedSkipsFailed(p: Ports, a: seq<M.Dept>, d: M.Dept, b: seq<M.Dept>)
    requires p.fetch(d.link).Err?
    ensures Expected(p, a + [d] + b) == Expected(p, a + b)
    decreases |a|
  {
    if |a| == 0 {
      assert (a + [d] + b)[1..] == b && a + b == b;
    } else {
      assert (a + [d] + b)[0] == a[0] && (a + [d] + b)[1..] == a[1..] + [d] + b;
      assert (a + b)[0] == a[0] && (a + b)[1..] == a[1..] + b;
      ExpectedSkipsFailed(p, a[1..], d, b);
    }
  }

  // ---------------------------------------------------------------- Scrape

  /** `Scrape(c, db, concurrent)`: the error it returns, the events before
      the departments, the run of each department that starts, and the
      closing line. In non-concurrent mode the departments run one after
      another (each page is requested once more, unused, before
      `scrapeDept`), and a panic ends the process: the departments after
      it never start and "Scraper done" is not printed. In concurrent
      mode each department runs in its own goroutine; the model keeps
      each one's own run, and fixes neither how their events interleave
      nor how far the others get before a panic ends the process. */
  datatype Scraped = Scraped(err: Option<string>, opening: seq<Event<Record>>,
                             perDept: seq<Run<Record>>, closing: seq<Event<Record>>)

  function DeptRun(p: Ports, dept: M.Dept, concurrent: bool, checkDept: bool): Run<Record> {
    Then(Done([Report("Scraping: " + dept.title)] + (if concurrent then [] else [Get(dept.link)])),
         DeptBody(p, dept, Q.Scraper, checkDept))
  }

  /** The runs up to and including the first that panics. */
  function UpToPanic(runs: seq<Run<Record>>): (r: seq<Run<Record>>)
    ensures |r| <= |runs| && r == runs[..|r|]
    ensures forall k :: 0 <= k < |r| - 1 ==> r[k].panic.None?
    ensures |r| < |runs| ==> |r| > 0 && r[|r| - 1].panic.Some?
    decreases |runs|
  {
    if |runs| == 0 then []
    else if runs[0].panic.Some? then [runs[0]]
    else [runs[0]] + UpToPanic(runs[1..])
  }

  /** Some run panics. */
  predicate AnyPanics(runs: seq<Run<Record>>) {
    exists k :: 0 <= k < |runs| && runs[k].panic.Some?
  }

  function Scrape(p: Ports, concurrent: bool, checkDept: bool): (r: Scraped)
    ensures r.err.Some? <==> p.fetch(Q.RootIndex).Err?
    ensures r.err.Some? ==> r.err.value == p.fetch(Q.RootIndex).msg && Inserts(r.opening) == [] && r.perDept == []
    ensures r.err.None? ==>
      var depts := p.depts(p.fetch(Q.RootIndex).value);
      && |r.perDept| <= |depts|
      && (forall i :: 0 <= i < |r.perDept| ==> r.perDept[i] == DeptRun(p, depts[i], concurrent, checkDept))
      && (concurrent ==> |r.perDept| == |depts|)
      && (r.closing == [] <==> AnyPanics(r.perDept))
  {
    match p.fetch(Q.RootIndex)
    case Err(e) => Scraped(Some(e), [Get(Q.RootIndex)], [], [])
    case Ok(index) =>
      var depts := p.depts(index);
      var mode := if concurrent then "Scraper started in concurrent mode" else "Scraper started in non-concurrent mode";
      var runs := seq(|depts|, i requires 0 <= i < |depts| => DeptRun(p, depts[i], concurrent, checkDept));
      var started := if concurrent then runs else UpToPanic(runs);
      Scraped(None, [Get(Q.RootIndex), Report(mode)], started,
              if AnyPanics(started) then [] else [Report("Scraper done")])
  }

  /** A department's run: the line naming it, the unused request in
      non-concurrent mode, then its body. */
  lemma DeptRunEvents(p: Ports, d: M.Dept, concurrent: bool, checkDept: bool)
    ensures Inserts(DeptRun(p, d, concurrent, checkDept).events) == DeptExpected(p, Q.Scraper, d)
    ensures DeptRun(p, d, concurrent, checkDept).panic.None? <==> DeptSound(p, Q.Scraper, d)
  {
    var head: seq<Event<Record>> := [Report("Scraping: " + d.title)] + (if concurrent then [] else [Get(d.link)]);
    assert Inserts(head) == [] by {
      InsertsAppend<Record>([Report("Scraping: " + d.title)], if concurrent then [] else [Get(d.link)]);
    }
    DeptBodyInserts(p, d, Q.Scraper, checkDept);
    ThenEvents(head, DeptBody(p, d, Q.Scraper, checkDept));
  }

  /** In either mode, each department that starts inserts what
      `DeptExpected` says: nothing when its page fails, its page's records
      in order when it is sound, and only itself and its classes when its
      sections panic. */
  lemma ScrapeDeptInserts(p: Ports, concurrent: bool, checkDept: bool, i: nat)
    requires p.fetch(Q.RootIndex).Ok? && i < |Scrape(p, concurrent, checkDept).perDept|
    ensures var d := p.depts(p.fetch(Q.RootIndex).value)[i];
      && Inserts(Scrape(p, concurrent, checkDept).perDept[i].events) == DeptExpected(p, Q.Scraper, d)
      && (Scrape(p, concurrent, checkDept).perDept[i].panic.None? <==> DeptSound(p, Q.Scraper, d))
  {
    DeptRunEvents(p, p.depts(p.fetch(Q.RootIndex).value)[i], concurrent, checkDept);
  }

  /** In non-concurrent mode every department starts when all are sound;
      otherwise the pass stops at the first department that is not, and
      only then is "Scraper done" left out. */
  lemma ScrapeStops(p: Ports, checkDept: bool)
    requires p.fetch(Q.RootIndex).Ok?
    ensures var depts := p.depts(p.fetch(Q.RootIndex).value);
      var r := Scrape(p, false, checkDept);
      && (forall k :: 0 <= k < |r.perDept| - 1 ==> DeptSound(p, Q.Scraper, depts[k]))
      && (|r.perDept| < |depts| ==> !DeptSound(p, Q.Scraper, depts[|r.perDept| - 1]))
      && (AllSound(p, Q.Scraper, depts) <==> |r.perDept| == |depts| && r.closing == [Report("Scraper done")])
  {
    var depts := p.depts(p.fetch(Q.RootIndex).value);
    var r := Scrape(p, false, checkDept);
    forall k | 0 <= k < |r.perDept|
      ensures r.perDept[k].panic.None? <==> DeptSound(p, Q.Scraper, depts[k])
    {
      DeptRunEvents(p, depts[k], false, checkDept);
    }
    if AllSound(p, Q.Scraper, depts) {
      assert !AnyPanics(r.perDept);
    }
  }

  // ---------------------------------------------------------------- setupDb

  /** The loop of `setupDb`: execute the statements in order and stop at
      the first failure. `ran` is how many were executed, the failing one
      included. */
  method ExecAll(statements: seq<string>, exec: string -> Option<string>) returns (ran: nat, err: Option<string>)
    ensures ran <= |statements|
    ensures forall k :: 0 <= k < ran && (err.None? || k < ran - 1) ==> exec(statements[k]).None?
    ensures err.None? ==> ran == |statements|
    ensures err.Some? ==> ran > 0 && err == exec(statements[ran - 1])
  {
    ran := 0;
    err := None;
    while ran < |statements|
      invariant ran <= |statements|
      invariant forall k :: 0 <= k < ran ==> exec(statements[k]).None?
    {
      var e := exec(statements[ran]);
      if e.Some? {
        return ran + 1, e;
      }
      ran := ran + 1;
    }
  }

  /** `setupDb(db)`: read and split the schema file (a read error is
      returned, a split panic propagates), then execute its statements.
      Returns the statements executed and the outcome. */
  method SetupDb(file: Result<seq<string>>, exec: string -> Option<string>)
    returns (executed: seq<string>, r: Go<Option<string>>)
    ensures file.Err? ==> executed == [] && r == Value(Some(file.msg))
    ensures file.Ok? && SqlFile.ParseSqlFile(file.value).Panic? ==> executed == [] && r.Panic?
    ensures file.Ok? && SqlFile.ParseSqlFile(file.value).Value? ==>
      var statements := SqlFile.ParseSqlFile(file.value).value;
      && r.Value?
      && |executed| <= |statements| && executed == statements[..|executed|]
      && (r.value.None? <==> executed == statements && forall k :: 0 <= k < |statements| ==> exec(statements[k]).None?)
      && (r.value.Some? ==> |executed| > 0 && r.value == exec(executed[|executed| - 1])
                            && forall k :: 0 <= k < |executed| - 1 ==> exec(executed[k]).None?)
  {
    if file.Err? {
      return [], Value(Some(file.msg));
    }
    match SqlFile.ParseSqlFile(file.value)
    case Panic(m) =>
      return [], Panic(m);
    case Value(statements) =>
      var ran, err := ExecAll(statements, exec);
      return statements[..ran], Value(err);
  }
}

=== FILE: search.dfy ===
/** The two PL/Python scoring functions `setup` installs in each
    application database (goschedule/main.go, `wordScoreSqlFunc` and
    `letterScoreSqlFunc`), which the frontend's search queries order by.
    Both split the search and the phrase on single blanks and compare every
    search term with every word: `word_score` counts the pairs where the
    term is a case-insensitive prefix of the word, `letter_score` adds up
    the lengths of those terms. */
module Search {
  import opened Text
  import Bold

  /** The loop of `word_similarity` from index i: 0 at the first
      mismatch, the term's length when there is none. */
  function SimilarFrom(t: string, w: string, i: nat): (r: nat)
    requires i <= |t| <= |w|
    ensures r == 0 || r == |t|
    decreases |t| - i
  {
    if i == |t| then |t|
    else if t[i] != w[i] then 0
    else SimilarFrom(t, w, i + 1)
  }

  /** `word_similarity(search_term, word)`. */
  function WordSimilarity(term: string, word: string): (r: nat)
    ensures r == 0 || r == |term|
    ensures |term| > |word| ==> r == 0
  {
    var t := ToLower(term);
    var w := ToLower(word);
    if |t| > |w| then 0 else SimilarFrom(t, w, 0)
  }

  /** The loop finds a mismatch iff the term is not a prefix. */
  lemma {:induction false} SimilarFromPrefix(t: string, w: string, i: nat)
    requires i <= |t| <= |w|
    requires t[..i] == w[..i]
    ensures SimilarFrom(t, w, i) == if t == w[..|t|] then |t| else 0
    decreases |t| - i
  {
    if i < |t| {
      if t[i] != w[i] {
        assert t[i] != w[..|t|][i];
      } else {
        assert t[..i + 1] == t[..i] + [t[i]];
        assert w[..i + 1] == w[..i] + [w[i]];
        SimilarFromPrefix(t, w, i + 1);
      }
    } else {
      assert t == t[..i];
    }
  }

  /** A term's similarity to a word is its length when it is a
      case-insensitive prefix of the word, and 0 otherwise. So it is
      positive exactly when the frontend would bold the word with it. */
  lemma SimilarityMeaning(term: string, word: string)
    ensures WordSimilarity(term, word) == if Bold.Prefixes(word, term) then |term| else 0
    ensures WordSimilarity(term, word) > 0 <==> Bold.Bolds(word, term)
  {
    var t := ToLower(term);
    var w := ToLower(word);
    if |t| <= |w| {
      SimilarFromPrefix(t, w, 0);
    }
  }

  // ---------------------------------------------------------------- scores

  /** The words a term is similar to. */
  function Count(term: string, words: seq<string>): (r: nat)
    ensures r <= |words|
    ensures term == "" ==> r == 0
    decreases |words|
  {
    if |words| == 0 then 0
    else (if WordSimilarity(term, words[0]) > 0 then 1 else 0) + Count(term, words[1..])
  }

  /** The term's similarities, added up. */
  function Sum(term: string, words: seq<string>): (r: nat)
    ensures term == "" ==> r == 0
    decreases |words|
  {
    if |words| == 0 then 0 else WordSimilarity(term, words[0]) + Sum(term, words[1..])
  }

  /** `word_score(search, phrase)`. */
  function WordScore(search: string, phrase: string): (r: nat)
    ensures search == "" ==> r == 0
    ensures |Split(search, ' ')| == 1 ==> r <= |Split(phrase, ' ')|
  {
    assert search == "" ==> Split(search, ' ') == [""];
    WordScoreOver(Split(search, ' '), Split(phrase, ' '))
  }

  function WordScoreOver(terms: seq<string>, words: seq<string>): (r: nat)
    ensures (forall k :: 0 <= k < |terms| ==> terms[k] == "") ==> r == 0
    ensures |terms| == 1 ==> r <= |words|
    decreases |terms|
  {
    if |terms| == 0 then 0 else Count(terms[0], words) + WordScoreOver(terms[1..], words)
  }

  /** `letter_score(search, phrase)`. */
  function LetterScore(search: string, phrase: string): (r: nat)
    ensures search == "" ==> r == 0
  {
    assert search == "" ==> Split(search, ' ') == [""];
    LetterScoreOver(Split(search, ' '), Split(phrase, ' '))
  }

  function LetterScoreOver(terms: seq<string>, words: seq<string>): (r: nat)
    ensures (forall k :: 0 <= k < |terms| ==> terms[k] == "") ==> r == 0
    decreases |terms|
  {
    if |terms| == 0 then 0 else Sum(terms[0], words) + LetterScoreOver(terms[1..], words)
  }

  // ---------------------------------------------------------------- properties

  /** The words of the phrase the term would bold. */
  function Bolded(term: string, words: seq<string>): (r: set<nat>)
    ensures forall j :: j in r <==> 0 <= j < |words| && Bold.Bolds(words[j], term)
  {
    set j | 0 <= j < |words| && Bold.Bolds(words[j], term)
  }

  /** A term adds to `word_score` one per word it would bold, and to
      `letter_score` its length per such word. */
  lemma {:induction false} CountBolded(term: string, words: seq<string>)
    ensures Count(term, words) == |Bolded(term, words)|
    ensures Sum(term, words) == |term| * Count(term, words)
    decreases |words|
  {
    if |words| > 0 {
      SimilarityMeaning(term, words[0]);
      CountBolded(term, words[1..]);
      BoldedCons(term, words);
      var shifted := Shift(Bolded(term, words[1..]));
      ShiftSize(Bolded(term, words[1..]));
      if Bold.Bolds(words[0], term) {
        assert |{0} + shifted| == 1 + |shifted|;
        MulSucc(|term|, Count(term, words[1..]));
      } else {
        assert {} + shifted == shifted;
      }
    }
  }

  lemma MulSucc(a: nat, c: nat)
    ensures a * (1 + c) == a + a * c
  {
  }

  /** Every member up by one. */
  function Shift(s: set<nat>): set<nat> {
    set j | j in s :: j + 1
  }

  /** The bolded words of a phrase: its first word if bolded, and the
      bolded words of the rest, one place on. */
  lemma BoldedCons(term: string, words: seq<string>)
    requires |words| > 0
    ensures Bolded(term, words) ==
      (if Bold.Bolds(words[0], term) then {0} else {}) + Shift(Bolded(term, words[1..]))
    ensures 0 !in Shift(Bolded(term, words[1..]))
  {
    var rest := Bolded(term, words[1..]);
    forall j | j in Bolded(term, words) && j > 0
      ensures j in Shift(rest)
    {
      assert words[j] == words[1..][j - 1];
      assert j - 1 in rest;
    }
  }

  /** Moving every member up by one keeps the size. */
  lemma {:induction false} ShiftSize(s: set<nat>)
    ensures |Shift(s)| == |s|
    decreases |s|
  {
    if s != {} {
      var x :| x in s;
      var u := Shift(s - {x});
      ShiftSize(s - {x});
      forall y | y in Shift(s)
        ensures y in u + {x + 1}
      {
        var j :| j in s && y == j + 1;
        if j != x {
          assert j in s - {x};
        }
      }
      assert Shift(s) == u + {x + 1};
      assert x + 1 !in u;
    }
  }

  /** `letter_score` is at least `word_score`, and they are zero together:
      every similar pair adds one to the first and at least one to the
      second. */
  lemma {:induction false} LetterAtLeastWord(terms: seq<string>, words: seq<string>)
    ensures LetterScoreOver(terms, words) >= WordScoreOver(terms, words)
    ensures LetterScoreOver(terms, words) == 0 <==> WordScoreOver(terms, words) == 0
    decreases |terms|
  {
    if |terms| > 0 {
      TermAtLeast(terms[0], words);
      LetterAtLeastWord(terms[1..], words);
    }
  }

  /** One term adds at least as much to `letter_score` as to `word_score`,
      and nothing to one exactly when nothing to the other. */
  lemma TermAtLeast(term: string, words: seq<string>)
    ensures Sum(term, words) >= Count(term, words)
    ensures Sum(term, words) == 0 <==> Count(term, words) == 0
  {
    CountBolded(term, words);
    var c := Count(term, words);
    if c > 0 {
      assert |term| > 0 by {
        var j :| j in Bolded(term, words);
      }
      assert |term| * c >= c;
    }
  }

  /** The same for the functions on the texts. */
  lemma ScoresAgree(search: string, phrase: string)
    ensures LetterScore(search, phrase) >= WordScore(search, phrase)
    ensures LetterScore(search, phrase) == 0 <==> WordScore(search, phrase) == 0
  {
    LetterAtLeastWord(Split(search, ' '), Split(phrase, ' '));
  }
}

=== FILE: sections.dfy ===
/** What every extractor revision does with one section chunk: cut the
    HTML tags out (`(?i)<.+?>`), split at newlines, decode the fixed
    columns of the first line, then walk the remaining lines. */
module SectionChunk {
  import opened Text
  import opened Outcomes
  import opened Groups
  import opened MeetingPatterns
  import opened Columns
  import opened Continuation

  /** The lines of a chunk once its tags are gone. */
  function Lines(chunk: string): (r: seq<string>)
    ensures |r| >= 1
  {
    Split(RemoveAll(chunk, Tag), '\n')
  }

  /** No line holds a newline. */
  lemma LinesHaveNoNewline(chunk: string)
    ensures forall k :: 0 <= k < |Lines(chunk)| ==> '\n' !in Lines(chunk)[k]
  {
  }

  /** The Go code does not panic on the chunk: the first line reaches
      column 115 (`lines[0][115:]`) and every later line the meeting-time
      pattern matches reaches column 56 (`line[47:56]`). */
  predicate Readable(chunk: string, p: MeetingPattern) {
    |Lines(chunk)[0]| >= Stops[CellCount] && LinesReadable(Lines(chunk)[1..], p)
  }

  /** The meeting time of the first line, if it holds one. */
  function FirstTimes(line: string, p: MeetingPattern): (r: seq<MeetingTime>)
    requires |line| >= Stops[CellCount]
    ensures |r| <= 1
    ensures |r| == 1 <==> Matches(line, p)
  {
    match CheckMeetingTime(line, p)
    case Some(mt) => [mt]
    case None => []
  }

  datatype Fields = Fields(row: Row, times: seq<MeetingTime>, info: string)

  /** The first-line cells, the meeting times (first line first, then the
      later lines in order) and the Info text of one chunk. */
  function Decode(chunk: string, p: MeetingPattern): (r: Fields)
    requires Readable(chunk, p)
    ensures r.times == FirstTimes(Lines(chunk)[0], p) + TimesOf(Lines(chunk)[1..], p)
    ensures r.info == Terminated(TextsOf(Lines(chunk)[1..], p))
  {
    var lines := Lines(chunk);
    var first := lines[0];
    var acc := Scan(Acc(FirstTimes(first, p), ""), lines[1..], p);
    ScanTimes(Acc(FirstTimes(first, p), ""), lines[1..], p);
    ScanInfo(Acc(FirstTimes(first, p), ""), lines[1..], p);
    Fields(DecodeRow(first), acc.times, acc.info)
  }

  /** The Info field splits back into the text lines of the chunk. */
  lemma DecodeInfoSplits(chunk: string, p: MeetingPattern)
    requires Readable(chunk, p)
    ensures Split(Decode(chunk, p).info, '\n') == TextsOf(Lines(chunk)[1..], p) + [""]
  {
    var lines := Lines(chunk);
    LinesHaveNoNewline(chunk);
    InfoRecoversTexts(lines[1..], p);
    ScanInfo(Acc([], ""), lines[1..], p);
  }

  // ---------------------------------------------------------------- a printed one-line section

  /** Without a '<' no tag can match. */
  lemma {:induction false} NoOpenNoTag(s: string)
    requires '<' !in s
    ensures RemoveAll(s, Tag) == s
    decreases |s|
  {
    if |s| > 0 {
      assert MatchEnd(s, Tag).None?;
      assert '<' !in s[1..];
      NoOpenNoTag(s[1..]);
      assert s == [s[0]] + s[1..];
    }
  }

  /** A one-line chunk printed from trimmed cells, free of tags and
      newlines, decodes to those cells. */
  lemma DecodePrintedChunk(cells: seq<string>, other: string, p: MeetingPattern)
    requires |cells| == CellCount
    requires forall j :: 0 <= j < CellCount ==> |cells[j]| <= Width(j) && Trimmed(cells[j])
    requires Trimmed(other)
    requires '<' !in PrintLine(cells, other) && '\n' !in PrintLine(cells, other)
    ensures Readable(PrintLine(cells, other), p)
    ensures Decode(PrintLine(cells, other), p).row
         == Row(cells[Restriction], cells[Sln], cells[Section], cells[Credit],
                cells[Instructor], cells[Status], cells[Spots],
                cells[Grades], cells[Fee], other)
    ensures Decode(PrintLine(cells, other), p).info == ""
  {
    var line := PrintLine(cells, other);
    NoOpenNoTag(line);
    SplitWithoutSeparator(line, '\n');
    assert Lines(line) == [line];
    assert Lines(line)[1..] == [];
    DecodePrintedRow(cells, other);
  }
}

=== FILE: setup.dfy ===
/** The command-line driver's database work (goschedule/main.go): the
    database names `setup` creates or drops for each schedule, the
    statements one scrape pass runs against them, the login read from the
    configuration, and the lookup of a schedule by name. Statements are
    recorded, not run; a failing statement makes the Go program exit, so
    the traces below are those of runs where every statement succeeds. */
module Setup {
  import opened Text
  import opened Outcomes
  import Switch
  import Schema

  /** Go's `m[k]` on a map of strings: "" for a missing key. */
  function Lookup(m: map<string, string>, k: string): string {
    if k in m then m[k] else ""
  }

  // ---------------------------------------------------------------- names

  function SwitchDatabase(name: string): string {
    "goschedule_" + name + "_switch"
  }

  /** `fmt.Sprintf("goschedule_%s_app%d", name, n)`. */
  function AppDatabase(name: string, n: int): string {
    "goschedule_" + name + "_app" + Switch.IntText(n)
  }

  /** Two application databases of a schedule have the same name only
      when their numbers are equal, and neither is the switch database. */
  lemma DatabaseNamesDistinct(name: string, a: int, b: int)
    ensures AppDatabase(name, a) == AppDatabase(name, b) <==> a == b
    ensures AppDatabase(name, a) != SwitchDatabase(name)
  {
    var p := "goschedule_" + name + "_app";
    if AppDatabase(name, a) == AppDatabase(name, b) {
      assert Switch.IntText(a) == AppDatabase(name, a)[|p|..];
      assert Switch.IntText(b) == AppDatabase(name, b)[|p|..];
      Switch.IntRoundTrip(a);
      Switch.IntRoundTrip(b);
    }
    var k := |"goschedule_" + name + "_"|;
    assert AppDatabase(name, a)[k] == 'a';
    assert SwitchDatabase(name)[k] == 's';
  }

  // ---------------------------------------------------------------- setup

  /** A statement run on a database. */
  datatype Exec = Exec(database: string, statement: string)

  /** The statement verb for `setup create` and `setup teardown`. */
  function Command(arg: string): Option<string> {
    if arg == "create" then Some("CREATE")
    else if arg == "teardown" then Some("DROP")
    else None
  }

  /** The three statements run on the login database for each schedule. */
  function DatabaseStatements(command: string, name: string): seq<string> {
    [command + " DATABASE goschedule_" + name + "_switch",
     command + " DATABASE goschedule_" + name + "_app1",
     command + " DATABASE goschedule_" + name + "_app2"]
  }

  /** `dbSetupStatements`, loaded into each application database: the
      table schemas, then the PL/Python extension and the two scoring
      functions of module Search. The schemas are those `init` generates
      for College, Dept, Class and Sect. */
  function AppStatements(schemas: seq<string>): (r: seq<string>)
    ensures |r| == |schemas| + 3
    ensures r[..|schemas|] == schemas
  {
    schemas + ["CREATE EXTENSION plpythonu", WordScoreFunction, LetterScoreFunction]
  }

  /** The schemas `init` generates: one per table, each a CREATE TABLE. */
  predicate GeneratedSchemas(schemas: seq<string>) {
    |schemas| == 4 &&
    forall k :: 0 <= k < 4 ==> Schema.GenerateSchema(Schema.Tables[k]) == Value(schemas[k])
  }

  /** `init` succeeds, and what it stores creates tables. */
  lemma SchemasCreateTables(schemas: seq<string>)
    requires GeneratedSchemas(schemas)
    ensures forall k :: 0 <= k < 4 ==> HasPrefix(schemas[k], "CREATE TABLE ")
  {
    forall k | 0 <= k < 4
      ensures HasPrefix(schemas[k], "CREATE TABLE ")
    {
      var t := Schema.Tables[k];
      assert HasPrefix(schemas[k], "CREATE TABLE " + t.name + " (");
      assert schemas[k][..13] == ("CREATE TABLE " + t.name + " (")[..13];
    }
  }

  /** The header of the two CREATE FUNCTION statements; their Python
      bodies are modelled by module Search. */
  const WordScoreFunction := ScoreFunction("word_score")
  const LetterScoreFunction := ScoreFunction("letter_score")

  function ScoreFunction(name: string): string {
    "CREATE OR REPLACE FUNCTION " + name + " (search text, phrase text)"
  }

  /** The scoring functions are created with CREATE OR REPLACE. */
  lemma ScoreFunctionsReplace(name: string)
    ensures HasPrefix(ScoreFunction(name), "CREATE OR ")
  {
    assert ScoreFunction(name)[..10] == "CREATE OR REPLACE FUNCTION "[..10];
  }

  const SwitchTable := "CREATE TABLE switch_table ( switch_col int)"
  const SwitchStart := "INSERT INTO switch_table VALUES (1)"

  /** Each statement run on `database`. */
  function On(database: string, statements: seq<string>): (r: seq<Exec>)
    ensures |r| == |statements|
    ensures forall i :: 0 <= i < |r| ==> r[i] == Exec(database, statements[i])
  {
    seq(|statements|, i requires 0 <= i < |statements| => Exec(database, statements[i]))
  }

  /** The statements `setup` runs for one schedule. */
  function ScheduleSetup(command: string, loginDb: string, name: string, schemas: seq<string>): seq<Exec> {
    On(loginDb, DatabaseStatements(command, name)) +
    (if command == "CREATE" then
       On(SwitchDatabase(name), [SwitchTable, SwitchStart]) +
       On(AppDatabase(name, 1), AppStatements(schemas)) +
       On(AppDatabase(name, 2), AppStatements(schemas))
     else [])
  }

  /** `handleSetup(args)` for the given login and schedules: an error for
      a missing or unknown argument, otherwise the statements, schedule
      after schedule. */
  function HandleSetup(args: seq<string>, login: map<string, string>, schedules: seq<map<string, string>>, schemas: seq<string>): (r: Result<seq<Exec>>)
    ensures r.Err? <==> |args| < 1 || Command(args[0]).None?
    ensures |schedules| == 0 && r.Ok? ==> r.value == []
    decreases |schedules|
  {
    if |args| < 1 then Err("ERROR: not enough arguments")
    else match Command(args[0])
      case None => Err("unrecognized argument")
      case Some(command) =>
        if |schedules| == 0 then Ok([])
        else match HandleSetup(args, login, schedules[1..], schemas)
          case Err(m) => Err(m)
          case Ok(rest) => Ok(ScheduleSetup(command, Lookup(SetupLogin(login), "dbname"), Lookup(schedules[0], "name"), schemas) + rest)
  }

  /** For one schedule, `setup create` creates the switch database and
      app1 and app2, in that order, then stores 1 as the switch, then loads
      both application databases; `setup teardown` only drops the same
      three databases. */
  lemma ScheduleSetupNames(loginDb: string, name: string, schemas: seq<string>)
    requires |schemas| == 4
    ensures DatabaseStatements("CREATE", name) ==
      ["CREATE DATABASE " + SwitchDatabase(name), "CREATE DATABASE " + AppDatabase(name, 1), "CREATE DATABASE " + AppDatabase(name, 2)]
    ensures DatabaseStatements("DROP", name) ==
      ["DROP DATABASE " + SwitchDatabase(name), "DROP DATABASE " + AppDatabase(name, 1), "DROP DATABASE " + AppDatabase(name, 2)]
    ensures ScheduleSetup("DROP", loginDb, name, schemas) == On(loginDb, DatabaseStatements("DROP", name))
    ensures var s := ScheduleSetup("CREATE", loginDb, name, schemas);
      |s| == 19 && s[3] == Exec(SwitchDatabase(name), SwitchTable) && s[4] == Exec(SwitchDatabase(name), SwitchStart) &&
      (forall i :: 5 <= i < 12 ==> s[i].database == AppDatabase(name, 1)) &&
      (forall i :: 12 <= i < 19 ==> s[i].database == AppDatabase(name, 2))
  {
    assert Switch.IntText(1) == "1";
    assert Switch.IntText(2) == "2";
    NamedDatabase("CREATE", name, "_switch");
    NamedDatabase("CREATE", name, "_app1");
    NamedDatabase("CREATE", name, "_app2");
    NamedDatabase("DROP", name, "_switch");
    NamedDatabase("DROP", name, "_app1");
    NamedDatabase("DROP", name, "_app2");
    assert "CREATE" + " DATABASE " == "CREATE DATABASE ";
    assert "DROP" + " DATABASE " == "DROP DATABASE ";
    assert "_app" + "1" == "_app1" && "_app" + "2" == "_app2";
    assert AppDatabase(name, 1) == "goschedule_" + name + "_app1";
    assert AppDatabase(name, 2) == "goschedule_" + name + "_app2";
    var s := ScheduleSetup("CREATE", loginDb, name, schemas);
    var a := On(loginDb, DatabaseStatements("CREATE", name));
    var b := On(SwitchDatabase(name), [SwitchTable, SwitchStart]);
    var c := On(AppDatabase(name, 1), AppStatements(schemas));
    var d := On(AppDatabase(name, 2), AppStatements(schemas));
    assert s == a + b + c + d;
    assert forall i :: 5 <= i < 12 ==> s[i] == c[i - 5];
    assert forall i :: 12 <= i < 19 ==> s[i] == d[i - 12];
  }

  /** `setup` fails exactly on a missing or unknown first argument.
      Otherwise it runs 19 statements per schedule for `create` and 3 for
      `teardown`, and `teardown` runs them all on the login database. */
  lemma {:induction false} HandleSetupCounts(args: seq<string>, login: map<string, string>,
                                             schedules: seq<map<string, string>>, schemas: seq<string>)
    requires |schemas| == 4
    ensures |args| < 1 ==> HandleSetup(args, login, schedules, schemas) == Err("ERROR: not enough arguments")
    ensures |args| >= 1 && Command(args[0]).None? ==>
      HandleSetup(args, login, schedules, schemas) == Err("unrecognized argument")
    ensures |args| >= 1 && Command(args[0]).Some? ==>
      var r := HandleSetup(args, login, schedules, schemas);
      r.Ok? &&
      |r.value| == |schedules| * (if args[0] == "create" then 19 else 3) &&
      (args[0] == "teardown" ==> forall i :: 0 <= i < |r.value| ==>
        r.value[i].database == Lookup(SetupLogin(login), "dbname"))
    decreases |schedules|
  {
    if |args| >= 1 && Command(args[0]).Some? && |schedules| > 0 {
      var command := Command(args[0]).value;
      var loginDb := Lookup(SetupLogin(login), "dbname");
      HandleSetupCounts(args, login, schedules[1..], schemas);
      var rest := HandleSetup(args, login, schedules[1..], schemas).value;
      var first := ScheduleSetup(command, loginDb, Lookup(schedules[0], "name"), schemas);
      ScheduleSetupNames(loginDb, Lookup(schedules[0], "name"), schemas);
      assert HandleSetup(args, login, schedules, schemas).value == first + rest;
      if args[0] == "create" {
        assert |first| == 19;
      } else {
        assert first == On(loginDb, DatabaseStatements("DROP", Lookup(schedules[0], "name")));
        assert |first| == 3;
        assert forall i :: 0 <= i < |first| ==> first[i].database == loginDb;
      }
    }
  }

  /** The verb, then the database name. */
  lemma NamedDatabase(command: string, name: string, suffix: string)
    ensures command + " DATABASE goschedule_" + name + suffix == command + " DATABASE " + ("goschedule_" + name + suffix)
  {
    assert " DATABASE goschedule_" == " DATABASE " + "goschedule_";
  }

  /** After `setup create` every schedule's switch starts at 1, the value
      from which passes keep it at 1 or 2. */
  lemma SetupStartsSwitch(name: string)
    ensures SwitchStart == "INSERT INTO switch_table VALUES (" + Switch.IntText(1) + ")"
    ensures Switch.Pass(1).1 == 2 && Switch.ReaderSlot(2) == 1
  {
    assert Switch.IntText(1) == "1";
  }

  // ---------------------------------------------------------------- login

  /** The login `handleSetup` reads (main.go:134-136): the password is
      read from the "user" key. */
  function SetupLogin(conf: map<string, string>): (r: map<string, string>)
    ensures forall k :: k in {"user", "password", "dbname"} ==> k in r
    ensures r["user"] == r["password"] == Lookup(conf, "user") && r["dbname"] == Lookup(conf, "dbname")
  {
    map["user" := Lookup(conf, "user"), "password" := Lookup(conf, "user"), "dbname" := Lookup(conf, "dbname")]
  }

  /** The login `handleScrape` reads (main.go:183-185), and the one setup
      evidently means: the password from the "password" key. */
  function ScrapeLogin(conf: map<string, string>): (r: map<string, string>)
    ensures forall k :: k in {"user", "password", "dbname"} ==> k in r && r[k] == Lookup(conf, k)
  {
    map["user" := Lookup(conf, "user"), "password" := Lookup(conf, "password"), "dbname" := Lookup(conf, "dbname")]
  }

  /** Setup connects with the user name as its password: with user "u"
      and password "p" it sends "u". */
  lemma SetupSendsUserAsPassword()
    ensures var conf := map["user" := "u", "password" := "p", "dbname" := "postgres"];
      Lookup(SetupLogin(conf), "password") == "u" && Lookup(ScrapeLogin(conf), "password") == "p"
  {
    var conf := map["user" := "u", "password" := "p", "dbname" := "postgres"];
    assert Lookup(conf, "user") == "u";
    assert Lookup(conf, "password") == "p";
  }

  /** Both logins agree on everything but the password. */
  lemma LoginsDifferOnlyInPassword(conf: map<string, string>)
    ensures Lookup(SetupLogin(conf), "user") == Lookup(ScrapeLogin(conf), "user")
    ensures Lookup(SetupLogin(conf), "dbname") == Lookup(ScrapeLogin(conf), "dbname")
    ensures Lookup(SetupLogin(conf), "password") == Lookup(ScrapeLogin(conf), "password") <==>
      Lookup(conf, "user") == Lookup(conf, "password")
  {
  }

  // ---------------------------------------------------------------- scrape pass

  /** What a pass does, in order. */
  datatype Step = Run(exec: Exec) | ScrapeInto(database: string) | FlipSwitch(database: string)

  /** One pass of `handleScrape` for the schedule `name`: read the switch
      (a failed read exits), drop and recreate app<switch>, load it, scrape
      into it, then flip the switch. */
  function ScrapePass(loginDb: string, name: string, schemas: seq<string>, read: Result<int>): (r: Result<seq<Step>>)
    ensures r.Err? <==> read.Err?
    ensures r.Ok? ==> (|r.value| == |schemas| + 7 &&
                       r.value[|r.value| - 2] == ScrapeInto(AppDatabase(name, read.value)) &&
                       r.value[|r.value| - 1] == FlipSwitch(SwitchDatabase(name)))
  {
    match read
    case Err(m) => Err(m)
    case Ok(appNum) =>
      var app := AppDatabase(name, appNum);
      Ok([Run(Exec(loginDb, "DROP DATABASE " + app)), Run(Exec(loginDb, "CREATE DATABASE " + app))] +
         seq(|schemas| + 3, i requires 0 <= i < |schemas| + 3 => Run(Exec(app, AppStatements(schemas)[i]))) +
         [ScrapeInto(app), FlipSwitch(SwitchDatabase(name))])
  }

  /** The database a step writes. */
  function Touches(s: Step): string {
    match s
    case Run(e) =>
      if HasPrefix(e.statement, "DROP DATABASE ") then e.statement[14..]
      else if HasPrefix(e.statement, "CREATE DATABASE ") then e.statement[16..]
      else e.database
    case ScrapeInto(d) => d
    case FlipSwitch(d) => d
  }

  /** Before its flip a pass writes only app<switch>, never the database
      the frontend reads while that switch holds; the flip comes last. */
  lemma PassWritesOneDatabase(loginDb: string, name: string, schemas: seq<string>, stored: int)
    requires GeneratedSchemas(schemas)
    ensures ScrapePass(loginDb, name, schemas, Ok(stored)).Ok?
    ensures var steps := ScrapePass(loginDb, name, schemas, Ok(stored)).value;
      |steps| == 11 && steps[10] == FlipSwitch(SwitchDatabase(name)) &&
      (forall i :: 0 <= i < 10 ==> Touches(steps[i]) == AppDatabase(name, stored)) &&
      (forall i :: 0 <= i < 10 ==> Touches(steps[i]) != AppDatabase(name, Switch.ReaderSlot(stored)))
  {
    SchemasCreateTables(schemas);
    PassTouchesApp(loginDb, name, schemas, stored);
    DatabaseNamesDistinct(name, stored, Switch.ReaderSlot(stored));
  }

  /** Over CREATE TABLE schemas, every step of a pass before its flip
      writes app<switch>. */
  lemma PassTouchesApp(loginDb: string, name: string, schemas: seq<string>, stored: int)
    requires |schemas| == 4 && forall k :: 0 <= k < 4 ==> HasPrefix(schemas[k], "CREATE TABLE ")
    ensures ScrapePass(loginDb, name, schemas, Ok(stored)).Ok?
    ensures var steps := ScrapePass(loginDb, name, schemas, Ok(stored)).value;
      |steps| == 11 && steps[10] == FlipSwitch(SwitchDatabase(name)) &&
      (forall i :: 0 <= i < 10 ==> Touches(steps[i]) == AppDatabase(name, stored))
  {
    var app := AppDatabase(name, stored);
    var steps := ScrapePass(loginDb, name, schemas, Ok(stored)).value;
    var resets := [Run(Exec(loginDb, "DROP DATABASE " + app)), Run(Exec(loginDb, "CREATE DATABASE " + app))];
    var loads := seq(|schemas| + 3, i requires 0 <= i < |schemas| + 3 => Run(Exec(app, AppStatements(schemas)[i])));
    assert steps == resets + loads + [ScrapeInto(app), FlipSwitch(SwitchDatabase(name))];
    ResetsWrite(loginDb, app);
    StatementsTouchApp(app, schemas);
    WritesAppend(resets, loads + [ScrapeInto(app)], app);
    assert steps[..10] == resets + (loads + [ScrapeInto(app)]);
    WritesPrefix(steps, 10, app);
  }

  /** Every step writes `db`. */
  predicate Writes(steps: seq<Step>, db: string) {
    forall i :: 0 <= i < |steps| ==> Touches(steps[i]) == db
  }

  lemma WritesAppend(a: seq<Step>, b: seq<Step>, db: string)
    requires Writes(a, db) && Writes(b, db)
    ensures Writes(a + b, db)
  {
    assert forall i :: |a| <= i < |a + b| ==> (a + b)[i] == b[i - |a|];
  }

  lemma WritesPrefix(steps: seq<Step>, n: nat, db: string)
    requires n <= |steps| && Writes(steps[..n], db)
    ensures forall i :: 0 <= i < n ==> Touches(steps[i]) == db
  {
    assert forall i :: 0 <= i < n ==> steps[..n][i] == steps[i];
  }

  /** A pass's reset drops and recreates app<switch>, writing only it. */
  lemma ResetsWrite(loginDb: string, app: string)
    ensures Writes([Run(Exec(loginDb, "DROP DATABASE " + app)), Run(Exec(loginDb, "CREATE DATABASE " + app))], app)
  {
    DropTarget(loginDb, app);
    CreateTarget(loginDb, app);
  }

  /** None of a pass's statements on app<switch> creates or drops a
      database, so each writes app<switch>, and so does the scrape. */
  lemma StatementsTouchApp(app: string, schemas: seq<string>)
    requires forall k :: 0 <= k < |schemas| ==> HasPrefix(schemas[k], "CREATE TABLE ")
    ensures Writes(seq(|schemas| + 3, i requires 0 <= i < |schemas| + 3 => Run(Exec(app, AppStatements(schemas)[i])))
                   + [ScrapeInto(app)], app)
  {
    ScoreFunctionsReplace("word_score");
    ScoreFunctionsReplace("letter_score");
    var loads := seq(|schemas| + 3, i requires 0 <= i < |schemas| + 3 => Run(Exec(app, AppStatements(schemas)[i])));
    forall i | 0 <= i < |schemas| + 3
      ensures Touches(loads[i]) == app
    {
      NotDatabaseStatement(AppStatements(schemas)[i]);
    }
    assert forall i :: 0 <= i < |loads| ==> (loads + [ScrapeInto(app)])[i] == loads[i];
  }

  /** A DROP DATABASE writes the database it names. */
  lemma DropTarget(loginDb: string, t: string)
    ensures Touches(Run(Exec(loginDb, "DROP DATABASE " + t))) == t
  {
    var st := "DROP DATABASE " + t;
    assert st[..14] == "DROP DATABASE ";
    assert st[14..] == t;
  }

  /** A CREATE DATABASE writes the database it names. */
  lemma CreateTarget(loginDb: string, t: string)
    ensures Touches(Run(Exec(loginDb, "CREATE DATABASE " + t))) == t
  {
    var st := "CREATE DATABASE " + t;
    assert st[0] == 'C';
    assert st[..16] == "CREATE DATABASE ";
    assert st[16..] == t;
  }

  /** A CREATE TABLE, CREATE EXTENSION or CREATE OR REPLACE FUNCTION
      statement does not create or drop a database. */
  lemma NotDatabaseStatement(st: string)
    requires HasPrefix(st, "CREATE TABLE ") || st == "CREATE EXTENSION plpythonu" || HasPrefix(st, "CREATE OR ")
    ensures !HasPrefix(st, "DROP DATABASE ")
    ensures !HasPrefix(st, "CREATE DATABASE ")
  {
    if HasPrefix(st, "CREATE TABLE ") {
      assert st[0] == "CREATE TABLE "[0] && st[7] == "CREATE TABLE "[7];
    } else if st == "CREATE EXTENSION plpythonu" {
      assert st[0] == 'C' && st[7] == 'E';
    } else {
      assert st[0] == "CREATE OR "[0] && st[7] == "CREATE OR "[7];
    }
  }

  // ---------------------------------------------------------------- lookup

  /** `findScheduleInConfig`: whether some schedule is named `name` (a
      schedule without a "name" key counts as named ""). */
  method FindScheduleInConfig(name: string, schedules: seq<map<string, string>>) returns (found: bool)
    ensures found <==> exists i :: 0 <= i < |schedules| && Lookup(schedules[i], "name") == name
  {
    for i := 0 to |schedules|
      invariant forall j :: 0 <= j < i ==> Lookup(schedules[j], "name") != name
    {
      if name == Lookup(schedules[i], "name") {
        return true;
      }
    }
    return false;
  }
}

=== FILE: sql_file.dfy ===
/** The SQL-file splitter of the scraper's database layer
    (scraper/database/database.go, `ParseSqlFile`). The file arrives as its
    lines; each line is read character by character: "--" ends the line's
    code, ';' closes the statement being built (keeping the ';'), and every
    other character is appended to it. Lines are joined with nothing in
    between, and text after the last ';' is dropped. A line whose last
    character is a '-' reached by the loop reads one byte past the end and
    panics. */
module SqlFile {
  import opened Text
  import opened Outcomes

  /** The statements finished so far and the one being built. */
  datatype Scan = Scan(statements: seq<string>, pending: string)

  const OutOfRange := "index out of range"

  /** The inner loop over one line, from index i on. */
  function ScanLine(acc: Scan, l: string, i: nat): (r: Go<Scan>)
    requires i <= |l|
    ensures r.Panic? ==> r.reason == OutOfRange && |l| > 0 && l[|l| - 1] == '-'
    ensures r.Value? ==> acc.statements <= r.value.statements
    decreases |l| - i
  {
    if i == |l| then Value(acc)
    else if l[i] == '-' && i + 1 == |l| then Panic(OutOfRange)
    else if l[i] == '-' && l[i + 1] == '-' then Value(acc)
    else if l[i] == ';' then ScanLine(Scan(acc.statements + [acc.pending + ";"], ""), l, i + 1)
    else ScanLine(Scan(acc.statements, acc.pending + [l[i]]), l, i + 1)
  }

  /** The outer loop over the lines. */
  function ScanLines(acc: Scan, lines: seq<string>): (r: Go<Scan>)
    ensures r.Panic? ==> r.reason == OutOfRange && exists k :: 0 <= k < |lines| && EndsInDash(lines[k])
    ensures r.Value? ==> acc.statements <= r.value.statements
    decreases |lines|
  {
    if |lines| == 0 then Value(acc)
    else match ScanLine(acc, lines[0], 0)
      case Panic(m) => Panic(m)
      case Value(a) => ScanLines(a, lines[1..])
  }

  /** The line's last character is a '-'. */
  predicate EndsInDash(l: string) {
    |l| > 0 && l[|l| - 1] == '-'
  }

  /** `ParseSqlFile` on a file with the given lines. */
  function ParseSqlFile(lines: seq<string>): (r: Go<seq<string>>)
    ensures r.Panic? ==> r.reason == OutOfRange && exists k :: 0 <= k < |lines| && EndsInDash(lines[k])
  {
    match ScanLines(Scan([], ""), lines)
    case Panic(m) => Panic(m)
    case Value(s) => Value(s.statements)
  }

  // ---------------------------------------------------------------- reference

  /** A comment opens at i. */
  predicate DashesAt(l: string, i: int) {
    0 <= i && i + 1 < |l| && l[i] == '-' && l[i + 1] == '-'
  }

  /** The first index from i on where a comment opens, or |l|. */
  function FirstComment(l: string, i: nat): (r: nat)
    requires i <= |l|
    ensures i <= r <= |l|
    ensures r < |l| ==> DashesAt(l, r)
    ensures forall j :: i <= j < r ==> !DashesAt(l, j)
    decreases |l| - i
  {
    if i == |l| then i
    else if DashesAt(l, i) then i
    else FirstComment(l, i + 1)
  }

  /** The code of a line: everything before its first "--". */
  function Code(l: string): (r: string)
    ensures r <= l
    ensures forall j :: 0 <= j < |r| ==> !DashesAt(r, j)
    ensures |r| < |l| ==> |r| + 1 < |l| && l[|r|] == '-' && l[|r| + 1] == '-'
  {
    var e := FirstComment(l, 0);
    var r := l[..e];
    assert forall j :: 0 <= j < |r| ==> !DashesAt(r, j) by {
      forall j | 0 <= j < |r| ensures !DashesAt(r, j) {
        assert !DashesAt(l, j);
        if j + 1 < |r| {
          assert r[j] == l[j] && r[j + 1] == l[j + 1];
        }
      }
    }
    r
  }

  /** The line has no comment and ends in '-'. */
  predicate Panics(l: string) {
    FirstComment(l, 0) == |l| && |l| > 0 && l[|l| - 1] == '-'
  }

  /** The code of the lines, one after the other. */
  function Codes(lines: seq<string>): string
    decreases |lines|
  {
    if |lines| == 0 then "" else Code(lines[0]) + Codes(lines[1..])
  }

  /** Characters fed one at a time: ';' closes the pending statement. */
  function Feed(acc: Scan, t: string): Scan
    decreases |t|
  {
    if |t| == 0 then acc
    else if t[0] == ';' then Feed(Scan(acc.statements + [acc.pending + ";"], ""), t[1..])
    else Feed(Scan(acc.statements, acc.pending + [t[0]]), t[1..])
  }

  /** The statements a text holds: every ';'-separated piece but the last,
      each with its ';'. */
  function Terminated(t: string): (r: seq<string>)
    ensures |r| == |Split(t, ';')| - 1
  {
    var ps := Split(t, ';');
    seq(|ps| - 1, k requires 0 <= k < |ps| - 1 => ps[k] + ";")
  }

  /** What follows the last ';'. */
  function Leftover(t: string): string {
    var ps := Split(t, ';');
    ps[|ps| - 1]
  }

  /** The strings one after the other. */
  function Concat(ss: seq<string>): string
    decreases |ss|
  {
    if |ss| == 0 then "" else ss[0] + Concat(ss[1..])
  }

  // ---------------------------------------------------------------- proofs

  /** Feeding a + b is feeding a, then b. */
  lemma {:induction false} FeedAppend(acc: Scan, a: string, b: string)
    ensures Feed(acc, a + b) == Feed(Feed(acc, a), b)
    decreases |a|
  {
    if |a| == 0 {
      assert a + b == b;
    } else {
      assert (a + b)[0] == a[0] && (a + b)[1..] == a[1..] + b;
      if a[0] == ';' {
        FeedAppend(Scan(acc.statements + [acc.pending + ";"], ""), a[1..], b);
      } else {
        FeedAppend(Scan(acc.statements, acc.pending + [a[0]]), a[1..], b);
      }
    }
  }

  /** Feeding t to a pending text p without ';' closes the pieces of p + t
      but the last and leaves the last pending. */
  lemma {:induction false} FeedSplits(st: seq<string>, p: string, t: string)
    requires ';' !in p
    ensures Feed(Scan(st, p), t) == Scan(st + Terminated(p + t), Leftover(p + t))
    decreases |t|
  {
    if |t| == 0 {
      assert p + t == p;
      SplitWithoutSeparator(p, ';');
    } else if t[0] == ';' {
      FeedSplits(st + [p + ";"], "", t[1..]);
      assert "" + t[1..] == t[1..];
      SplitPrefix(p, t, ';');
      assert t == [t[0]] + t[1..];
      assert Split(t, ';') == [""] + Split(t[1..], ';');
      assert p + "" == p;
      var ps := Split(p + t, ';');
      var qs := Split(t[1..], ';');
      assert ps == [p] + qs;
      assert Terminated(p + t) == [p + ";"] + Terminated(t[1..]);
    } else {
      assert ';' !in p + [t[0]];
      FeedSplits(st, p + [t[0]], t[1..]);
      assert (p + [t[0]]) + t[1..] == p + t;
    }
  }

  /** A line that does not panic feeds its code from i on; one that
      panics panics from every i. */
  lemma {:induction false} ScanLineFeeds(acc: Scan, l: string, i: nat)
    requires i <= FirstComment(l, 0)
    ensures FirstComment(l, i) == FirstComment(l, 0)
    ensures Panics(l) ==> (i < |l| ==> ScanLine(acc, l, i) == Panic(OutOfRange))
    ensures !Panics(l) ==> ScanLine(acc, l, i) == Value(Feed(acc, l[i..FirstComment(l, 0)]))
    decreases |l| - i
  {
    var e := FirstComment(l, 0);
    if i < e {
      assert !DashesAt(l, i);
      if l[i] == '-' && i + 1 == |l| {
        assert Panics(l);
      } else {
        var next := if l[i] == ';' then Scan(acc.statements + [acc.pending + ";"], "")
                    else Scan(acc.statements, acc.pending + [l[i]]);
        ScanLineFeeds(next, l, i + 1);
        assert l[i..e][0] == l[i] && l[i..e][1..] == l[i + 1..e];
      }
    } else if e < |l| {
      assert DashesAt(l, i);
    }
  }

  /** The outer loop panics iff some line panics, and otherwise feeds the
      code of all lines. */
  lemma {:induction false} ScanLinesFeed(acc: Scan, lines: seq<string>)
    ensures ScanLines(acc, lines).Value? <==> forall k :: 0 <= k < |lines| ==> !Panics(lines[k])
    ensures ScanLines(acc, lines).Value? ==> ScanLines(acc, lines).value == Feed(acc, Codes(lines))
    decreases |lines|
  {
    if |lines| > 0 {
      ScanLineFeeds(acc, lines[0], 0);
      if Panics(lines[0]) {
        assert ScanLine(acc, lines[0], 0) == Panic(OutOfRange);
      } else {
        var a := Feed(acc, Code(lines[0]));
        assert lines[0][0..FirstComment(lines[0], 0)] == Code(lines[0]);
        ScanLinesFeed(a, lines[1..]);
        FeedAppend(acc, Code(lines[0]), Codes(lines[1..]));
        assert forall k :: 1 <= k < |lines| ==> lines[k] == lines[1..][k - 1];
      }
    }
  }

  /** `ParseSqlFile` panics exactly when some line ends in a '-' that the
      loop reaches; otherwise its statements are the ';'-terminated pieces
      of the lines' code joined without separator, the text after the last
      ';' dropped. */
  lemma ParseSqlFileSplits(lines: seq<string>)
    ensures ParseSqlFile(lines).Value? <==> forall k :: 0 <= k < |lines| ==> !Panics(lines[k])
    ensures ParseSqlFile(lines).Value? ==> ParseSqlFile(lines).value == Terminated(Codes(lines))
  {
    ScanLinesFeed(Scan([], ""), lines);
    FeedSplits([], "", Codes(lines));
    assert "" + Codes(lines) == Codes(lines);
  }

  /** Each statement ends in its one ';', and the statements followed by
      the dropped leftover give back the text. */
  lemma {:induction false} TerminatedRebuilds(t: string)
    ensures forall k :: 0 <= k < |Terminated(t)| ==>
      |Terminated(t)[k]| > 0 && Terminated(t)[k][|Terminated(t)[k]| - 1] == ';' &&
      ';' !in Terminated(t)[k][..|Terminated(t)[k]| - 1]
    ensures Concat(Terminated(t)) + Leftover(t) == t
  {
    var ps := Split(t, ';');
    forall k | 0 <= k < |Terminated(t)|
      ensures ';' !in Terminated(t)[k][..|Terminated(t)[k]| - 1]
    {
      assert Terminated(t)[k][..|Terminated(t)[k]| - 1] == ps[k];
    }
    PiecesRebuild(ps);
    JoinSplit(t, ';');
  }

  /** Pieces but the last, each with a ';', then the last: the join. */
  lemma {:induction false} PiecesRebuild(ps: seq<string>)
    requires |ps| >= 1
    ensures Concat(seq(|ps| - 1, k requires 0 <= k < |ps| - 1 => ps[k] + ";")) + ps[|ps| - 1] == Join(ps, ';')
    decreases |ps|
  {
    var ts := seq(|ps| - 1, k requires 0 <= k < |ps| - 1 => ps[k] + ";");
    if |ps| == 1 {
      assert ts == [];
    } else {
      PiecesRebuild(ps[1..]);
      var us := seq(|ps[1..]| - 1, k requires 0 <= k < |ps[1..]| - 1 => ps[1..][k] + ";");
      assert ts == [ps[0] + ";"] + us;
      assert ts[1..] == us;
    }
  }
}

=== FILE: switch.dfy ===
/** The double-buffer switch. Each schedule has two application databases,
    app1 and app2, and a one-row "switch" table holding a number. A scrape
    pass rebuilds the database the switch names and then flips the switch;
    the web frontend reads the other one. The scraper of the older
    revision (scraper/scraper.go) does the same with DbConn1 and DbConn2.

    Reads of the switch may fail; the stored value is the state, and the
    UPDATE statements are compare-and-swap on it. */
module Switch {
  import opened Text
  import opened Outcomes

  // ---------------------------------------------------------------- numbers

  /** `fmt.Sprintf("%d", n)`. */
  function IntText(n: int): (r: string)
    ensures |r| > 0 && (AllDigits(r) || (r[0] == '-' && |r| > 1 && AllDigits(r[1..])))
    ensures ' ' !in r
  {
    if n < 0 then "-" + Itoa(-n) else Itoa(n)
  }

  /** Reading a number written by `IntText`. */
  function IntValue(s: string): int
    requires |s| > 0 && (AllDigits(s) || (s[0] == '-' && |s| > 1 && AllDigits(s[1..])))
  {
    if s[0] == '-' then -(Decimal(s[1..]) as int) else Decimal(s)
  }

  /** Printing and reading back an integer give it back. */
  lemma IntRoundTrip(n: int)
    ensures IntValue(IntText(n)) == n
  {
    if n < 0 {
      DecimalItoa(-n);
      assert IntText(n)[1..] == Itoa(-n);
    } else {
      DecimalItoa(n);
    }
  }

  // ---------------------------------------------------------------- reading

  /** `GetSwitch`: the stored number, or -1 with the error when the query
      fails. */
  function GetSwitch(read: Result<int>): (r: (int, Option<string>))
    ensures r.1.Some? <==> read.Err?
    ensures read.Err? ==> r.0 == -1 && r.1 == Some(read.msg)
    ensures read.Ok? ==> r.0 == read.value
  {
    match read
    case Err(m) => (-1, Some(m))
    case Ok(v) => (v, None)
  }

  // ---------------------------------------------------------------- updating

  /** `UpdateSwitch(old, update)`'s statement; `Update` below is its
      effect. */
  function UpdateQuery(expected: int, update: int): string {
    "UPDATE switch_table SET switch_col = " + IntText(update) + " WHERE switch_col = " + IntText(expected)
  }

  /** The UPDATE ... WHERE statement run against the stored value: a
      compare-and-swap, taking effect exactly when the stored value is the
      expected one. */
  function Update(stored: int, expected: int, update: int): (r: int)
    ensures r == update <==> stored == expected || stored == update
    ensures stored != expected ==> r == stored
  {
    if stored == expected then update else stored
  }

  // ---------------------------------------------------------------- goschedule/main.go

  /** The value a flip writes: 2 after 1, 1 after anything else. */
  function Flipped(current: int): (r: int)
    ensures r == 1 || r == 2
    ensures r != current || current !in {1, 2}
  {
    if current == 1 then 2 else 1
  }

  /** `flipSwitch`: read the switch, then update it from the value read to
      its flip. A failed read or a failed statement returns the error; the
      statement is then not run or has no effect. */
  function FlipSwitch(stored: int, read: Result<int>, execFails: Option<string>): (r: (int, Option<string>))
    ensures read.Err? ==> r == (stored, Some(read.msg))
    ensures read.Ok? && execFails.Some? ==> r == (stored, execFails)
    ensures read.Ok? && execFails.None? ==>
      (r.1.None? && (r.0 == Flipped(read.value) <==> stored == read.value || stored == Flipped(read.value)))
  {
    match read
    case Err(m) => (stored, Some(m))
    case Ok(current) =>
      if execFails.Some? then (stored, execFails)
      else (Update(stored, current, Flipped(current)), None)
  }

  /** The application database the frontend reads (frontend.go's
      `router`): app2 while the switch is 1, app1 otherwise. */
  function ReaderSlot(switchValue: int): (r: int)
    ensures r == 1 || r == 2
    ensures r != switchValue
    ensures switchValue in {1, 2} ==> r + switchValue == 3
  {
    if switchValue == 1 then 2 else 1
  }

  /** One pass of `handleScrape` for a schedule whose switch is read
      without error: app<switch> is rebuilt, then the switch is flipped,
      reading it again (nothing else writes it meanwhile). The pass returns
      the database it wrote and the new switch.

      After a pass from a switch of 1 or 2 the frontend reads the database
      just written, and the switch is again 1 or 2. From any other value
      the switch becomes 1 and the frontend reads app2, which the pass did
      not write. */
  function Pass(stored: int): (r: (int, int))
    ensures r.0 == stored
    ensures r.1 in {1, 2}
    ensures stored in {1, 2} ==> ReaderSlot(r.1) == r.0
    ensures stored !in {1, 2} ==> r.1 == 1 && ReaderSlot(r.1) != r.0
  {
    (stored, FlipSwitch(stored, Ok(stored), None).0)
  }

  /** n passes in a row from `stored`: the databases written, in order,
      and the final switch. */
  function Passes(stored: int, n: nat): (r: (seq<int>, int))
    ensures |r.0| == n
    decreases n
  {
    if n == 0 then ([], stored)
    else
      var (written, next) := Pass(stored);
      var (rest, last) := Passes(next, n - 1);
      ([written] + rest, last)
  }

  /** From setup's switch of 1 the switch stays 1 or 2, the passes
      alternate between the two databases, and after any pass the frontend
      reads the database the most recent pass wrote. */
  lemma {:induction false} PassesAlternate(stored: int, n: nat)
    requires stored in {1, 2}
    ensures Passes(stored, n).1 in {1, 2}
    ensures forall i :: 0 <= i < n ==> Passes(stored, n).0[i] in {1, 2}
    ensures forall i :: 0 <= i < n - 1 ==> Passes(stored, n).0[i + 1] != Passes(stored, n).0[i]
    ensures n > 0 ==> ReaderSlot(Passes(stored, n).1) == Passes(stored, n).0[n - 1]
    ensures n == 0 ==> Passes(stored, n).1 == stored
    decreases n
  {
    if n > 0 {
      var next := Pass(stored).1;
      PassesAlternate(next, n - 1);
      var rest := Passes(next, n - 1).0;
      var all := Passes(stored, n).0;
      assert all == [stored] + rest;
      assert forall i :: 1 <= i < n ==> all[i] == rest[i - 1];
      if n > 1 {
        assert rest[0] == next;
      }
    }
  }

  // ---------------------------------------------------------------- scraper/scraper.go

  /** The database connection a scraper pass writes. */
  datatype Conn = DbConn1 | DbConn2

  /** The write target: DbConn1 while the switch is 2, DbConn2 otherwise;
      never the connection the switch numbers. */
  function ScraperTarget(switchValue: int): (r: Conn)
    ensures ConnNumber(r) != switchValue
  {
    if switchValue == 2 then DbConn1 else DbConn2
  }

  /** The flip after a scraper pass: `UpdateSwitch(2, 1)` or
      `UpdateSwitch(1, 2)`, as (expected, update). For a switch of 1 or 2
      the new value numbers the connection just written; for any other
      value the conditional update leaves the switch as it was. */
  function ScraperFlip(switchValue: int): (r: (int, int))
    ensures switchValue in {1, 2} ==>
      Update(switchValue, r.0, r.1) == ConnNumber(ScraperTarget(switchValue)) != switchValue
    ensures switchValue !in {1, 2} ==>
      ScraperTarget(switchValue) == DbConn2 && Update(switchValue, r.0, r.1) == switchValue
  {
    if switchValue == 2 then (2, 1) else (1, 2)
  }

  /** The connection numbered by a switch value. */
  function ConnNumber(c: Conn): int {
    match c
    case DbConn1 => 1
    case DbConn2 => 2
  }
}

=== FILE: text.dfy ===
/** The parts of Go's `strings`, `bytes` and `strconv` packages (and the few
    one-class regular expressions) that the scraper relies on, over ASCII
    text. One `char` stands for one byte, so a Go byte offset is a Dafny
    sequence index. */
module Text {

  /** The ASCII members of `unicode.IsSpace`: what `strings.TrimSpace` and
      `bytes.TrimSpace` strip. */
  predicate IsSpace(c: char) {
    c == ' ' || c == '\t' || c == '\n' || c == '\U{000B}' || c == '\U{000C}' || c == '\r'
  }

  /** RE2's `\s` class, `[\t\n\f\r ]` (vertical tab is not in it). */
  predicate IsRegexSpace(c: char) {
    c == ' ' || c == '\t' || c == '\n' || c == '\U{000C}' || c == '\r'
  }

  predicate IsDigit(c: char) { '0' <= c <= '9' }

  predicate IsLowerLetter(c: char) { 'a' <= c <= 'z' }

  predicate IsUpperLetter(c: char) { 'A' <= c <= 'Z' }

  /** RE2's `\w` class, `[0-9A-Za-z_]`. */
  predicate IsWordChar(c: char) {
    IsDigit(c) || IsLowerLetter(c) || IsUpperLetter(c) || c == '_'
  }

  predicate AllDigits(s: string) {
    forall i :: 0 <= i < |s| ==> IsDigit(s[i])
  }

  // ---------------------------------------------------------------- case

  function LowerChar(c: char): (r: char)
    ensures IsUpperLetter(c) ==> IsLowerLetter(r)
    ensures !IsUpperLetter(c) ==> r == c
  {
    if IsUpperLetter(c) then (c as int + 32) as char else c
  }

  function UpperChar(c: char): (r: char)
    ensures IsLowerLetter(c) ==> IsUpperLetter(r)
    ensures !IsLowerLetter(c) ==> r == c
  {
    if IsLowerLetter(c) then (c as int - 32) as char else c
  }

  /** `strings.ToLower` / `bytes.ToLower` on ASCII text. */
  function ToLower(s: string): (r: string)
    ensures |r| == |s|
    ensures forall i :: 0 <= i < |s| ==> r[i] == LowerChar(s[i])
  {
    seq(|s|, i requires 0 <= i < |s| => LowerChar(s[i]))
  }

  /** `strings.ToUpper` / `bytes.ToUpper` on ASCII text. */
  function ToUpper(s: string): (r: string)
    ensures |r| == |s|
    ensures forall i :: 0 <= i < |s| ==> r[i] == UpperChar(s[i])
  {
    seq(|s|, i requires 0 <= i < |s| => UpperChar(s[i]))
  }

  // ---------------------------------------------------------------- trimming

  function TrimLeft(s: string): (r: string)
    ensures |r| <= |s| && r == s[|s| - |r|..]
    ensures forall i :: 0 <= i < |s| - |r| ==> IsSpace(s[i])
    ensures |r| > 0 ==> !IsSpace(r[0])
    decreases |s|
  {
    if |s| > 0 && IsSpace(s[0]) then TrimLeft(s[1..]) else s
  }

  function TrimRight(s: string): (r: string)
    ensures |r| <= |s| && r == s[..|r|]
    ensures forall i :: |r| <= i < |s| ==> IsSpace(s[i])
    ensures |r| > 0 ==> !IsSpace(r[|r| - 1])
    decreases |s|
  {
    if |s| > 0 && IsSpace(s[|s| - 1]) then TrimRight(s[..|s| - 1]) else s
  }

  /** `strings.TrimSpace` / `bytes.TrimSpace`: the text between the leading
      and the trailing white space. */
  function TrimSpace(s: string): (r: string)
    ensures |r| <= |s|
    ensures |r| > 0 ==> !IsSpace(r[0]) && !IsSpace(r[|r| - 1])
    ensures (forall i :: 0 <= i < |s| ==> IsSpace(s[i])) ==> r == ""
    ensures |s| > 0 && !IsSpace(s[0]) && !IsSpace(s[|s| - 1]) ==> r == s
  {
    TrimRight(TrimLeft(s))
  }

  // ---------------------------------------------------------------- split and join

  /** `strings.Split(s, sep)` for a one-character separator: the pieces
      between separators, always at least one. */
  function Split(s: string, sep: char): (r: seq<string>)
    ensures |r| >= 1
    ensures forall i :: 0 <= i < |r| ==> sep !in r[i]
    decreases |s|
  {
    if |s| == 0 then [""]
    else
      var rest := Split(s[1..], sep);
      if s[0] == sep then [""] + rest
      else [[s[0]] + rest[0]] + rest[1..]
  }

  /** `strings.Join(parts, sep)` for a one-character separator. */
  function Join(parts: seq<string>, sep: char): string
  {
    if |parts| == 0 then ""
    else if |parts| == 1 then parts[0]
    else parts[0] + [sep] + Join(parts[1..], sep)
  }

  /** Joining the pieces of a split gives the text back. */
  lemma {:induction false} JoinSplit(s: string, sep: char)
    ensures Join(Split(s, sep), sep) == s
    decreases |s|
  {
    if |s| > 0 {
      var rest := Split(s[1..], sep);
      JoinSplit(s[1..], sep);
      if s[0] == sep {
        assert Split(s, sep) == [""] + rest;
        assert ([""] + rest)[1..] == rest;
      } else {
        var r := [[s[0]] + rest[0]] + rest[1..];
        assert Split(s, sep) == r;
        if |rest| == 1 {
          assert Join(r, sep) == [s[0]] + rest[0];
        } else {
          assert r[1..] == rest[1..];
          assert Join(rest, sep) == rest[0] + [sep] + Join(rest[1..], sep);
          assert Join(r, sep) == [s[0]] + rest[0] + [sep] + Join(rest[1..], sep);
        }
      }
      assert s == [s[0]] + s[1..];
    }
  }

  /** A text without the separator splits into itself alone. */
  lemma {:induction false} SplitWithoutSeparator(s: string, sep: char)
    requires sep !in s
    ensures Split(s, sep) == [s]
    decreases |s|
  {
    if |s| > 0 {
      assert sep !in s[1..];
      SplitWithoutSeparator(s[1..], sep);
      assert s == [s[0]] + s[1..];
    }
  }

  /** The first piece of a split is the text up to the first separator. */
  lemma {:induction false} SplitFirstPiece(s: string, sep: char)
    ensures |Split(s, sep)[0]| <= |s| && s[..|Split(s, sep)[0]|] == Split(s, sep)[0]
    ensures |Split(s, sep)[0]| < |s| ==> s[|Split(s, sep)[0]|] == sep
    decreases |s|
  {
    if |s| > 0 && s[0] != sep {
      SplitFirstPiece(s[1..], sep);
      var rest := Split(s[1..], sep);
      assert Split(s, sep)[0] == [s[0]] + rest[0];
      assert s[..1 + |rest[0]|] == [s[0]] + s[1..][..|rest[0]|];
    }
  }

  /** A separator-free prefix is glued onto the first piece of the rest. */
  lemma {:induction false} SplitPrefix(a: string, t: string, sep: char)
    requires sep !in a
    ensures Split(a + t, sep) == [a + Split(t, sep)[0]] + Split(t, sep)[1..]
    decreases |a|
  {
    var st := Split(t, sep);
    if |a| > 0 {
      assert (a + t)[0] == a[0];
      assert (a + t)[1..] == a[1..] + t;
      assert sep !in a[1..];
      SplitPrefix(a[1..], t, sep);
      var rest := Split(a[1..] + t, sep);
      assert rest == [a[1..] + st[0]] + st[1..];
      assert Split(a + t, sep) == [[a[0]] + rest[0]] + rest[1..];
      assert [a[0]] + (a[1..] + st[0]) == a + st[0];
    } else {
      assert a + t == t;
      assert a + st[0] == st[0];
      assert st == [st[0]] + st[1..];
    }
  }

  /** Splitting a join of separator-free pieces gives the pieces back. */
  lemma {:induction false} SplitJoin(parts: seq<string>, sep: char)
    requires |parts| >= 1
    requires forall i :: 0 <= i < |parts| ==> sep !in parts[i]
    ensures Split(Join(parts, sep), sep) == parts
    decreases |parts|
  {
    if |parts| == 1 {
      SplitWithoutSeparator(parts[0], sep);
    } else {
      var tail := Join(parts[1..], sep);
      SplitJoin(parts[1..], sep);
      var t := [sep] + tail;
      assert t[0] == sep && t[1..] == tail;
      assert Split(t, sep) == [""] + parts[1..];
      assert Join(parts, sep) == parts[0] + t;
      SplitPrefix(parts[0], t, sep);
      assert parts[0] + "" == parts[0];
      assert ([""] + parts[1..])[1..] == parts[1..];
      assert parts == [parts[0]] + parts[1..];
    }
  }

  // ---------------------------------------------------------------- search

  /** `strings.HasPrefix`. */
  predicate HasPrefix(s: string, p: string) {
    |p| <= |s| && s[..|p|] == p
  }

  /** `strings.Contains` / `bytes.Contains`. */
  predicate Contains(s: string, sub: string) {
    exists i :: 0 <= i <= |s| - |sub| && OccursAt(s, sub, i)
  }

  predicate OccursAt(s: string, sub: string, i: int) {
    0 <= i <= |s| - |sub| && s[i..i + |sub|] == sub
  }

  /** Literal replacement of every occurrence, leftmost first and without
      overlaps: `strings.Replace(s, pat, repl, -1)`, and `ReplaceAll` of a
      regular expression that is a plain literal. */
  function ReplaceAll(s: string, pat: string, repl: string): string
    requires |pat| > 0
    decreases |s|
  {
    if |s| < |pat| then s
    else if s[..|pat|] == pat then repl + ReplaceAll(s[|pat|..], pat, repl)
    else [s[0]] + ReplaceAll(s[1..], pat, repl)
  }

  /** A replacement no longer than the pattern never lengthens the text. */
  lemma {:induction false} ReplaceAllShorter(s: string, pat: string, repl: string)
    requires |pat| > 0 && |repl| <= |pat|
    ensures |ReplaceAll(s, pat, repl)| <= |s|
    decreases |s|
  {
    if |s| >= |pat| {
      if s[..|pat|] == pat {
        ReplaceAllShorter(s[|pat|..], pat, repl);
      } else {
        ReplaceAllShorter(s[1..], pat, repl);
      }
    }
  }

  /** Removing every copy of one character leaves none of it, and keeps
      every other character. */
  lemma {:induction false} RemoveCharLeavesNone(s: string, c: char)
    ensures c !in ReplaceAll(s, [c], "")
    ensures forall d :: d != c && d in s ==> d in ReplaceAll(s, [c], "")
    decreases |s|
  {
    if |s| >= 1 {
      RemoveCharLeavesNone(s[1..], c);
      assert s == [s[0]] + s[1..];
      if s[..1] == [c] {
        assert ReplaceAll(s, [c], "") == ReplaceAll(s[1..], [c], "");
      } else {
        assert ReplaceAll(s, [c], "") == [s[0]] + ReplaceAll(s[1..], [c], "");
      }
    }
  }

  /** Replacement brings in no character that is neither in the text nor
      in the replacement. */
  lemma {:induction false} ReplaceAllChars(s: string, pat: string, repl: string)
    requires |pat| > 0
    ensures forall d :: d in ReplaceAll(s, pat, repl) ==> d in s || d in repl
    decreases |s|
  {
    if |s| >= |pat| {
      if s[..|pat|] == pat {
        ReplaceAllChars(s[|pat|..], pat, repl);
        forall d | d in s[|pat|..] ensures d in s {
          var k :| 0 <= k < |s[|pat|..]| && s[|pat|..][k] == d;
          assert s[|pat| + k] == d;
        }
      } else {
        ReplaceAllChars(s[1..], pat, repl);
        assert s == [s[0]] + s[1..];
      }
    }
  }

  /** A text without the pattern's first character is left as it is. */
  lemma {:induction false} ReplaceAllAbsent(s: string, pat: string, repl: string)
    requires |pat| > 0 && pat[0] !in s
    ensures ReplaceAll(s, pat, repl) == s
    decreases |s|
  {
    if |s| >= |pat| {
      assert s[..|pat|][0] != pat[0];
      ReplaceAllAbsent(s[1..], pat, repl);
      assert s == [s[0]] + s[1..];
    }
  }

  /** A one-character text occurs exactly where its character does. */
  lemma ContainsChar(s: string, c: char)
    ensures Contains(s, [c]) <==> c in s
  {
    if c in s {
      var i :| 0 <= i < |s| && s[i] == c;
      assert OccursAt(s, [c], i);
    }
    if Contains(s, [c]) {
      var i :| 0 <= i <= |s| - 1 && OccursAt(s, [c], i);
      assert s[i] == s[i..i + 1][0];
    }
  }

  // ---------------------------------------------------------------- one-class regular expressions

  /** The character classes of the `[a-z]+` and `\d+` regular expressions. */
  datatype CharClass = Digits | LowerLetters

  predicate InClass(c: char, k: CharClass) {
    match k
    case Digits => IsDigit(c)
    case LowerLetters => IsLowerLetter(c)
  }

  /** Length of the longest prefix inside the class. */
  function RunLength(s: string, k: CharClass): (n: nat)
    ensures n <= |s|
    ensures forall i :: 0 <= i < n ==> InClass(s[i], k)
    ensures n < |s| ==> !InClass(s[n], k)
    decreases |s|
  {
    if |s| > 0 && InClass(s[0], k) then 1 + RunLength(s[1..], k) else 0
  }

  /** `FindAll` of `[a-z]+` or `\d+`: the maximal runs of the class, left to
      right. */
  function Runs(s: string, k: CharClass): (r: seq<string>)
    ensures forall i :: 0 <= i < |r| ==> |r[i]| > 0
    ensures forall i, j :: 0 <= i < |r| && 0 <= j < |r[i]| ==> InClass(r[i][j], k)
    ensures |r| == 0 <==> forall i :: 0 <= i < |s| ==> !InClass(s[i], k)
    decreases |s|
  {
    if |s| == 0 then []
    else if InClass(s[0], k) then
      var n := RunLength(s, k);
      [s[..n]] + Runs(s[n..], k)
    else
      var r := Runs(s[1..], k);
      assert forall i :: 1 <= i < |s| ==> s[i] == s[1..][i - 1];
      r
  }

  /** `FindString` of `[a-z]+` or `\d+` (a Go `nil` match reads as ""). */
  function FirstRun(s: string, k: CharClass): (r: string)
    ensures forall j :: 0 <= j < |r| ==> InClass(r[j], k)
    ensures r == "" <==> forall i :: 0 <= i < |s| ==> !InClass(s[i], k)
  {
    var runs := Runs(s, k);
    if |runs| > 0 then runs[0] else ""
  }

  /** `^\s*$`: the whole line is RE2 white space. */
  predicate IsBlank(s: string) {
    forall i :: 0 <= i < |s| ==> IsRegexSpace(s[i])
  }

  // ---------------------------------------------------------------- numbers

  function DigitValue(c: char): nat
    requires IsDigit(c)
  {
    c as int - '0' as int
  }

  function DigitChar(d: nat): (c: char)
    requires d < 10
    ensures IsDigit(c) && DigitValue(c) == d
  {
    ('0' as int + d) as char
  }

  /** `strconv.ParseInt(d, 10, 64)` / `strconv.Atoi(d)` of a digit string. */
  function Decimal(d: string): nat
    requires AllDigits(d)
    decreases |d|
  {
    if |d| == 0 then 0 else 10 * Decimal(d[..|d| - 1]) + DigitValue(d[|d| - 1])
  }

  function Pow10(n: nat): nat
  {
    if n == 0 then 1 else 10 * Pow10(n - 1)
  }

  /** A run of n digits reads below 10^n (so a run inside a 12-column field
      cannot overflow a 64-bit integer). */
  lemma {:induction false} DecimalBound(d: string)
    requires AllDigits(d)
    ensures Decimal(d) < Pow10(|d|)
    decreases |d|
  {
    if |d| > 0 {
      DecimalBound(d[..|d| - 1]);
    }
  }

  /** `fmt.Sprintf("%d", n)` for a natural number. */
  function Itoa(n: nat): (r: string)
    ensures |r| > 0 && AllDigits(r)
    decreases n
  {
    if n < 10 then [DigitChar(n)] else Itoa(n / 10) + [DigitChar(n % 10)]
  }

  /** Printing and parsing a number are inverse. */
  lemma {:induction false} DecimalItoa(n: nat)
    ensures Decimal(Itoa(n)) == n
    decreases n
  {
    if n >= 10 {
      var s := Itoa(n);
      DecimalItoa(n / 10);
      assert s[..|s| - 1] == Itoa(n / 10);
    }
  }
}

=== FILE: traces.dfy ===
/** What the three scrape drivers (scraper/scraper.go, crawler/crawler.go,
    goschedule/backend/backend.go) do to the outside world, as a trace of
    events: pages requested, records handed to the database, lines written
    to the log. The network and the database are ports: a page request
    answers with the page or an error, an insert with an optional error. */
module Traces {
  import opened Outcomes

  datatype Event<R> = Get(link: string) | Insert(record: R) | Report(line: string)

  /** The records inserted, in order. */
  function Inserts<R>(es: seq<Event<R>>): (r: seq<R>)
    ensures |r| <= |es|
    decreases |es|
  {
    if |es| == 0 then []
    else (if es[0].Insert? then [es[0].record] else []) + Inserts(es[1..])
  }

  /** The pages requested, in order. */
  function Gets<R>(es: seq<Event<R>>): (r: seq<string>)
    ensures |r| <= |es|
    decreases |es|
  {
    if |es| == 0 then []
    else (if es[0].Get? then [es[0].link] else []) + Gets(es[1..])
  }

  /** The log lines, in order. */
  function Reports<R>(es: seq<Event<R>>): (r: seq<string>)
    ensures |r| <= |es|
    decreases |es|
  {
    if |es| == 0 then []
    else (if es[0].Report? then [es[0].line] else []) + Reports(es[1..])
  }

  lemma {:induction false} InsertsAppend<R>(a: seq<Event<R>>, b: seq<Event<R>>)
    ensures Inserts(a + b) == Inserts(a) + Inserts(b)
    decreases |a|
  {
    if |a| > 0 {
      assert (a + b)[0] == a[0] && (a + b)[1..] == a[1..] + b;
      InsertsAppend(a[1..], b);
    } else {
      assert a + b == b;
    }
  }

  lemma {:induction false} GetsAppend<R>(a: seq<Event<R>>, b: seq<Event<R>>)
    ensures Gets(a + b) == Gets(a) + Gets(b)
    decreases |a|
  {
    if |a| > 0 {
      assert (a + b)[0] == a[0] && (a + b)[1..] == a[1..] + b;
      GetsAppend(a[1..], b);
    } else {
      assert a + b == b;
    }
  }

  lemma {:induction false} ReportsAppend<R>(a: seq<Event<R>>, b: seq<Event<R>>)
    ensures Reports(a + b) == Reports(a) + Reports(b)
    decreases |a|
  {
    if |a| > 0 {
      assert (a + b)[0] == a[0] && (a + b)[1..] == a[1..] + b;
      ReportsAppend(a[1..], b);
    } else {
      assert a + b == b;
    }
  }

  /** Log lines, as events. */
  function Lines<R>(ls: seq<string>): (r: seq<Event<R>>)
    ensures |r| == |ls|
    ensures forall k :: 0 <= k < |r| ==> r[k] == Report(ls[k])
  {
    seq(|ls|, k requires 0 <= k < |ls| => Report(ls[k]))
  }

  /** Log lines neither insert nor request anything, and are logged as
      given. */
  lemma {:induction false} LinesOnly<R>(ls: seq<string>)
    ensures Inserts<R>(Lines(ls)) == [] && Gets<R>(Lines(ls)) == []
    ensures Reports<R>(Lines(ls)) == ls
    decreases |ls|
  {
    if |ls| > 0 {
      assert Lines<R>(ls)[1..] == Lines(ls[1..]);
      LinesOnly<R>(ls[1..]);
    }
  }

  /** The loop `for _, x := range rs { if err := Insert(db, x); err != nil
      { log } }`: every record is inserted, in order, and a failed insert
      is followed by its log lines without stopping the loop. */
  function InsertEach<R>(rs: seq<R>, insert: R -> Option<string>, lines: (R, string) -> seq<string>)
    : (r: seq<Event<R>>)
    decreases |rs|
  {
    if |rs| == 0 then []
    else
      Step(rs[0], insert, lines) + InsertEach(rs[1..], insert, lines)
  }

  /** The records that fail to insert, in order. */
  function Failing<R>(rs: seq<R>, insert: R -> Option<string>): (r: seq<R>)
    ensures |r| <= |rs|
    ensures forall x :: x in r ==> x in rs && insert(x).Some?
    decreases |rs|
  {
    if |rs| == 0 then []
    else (if insert(rs[0]).Some? then [rs[0]] else []) + Failing(rs[1..], insert)
  }

  /** The events of one record: its insert and the lines logged for it. */
  function Step<R>(x: R, insert: R -> Option<string>, lines: (R, string) -> seq<string>): seq<Event<R>> {
    var logged := match insert(x) case None => [] case Some(e) => lines(x, e);
    [Insert(x)] + Lines(logged)
  }

  lemma StepEvents<R>(x: R, insert: R -> Option<string>, lines: (R, string) -> seq<string>)
    ensures Inserts(Step(x, insert, lines)) == [x]
    ensures Gets(Step(x, insert, lines)) == []
    ensures insert(x).None? ==> Reports(Step(x, insert, lines)) == []
    ensures insert(x).Some? ==> Reports(Step(x, insert, lines)) == lines(x, insert(x).value)
  {
    var logged := match insert(x) case None => [] case Some(e) => lines(x, e);
    LinesOnly<R>(logged);
    InsertsAppend([Insert(x)], Lines(logged));
    GetsAppend([Insert(x)], Lines(logged));
    ReportsAppend([Insert(x)], Lines(logged));
  }

  /** Every record reaches the database whatever the earlier ones answered,
      in order. */
  lemma {:induction false} InsertEachInserts<R>(rs: seq<R>, insert: R -> Option<string>,
                                                lines: (R, string) -> seq<string>)
    ensures Inserts(InsertEach(rs, insert, lines)) == rs
    decreases |rs|
  {
    if |rs| > 0 {
      var rest := InsertEach(rs[1..], insert, lines);
      assert InsertEach(rs, insert, lines) == Step(rs[0], insert, lines) + rest;
      InsertEachInserts(rs[1..], insert, lines);
      StepEvents(rs[0], insert, lines);
      InsertsAppend(Step(rs[0], insert, lines), rest);
    }
  }

  /** The insert loop requests no page. */
  lemma {:induction false} InsertEachGets<R>(rs: seq<R>, insert: R -> Option<string>,
                                             lines: (R, string) -> seq<string>)
    ensures Gets(InsertEach(rs, insert, lines)) == []
    decreases |rs|
  {
    if |rs| > 0 {
      var rest := InsertEach(rs[1..], insert, lines);
      assert InsertEach(rs, insert, lines) == Step(rs[0], insert, lines) + rest;
      InsertEachGets(rs[1..], insert, lines);
      StepEvents(rs[0], insert, lines);
      GetsAppend(Step(rs[0], insert, lines), rest);
    }
  }

  /** There is a log line only where an insert failed (and its report is
      not empty); when every report has a line, the log is empty exactly
      when no insert failed. */
  lemma {:induction false} InsertEachReports<R>(rs: seq<R>, insert: R -> Option<string>,
                                                lines: (R, string) -> seq<string>)
    ensures Failing(rs, insert) == [] ==> Reports(InsertEach(rs, insert, lines)) == []
    ensures (forall x, e :: x in rs && insert(x) == Some(e) ==> lines(x, e) != []) ==>
      (Reports(InsertEach(rs, insert, lines)) == [] <==> Failing(rs, insert) == [])
    decreases |rs|
  {
    if |rs| > 0 {
      var rest := InsertEach(rs[1..], insert, lines);
      assert InsertEach(rs, insert, lines) == Step(rs[0], insert, lines) + rest;
      InsertEachReports(rs[1..], insert, lines);
      StepEvents(rs[0], insert, lines);
      ReportsAppend(Step(rs[0], insert, lines), rest);
      assert forall x :: x in rs[1..] ==> x in rs;
    }
  }

  // ---------------------------------------------------------------- runs

  /** A run: the events up to its end, and the panic that ended it, if
      any. */
  datatype Run<R> = Run(events: seq<Event<R>>, panic: Option<string>)

  /** A run that did not panic. */
  function Done<R>(es: seq<Event<R>>): (r: Run<R>)
    ensures r.events == es && r.panic.None?
  {
    Run(es, None)
  }

  /** Events that cannot panic, then two runs: the first run's panic if
      it has one, and otherwise the second's. */
  lemma ThenPanic<R>(a: seq<Event<R>>, m: Run<R>, t: Run<R>)
    ensures Then(Done(a), Then(m, t)).panic == if m.panic.Some? then m.panic else t.panic
  {
  }

  /** Events that cannot panic, then a run: the run's panic, and the
      inserts and requests of both in order. */
  lemma ThenEvents<R>(a: seq<Event<R>>, b: Run<R>)
    ensures Then(Done(a), b).panic == b.panic
    ensures Inserts(Then(Done(a), b).events) == Inserts(a) + Inserts(b.events)
    ensures Gets(Then(Done(a), b).events) == Gets(a) + Gets(b.events)
  {
    InsertsAppend(a, b.events);
    GetsAppend(a, b.events);
  }

  /** `a`, then `b` unless `a` panicked. */
  function Then<R>(a: Run<R>, b: Run<R>): (r: Run<R>)
    ensures a.panic.Some? ==> r == a
    ensures a.panic.None? ==> r.events == a.events + b.events && r.panic == b.panic
  {
    if a.panic.Some? then a else Run(a.events + b.events, b.panic)
  }
}

=== FILE: web_routing.dfy ===
/** The earlier route matcher of the web server (web/routing.go). It is
    written differently from the frontend's (one "/" test instead of three
    cases, the single-segment case compared directly) and takes the URL's
    string form; it decides the same thing. */
module WebRouting {
  import opened Text
  import opened Outcomes
  import Routing

  const OutOfRange := "index out of range"

  /** `_match(rSlice, uSlice)`. */
  function MatchSegments(rs: seq<string>, us: seq<string>): (r: Go<bool>)
    requires |rs| == |us|
    ensures r.Panic? ==> r.reason == OutOfRange && (|rs| == 0 || exists i :: 0 <= i < |rs| && |rs[i]| == 0)
    decreases |rs|
  {
    if |rs| == 1 then
      if |rs[0]| == 0 then Panic(OutOfRange)
      else if rs[0][0] != ':' then Value(rs[0] == us[0])
      else Value(true)
    else if |rs| == 0 || |rs[0]| == 0 then Panic(OutOfRange)
    else if rs[0][0] != ':' then
      if rs[0] == us[0] then MatchSegments(rs[1..], us[1..]) else Value(false)
    else MatchSegments(rs[1..], us[1..])
  }

  /** `route.Match(u)` where `u.String()` is `url`. */
  function Match(route: string, url: string): (r: Go<bool>)
    ensures route == "/" || url == "/" ==> r == Value(route == url)
    ensures r.Panic? ==> r.reason == OutOfRange
  {
    if route == "/" || url == "/" then Value(route == url)
    else
      var rs := Split(route, '/')[1..];
      var us := Split(url, '/')[1..];
      if |rs| != |us| then Value(false) else MatchSegments(rs, us)
  }

  /** The two `_match` functions agree on every pair of slices. */
  lemma {:induction false} SegmentsAgree(rs: seq<string>, us: seq<string>)
    requires |rs| == |us|
    ensures MatchSegments(rs, us) == Routing.MatchSegments(rs, us)
    decreases |rs|
  {
    if |rs| > 1 && |rs[0]| > 0 {
      SegmentsAgree(rs[1..], us[1..]);
    }
  }

  /** The web matcher and the frontend matcher give the same answer, or
      panic alike, on every route and URL. */
  lemma SameAsFrontend(route: string, url: string)
    ensures Match(route, url) == Routing.Match(route, url)
  {
    var rs := Split(route, '/')[1..];
    var us := Split(url, '/')[1..];
    if |rs| == |us| {
      SegmentsAgree(rs, us);
    }
  }

  /** A route and a URL written as '/' followed by '/'-free segments are
      matched on those segments. */
  lemma MatchJoined(route: string, url: string, segs: seq<string>, parts: seq<string>)
    requires route == Join([""] + segs, '/') && url == Join([""] + parts, '/')
    requires route != "/" && url != "/"
    requires forall i :: 0 <= i < |segs| ==> '/' !in segs[i]
    requires forall i :: 0 <= i < |parts| ==> '/' !in parts[i]
    ensures Match(route, url) == if |segs| != |parts| then Value(false) else MatchSegments(segs, parts)
  {
    SplitJoin([""] + segs, '/');
    SplitJoin([""] + parts, '/');
    assert ([""] + segs)[1..] == segs;
    assert ([""] + parts)[1..] == parts;
  }

  // The cases of web/web_test.go: fail6 and fail7 (one side is "/"),
  // fail1, fail2, fail3, fail4, fail5, fail8 and fail9. Each route and URL
  // is a parameter equal to the test's text.

  lemma TestRootCases()
    ensures Match("/", "/") == Value(true)
    ensures Match("/chicken", "/") == Value(false)
    ensures forall route :: route != "/" ==> Match(route, "/") == Value(false)
  {
  }

  lemma TestSingleSegment(route: string, url: string)
    requires route == "/chicken" && url == "/chicken"
    ensures Match(route, url) == Value(true)
  {
    assert route == Join([""] + ["chicken"], '/') by { Routing.Slashed1("chicken"); }
    assert url == Join([""] + ["chicken"], '/') by { Routing.Slashed1("chicken"); }
    MatchJoined(route, url, ["chicken"], ["chicken"]);
  }

  lemma TestWildcardSegment(route: string, url: string)
    requires route == "/chicken/:coop" && url == "/chicken/one"
    ensures Match(route, url) == Value(true)
  {
    assert route == Join([""] + ["chicken", ":coop"], '/') by { Routing.Slashed2("chicken", ":coop"); }
    assert url == Join([""] + ["chicken", "one"], '/') by { Routing.Slashed2("chicken", "one"); }
    MatchJoined(route, url, ["chicken", ":coop"], ["chicken", "one"]);
  }

  lemma TestTwoWildcards(route: string, url: string)
    requires route == "/schedule/:dept/:class" && url == "/schedule/cse/cse102"
    ensures Match(route, url) == Value(true)
  {
    DeptRoute(route, ":class");
    ScheduleUrl(url);
    MatchJoined(route, url, ["schedule", ":dept", ":class"], ["schedule", "cse", "cse102"]);
  }

  lemma TestLiteralMismatch(route: string, url: string)
    requires route == "/schedule/:dept/info" && url == "/schedule/cse/cse102"
    ensures Match(route, url) == Value(false)
  {
    DeptRoute(route, "info");
    ScheduleUrl(url);
    MatchJoined(route, url, ["schedule", ":dept", "info"], ["schedule", "cse", "cse102"]);
  }

  lemma TestTrailingSlash(route: string, url: string)
    requires route == "/chicken/" && url == "/chicken"
    ensures Match(route, url) == Value(false)
  {
    assert route == Join([""] + ["chicken", ""], '/') by { Routing.Slashed2("chicken", ""); }
    assert url == Join([""] + ["chicken"], '/') by { Routing.Slashed1("chicken"); }
    MatchJoined(route, url, ["chicken", ""], ["chicken"]);
  }

  /** fail8, for any name of the missing wildcard. */
  lemma TestMissingSegment(route: string, url: string, wildcard: string)
    requires route == "/schedule/" + wildcard && url == "/schedule" && '/' !in wildcard
    ensures Match(route, url) == Value(false)
  {
    assert route == Join([""] + ["schedule", wildcard], '/') by {
      Routing.Slashed2("schedule", wildcard);
      assert "/schedule/" + wildcard == "/" + "schedule" + "/" + wildcard;
    }
    assert url == Join([""] + ["schedule"], '/') by { Routing.Slashed1("schedule"); }
    MatchJoined(route, url, ["schedule", wildcard], ["schedule"]);
  }

  lemma TestDottedSegment(route: string, url: string)
    requires route == "/assets/:type/:file" && url == "/assets/css/bootstrap.min.css"
    ensures Match(route, url) == Value(true)
  {
    assert route == Join([""] + ["assets", ":type", ":file"], '/') by { Routing.Slashed3("assets", ":type", ":file"); }
    DottedUrl(url);
    MatchJoined(route, url, ["assets", ":type", ":file"], ["assets", "css", "bootstrap.min.css"]);
    DottedSegments();
  }

  /** The segments of fail9 match: a literal, then two wildcards. */
  lemma DottedSegments()
    ensures MatchSegments(["assets", ":type", ":file"], ["assets", "css", "bootstrap.min.css"]) == Value(true)
  {
    var segs := ["assets", ":type", ":file"];
    var parts := ["assets", "css", "bootstrap.min.css"];
    assert segs[1..] == [":type", ":file"] && parts[1..] == ["css", "bootstrap.min.css"];
    assert segs[1..][1..] == [":file"] && parts[1..][1..] == ["bootstrap.min.css"];
  }

  /** The URL of fail9 as its segments. */
  lemma DottedUrl(url: string)
    requires url == "/assets/css/bootstrap.min.css"
    ensures url == Join([""] + ["assets", "css", "bootstrap.min.css"], '/')
    ensures '/' !in "bootstrap.min.css"
  {
    var head := "/assets/css/";
    var file := "bootstrap.min.css";
    assert url[..12] == head;
    assert url[12..] == file;
    assert url == head + file;
    Routing.Slashed3("assets", "css", file);
    assert head + file == "/" + "assets" + "/" + "css" + "/" + file;
  }

  /** The URL of fail3 and fail4 as its segments. */
  lemma ScheduleUrl(url: string)
    requires url == "/schedule/cse/cse102"
    ensures url == Join([""] + ["schedule", "cse", "cse102"], '/')
  {
    Routing.Slashed3("schedule", "cse", "cse102");
  }

  /** A route under "/schedule/:dept/" as its segments, for any last one. */
  lemma DeptRoute(route: string, last: string)
    requires route == "/schedule/:dept/" + last
    ensures route == Join([""] + ["schedule", ":dept", last], '/')
  {
    Routing.Slashed3("schedule", ":dept", last);
    assert "/schedule/:dept/" + last == "/" + "schedule" + "/" + ":dept" + "/" + last;
  }
}
